=== FILE: README.md ===
# Document request tracker: a verified model of its decision logic

This project models the parts of the document-request API that decide something. All of them are plain functions over immutable values, and their contracts and lemmas are proved.

- **Stamp detector.** An uploaded document is checked for an official stamp. The model covers:
  - magic-byte sniffing and the difference hash with its Hamming similarity;
  - the time budget, read from a clock passed in;
  - the two coarse scoring stages and the grid locator with its clamped box;
  - the threshold and margin decision;
  - the entry point with its soft outcomes and its second pass over rendered PDF pages.

  Raster maths and the PDF and zip libraries are functions passed in as a `Raster` record.
- **Request life cycle.**
  - The seven statuses.
  - The status-change guards of the controller.
  - The route validators of the status update.
  - The CASE-based database update.
  - The notification templates and who is notified.
  - The acceptance gates of a document upload.
- **Workflow sheet.** The grouping and validation of the configuration spreadsheet, the approval of a workflow step, and the attachment of a file to a step.
- **Naive Bayes classifier.** The text normalization and feature extraction shared by training and inference, the ranking and packaging of candidates, and the count bookkeeping of the trainer.
- **Smaller helpers.**
  - Text clean-up, extractor choice, one-time and identity codes, and storage public ids.
  - Notification INSERT building and list paging.
  - The e-mail template helpers.
  - The environment readers.
  - The search filter.
  - The error middleware.

JavaScript semantics the code depends on are written out in the model:
- `Number` and `parseInt` on strings, with NaN and the infinities (`JsNumber`);
- `String.prototype.replace` with a string pattern, which replaces the first occurrence only (`Text.ReplaceFirst`);
- `split`/`join`, `trim`, `padStart`, and regular-expression run collapsing (`Text`);
- the stability of the engine's sort (`Ranking`).

The shared modules are `Wrappers` (`Option`, `Result`), `Text` and `JsNumber`. The other modules follow the source files:
- `StampHash`, `Budget`, `StampRaster`, `Ranking`, `Locator`, `StampStore`, `Coarse`, `Decision`, `Normalizer`, `Detector` and `EnvConfig` cover the stamp service and its configuration.
- `DocStatus`, `NotifTemplates`, `Body`, `StatusRoutes`, `StatusGuard`, `DocRecord`, `DocRequestCtl`, `NotifCache`, `Notifications` and `Paging` cover the request life cycle.
- `Workflow` covers both workflow controllers. Their `transformWorkflow` functions are identical: src/controllers/doc-workflow-config.controller.js:9-124 repeats src/controllers/doc-request-workflow.controller.js:61-176, so the rows below cite only the second file.
- `Bayes` and `BayesTrain` cover the classifier and its trainer.
- `Utils`, `Email`, `SearchFilter` and `ErrorHandler` cover the helpers.

## Behaviour worth noting

- A PDF run whose first pass did not match takes the second pass's result whenever that pass completes with a rendered page, even when the first pass scored higher (src/services/stamp.service.js:770-788).
- A clipped box side is raised to the 16-pixel floor, so a located box can extend past the page edge (src/services/stamp.service.js:311-312).
- Any failure inside the `Promise.all` fan-out, for one page or one stamp, fails the whole detection with `success: false` (src/services/stamp.service.js:645-666, 804-807).
- The reported `margin` is the top score itself, not the decision margin (src/services/stamp.service.js:797).
- The search route collects validation errors but never reads them (see the findings below).

## Model

| member | source | states |
|---|---|---|
| StampHash.PdfNeedsMoreThanMagic | src/services/stamp.service.js:38-47 | a PDF is the bytes 0x25 0x50 0x44 0x46 followed by at least one more byte; the bare four-byte signature is not a PDF |
| StampHash.IsDocx | src/services/stamp.service.js:48-55 | a DOCX exactly when the buffer starts with "PK" and the zip reader finds `[Content_Types].xml`; a reader failure means "not a DOCX" |
| StampHash.PdfIsNotDocx | src/services/stamp.service.js:38-55 | no buffer is taken for both a PDF and a DOCX, whatever the zip reader answers |
| StampHash.Clamp01 | src/services/stamp.service.js:37 | the result lies in [0, 1], equals the input inside that range, and is 0 below it and 1 above it |
| StampHash.Clamp01Monotone | src/services/stamp.service.js:37 | clamping preserves order |
| StampHash.PackBitsPositions | src/services/stamp.service.js:74-79 | shifting each comparison bit in from the right puts the bit of column `c` of `k` at bit `k-1-c` |
| StampHash.DHash64 | src/services/stamp.service.js:72-82 | bit `7-c` of byte `r` is set exactly when grey pixel `r*9+c` is brighter than pixel `r*9+c+1` |
| StampHash.Popcount | src/services/stamp.service.js:87-90 | the SWAR steps count the set bits of the xor byte, against an independent bit-by-bit count |
| StampHash.SwarStaysInByte | src/services/stamp.service.js:87-90 | no intermediate SWAR value leaves the byte range, so 8-bit arithmetic agrees with the source's unbounded numbers |
| StampHash.BitCountZero | src/services/stamp.service.js:90-91 | a byte has at most 8 set bits and none exactly when it is zero, so each byte contributes between 0 and 8 agreeing bits |
| StampHash.SameBitsBound | src/services/stamp.service.js:85-92 | the count of agreeing bits over the first `k` bytes is at most `8k`, and equals it exactly when those bytes are equal |
| StampHash.SameBitsSymmetric | src/services/stamp.service.js:85-92 | the count of agreeing bits does not depend on argument order |
| StampHash.HammingSim | src/services/stamp.service.js:84-94 | the similarity lies in [0, 1] and is 1 exactly for equal hashes |
| StampHash.HammingSimSymmetric | src/services/stamp.service.js:84-94 | the similarity is symmetric |
| Budget.MakeBudget | src/services/stamp.service.js:21-22 | the deadline lies the configured budget after `now`, and 8000 ms after it when the budget is 0 |
| Budget.Remain | src/services/stamp.service.js:30-32 | the time left is never negative, is 0 exactly when the budget is over, and otherwise reaches the deadline from `now` |
| Budget.Ensure | src/services/stamp.service.js:27-29 | fails with the given message exactly when the budget is over |
| Budget.RemainShrinks | src/services/stamp.service.js:24-32 | for a later reading the time left does not grow, and a budget that is over stays over |
| Budget.RemainAboveNotOver | src/services/stamp.service.js:24-32 | time left above any non-negative bar means the budget is not over |
| EnvConfig.NumOr | src/config/env.js:10-13 | the result is the number the text denotes whenever that number is finite, and otherwise the default |
| EnvConfig.NumBlankIsZero | src/config/env.js:10-13 | a set but blank variable reads as 0, not as the default |
| EnvConfig.NumOfIntText | src/config/env.js:10-13 | a decimal integer reads back as itself |
| EnvConfig.BoolOr | src/config/env.js:14-18 | "1" gives true and "0" false; any result other than the default comes from "1" or a casing of "true" (true) or "0" or a casing of "false" (false) |
| EnvConfig.BoolIgnoresCase | src/config/env.js:14-18 | lower-casing the value first changes nothing |
| EnvConfig.BoolOfText | src/config/env.js:14-18 | "true" and "false" read back as themselves whatever the default |
| EnvConfig.LoadStampConfig | src/config/env.js:62-83 | with no variable set every stamp setting takes its written default |
| EnvConfig.DefaultThresholdsOrdered | src/config/env.js:70-78 | the defaults satisfy 0 < THRESHOLD_LO <= THRESHOLD_HI < 1 and 0 < MARGIN_LO <= MARGIN_MIN < 1, with a positive time budget |
| EnvConfig.LoadCnnConfig | src/config/env.js:45-53 | the other-label is never empty and is the variable when that is set and non-empty; the threshold can only be NaN when CNN_THRESHOLD is set and non-empty |
| Ranking.Insert | src/services/stamp.service.js:676 | inserting into a non-increasing list keeps it non-increasing, adds exactly the one element, and keeps an earlier element of equal key in front |
| Ranking.SortDesc | src/services/stamp.service.js:676 | the comparator sort yields a permutation of its input in non-increasing key order, and it is stable: for every key value, the elements with that key come out in their input order |
| Ranking.InsertWithKey | src/services/stamp.service.js:676 | inserting `x` adds it behind every element of its own key and keeps the order of the elements of each key |
| Ranking.WithKeyAppend | src/services/stamp.service.js:676 | the elements of one key in a concatenation are those of the first part followed by those of the second |
| Ranking.FirstMax | src/services/stamp.service.js:652-656 | the index found holds the greatest key, and every earlier element has a strictly smaller key |
| Ranking.SortDescHead | src/services/stamp.service.js:676-677 | the head of the sorted list is the first input element of greatest key (the engine's sort is stable) |
| Ranking.TopKDominates | src/services/stamp.service.js:663 | in a sorted list every element kept by `slice(0, k)` ranks at least as high as every element cut |
| Ranking.Take | src/services/stamp.service.js:663 | `slice(0, k)` is the prefix of length `min(k, n)` |
| Ranking.ScanBestIsFirstMax | src/services/stamp.service.js:652-656 | the scan that replaces its best only on a strictly greater score ends at the first element of greatest score |
| Ranking.BestIndex | src/services/stamp.service.js:652-656 | the scan started at the first element finds the first element of greatest score |
| StampRaster.Ssim | src/services/stamp.service.js:214-217 | a computed SSIM value is clamped into [0, 1], and it is computed exactly when the raster step succeeds |
| StampRaster.Ncc | src/services/stamp.service.js:611 | a computed NCC value is clamped into [0, 1], and it is computed exactly when the raster step succeeds |
| StampRaster.MapAll | src/services/stamp.service.js:644 | on success, one result per input in order; on failure, some input failed |
| StampStore.StampFiles | src/services/stamp.service.js:543-545 | the kept entries are exactly the listing entries matching `/\.(png\|jpe?g\|webp)$/i` |
| StampStore.StampFilesCount | src/services/stamp.service.js:543-545 | each stamp image is kept as often as the listing names it, and no other entry is kept |
| StampStore.StampFilesAppend | src/services/stamp.service.js:543-545 | the filter keeps listing order: filtering two consecutive parts of a listing gives the two filtered parts in order |
| StampStore.OptionalVariant | src/services/stamp.service.js:560-577 | an optional variant adds at most one reference; its failure adds none |
| StampStore.LoadStamp | src/services/stamp.service.js:554-580 | a loaded stamp is named after its file, its first reference describes the normalized base, without augmentations it has one reference and without greyscale at most three; it fails exactly when the base or its features fail |
| StampStore.NamesCons | src/services/stamp.service.js:580 | the names of the store follow the order in which stamps are pushed |
| StampStore.InitStamps | src/services/stamp.service.js:536-584 | a missing directory loads no stamp; otherwise the stamps are named after the first MAX_STAMPS matching files, in listing order, and there are at most MAX_STAMPS |
| StampStore.FindStamp | src/services/stamp.service.js:667 | the index found names the first stamp of that name, and there is none exactly when no stamp has the name |
| StampStore.LoadAll | src/services/stamp.service.js:554-581 | a successful load is a valid store holding one stamp per file, named after the files in order |
| Locator.Round | src/services/stamp.service.js:259-260 | `Math.round` lands within half a unit of its argument, halves rounding up |
| Locator.GrowsTrans | src/services/stamp.service.js:267-287 | two scan steps that each keep every window on the page and under the cap compose into one that does |
| Locator.ScanCols | src/services/stamp.service.js:272-283 | the column loop never moves the clock backwards, keeps every window inside the downscaled page and on the stride grid, and never exceeds LOC_MAX_PATCHES windows |
| Locator.ScanColsGrid | src/services/stamp.service.js:272-283 | with every budget poll open, the column loop scores the row's windows at x = 0, 28, 56, … left to right, stopping at the page edge or at LOC_MAX_PATCHES windows, and fails with the first window whose scoring fails |
| Locator.ScanRows | src/services/stamp.service.js:271-285 | the row loop keeps the same window and cap invariant |
| Locator.ScanRowsGrid | src/services/stamp.service.js:271-285 | with every budget poll open, the row loop scores the windows of one size row by row (y = 0, 28, …), each row left to right, until LOC_MAX_PATCHES windows |
| Locator.SideAt | src/services/stamp.service.js:269-270 | every window side is at least 64 |
| Locator.ScanScales | src/services/stamp.service.js:267-287 | the whole scan keeps every window on the page and the count within LOC_MAX_PATCHES; a failure other than the budget check comes from scoring some window; with every budget poll open, the candidates are the scored grid windows of each scale in turn, row-major, cut at LOC_MAX_PATCHES |
| Locator.ScanColsErr | src/services/stamp.service.js:272-283 | a failing column loop failed on some window |
| Locator.ScanRowsErr | src/services/stamp.service.js:271-285 | a failing row loop failed on some window |
| Locator.FrameOf | src/services/stamp.service.js:255-260 | missing sizes read as 1600; wide pages are downscaled to LOC_DS_WIDTH; narrow ones keep their size, and the search width is at least 200 |
| Locator.ClampSpan | src/services/stamp.service.js:309-312 | the start lies inside the page and the side is positive; the span stays on the page unless the side was raised to the 16-pixel floor; a span already on the page is unchanged |
| Locator.MapBox | src/services/stamp.service.js:299-312 | every mapped box starts on the page and overshoots it only by the 16-pixel floor |
| Locator.MapBoxIdentity | src/services/stamp.service.js:294-312 | without downscaling a window on the page maps to itself |
| Locator.Refine | src/services/stamp.service.js:297-316 | the refine loop polls the clock once per candidate, and fails with "Locator refine budget exceeded" exactly when one of those polls finds the budget over |
| Locator.RefineKeeps | src/services/stamp.service.js:314-315 | a best score no candidate beats strictly is kept |
| Locator.ChooseHead | src/services/stamp.service.js:291-316 | on candidates ranked best-first the refine loop returns the head's box when its score beats -1 |
| Locator.Choose | src/services/stamp.service.js:289-318 | no candidates give no box and score 0; otherwise the result is the box of the first highest-scoring window, or none when that score does not beat -1 |
| Locator.Locate | src/services/stamp.service.js:243-319 | a located box lies on the page of the image's reported size, up to the 16-pixel floor |
| Locator.ChooseOnPage | src/services/stamp.service.js:289-318 | the chosen box lies on the page, up to the 16-pixel floor |
| Normalizer.ImagesOfPages | src/services/stamp.service.js:362-420 | the page loop succeeds exactly when every page's images can be read, and the first page's images come first |
| Normalizer.ExtractPdfImages | src/services/stamp.service.js:347-427 | extraction succeeds exactly when the page count and the images of each of the first `min(numPages, MAX_PAGES)` pages can be read |
| Normalizer.RenderPages | src/services/stamp.service.js:447-471 | one rendered image per page, in page order |
| Normalizer.RenderPdfPages | src/services/stamp.service.js:428-477 | renders the first `min(numPages, MAX_PAGES, max(1, PDF_RENDER_TOP_PAGES))` pages, at most 3, each at `dpi / 72` |
| Normalizer.MediaEntries | src/services/stamp.service.js:324-328 | the kept entries are exactly those matching `/^word\/media\/.+\.(png\|jpe?g\|webp\|gif\|bmp)$/i` |
| Normalizer.MediaEntriesCount | src/services/stamp.service.js:324-328 | each media entry is kept as often as the archive lists it, and no other entry is kept |
| Normalizer.MediaEntriesAppend | src/services/stamp.service.js:324-328 | the filter keeps archive order: filtering two consecutive parts of the entry list gives the two filtered parts in order |
| Normalizer.EntryData | src/services/stamp.service.js:329 | one data buffer per entry, in order |
| Normalizer.ExtractDocxImages | src/services/stamp.service.js:322-330 | the data of the first MAX_PAGES media entries; fails exactly when the archive cannot be read |
| Normalizer.DocxImages | src/services/stamp.service.js:498-501 | succeeds exactly when the media entries can be read and every one normalises, and then yields the normalised images in entry order, at most MAX_PAGES, with the clock untouched |
| Normalizer.RouteOf | src/services/stamp.service.js:480-505 | the PDF branch is taken exactly for a PDF signature or a MIME type containing "pdf"; otherwise DOCX for a DOCX signature or a MIME type containing "word"; images need an "image/" MIME type; the rest is unsupported |
| Normalizer.RenderFallback | src/services/stamp.service.js:486-495 | an exhausted budget renders nothing, and at most PDF_RENDER_TOP_PAGES pages are added |
| Normalizer.PdfImages | src/services/stamp.service.js:484-495 | a PDF succeeds exactly when extraction and normalisation do, keeps the extracted pages first, adds at most the rendered pages, and renders nothing when PDF_RENDER_ALWAYS is off and images were found |
| Normalizer.NormalizeToImages | src/services/stamp.service.js:480-506 | unsupported input fails with "Unsupported document type"; an image yields itself normalised; a DOCX takes the DOCX route `DocxImages`; a PDF takes the PDF route |
| Coarse.FusionsAreMeans | src/services/stamp.service.js:221-239 | both fusions are weighted means: similarities in [0, 1] give a score in [0, 1], equal similarities give that value, and raising a similarity never lowers the score |
| Coarse.CoarseQuick | src/services/stamp.service.js:224-231 | the quick score is the 0.42/0.38/0.2 fusion of its parts, and the hash similarity is 1 exactly for equal hashes |
| Coarse.QuickScores | src/services/stamp.service.js:653-654 | one quick score per reference variant, in order |
| Coarse.BestQuick | src/services/stamp.service.js:652-656 | the kept variant's score is the greatest over all variants, and it is the first variant reaching it |
| Coarse.PageRow | src/services/stamp.service.js:650-657 | one pair per loaded stamp for the page |
| Coarse.PairsShape | src/services/stamp.service.js:648-659 | the quick stage yields pages times stamps pairs, each naming an existing page and a loaded stamp |
| Coarse.PairsLength | src/services/stamp.service.js:648-659 | the pairs from page `pi` on number the remaining pages times the stamps |
| Coarse.PairsMembers | src/services/stamp.service.js:648-659 | every pair from page `pi` on names a page from `pi` on and a loaded stamp |
| Coarse.OpenPollsStep | src/services/stamp.service.js:651 | the budget polls of a loop are all open exactly when the first is and the rest are |
| Coarse.QuickStamps | src/services/stamp.service.js:650-658 | the inner loop succeeds exactly when every one of its budget polls is open, with one poll per stamp, and otherwise fails with "Budget during coarse quick" |
| Coarse.PollEach | src/services/stamp.service.js:650-657 | taking each pair of a row after one budget poll yields the rest of the row exactly when every poll is open, and otherwise fails with "Budget during coarse quick" |
| Coarse.OpenPollsSplit | src/services/stamp.service.js:648-659 | a run of open polls splits at any point into two runs of open polls |
| Coarse.QuickPages | src/services/stamp.service.js:648-659 | stage 1 succeeds exactly when all its polls are open, one per pair, and then yields every pair in page-major order |
| Coarse.FullScore | src/services/stamp.service.js:666-674 | the re-scored pair keeps its page, stamp and quick scores, its fused score is the 0.35/0.25/0.2/0.2 fusion with an SSIM in [0, 1], and it fails exactly when the SSIM step does |
| Coarse.FullLoop | src/services/stamp.service.js:665-675 | stage 2 polls the budget once per chosen pair and re-scores each of them; a closed poll fails it |
| Coarse.RankFull | src/services/stamp.service.js:676-678 | top is absent exactly when there are no candidates, and is the first candidate of highest fused score; the runner-up is the highest fused score among the other candidates, or 0 with fewer than two |
| Coarse.FewResolvable | src/services/stamp.service.js:660-667 | every pair kept for the SSIM stage names a loaded stamp and an existing page, so the stamp lookup cannot fail |
| Coarse.FullResolvable | src/services/stamp.service.js:669-674 | re-scoring keeps each pair's page and stamp |
| Coarse.SsimStage | src/services/stamp.service.js:660-678 | exactly the first COARSE_TOPK_SSIM pairs of the quick-score ranking are re-scored with SSIM, in that order, and the outcome is the ranking of those re-scores; a closed poll among them fails the stage; top names an existing page and a loaded stamp, and is absent exactly when stage 1 found no pairs |
| Coarse.CoarseStages | src/services/stamp.service.js:645-678 | on success every pair's poll was open; top names an existing page and a loaded stamp, and is absent exactly when there are no pages or no stamps |
| Coarse.CoarseStagesRescoreTopFew | src/services/stamp.service.js:645-678 | top and runner-up of both stages rank the SSIM re-scores of the COARSE_TOPK_SSIM best quick-scored pairs over all pages and stamps |
| Decision.Decide | src/services/stamp.service.js:615-638 | the reported margin is top minus runner-up; a match happens exactly for the strong-coarse rule or the banded rule with a refine box; "strong-coarse" exactly for the strong rule; no top means no match; a banded match has a box |
| Decision.DecideMonotone | src/services/stamp.service.js:625-636 | raising the top score or lowering the runner-up never turns a match into no match |
| Decision.DecideRefineMonotone | src/services/stamp.service.js:629-636 | better refine measurements never turn a match into no match, and do not change whether the verdict is strong-coarse |
| Decision.NoBoxNeedsStrong | src/services/stamp.service.js:630-634 | without a refine box only the strong-coarse rule can match |
| Decision.DefaultStrongIsBanded | src/services/stamp.service.js:630-633 | with the default settings a refine passing the fixed 0.68/0.62 bars also passes the configurable NCC/SSIM bars |
| Detector.LocatorMessagesMentionBudget | src/services/stamp.service.js:709-714 | both budget messages of the locator match `/budget/i`, so they are absorbed |
| Detector.Measure | src/services/stamp.service.js:689-707 | the refine measurement is either the empty one or the located box with NCC and SSIM in [0, 1], and it has a box exactly when the crop and both measures succeed |
| Detector.RefineStep | src/services/stamp.service.js:684-714 | the refine step locates from the stamp's base variant; a locator failure mentioning the budget leaves the empty measurement |
| Detector.RefineIfWorth | src/services/stamp.service.js:682-715 | no top or a top below PRELOC_THRESHOLD skips the refine without polling the clock; a refine box implies the gate passed; with the gate open the refine step runs |
| Detector.RunDetection | src/services/stamp.service.js:641-719 | the decision is the policy applied to top, runner-up and refine; top is absent exactly for no pages or no stamps; a refine box implies top reached PRELOC_THRESHOLD; an exhausted budget after feature precompute fails with "Budget after feature precompute" |
| Detector.RunOnFeatures | src/services/stamp.service.js:646-719 | after the page features, top is absent exactly for no pages or no stamps and points at a page; a refine box implies top reached PRELOC_THRESHOLD; the decision is the policy on top, runner-up and refine |
| Detector.Conclude | src/services/stamp.service.js:680-719 | the run keeps the ranked top and runner-up; a refine box implies top reached PRELOC_THRESHOLD; the decision is the policy applied to them and the refine |
| Detector.Report | src/services/stamp.service.js:790-803 | the reported margin equals the reported score; the page is 1-based; the match, note, stamp and box come from the run; no top reports score 0 on page 1 without a stamp |
| Detector.AfterFirstPass | src/services/stamp.service.js:769-788 | a matched first pass, or a non-PDF, is reported as it stands; any other report comes from a completed second pass, and with more than 600 ms left a completed second pass is reported; the report is a verdict with margin equal to score and a 1-based page, and a coherent decision gives a matched report a reason other than no match |
| Detector.Detect | src/services/stamp.service.js:722-808 | no stamps give the soft answer "No stamps loaded."; a match carries a matching verdict; every verdict reports margin equal to score and a 1-based page |
| Detector.FirstMatchStands | src/services/stamp.service.js:770-774 | a first pass that matched is reported unchanged |
| Detector.SecondPassReplaces | src/services/stamp.service.js:775-786 | a completed second pass replaces the first result whatever the scores |
| Detector.FirstPassErrorFails | src/services/stamp.service.js:804-807 | an error of the first pass, the budget's included, ends the detection with `success: false` and its message |
| Detector.NoImagesIsSoft | src/services/stamp.service.js:747-761 | a document without page images gets the soft answer "No images found in document." |
| DocStatus.ParseStatus | src/constants/doc-request.constant.js:6-14 | a name read back as a status is that status's stored name |
| DocStatus.ParseName | src/constants/doc-request.constant.js:6-14 | every status is read back from its own name |
| DocStatus.NamesDistinct | src/constants/doc-request.constant.js:6-14 | two statuses share a name only when they are the same status |
| DocStatus.StatusConstant | src/constants/doc-request.constant.js:6-14 | a key of `DOCREQUEST_STATUS` is defined exactly for the seven names, and then it holds the status of that name; any other key, a misspelt one included, is `undefined` |
| NotifTemplates.Placeholder | src/constants/notifications.constant.js:6-34 | a placeholder opens with a brace and holds no other opening brace |
| NotifTemplates.KeyOf | src/constants/notifications.constant.js:3-35 | a lookup that finds an entry found the entry of that name |
| NotifTemplates.KeyOfName | src/constants/notifications.constant.js:3-35 | every one of the eight keys, and so every upper-cased status name, finds its entry |
| NotifTemplates.PendingEntry | src/constants/notifications.constant.js:4-7 | the pending text holds `{requestId}` once and no `{departmentName}` |
| NotifTemplates.ApprovedEntry | src/constants/notifications.constant.js:8-11 | the approved text holds `{requestId}` and `{departmentName}` once each |
| NotifTemplates.ProcessingEntry | src/constants/notifications.constant.js:12-15 | the processing text holds `{requestId}` and `{departmentName}` once each |
| NotifTemplates.RejectedEntry | src/constants/notifications.constant.js:16-19 | the rejected text holds `{requestId}` and `{departmentName}` once each |
| NotifTemplates.CancelledEntry | src/constants/notifications.constant.js:20-23 | the cancelled text holds `{requestId}` once and no `{departmentName}` |
| NotifTemplates.CompletedEntry | src/constants/notifications.constant.js:24-27 | the completed text holds `{requestId}` once and no `{departmentName}` |
| NotifTemplates.ClosedEntry | src/constants/notifications.constant.js:28-31 | the closed text holds `{requestId}` once and no `{departmentName}` |
| NotifTemplates.UploadedEntry | src/constants/notifications.constant.js:32-35 | the uploaded text holds `{requestId}` once and no `{departmentName}` |
| NotifTemplates.TitleNamesEntry | src/constants/notifications.constant.js:3-35 | each of the eight titles leads back to its own entry |
| NotifTemplates.HolesOfEntry | src/constants/notifications.constant.js:3-35 | `{requestId}` occurs once in every description; `{departmentName}` once in the approved, processing and rejected texts and nowhere else |
| NotifTemplates.TableShape | src/constants/notifications.constant.js:3-35 | each title leads back to its entry; `{requestId}` occurs exactly once in every description, and `{departmentName}` exactly once in the approved, processing and rejected texts and nowhere else |
| NotifTemplates.TitlesDistinct | src/constants/notifications.constant.js:3-35 | the eight titles are pairwise distinct |
| NotifTemplates.FillFirst | src/controllers/doc-request.controller.js:360-364 | filling removes one hole of the slot when there is one, changes nothing otherwise, and leaves the other slot's holes alone |
| NotifTemplates.NoOccurrenceIn | src/constants/notifications.constant.js:3-35 | no literal piece and no other placeholder holds an occurrence of a slot's placeholder |
| NotifTemplates.ReplaceFills | src/controllers/doc-request.controller.js:360-364 | `replace(placeholder, v)` on the written text equals filling the first hole of that slot |
| NotifTemplates.FlattenNoBrace | src/constants/notifications.constant.js:3-35 | a description without holes holds no opening brace |
| NotifTemplates.NoHolesByCount | src/constants/notifications.constant.js:3-35 | no hole of either slot means no hole at all |
| NotifTemplates.StatusDescriptionFills | src/controllers/doc-request.controller.js:359-364 | with brace-free values, the status-change description is the template with both holes filled, and no placeholder is left |
| NotifTemplates.RequestDescriptionFills | src/controllers/doc-request.controller.js:209-213 | on creation and upload, filling `{requestId}` leaves no placeholder behind |
| Body.TextOrEmpty | src/controllers/doc-request.controller.js:351 | `v \|\| ""` is empty for every falsy value and the string itself for a string |
| StatusRoutes.PositiveInt | src/routes/doc-request.routes.js:316-321 | `toInt().isInt({ gt: 0 })` accepts exactly the texts whose parsed integer is positive, and yields that integer |
| StatusRoutes.TargetOf | src/routes/doc-request.routes.js:328 | a target is read exactly from the six listed names, it is the status of that name, and never PENDING |
| StatusRoutes.CheckTarget | src/routes/doc-request.routes.js:323-329 | the status rule passes exactly for a string among the six targets, never PENDING, and a missing status reports "requestStatus is required" |
| StatusRoutes.CheckDepartment | src/routes/doc-request.routes.js:331-339 | the department rule is skipped unless the target is APPROVED; then a missing department reports the "required" message and an accepted one is a positive integer |
| StatusRoutes.CheckReason | src/routes/doc-request.routes.js:341-352 | the reason rule passes for targets other than CANCELLED and REJECTED, and for those exactly when the reason is a non-empty string |
| StatusRoutes.ValidateStatusUpdate | src/routes/doc-request.routes.js:313-363 | a bad id reports "docRequestId must be a positive integer"; an accepted request carries the positive parsed id, the named target and the given reason |
| StatusRoutes.AcceptedIsAdmissible | src/routes/doc-request.routes.js:313-363 | every accepted request has a target other than PENDING, a positive department exactly when the target is APPROVED, and a non-empty reason for CANCELLED and REJECTED |
| StatusRoutes.TargetOfName | src/routes/doc-request.routes.js:323-329 | every status but PENDING passes the status rule as itself |
| StatusRoutes.IdPasses | src/routes/doc-request.routes.js:316-321 | the decimal text of a positive integer passes the id rule as that integer |
| StatusRoutes.DeptPasses | src/routes/doc-request.routes.js:331-339 | a department that parses to a positive integer passes whenever APPROVED needs one |
| StatusRoutes.ReasonPasses | src/routes/doc-request.routes.js:341-352 | a non-empty string reason passes whenever CANCELLED or REJECTED needs one |
| StatusRoutes.WellFormedPasses | src/routes/doc-request.routes.js:313-363 | conversely, a well-formed body for any target but PENDING passes the whole chain |
| StatusGuard.Guards | src/controllers/doc-request.controller.js:272-346 | a request in a final state is refused with "Document Request was already <state>"; asking for the current status is refused the same way; an accepted change is to a new status and does not need the missing file |
| StatusGuard.CheckTransitionAsWritten | src/controllers/doc-request.controller.js:272-346 | the guards as written refuse every change of a request in a final state |
| StatusGuard.CheckTransition | src/controllers/doc-request.controller.js:272-346 | the intended guards refuse every change of a final-state request, and a completion without a document file |
| StatusGuard.FileGuardNeverFires | src/controllers/doc-request.controller.js:338-346 | the written file guard never fires: `DOCREQUEST_STATUS.COMLPETED` is `undefined` |
| StatusGuard.CompletedWithoutFileAsWritten | src/controllers/doc-request.controller.js:338-346 | as written, a processing request without a file is completed; as intended, it is refused with "Document Request document file is required" |
| StatusGuard.GuardsAsWrittenAcceptLifeCycle | src/controllers/doc-request.controller.js:272-336 | for any target but PENDING, the written guards accept exactly PENDING to APPROVED, CANCELLED or REJECTED, APPROVED to PROCESSING, PROCESSING to COMPLETED and COMPLETED to CLOSED |
| StatusGuard.GuardsAcceptLifeCycle | src/controllers/doc-request.controller.js:272-346 | with the intended file check, the accepted changes are the life cycle, completion needing a document file |
| StatusGuard.PendingTargetOnlyStoppedByRoute | src/controllers/doc-request.controller.js:272-336 | the guards alone let an approved, processing or completed request go back to PENDING, a change outside the life cycle |
| StatusGuard.TerminalRefusalMessage | src/controllers/doc-request.controller.js:272-293 | every refusal of a final-state request names that state, in both versions of the guards |
| DocRecord.CreateRow | src/services/doc-request.service.js:185-201 | the inserted row has the given status, department and request time, and no assignment, closing or completion date, no reasons and no file |
| DocRecord.PgInt | src/services/doc-request.service.js:231 | an `::int` cast succeeds only on an optionally signed decimal integer, surrounded by optional white space, within 32 bits, and yields its value |
| DocRecord.ApplyStatus | src/services/doc-request.service.js:224-270 | the status and update time always change; department and assignment date only on APPROVED; the start date only on PROCESSING; both end dates only on COMPLETED; the closing date only on CLOSED, REJECTED or CANCELLED; the reject reason is kept only for REJECTED and the cancel reason only for CANCELLED, the other six statuses clearing them; every other column is unchanged |
| DocRecord.UpdateDocRequestStatus | src/services/doc-request.service.js:218-281 | the statement fails exactly when a department parameter is given that is not a 32-bit integer, and otherwise applies the CASE update |
| DocRecord.ApplyKeepsDatesOrdered | src/services/doc-request.service.js:224-270 | every life-cycle move applied no earlier than the previous update keeps the dates in life-cycle order |
| DocRecord.LifeCycleDates | src/services/doc-request.service.js:224-270 | a request taken through approval, processing, completion and closing at non-decreasing times ends with each date at the time of its own step, in order |
| DocRecord.MergeObject | src/services/doc-request.service.js:286 | the merged object has the keys of both, the new values win and the other old values are kept; a missing column counts as `{}` |
| DocRecord.UpdateDocRequestFile | src/services/doc-request.service.js:283-293 | both JSON columns are merged, as `COALESCE(col, '{}') \|\| $n::jsonb` does: each holds exactly the old keys and the new ones, the new values win, the old values of keys not updated are kept, and nothing else changes |
| DocRecord.MergeIdempotent | src/services/doc-request.service.js:286 | merging the same object twice changes nothing more |
| DocRecord.UploadRecordsFile | src/services/doc-request.service.js:283-293 | after recording a file with a truthy `publicId` the request has a document file |
| DocRequestCtl.NotifyAll | src/controllers/doc-request.controller.js:374-382 | one notification per recipient, in order, each with the same title, description, kind and reference |
| DocRequestCtl.ClearAll | src/controllers/doc-request.controller.js:375-384 | clearing for the recipients removes no unrelated entry and leaves no count or index entry of any recipient |
| DocRequestCtl.Create | src/controllers/doc-request.controller.js:166-228 | a falsy user id is refused first with "Missing fromUserId params", then a falsy department; it succeeds exactly for a known user and department; the new row is PENDING in that department; one notification with the pending text goes to each user of the department |
| DocRequestCtl.Recipients | src/controllers/doc-request.controller.js:366-373 | the whole assigned department hears of a cancellation or closing, otherwise only the requester |
| DocRequestCtl.Announce | src/controllers/doc-request.controller.js:353-388 | the written row is stored, and each recipient gets the title and filled description of the new status |
| DocRequestCtl.UpdateStatusAsWritten | src/controllers/doc-request.controller.js:261-395 | an unknown request is refused; a success passed the written guards, and the row is the CASE update with `reason \|\| ""` read as the department and no reason |
| DocRequestCtl.UpdateStatus | src/controllers/doc-request.controller.js:261-395 | an unknown request is refused; a success passed the intended guards and stores the row with the target status |
| DocRequestCtl.PgIntOfIntString | src/services/doc-request.service.js:231 | the decimal text of any 32-bit integer casts back to it |
| DocRequestCtl.WordIsNotInt | src/services/doc-request.service.js:231 | a text starting with a letter does not cast to an integer |
| DocRequestCtl.UpdateStatusFollowsLifeCycle | src/controllers/doc-request.controller.js:272-352 | for a request the route accepted, the corrected handler succeeds exactly for the life-cycle moves, completion needing a document file |
| DocRequestCtl.UpdateStatusStoresInputs | src/services/doc-request.service.js:230-268 | the corrected handler stores the department of an approval and the reason of a cancellation or rejection |
| DocRequestCtl.AsWrittenDropsReasons | src/controllers/doc-request.controller.js:348-352 | as written, no successful update stores a reject or cancel reason |
| DocRequestCtl.NonIntegerReasonFailsAsWritten | src/controllers/doc-request.controller.js:348-352 | as written, an allowed move whose reason text is not an integer fails in the database, the reason being bound as the department id |
| DocRequestCtl.CancelWithReasonFailsAsWritten | src/controllers/doc-request.controller.js:348-352 | as written, cancelling a pending request with the reason "duplicate" fails |
| DocRequestCtl.CancelWithReasonStored | src/services/doc-request.service.js:218-270 | the corrected handler performs that cancellation and stores "duplicate" as the cancel reason |
| DocRequestCtl.ApproveFailsAsWritten | src/controllers/doc-request.controller.js:348-352 | as written, an approval without a reason fails, `""` being bound as the department id |
| DocRequestCtl.ApproveStored | src/services/doc-request.service.js:230-233 | the corrected handler performs that approval and records the department |
| DocRequestCtl.StatusNotifications | src/controllers/doc-request.controller.js:356-388 | the notifications of a status change go to the department exactly for a cancellation or closing, each with the title of the new status |
| DocRequestCtl.ClassificationGate | src/controllers/doc-request.controller.js:443-462 | the gate passes exactly when the label is a known document type and, unless the purpose is "others" after trimming and lower-casing, equals the purpose with a score above 0.5; otherwise it fails with the mismatch message |
| DocRequestCtl.StampGateAsWritten | src/controllers/doc-request.controller.js:463-475 | as written, the upload is refused exactly for a completed detection that did not match and scored below 0.9 |
| DocRequestCtl.StampGate | src/controllers/doc-request.controller.js:463-475 | as intended, the upload passes exactly for a completed detection that matched or scored at least 0.9 |
| DocRequestCtl.FailedDetectionPassesAsWritten | src/controllers/doc-request.controller.js:463 | a failed detection passes the written gate and is refused by the corrected one |
| DocRequestCtl.StampGatesAgreeOnDetections | src/controllers/doc-request.controller.js:463 | on every completed detection both gates agree |
| DocRequestCtl.UploadChecks | src/controllers/doc-request.controller.js:405-496 | an empty file is refused with "No file received"; passing means a known request, non-empty extracted text, an accepted classification, a passed stamp gate and a stored file |
| DocRequestCtl.UploadEffect | src/controllers/doc-request.controller.js:498-539 | an accepted upload leaves the row with a file and its status unchanged, and sends one notification, with the upload title, to the requester |
| DocRequestCtl.UploadDecidedByGate | src/controllers/doc-request.controller.js:443-475 | once the checks before it pass, the upload succeeds exactly when the stamp gate does, and otherwise fails with the gate's message |
| DocRequestCtl.UploadWith | src/controllers/doc-request.controller.js:397-550 | an empty file is refused with "No file received"; a success had a known request, non-empty extracted text and passed both gates; it records the file, keeps the status, and tells only the requester with the upload title |
| DocRequestCtl.UploadAsWritten | src/controllers/doc-request.controller.js:397-550 | as written, no accepted upload has a completed, unmatched detection below 0.9 |
| DocRequestCtl.Upload | src/controllers/doc-request.controller.js:397-550 | as intended, every accepted upload has a completed detection that matched or scored at least 0.9 |
| DocRequestCtl.FailedDetectionIsUploadedAsWritten | src/controllers/doc-request.controller.js:463-517 | a file whose detection failed is stored as written once the other checks pass, and refused for want of a stamp by the corrected handler |
| Paging.PageSize | src/services/doc-request.service.js:55 | the page size is always positive: the parsed value when it is positive, and 10 otherwise (NaN included) |
| Paging.PageIndex | src/services/doc-request.service.js:56 | the page index is never negative: the parsed value when it is at least 0, and 0 otherwise (NaN included) |
| Paging.Times | src/services/doc-request.service.js:57 | the offset is the product for finite operands, and NaN exactly for page index 0 with an infinite size |
| Paging.Ceil | src/services/doc-request.service.js:111 | `Math.ceil` gives the least integer not below its argument |
| Paging.TotalPages | src/services/doc-request.service.js:108-111 | the total is 0 when the page came back empty, and never negative |
| Paging.TotalPagesIsLeast | src/services/doc-request.service.js:108-111 | for a finite size the total is a page count: that many pages hold every matching row and one fewer would not |
| Paging.TotalPagesOfWholeSize | src/services/doc-request.service.js:108-111 | for whole page sizes the total is the rounded-up integer division of rows by size |
| Paging.RowTotal | src/services/notifications.service.js:23-26 | the notifications list reports the raw row count, not a page count, and 0 for an empty page |
| NotifCache.ClearUser | src/controllers/doc-request.controller.js:52-66 | the user's index, count and every indexed page are gone, every other entry is kept unchanged, and nothing is added |
| NotifCache.CountKeysDistinct | src/controllers/doc-request.controller.js:46-49 | count keys of different users never clash, and an index key is never a count key |
| Notifications.ParamsOf | src/services/notifications.service.js:55-67 | five parameters per notification |
| Notifications.BuildInsert | src/services/notifications.service.js:58-69 | one group of five placeholders per notification, numbered consecutively from $1, and exactly 5n parameters in column order userId, title, description, type, referenceId |
| Notifications.ParamsOfInOrder | src/services/notifications.service.js:55-67 | the reference parameter list has each notification's five column values at its own five positions |
| Notifications.CreateNotification | src/services/notifications.service.js:49-80 | a value that is not an array, or an empty one, fails with "Notifications array is empty or invalid"; otherwise the parameters are the row-by-row column values and the groups are numbered consecutively from $1 |
| ErrorHandler.NotFound | src/middlewares/error-handler.js:2-4 | always 404, `success: false`, "Route not found" |
| ErrorHandler.HandleError | src/middlewares/error-handler.js:6-14 | the reply is never a success; its status is the error's when set and 500 otherwise; its message is the error's when non-empty and "Internal Server Error" otherwise, so never empty |
| ErrorHandler.ValidationErrorsAre400 | src/routes/doc-request.routes.js:355-363 | a validation failure forwarded with status 400 reaches the client as a 400 with its own message |
| Workflow.FindColumn | src/controllers/doc-request-workflow.controller.js:69 | `indexOf`: the first position holding the name, and none exactly when the header lacks it |
| Workflow.ResolveColumns | src/controllers/doc-request-workflow.controller.js:68-79 | the column lookup succeeds exactly when all six required columns are in the header, each position then holds its column's name, and a failure names the first missing column |
| Workflow.Indices | src/controllers/doc-request-workflow.controller.js:74-79 | the lookups in turn succeed exactly when every named column is in the header, then give for each name the first position holding it, and otherwise fail naming the first missing one |
| Workflow.Column | src/controllers/doc-request-workflow.controller.js:68-72 | one lookup succeeds exactly when the column is in the header, gives its first position, and fails with `Column "<name>" not found in header` |
| Workflow.StepOf | src/controllers/doc-request-workflow.controller.js:120-171 | a row without step data gives no step; a step needs a valid step number; a kept step has numeric step and department, approval true exactly for a trimmed, lower-cased "yes", and the row's own step file requirement |
| Workflow.FindGroup | src/controllers/doc-request-workflow.controller.js:106 | the first group of that purpose, and none when no group has it |
| Workflow.TransformWorkflow | src/controllers/doc-request-workflow.controller.js:61-79 | fewer than two rows fail with "Sheet has no data"; otherwise the sheet is accepted exactly when its header has every required column, and refused with the column lookup's own message |
| Workflow.Purposes | src/controllers/doc-request-workflow.controller.js:96-112 | every purpose named by a data row, and only those, each once |
| Workflow.FirstRequirementNone | src/controllers/doc-request-workflow.controller.js:114-118 | there is no requirement exactly when no row of the purpose has a non-blank one |
| Workflow.FirstRequirementFound | src/controllers/doc-request-workflow.controller.js:114-118 | a requirement found is the trimmed requirement of the first row of the purpose with a non-blank one |
| Workflow.AbsentPurpose | src/controllers/doc-request-workflow.controller.js:96-103 | a purpose no row names has no steps and no requirement |
| Workflow.GroupedNames | src/controllers/doc-request-workflow.controller.js:174-175 | the groups name the purposes in order of first appearance |
| Workflow.GroupOfStep | src/controllers/doc-request-workflow.controller.js:93-172 | one more row changes the group of its own purpose only |
| Workflow.FindNamedGroup | src/controllers/doc-request-workflow.controller.js:106 | with distinct purposes, each purpose's group is found at its own position |
| Workflow.AddRowWithoutPurpose | src/controllers/doc-request-workflow.controller.js:99-103 | a row without a purpose is skipped and leaves the groups as they were |
| Workflow.AddRowKnownPurpose | src/controllers/doc-request-workflow.controller.js:114-171 | a row of a purpose already seen extends that purpose's group and keeps the one-group-per-purpose invariant |
| Workflow.KnownPurposeGroupAt | src/controllers/doc-request-workflow.controller.js:114-171 | after a row of a known purpose that purpose's group is extended by the row and every other group is unchanged |
| Workflow.AddRowNewPurpose | src/controllers/doc-request-workflow.controller.js:105-112 | a row of a new purpose opens its group, even without a valid step, and keeps the invariant |
| Workflow.NewPurposeGroupAt | src/controllers/doc-request-workflow.controller.js:105-112 | after a row of a new purpose the earlier groups are unchanged and the new last group is that purpose with only this row's requirement and step |
| Workflow.AddRowGrouped | src/controllers/doc-request-workflow.controller.js:93-172 | each row of the `forEach` keeps the groups in step with the purposes seen so far |
| Workflow.BuildGroups | src/controllers/doc-request-workflow.controller.js:93-175 | after all rows there is exactly one group per purpose, in order of first appearance, holding the purpose's first file requirement and all its valid steps in row order |
| Workflow.TransformGroups | src/controllers/doc-request-workflow.controller.js:61-176 | an accepted sheet yields exactly that grouping of its data rows |
| Workflow.MaxStepIsMaximum | src/controllers/doc-request-workflow.controller.js:237 | `Math.max` over the step numbers is NaN exactly when one of them is, minus infinity for no steps, and otherwise one of the step numbers with none greater |
| Workflow.IsLastStep | src/controllers/doc-request-workflow.controller.js:237-238 | the requested step is the last exactly when it is one of the request's step numbers and none is greater |
| Workflow.ApproveStep | src/controllers/doc-request-workflow.controller.js:213-269 | a NaN step fails with "Step should be a number", a missing request with the not-found message, a finished or processing request with "Document Request was already <status>"; otherwise the request moves to APPROVED exactly when the step is the last one, and exactly the matching steps are marked approved |
| Workflow.ApprovalNeverNotifiesDepartment | src/controllers/doc-request-workflow.controller.js:283-293 | after an approval the status is never CANCELLED or CLOSED, so only the requester is notified |
| Workflow.AttachStepFile | src/controllers/doc-request-workflow.controller.js:317-367 | a NaN step fails; otherwise every step numbered like the requested one gets the file and the others are unchanged |
| Workflow.MarkApproved | src/controllers/doc-request-workflow.controller.js:257-262 | a step is approved afterwards exactly when it already was or is numbered like the requested step, and nothing else about any step changes |
| Bayes.PlainDashes | src/classifiers/localBayes.js:24 | the en dash, em dash and minus sign become `-` and every other character is kept, so no dash variant is left |
| Bayes.NormalForm | src/classifiers/localBayes.js:21-27 | normalized text has no upper-case letter, no dash variant, single spaces between words and no white space at either end |
| Bayes.NormalizeIdempotent | src/classifiers/localBayes.js:21-27 | normalizing normalized text changes nothing |
| Bayes.CleanForm | src/classifiers/localBayes.js:30 | after replacing runs of non-token characters and trimming, token runs are separated by single spaces with none at either end |
| Bayes.WordsForm | src/classifiers/localBayes.js:31-32 | splitting such text at spaces gives no words exactly for empty text; otherwise the words join back to the text, none is empty, and each holds only `a-z`, `0-9` and `-` |
| Bayes.TokensForm | src/classifiers/localBayes.js:29-33 | `tokenize` is empty exactly when the cleaned text is; otherwise its tokens join back with spaces to the cleaned text, none empty, each of token characters only |
| Bayes.ToBigrams | src/classifiers/localBayes.js:35-39 | one bigram fewer than tokens (none for no tokens), the i-th joining token i and token i+1 with `_` |
| Bayes.Unigrams | src/classifiers/localBayes.js:49 | the kept unigrams are exactly the non-empty tokens that are not stop words |
| Bayes.UnigramsCount | src/classifiers/localBayes.js:49 | each kept token is kept as often as it occurs, and stop words and empty tokens never |
| Bayes.UnigramsAppend | src/classifiers/localBayes.js:49 | the filter keeps token order: filtering two consecutive parts of a token list gives the two filtered parts in order |
| Bayes.SameFeaturesOf | src/classifiers/localBayes.js:46-52 | the classifier's early return for no tokens and the trainer's version without it (scripts/train-bayes.js:52-57) give the same features for every token list |
| Bayes.SameFeatures | scripts/train-bayes.js:52-57 | training and inference extract the same features from every text |
| Bayes.FeaturesOfTokens | src/classifiers/localBayes.js:46-52 | the features are the non-stop-word tokens in order, followed by every adjacent pair of tokens, stop words included |
| Bayes.Distinct | src/classifiers/localBayes.js:153 | `Array.from(new Set(xs))` holds the same values as `xs`, each once, and is no longer; the values come in the order of their first occurrence in `xs` |
| Bayes.FirstIndexSnoc | src/classifiers/localBayes.js:153 | appending a value moves no first occurrence, and a value not yet present first occurs at the end |
| Bayes.Rank | src/classifiers/localBayes.js:170-175 | the labels with their log scores sorted by non-increasing log score, a permutation of the per-label scores; labels of equal log score keep the order of the model's labels, as the stable `idx.sort` does |
| Bayes.RankHoldsScores | src/classifiers/localBayes.js:155-175 | the ranking holds every label with its own log score and nothing else |
| Bayes.Used | src/classifiers/localBayes.js:153 | binary mode scores each feature once; either way the same features are scored |
| Bayes.Package | src/classifiers/localBayes.js:178-182 | one packaged candidate per ranked label |
| Bayes.ClassifyFeatures | src/classifiers/localBayes.js:148-184 | fewer features than `minTokens` give the other label with score 0 and no candidates; the best is always the first candidate, or the other label with score 0 when there is none |
| Bayes.CandidatesRanked | src/classifiers/localBayes.js:170-184 | with enough features there are `min(topK, labels)` candidates, the leading labels of the ranking, whose log scores do not increase and are never below those of a label left out |
| Bayes.EveryLabelRanked | src/classifiers/localBayes.js:156-172 | every label of the model is ranked with its own log score |
| Bayes.ThresholdUnused | src/controllers/doc-classification.controller.js:54 | the `threshold` option the callers pass is never read by `classifyLocal`, so it cannot change the result |
| BayesTrain.CreateEmptyModel | scripts/train-bayes.js:60-72 | a new model has the given alpha, no labels, an empty vocabulary of size 0, and satisfies the model invariant |
| BayesTrain.AddFeatures | scripts/train-bayes.js:84-88 | the feature loop touches neither alpha, the labels, the priors nor the vocabulary size, and adds no key to the count and total tables |
| BayesTrain.AddFeaturesCounts | scripts/train-bayes.js:84-86 | after the loop the label's counts are its earlier counts plus every feature, with multiplicity |
| BayesTrain.AddFeaturesOthers | scripts/train-bayes.js:84-87 | the loop leaves every other label's counts and total as they were |
| BayesTrain.AddFeaturesTotals | scripts/train-bayes.js:84-87 | after the loop the label's total is up by the number of features |
| BayesTrain.AddFeaturesVocab | scripts/train-bayes.js:84-85 | after the loop the vocabulary is the earlier one plus the features |
| BayesTrain.AddFeaturesTotalsMatch | scripts/train-bayes.js:84-87 | the loop keeps every label's total equal to its number of learned features |
| BayesTrain.AddFeaturesVocabLearned | scripts/train-bayes.js:84-86 | the loop keeps the vocabulary exactly the features learned under some label |
| BayesTrain.AddFeaturesConsistent | scripts/train-bayes.js:84-88 | adding features under a registered label keeps the model invariant |
| BayesTrain.Register | scripts/train-bayes.js:75-80 | a new label is appended once with zero prior, empty counts and zero total; a known label changes nothing; every table keeps one entry per label |
| BayesTrain.RegisterConsistent | scripts/train-bayes.js:75-80 | registration keeps the model invariant, labels included only once |
| BayesTrain.LearnFeatures | scripts/train-bayes.js:74-89 | `learn` keeps one entry per label in each table and appends the label only when it is new |
| BayesTrain.LearnFeaturesEffect | scripts/train-bayes.js:74-89 | `learn` adds one to the label's document count (from 0 when new), adds the features to its counts and to the vocabulary, and leaves every other label's prior and counts alone |
| BayesTrain.CountedConsistent | scripts/train-bayes.js:81 | counting a document keeps the model invariant |
| BayesTrain.LearnConsistent | scripts/train-bayes.js:74-89 | `learn` keeps the model invariant |
| BayesTrain.LearnStep | scripts/train-bayes.js:74-89 | one `learn` call raises a label's document count by one and its counts by the document's features exactly when the document carries that label |
| BayesTrain.IngestRow | scripts/train-bayes.js:119-124 | one pass of the row loop learns and counts a row with a text and a trimmed label and skips any other |
| BayesTrain.Ingest | scripts/train-bayes.js:113-125 | the row loop builds a model with one entry per label in each table, alpha 0.3 and the vocabulary size not yet set |
| BayesTrain.IngestConsistent | scripts/train-bayes.js:113-125 | the model the row loop builds satisfies the invariant |
| BayesTrain.IngestLabels | scripts/train-bayes.js:118-125 | the number of rows learned is the number of rows with a text and a trimmed label, and the labels are those labels each once in first-seen order |
| BayesTrain.IngestCounts | scripts/train-bayes.js:118-125 | each label's document count is its number of accepted rows and its counts are the features of exactly those rows; a label the model lacks has no such rows |
| BayesTrain.IngestVocabulary | scripts/train-bayes.js:85 | the vocabulary is exactly the features of the accepted rows |
| BayesTrain.UnseenLabel | scripts/train-bayes.js:118-125 | a label no accepted row carries has no documents and no features |
| BayesTrain.TrainWith | scripts/train-bayes.js:102-132 | no rows fail with "dataset is empty", no accepted rows with "no valid (text,label) rows were ingested."; training succeeds exactly when some row is accepted |
| BayesTrain.TrainedModel | scripts/train-bayes.js:74-99 | a trained model records each accepted label once, per label its document count, features and total, the rows learned, and as vocabulary size the number of distinct features |
| Utils.NulToSpace | src/utils/utils.js:29 | every NUL becomes a space and every other character is kept, so no NUL is left |
| Utils.CleanupForm | src/utils/utils.js:27-33 | cleaned text has no NUL, no upper-case letter, single spaces between words and none at either end |
| Utils.CleanupIdempotent | src/utils/utils.js:27-33 | cleaning cleaned text changes nothing |
| Utils.ParserFor | src/utils/utils.js:11-25 | the PDF, DOCX and text parsers are chosen exactly by the lower-cased name's suffix, and any other name fails with "Unsupported file type. Use PDF, DOCX, or TXT." |
| Utils.SuffixesExclusive | src/utils/utils.js:14-22 | no name ends in two of the three suffixes, so the order of the checks does not matter |
| Utils.ExtractText | src/utils/utils.js:11-26 | an unsupported name fails with its message; otherwise the result is the cleaned text the chosen parser reads, empty text when it reads none |
| Utils.GenerateOtp | src/utils/utils.js:45-63 | the code is six digits whose value is the number drawn from [100000, 1000000), the first draw since the set of issued codes starts empty |
| Utils.IdentityCode | src/utils/utils.js:65-67 | an id of six or more characters is kept; a shorter one is left-padded with `0` to six characters and ends with the id |
| Utils.IdentityCodeValue | src/utils/utils.js:65-67 | the code of a non-negative id below a million is six digits whose value is the id |
| Utils.LastSegment | src/utils/utils.js:125 | the part after the last `/` is a suffix of the name with no `/`, and a name without `/` is kept |
| Utils.BaseName | src/utils/utils.js:125 | the base name holds no `/`, and a name without `/` is its own base name |
| Utils.BaseNameTrailingSlash | src/utils/utils.js:125 | a trailing `/` does not change the base name, so `dir/` has base name `dir` |
| Utils.LastDot | src/utils/utils.js:125 | the position of the last `.` after the first character of the base name, or none when there is no such dot |
| Utils.PathName | src/utils/utils.js:125 | a name without `/` or `.` is kept, and the base name `..` is its own name |
| Utils.Extension | src/utils/utils.js:129-131 | the name and the extension concatenate to the base name, and the extension is empty or one dot followed by no other dot; `..` has no extension |
| Utils.IdChars | src/utils/utils.js:126 | every character outside `A-Z a-z 0-9 _ -` becomes `_`, the others are kept |
| Utils.SanitizePublicId | src/utils/utils.js:124-127 | the public id is the first 120 characters of the replaced name, holds only id characters, and is at most 120 long |
| Utils.SanitizeIdempotent | src/utils/utils.js:124-127 | sanitizing a sanitized id changes nothing |
| Email.SanitizeEnvHtml | src/services/email.service.js:10-18 | an unset or empty value gives no template; otherwise the trimmed value, with one wrapping pair of backticks removed and trimmed again, and never with white space at either end |
| Email.SanitizeKeepsClean | src/services/email.service.js:10-18 | a clean template without backticks is kept as it is |
| Email.SanitizeStripsOnePair | src/services/email.service.js:14-16 | only one pair of wrapping backticks is removed |
| Email.LoadTemplate | src/services/email.service.js:20-29 | `verify` and `reset` read their own variable; any other kind gives no template |
| Email.StripTrailingSlashes | src/services/email.service.js:55 | the result is a prefix of the URL, does not end in `/`, and only slashes were removed |
| Email.StripIdempotent | src/services/email.service.js:55 | stripping twice removes nothing more |
| Email.Render | src/services/email.service.js:58-67 | a missing template fails with the error of calling `replace` on null, and a configured one always renders |
| Email.OtpReplacedOnce | src/services/email.service.js:61 | only the first code placeholder is replaced; a second one survives |
| Email.ReplaceAllWithout | src/services/email.service.js:67 | splitting and joining at a placeholder that does not occur changes nothing |
| Email.RenderWithoutPlaceholders | src/services/email.service.js:58-67 | a template without placeholders is sent as it is |
| SearchFilter.SanitizeFilter | src/routes/search.routes.js:74-76 | an array is kept; a non-empty string becomes comma-free pieces that join back to it; anything else becomes a one-element array |
| SearchFilter.CheckFilter | src/routes/search.routes.js:78-94 | no message exactly when every value is `docRequest` or `file`; otherwise the message names the first other value |
| SearchFilter.Errors | src/routes/search.routes.js:66-94 | the `userId` error is collected exactly when a `userId` is given and is not an integer; without a filter there is at most one error |
| SearchFilter.RouteAsWritten | src/routes/search.routes.js:66-98 | the route as written always reaches the handler with the sanitized filter |
| SearchFilter.Route | src/routes/doc-request.routes.js:355-363 | reading the collected errors as the other routes do, the request fails exactly when there is an error, with the first one, and a handled filter holds only known values |
| SearchFilter.UnknownFilterPassesAsWritten | src/routes/search.routes.js:78-98 | `filter=pdf` reaches the handler as written, and is refused with "Invalid filter: pdf. Must be one of: docRequest, file" when the errors are read |
| SearchFilter.AsWrittenIgnoresErrors | src/routes/search.routes.js:66-98 | whatever error is collected, the handler runs as written, and the corrected route refuses it |
| JsNumber.NatToString | src/utils/utils.js:51 | `toString` of a non-negative integer is a non-empty digit string without a superfluous leading zero |
| JsNumber.NatToStringValue | src/utils/utils.js:51 | the rendered digits denote the number |
| JsNumber.DigitsValueToString | src/utils/utils.js:51 | a digit string without a superfluous leading zero is the rendering of its own value, the other direction of the round trip |
| JsNumber.ToNumber | src/config/env.js:11 | `Number` of blank text is 0 |
| JsNumber.ToNumberOfIntString | src/config/env.js:11 | `Number(String(n))` gives back every integer |
| JsNumber.ParseInt | src/routes/doc-request.routes.js:319 | `toInt` gives a negative value only after a minus sign |
| JsNumber.ParseIntReadsPrefix | src/routes/doc-request.routes.js:319 | `toInt` reads exactly a rendered integer, whatever white space precedes it and whatever non-digit text follows |
| JsNumber.IntToStringIsInt | src/routes/doc-request.routes.js:320 | every rendered integer passes `isInt` and denotes itself |
| Text.Trim | src/utils/utils.js:31 | `trim` removes exactly the white space at both ends and leaves none there |
| Text.TrimEmptyIffBlank | src/utils/utils.js:31 | trimming gives the empty string exactly for text of white space only |
| Text.CollapseRuns | src/utils/utils.js:30 | `replace(/\s+/g, " ")` keeps the other characters in order, leaves only spaces of the class and never two in a row, and is empty only for empty text |
| Text.ReplaceFirst | src/services/email.service.js:61 | `replace` with a string pattern: nothing changes without an occurrence; otherwise the first occurrence is replaced by the value and the rest is kept |
| Text.Split | src/routes/search.routes.js:75 | `split` gives at least one piece, the pieces join back with the separator to the text, and none contains it |
| Text.SplitWithout | src/routes/search.routes.js:75 | text without the separator splits into itself alone |
| Text.ReplaceAllBySelf | src/services/email.service.js:67 | replacing every occurrence of a pattern by itself changes nothing |
| Text.PadStart | src/utils/utils.js:66 | `padStart` gives the longer of the text and the target length, ends with the text, and fills the front with the pad character |

## Left out

- Raster operations of sharp are the functions of the `Raster` record: resize, greyscale, convolution, blur, JPEG recompression and PNG encoding. The floating-point feature maths (edge descriptors, colour histograms, SSIM, NCC, cosine and Bhattacharyya similarity) is there too. Only the clamping into [0, 1] that the code applies is modelled.
- pdfjs, AdmZip and the canvas renderer are also parameters. They report page counts, page images, renderings and zip entries, and they may fail.
- The wall clock becomes a clock indexed by poll number, because its readings are not a function of anything the code sees.
- File system access, directory listings and console logging are parameters or left out.
- StampRaster.MapAll: the `Promise.all` fan-outs (src/services/stamp.service.js:483-500, 644 and 777) run one element after another in the model. When every element succeeds, the result is the same as the engine's: one result per element, in list order. When several elements fail, the model reports the first failure in list order, while the engine rejects with whichever promise fails first in time. So the `error` message of `Detector.Detect` (src/services/stamp.service.js:804-806) may differ from the code's when several pages or images fail.
- `toFixed` rounding of the reported scores is not modelled.
- The classifier's log priors, per-feature log probabilities, softmax and `customRound` are left out. They are the `logScore` and `prob` parameters, because they are floating-point maths.
- Postgres queries and the connection pool are left out. Only the CASE update, the JSONB merge and the insert are modelled, as functions on records.
- Express wiring, Swagger pages and Busboy multipart reading are left out.
- Cloudinary, nodemailer, bcrypt, `encodeURIComponent`, the Google Sheets fetch and NodeCache expiry are left out or are parameters.
- The department, user, auth, notifications, search and doc-classification controllers are left out. They only pass data between the database and libraries.
- `toLowerCase` is modelled for ASCII letters only.
- `Number` on strings covers white space, an optional sign, decimal digits with an optional fraction, and `Infinity`. Hexadecimal, octal, binary and exponent forms read as NaN. Numbers are exact reals, without binary64 rounding.
- `path.parse` is modelled for POSIX paths: trailing slashes are dropped, the base name is the part after the last `/`, and the extension starts at the last dot after the first character, except that `..` has no extension. Windows separators are not modelled.
- `$` patterns in the replacement strings of `replace` are not interpreted.
- `Object.values` is modelled as returning groups in insertion order. The engine puts integer-like keys first; that reordering is not modelled.
- The controllers' database lookups are an immutable `World` value, and their lookup failures are its error messages.
- EnvConfig.LoadStampConfig: only states the case with no variable set. The readers it applies are stated by `NumOr` and `BoolOr`.
- Email.Render: only states the missing-template error. The substitutions are stated by `OtpReplacedOnce`, `RenderWithoutPlaceholders` and `Text.ReplaceFirst`.
- Bayes.Package: only states one candidate per ranked label. The scores come from the `prob` parameter.
- JsNumber.ToNumber: only states the blank-text case. The other cases are stated by `ToNumberOfText` and `ToNumberOfIntString`.
- JsNumber.ParseInt: only states the sign of the result. The digits read are stated by `ParseIntReadsPrefix`.
- Utils.PathName: only states names without `/` or `.`, and `..`. `Utils.Extension` states how the name and extension recombine.
- Strings are sequences of Unicode scalar values, one `char` per character. JavaScript's `length`, `slice` and regular expressions without the `u` flag count UTF-16 code units instead, so a character outside the Basic Multilingual Plane counts as two in the code and one in the model. Lengths and cuts agree for text inside the Basic Multilingual Plane.
- Utils.IdChars: replaces a character outside the Basic Multilingual Plane by one `_`. The code's `/[^a-zA-Z0-9_\-]/g` matches each of its two UTF-16 code units and yields `__` (src/utils/utils.js:126).
- Utils.SanitizePublicId: counts a character outside the Basic Multilingual Plane as one toward the 120-character cut. In the code it becomes `__` and counts two toward `.slice(0, 120)` (src/utils/utils.js:124-127), so the code's id can hold fewer of the name's characters.
- Workflow.ApproveStep: assumes the request record carries its steps and that the service can mark a step approved. In the code, src/controllers/doc-request-workflow.controller.js:4-5 imports `updateDocRequestWorkflowStatus` and `updateDocRequestWorkflowFile`, which src/services/doc-request.service.js does not export, so the module cannot load. `getDocRequestById` (src/services/doc-request.service.js:4-52) selects no steps, so `docRequest?.steps.map` at line 237 would throw. src/routes/index.routes.js mounts no workflow routes. The model gives the handler's logic on a request with steps.
- Workflow.AttachStepFile: makes the same assumptions as `Workflow.ApproveStep`: a request record with steps and a service function that stores a step's file (the missing `updateDocRequestWorkflowFile`).
- Workflow.ApprovalNeverNotifiesDepartment: the notifications of an approval are not built. The lemma only states that the status that selects the recipients is never `CANCELLED` or `CLOSED`.
- Workflow.BuildGroups: treats every purpose as a fresh key of `groups`. In the code, a purpose that names an `Object.prototype` member, such as "toString" or "constructor", finds the inherited function at src/controllers/doc-request-workflow.controller.js:106. No group is created, `Object.values` never lists it, and a valid step of that purpose throws a TypeError at line 166. The model gives such a purpose its own group.
- Workflow.TransformGroups: makes the same assumption as `Workflow.BuildGroups` about purposes named like `Object.prototype` members.
- BayesTrain.AddFeaturesCounts: treats every feature as a fresh key of the per-label count object. In the code, the feature "constructor" reads the inherited `Object` function at scripts/train-bayes.js:86 and stores the string "function Object() { [native code] }1" instead of the count 1. The model counts it as 1.
- BayesTrain.AddFeaturesTotalsMatch: the total equals the sum of the counts only under the `BayesTrain.AddFeaturesCounts` assumption. The code breaks it once "constructor" is counted.
- BayesTrain.AddFeaturesConsistent: its invariant includes the totals-match property, so it makes the same assumption about features named like `Object.prototype` members.
- BayesTrain.LearnFeaturesEffect: adds the features to the label's counts under the same assumption about feature names.
- BayesTrain.LearnConsistent: keeps the invariant under the same assumption about feature names.
- BayesTrain.LearnStep: raises the counts by the document's features under the same assumption about feature names.
- BayesTrain.IngestConsistent: keeps the invariant under the same assumption about feature names in every row.
- BayesTrain.IngestCounts: equates the per-label counts with the rows' features under the same assumption about feature names.
- BayesTrain.TrainedModel: assumes that no feature and no label is the name of an `Object.prototype` member. For features see `BayesTrain.AddFeaturesCounts`. A label "__proto__" is never stored as an own key of `priors`, `tokenCounts` or `totalTokens` at scripts/train-bayes.js:77-81.
- DocRequestCtl.UploadChecks: a document with no extracted text is answered with a 400 whose body is `{ error: "No text extracted" }` (src/controllers/doc-request.controller.js:423-428), not the `{ success: false, message }` shape of the other refusals. The model only keeps the message.
- Locator.ScanCols: the windows it scores are stated by `Locator.ScanColsGrid`, not by its own contract.
- Locator.ScanRows: the windows it scores are stated by `Locator.ScanRowsGrid`, not by its own contract.

## Findings

| source | as written | input that shows it | evidently intended | confidence | as-written member | corrected member |
|---|---|---|---|---|---|---|
| src/controllers/doc-request.controller.js:338-346 | the document-file guard compares the target with `DOCREQUEST_STATUS.COMLPETED`, which is undefined, so it never fires | a PROCESSING request with no document file and target COMPLETED is accepted | completing a request needs a document file | high, not executed | StatusGuard.CompletedWithoutFileAsWritten | StatusGuard.GuardsAcceptLifeCycle |
| src/controllers/doc-request.controller.js:348-352 | `updateDocRequestStatus(id, status, reason \|\| "")` fills the service's `assignedDepartmentId` slot (src/services/doc-request.service.js:218-223) with the reason | cancelling a pending request with reason "duplicate" binds "duplicate" as an integer and fails; approving with no reason binds "" and fails | pass the department id and the reason in their own slots | medium, not executed | DocRequestCtl.CancelWithReasonFailsAsWritten | DocRequestCtl.CancelWithReasonStored |
| src/controllers/doc-request.controller.js:463-475 | the stamp gate refuses only when `!stamp.match && stamp.score < 0.9`; a failed detection has neither field and `undefined < 0.9` is false | a detection that fails with `success: false` (for example an unsupported file type) lets the upload through | a failed detection finds no stamp and is refused | high, not executed | DocRequestCtl.FailedDetectionPassesAsWritten | DocRequestCtl.StampGate |
| src/routes/search.routes.js:66-98 | the validators collect errors, but the route never calls `validationResult` before the handler | `GET /api/search?filter=pdf` reaches the handler with filter ["pdf"] | a 400 with "Invalid filter: pdf. Must be one of: docRequest, file", as the other routes answer | medium, not executed | SearchFilter.UnknownFilterPassesAsWritten | SearchFilter.Route |

=== FILE: bayes.dfy ===
/** The text features and the candidate packaging of the naive Bayes
    classifier (src/classifiers/localBayes.js). The log scores of the
    model and their conversion to probabilities (logarithms, softmax,
    rounding) are functions passed in. */
module Bayes {
  import opened Wrappers
  import opened Text
  import opened JsNumber
  import opened Ranking

  /** The stop words, dropped as unigrams but kept inside bigrams. */
  const Stop: set<string> := {
    "a", "an", "the", "and", "or", "of", "to", "for", "in", "on", "at", "by", "with", "as", "is", "are",
    "this", "that", "these", "those", "be", "been", "being", "it", "its", "from", "was", "were", "will",
    "would", "can", "could", "should", "may", "might", "do", "does", "did", "has", "have", "had", "not",
    "but", "if", "then", "than", "so", "such", "into", "over", "under", "between", "within", "per"
  }

  /** En dash, em dash and minus sign. */
  predicate IsDashVariant(c: char) {
    c as int == 0x2013 || c as int == 0x2014 || c as int == 0x2212
  }

  predicate NoDashVariant(s: string) {
    forall i | 0 <= i < |s| :: !IsDashVariant(s[i])
  }

  /** `.replace(/[–—−]/g, "-")`. */
  function PlainDashes(s: string): (r: string)
    ensures |r| == |s| && NoDashVariant(r)
    ensures forall i | 0 <= i < |s| :: r[i] == if IsDashVariant(s[i]) then '-' else s[i]
  {
    seq(|s|, i requires 0 <= i < |s| => if IsDashVariant(s[i]) then '-' else s[i])
  }

  /** Neither an upper-case letter nor a dash variant. */
  predicate Plain(c: char) {
    !IsUpper(c) && !IsDashVariant(c)
  }

  /** `normalize`: lower case, plain dashes, one space for each run of
      white space, no white space at either end. */
  function Normalize(s: string): string {
    Trim(CollapseRuns(PlainDashes(Lower(s)), IsSpace))
  }

  lemma NormalForm(s: string)
    ensures var n := Normalize(s);
            NoUpper(n) && NoDashVariant(n) && Collapsed(n, IsSpace) && NoEdgeSpace(n)
  {
    var d := PlainDashes(Lower(s));
    assert All(d, Plain);
    var c := CollapseRuns(d, IsSpace);
    CollapseRunsKeepsAll(d, IsSpace, Plain);
    TrimKeeps(c, IsSpace, Plain);
  }

  /** Normalizing twice changes nothing more. */
  lemma NormalizeIdempotent(s: string)
    ensures Normalize(Normalize(s)) == Normalize(s)
  {
    var n := Normalize(s);
    NormalForm(s);
    LowerNoop(n);
    assert PlainDashes(n) == n;
    CollapseRunsNoop(n, IsSpace);
    TrimNoop(n);
  }

  /** The characters a token may hold. */
  predicate IsTokenChar(c: char) {
    IsLowerLetter(c) || IsDigit(c) || c == '-'
  }

  predicate NotTokenChar(c: char) {
    !IsTokenChar(c)
  }

  /** `.replace(/[^a-z0-9-]+/g, " ").trim()`. */
  function Clean(n: string): string {
    Trim(CollapseRuns(n, NotTokenChar))
  }

  /** The text `tokenize` splits. */
  function Cleaned(s: string): string {
    Clean(Normalize(s))
  }

  /** The cleaned text is tokens separated by single spaces: every other
      character is a single space, with none at either end. */
  lemma CleanForm(n: string)
    ensures Collapsed(Clean(n), NotTokenChar) && NoEdgeSpace(Clean(n))
  {
    var c := CollapseRuns(n, NotTokenChar);
    assert All(c, c => true);
    TrimKeeps(c, NotTokenChar, c => true);
  }

  /** Every character of a piece is a character of the joined text. */
  lemma {:induction false} JoinHoldsPieces(xs: seq<string>, sep: string, k: nat, i: nat)
    requires k < |xs| && i < |xs[k]|
    ensures xs[k][i] in Join(xs, sep)
    decreases |xs|
  {
    if |xs| > 1 {
      if k == 0 {
        assert Join(xs, sep) == xs[0] + (sep + Join(xs[1..], sep));
        assert Join(xs, sep)[i] == xs[0][i];
      } else {
        JoinHoldsPieces(xs[1..], sep, k - 1, i);
        assert Join(xs, sep) == (xs[0] + sep) + Join(xs[1..], sep);
      }
    }
  }

  /** `txt ? txt.split(" ") : []`. */
  function Words(txt: string): seq<string> {
    if txt == "" then [] else Split(txt, " ")
  }

  /** Text of tokens between single spaces splits into exactly those
      tokens: none is empty, each is made of `a-z`, `0-9` and `-`, and
      joining them back gives the text. */
  lemma WordsForm(txt: string)
    requires Collapsed(txt, NotTokenChar) && NoEdgeSpace(txt)
    ensures Words(txt) == [] <==> txt == ""
    ensures Words(txt) != [] ==> Join(Words(txt), " ") == txt
    ensures forall k | 0 <= k < |Words(txt)| :: |Words(txt)[k]| > 0
    ensures forall k, i | 0 <= k < |Words(txt)| && 0 <= i < |Words(txt)[k]| :: IsTokenChar(Words(txt)[k][i])
  {
    var r := Words(txt);
    if txt != "" {
      assert [' '] == " ";
      forall i: nat ensures SingleAt(txt, ' ', i) {
        if i + 1 < |txt| && txt[i] == ' ' {
          assert NotTokenChar(txt[i]);
        }
      }
      SplitPiecesNonEmpty(txt, ' ', 0);
      forall k, i | 0 <= k < |r| && 0 <= i < |r[k]| ensures IsTokenChar(r[k][i]) {
        WordChar(txt, k, i);
      }
    }
  }

  /** A character of a piece of the split text is a token character: the
      text holds only those and spaces, and no piece holds a space. */
  lemma WordChar(txt: string, k: nat, i: nat)
    requires Collapsed(txt, NotTokenChar) && txt != ""
    requires k < |Split(txt, " ")| && i < |Split(txt, " ")[k]|
    ensures IsTokenChar(Split(txt, " ")[k][i])
  {
    var r := Split(txt, " ");
    JoinHoldsPieces(r, " ", k, i);
    assert !OccursAt(r[k], " ", i);
    assert r[k][i..i + 1] == [r[k][i]];
  }

  /** `tokenize`. */
  function Tokenize(s: string): seq<string> {
    Words(Cleaned(s))
  }

  /** The tokens of any text: none is empty, each is made of `a-z`, `0-9`
      and `-`, and they are the cleaned text split at its single spaces. */
  lemma TokensForm(s: string)
    ensures Tokenize(s) == [] <==> Cleaned(s) == ""
    ensures Tokenize(s) != [] ==> Join(Tokenize(s), " ") == Cleaned(s)
    ensures forall k | 0 <= k < |Tokenize(s)| :: |Tokenize(s)[k]| > 0
    ensures forall k, i | 0 <= k < |Tokenize(s)| && 0 <= i < |Tokenize(s)[k]| :: IsTokenChar(Tokenize(s)[k][i])
  {
    CleanForm(Normalize(s));
    WordsForm(Cleaned(s));
  }

  /** The adjacent pairs, joined with `_`, as the loop of `toBigrams`
      collects them. */
  method ToBigrams(tokens: seq<string>) returns (out: seq<string>)
    ensures |out| == if |tokens| == 0 then 0 else |tokens| - 1
    ensures forall i | 0 <= i < |out| :: out[i] == tokens[i] + "_" + tokens[i + 1]
    ensures out == Bigrams(tokens)
  {
    out := [];
    var i := 0;
    while i < |tokens| - 1
      invariant 0 <= i && (|tokens| == 0 ==> i == 0) && (|tokens| > 0 ==> i <= |tokens| - 1)
      invariant |out| == i
      invariant forall j | 0 <= j < i :: out[j] == tokens[j] + "_" + tokens[j + 1]
    {
      out := out + [tokens[i] + "_" + tokens[i + 1]];
      i := i + 1;
    }
  }

  /** `toBigrams(tokens)` as a value. */
  function Bigrams(tokens: seq<string>): seq<string> {
    if |tokens| < 2 then []
    else seq(|tokens| - 1, i requires 0 <= i < |tokens| - 1 => tokens[i] + "_" + tokens[i + 1])
  }

  /** `all.filter((t) => t && !stop.has(t))`. */
  function Unigrams(tokens: seq<string>, stop: set<string>): (r: seq<string>)
    ensures forall t | t in r :: t in tokens && t !in stop && t != ""
    ensures forall t | t in tokens && t !in stop && t != "" :: t in r
  {
    if |tokens| == 0 then []
    else
      var t := tokens[0];
      (if t != "" && t !in stop then [t] else []) + Unigrams(tokens[1..], stop)
  }

  /** The filter keeps each kept token as often as it occurs. */
  lemma {:induction false} UnigramsCount(tokens: seq<string>, stop: set<string>, t: string)
    ensures multiset(Unigrams(tokens, stop))[t] == if t != "" && t !in stop then multiset(tokens)[t] else 0
    decreases |tokens|
  {
    if |tokens| > 0 {
      assert tokens == [tokens[0]] + tokens[1..];
      UnigramsCount(tokens[1..], stop, t);
    }
  }

  /** The filter keeps token order: filtering a token list in two parts is
      filtering each part. */
  lemma {:induction false} UnigramsAppend(a: seq<string>, b: seq<string>, stop: set<string>)
    ensures Unigrams(a + b, stop) == Unigrams(a, stop) + Unigrams(b, stop)
    decreases |a|
  {
    if |a| == 0 {
      assert a + b == b;
    } else {
      assert (a + b)[1..] == a[1..] + b;
      UnigramsAppend(a[1..], b, stop);
    }
  }

  /** `preprocessToFeatures` of the classifier on the tokens, with its
      early return when there are none. */
  function FeaturesOf(all: seq<string>, stop: set<string>): seq<string> {
    if |all| == 0 then [] else Unigrams(all, stop) + Bigrams(all)
  }

  /** `preprocessToFeatures` of the trainer, without the early return. */
  function TrainerFeaturesOf(all: seq<string>, stop: set<string>): seq<string> {
    Unigrams(all, stop) + Bigrams(all)
  }

  function Features(s: string): seq<string> {
    FeaturesOf(Tokenize(s), Stop)
  }

  function TrainerFeatures(s: string): seq<string> {
    TrainerFeaturesOf(Tokenize(s), Stop)
  }

  /** Training and inference see the same features for every token list:
      the early return changes nothing. */
  lemma SameFeaturesOf(all: seq<string>, stop: set<string>)
    ensures TrainerFeaturesOf(all, stop) == FeaturesOf(all, stop)
  {
    if |all| == 0 {
      assert Unigrams(all, stop) == [] && Bigrams(all) == [];
    }
  }

  lemma SameFeatures(s: string)
    ensures TrainerFeatures(s) == Features(s)
  {
    SameFeaturesOf(Tokenize(s), Stop);
  }

  /** The features of a token list: its non-stop-word tokens, in order,
      then every adjacent pair of tokens, stop words included. */
  lemma FeaturesOfTokens(all: seq<string>, stop: set<string>)
    ensures var u := Unigrams(all, stop);
            var f := FeaturesOf(all, stop);
            && |f| == |u| + |Bigrams(all)|
            && f[..|u|] == u
            && (forall i | 0 <= i < |all| - 1 :: f[|u| + i] == all[i] + "_" + all[i + 1])
            && (forall t | t in all && t !in stop && t != "" :: t in f[..|u|])
            && (forall t | t in f[..|u|] :: t in all && t !in stop)
  {
    var u := Unigrams(all, stop);
    var f := FeaturesOf(all, stop);
    if |all| > 0 {
      assert f[..|u|] == u;
      assert forall i | 0 <= i < |all| - 1 :: f[|u| + i] == Bigrams(all)[i];
    }
  }

  // ------------------------------------------------------ classification

  /** The position where `x` first occurs in `xs`. */
  function FirstIndex(xs: seq<string>, x: string): (i: nat)
    requires x in xs
    ensures i < |xs| && xs[i] == x
    ensures forall j | 0 <= j < i :: xs[j] != x
    decreases |xs|
  {
    if xs[0] == x then 0 else 1 + FirstIndex(xs[1..], x)
  }

  /** Appending an element moves no first occurrence, and a new element
      first occurs at the end. */
  lemma FirstIndexSnoc(init: seq<string>, x: string)
    ensures forall y | y in init :: FirstIndex(init + [x], y) == FirstIndex(init, y)
    ensures x !in init ==> FirstIndex(init + [x], x) == |init|
  {
    var xs := init + [x];
    forall y | y in init ensures FirstIndex(xs, y) == FirstIndex(init, y) {
      var i := FirstIndex(init, y);
      var k := FirstIndex(xs, y);
      assert xs[i] == y;
      assert forall j | 0 <= j < |init| :: init[j] == xs[j];
    }
    if x !in init {
      assert forall j | 0 <= j < |init| :: init[j] == xs[j];
    }
  }

  /** `Array.from(new Set(xs))`: each value once, at its first position. */
  function Distinct(xs: seq<string>): (r: seq<string>)
    ensures forall x :: x in r <==> x in xs
    ensures forall i, j | 0 <= i < j < |r| :: r[i] != r[j]
    ensures forall i, j | 0 <= i < j < |r| :: FirstIndex(xs, r[i]) < FirstIndex(xs, r[j])
    ensures |r| <= |xs|
  {
    if |xs| == 0 then []
    else
      var init := xs[..|xs| - 1];
      var d := Distinct(init);
      var x := xs[|xs| - 1];
      assert xs == init + [x];
      assert forall y :: y in xs <==> y in init || y == x;
      FirstIndexSnoc(init, x);
      if x in d then d else d + [x]
  }

  /** `feats.length < minTokens`, with `NaN` comparing false. */
  predicate FewerThan(n: nat, m: Num) {
    m == PosInf || (m.Finite? && (n as real) < m.v)
  }

  datatype Options = Options(temperature: Num, topK: nat, otherLabel: string, minTokens: Num, binary: bool, threshold: Num)

  /** A label with its score. */
  datatype Scored = Scored(category: string, score: real)

  datatype Classification = Classification(best: Scored, candidates: seq<Scored>)

  /** A label with its raw log score. */
  datatype Ranked = Ranked(category: string, logScore: real)

  function LogOf(r: Ranked): real { r.logScore }

  /** Each label with its log score, in the model's order. */
  function Scores(labels: seq<string>, feats: seq<string>, logScore: (string, seq<string>) -> real): (r: seq<Ranked>)
    ensures |r| == |labels|
    ensures forall i | 0 <= i < |labels| :: r[i] == Ranked(labels[i], logScore(labels[i], feats))
  {
    seq(|labels|, i requires 0 <= i < |labels| => Ranked(labels[i], logScore(labels[i], feats)))
  }

  /** The labels with their log scores, best first; equal scores keep the
      order of the model's labels. */
  function Rank(labels: seq<string>, feats: seq<string>, logScore: (string, seq<string>) -> real): (r: seq<Ranked>)
    ensures SortedDesc(r, LogOf) && |r| == |labels|
    ensures multiset(r) == multiset(Scores(labels, feats, logScore))
    ensures forall v :: WithKey(r, LogOf, v) == WithKey(Scores(labels, feats, logScore), LogOf, v)
  {
    SortDesc(Scores(labels, feats, logScore), LogOf)
  }

  /** The ranking holds every label with its own log score, and nothing
      else. */
  lemma RankHoldsScores(labels: seq<string>, feats: seq<string>, logScore: (string, seq<string>) -> real)
    ensures var r := Rank(labels, feats, logScore);
            && (forall x | x in r :: x.category in labels && x.logScore == logScore(x.category, feats))
            && (forall i | 0 <= i < |labels| :: Ranked(labels[i], logScore(labels[i], feats)) in r)
  {
    var scored := Scores(labels, feats, logScore);
    var r := Rank(labels, feats, logScore);
    forall x | x in r ensures x.category in labels && x.logScore == logScore(x.category, feats) {
      assert x in multiset(r);
      assert x in scored;
    }
    forall i | 0 <= i < |labels| ensures scored[i] in r {
      assert scored[i] in multiset(scored);
    }
  }

  /** The features scored: each once in binary mode. */
  function Used(feats: seq<string>, binary: bool): (r: seq<string>)
    ensures binary ==> forall i, j | 0 <= i < j < |r| :: r[i] != r[j]
    ensures forall f :: f in r <==> f in feats
  {
    if binary then Distinct(feats) else feats
  }

  /** Each ranked label with the packaged score of its rank; `prob` stands
      for the softmax of the sorted log scores and the rounding. */
  function Package(sorted: seq<Ranked>, temperature: Num, prob: (seq<real>, Num, nat) -> real): (r: seq<Scored>)
    ensures |r| == |sorted|
  {
    var logs := seq(|sorted|, k requires 0 <= k < |sorted| => sorted[k].logScore);
    seq(|sorted|, k requires 0 <= k < |sorted| => Scored(sorted[k].category, prob(logs, temperature, k)))
  }

  /** `classifyLocal(model, text, opts)` after feature extraction:
      `logScore(label, feats)` is the model's log score of a label. */
  function ClassifyFeatures(labels: seq<string>, feats: seq<string>, opts: Options,
                            logScore: (string, seq<string>) -> real, prob: (seq<real>, Num, nat) -> real): (r: Classification)
    ensures FewerThan(|feats|, opts.minTokens) ==> r == Classification(Scored(opts.otherLabel, 0.0), [])
    ensures r.best == if |r.candidates| > 0 then r.candidates[0] else Scored(opts.otherLabel, 0.0)
  {
    if FewerThan(|feats|, opts.minTokens) then Classification(Scored(opts.otherLabel, 0.0), [])
    else
      var sorted := Rank(labels, Used(feats, opts.binary), logScore);
      var candidates := Take(Package(sorted, opts.temperature, prob), opts.topK);
      Classification(if |candidates| > 0 then candidates[0] else Scored(opts.otherLabel, 0.0), candidates)
  }

  /** `classifyLocal(model, text, opts)`. */
  function Classify(labels: seq<string>, text: string, opts: Options,
                    logScore: (string, seq<string>) -> real, prob: (seq<real>, Num, nat) -> real): Classification
  {
    ClassifyFeatures(labels, Features(text), opts, logScore, prob)
  }

  /** With enough features the candidates are the first `topK` labels of
      the ranking: each names a model label and carries the score of its
      rank, their log scores do not increase, and no label left out scores
      above any candidate. */
  lemma CandidatesRanked(labels: seq<string>, feats: seq<string>, opts: Options,
                         logScore: (string, seq<string>) -> real, prob: (seq<real>, Num, nat) -> real)
    requires !FewerThan(|feats|, opts.minTokens)
    ensures var c := ClassifyFeatures(labels, feats, opts, logScore, prob).candidates;
            var sorted := Rank(labels, Used(feats, opts.binary), logScore);
            && |c| == (if opts.topK < |labels| then opts.topK else |labels|)
            && (forall k | 0 <= k < |c| :: c[k].category == sorted[k].category && c[k].category in labels)
            && (forall i, j | 0 <= i < j < |sorted| :: sorted[i].logScore >= sorted[j].logScore)
            && (forall k, j | 0 <= k < |c| <= j < |sorted| :: sorted[k].logScore >= sorted[j].logScore)
  {
    var sorted := Rank(labels, Used(feats, opts.binary), logScore);
    var c := ClassifyFeatures(labels, feats, opts, logScore, prob).candidates;
    RankHoldsScores(labels, Used(feats, opts.binary), logScore);
    assert forall k | 0 <= k < |c| :: c[k].category == sorted[k].category;
    assert forall k | 0 <= k < |sorted| :: sorted[k] in sorted;
  }

  /** Every label of the model is ranked, with its own log score. */
  lemma EveryLabelRanked(labels: seq<string>, feats: seq<string>, binary: bool, logScore: (string, seq<string>) -> real)
    ensures var sorted := Rank(labels, Used(feats, binary), logScore);
            forall i | 0 <= i < |labels| :: exists k | 0 <= k < |sorted| ::
              sorted[k] == Ranked(labels[i], logScore(labels[i], Used(feats, binary)))
  {
    var sorted := Rank(labels, Used(feats, binary), logScore);
    RankHoldsScores(labels, Used(feats, binary), logScore);
    forall i | 0 <= i < |labels|
      ensures exists k | 0 <= k < |sorted| :: sorted[k] == Ranked(labels[i], logScore(labels[i], Used(feats, binary)))
    {
      var x := Ranked(labels[i], logScore(labels[i], Used(feats, binary)));
      assert x in sorted;
    }
  }

  /** The `threshold` option is never read. */
  lemma ThresholdUnused(labels: seq<string>, text: string, opts: Options, t: Num,
                        logScore: (string, seq<string>) -> real, prob: (seq<real>, Num, nat) -> real)
    ensures Classify(labels, text, opts.(threshold := t), logScore, prob) == Classify(labels, text, opts, logScore, prob)
  {
  }
}

=== FILE: bayes_train.dfy ===
/** The count bookkeeping of the naive Bayes trainer
    (scripts/train-bayes.js): `createEmptyModel`, `learn`, the row loop and
    `finalize`'s vocabulary size. Reading the data set, the log priors and
    writing the model file are left out. */
module BayesTrain {
  import opened Wrappers
  import opened Text
  import opened Bayes

  const EmptyDatasetMsg := "dataset is empty. Expected columns: text,label"
  const NothingIngestedMsg := "no valid (text,label) rows were ingested."

  /** The trainer's smoothing constant. */
  const Alpha: real := 0.3

  /** The model object. Before `finalize`, `priors` holds document counts;
      `tokenCounts[label]` is the multiset of features learned under the
      label. */
  datatype Model = Model(alpha: real, labels: seq<string>, priors: map<string, nat>,
                         tokenCounts: map<string, multiset<string>>, totalTokens: map<string, nat>,
                         vocab: set<string>, vocabSize: nat)

  predicate NoDuplicates(xs: seq<string>) {
    forall i, j | 0 <= i < j < |xs| :: xs[i] != xs[j]
  }

  /** One entry per label in each table. */
  ghost predicate KeysMatch(m: Model) {
    && (forall l :: l in m.priors <==> l in m.labels)
    && (forall l :: l in m.tokenCounts <==> l in m.labels)
    && (forall l :: l in m.totalTokens <==> l in m.labels)
  }

  /** Each label's total is its number of learned features. */
  predicate TotalsMatch(m: Model) {
    forall l | l in m.totalTokens && l in m.tokenCounts :: m.totalTokens[l] == |m.tokenCounts[l]|
  }

  /** The vocabulary is exactly the features learned under some label. */
  ghost predicate VocabLearned(m: Model) {
    forall f :: f in m.vocab <==> exists l | l in m.tokenCounts :: f in m.tokenCounts[l]
  }

  /** What every model the trainer builds satisfies: one entry per label
      in each table, labels registered once, each label's total equal to
      its number of learned features, and the vocabulary exactly the
      features learned under some label. */
  ghost predicate Consistent(m: Model) {
    KeysMatch(m) && NoDuplicates(m.labels) && TotalsMatch(m) && VocabLearned(m)
  }

  /** `createEmptyModel(alpha)`. */
  function CreateEmptyModel(alpha: real): (m: Model)
    ensures Consistent(m) && m.alpha == alpha
    ensures m.labels == [] && m.vocab == {} && m.vocabSize == 0
  {
    Model(alpha, [], map[], map[], map[], {}, 0)
  }

  /** One feature of `learn`'s loop. */
  function AddFeature(m: Model, cat: string, f: string): (r: Model)
    requires cat in m.tokenCounts && cat in m.totalTokens
  {
    m.(vocab := m.vocab + {f},
       tokenCounts := m.tokenCounts[cat := m.tokenCounts[cat] + multiset{f}],
       totalTokens := m.totalTokens[cat := m.totalTokens[cat] + 1])
  }

  /** The loop of `learn` over the features of one document. */
  function AddFeatures(m: Model, cat: string, feats: seq<string>): (r: Model)
    requires cat in m.tokenCounts && cat in m.totalTokens
    ensures r.alpha == m.alpha && r.labels == m.labels && r.priors == m.priors && r.vocabSize == m.vocabSize
    ensures r.tokenCounts.Keys == m.tokenCounts.Keys && r.totalTokens.Keys == m.totalTokens.Keys
    decreases |feats|
  {
    if |feats| == 0 then m
    else AddFeatures(AddFeature(m, cat, feats[0]), cat, feats[1..])
  }

  /** The loop adds every feature to the label's counts. */
  lemma {:induction false} AddFeaturesCounts(m: Model, cat: string, feats: seq<string>)
    requires cat in m.tokenCounts && cat in m.totalTokens
    ensures var r := AddFeatures(m, cat, feats);
            cat in r.tokenCounts && r.tokenCounts[cat] == m.tokenCounts[cat] + multiset(feats)
    decreases |feats|
  {
    if |feats| > 0 {
      var m1 := AddFeature(m, cat, feats[0]);
      AddFeaturesCounts(m1, cat, feats[1..]);
      UnionHead(m.tokenCounts[cat], feats);
    }
  }

  /** Adding the first feature and then the rest adds them all. */
  lemma UnionHead(a: multiset<string>, feats: seq<string>)
    requires |feats| > 0
    ensures (a + multiset{feats[0]}) + multiset(feats[1..]) == a + multiset(feats)
  {
    assert feats == [feats[0]] + feats[1..];
  }

  /** The loop leaves the other labels' counts and totals alone. */
  lemma {:induction false} AddFeaturesOthers(m: Model, cat: string, feats: seq<string>, l: string)
    requires cat in m.tokenCounts && cat in m.totalTokens && l != cat
    ensures var r := AddFeatures(m, cat, feats);
            && (l in m.tokenCounts ==> l in r.tokenCounts && r.tokenCounts[l] == m.tokenCounts[l])
            && (l in m.totalTokens ==> l in r.totalTokens && r.totalTokens[l] == m.totalTokens[l])
    decreases |feats|
  {
    if |feats| > 0 {
      AddFeaturesOthers(AddFeature(m, cat, feats[0]), cat, feats[1..], l);
    }
  }

  /** The loop adds the number of features to the label's total. */
  lemma {:induction false} AddFeaturesTotals(m: Model, cat: string, feats: seq<string>)
    requires cat in m.tokenCounts && cat in m.totalTokens
    ensures var r := AddFeatures(m, cat, feats);
            cat in r.totalTokens && r.totalTokens[cat] == m.totalTokens[cat] + |feats|
    decreases |feats|
  {
    if |feats| > 0 {
      AddFeaturesTotals(AddFeature(m, cat, feats[0]), cat, feats[1..]);
    }
  }

  /** The loop adds the features to the vocabulary. */
  lemma {:induction false} AddFeaturesVocab(m: Model, cat: string, feats: seq<string>)
    requires cat in m.tokenCounts && cat in m.totalTokens
    ensures AddFeatures(m, cat, feats).vocab == m.vocab + set f | f in feats
    decreases |feats|
  {
    if |feats| > 0 {
      AddFeaturesVocab(AddFeature(m, cat, feats[0]), cat, feats[1..]);
      assert (set f | f in feats) == {feats[0]} + set f | f in feats[1..];
    }
  }

  /** Learning features under a registered label keeps each label's
      total equal to its number of features. */
  lemma AddFeaturesTotalsMatch(m: Model, cat: string, feats: seq<string>)
    requires TotalsMatch(m) && cat in m.tokenCounts && cat in m.totalTokens
    ensures TotalsMatch(AddFeatures(m, cat, feats))
  {
    var r := AddFeatures(m, cat, feats);
    forall l | l in r.totalTokens && l in r.tokenCounts
      ensures r.totalTokens[l] == |r.tokenCounts[l]|
    {
      if l == cat {
        AddFeaturesCounts(m, cat, feats);
        AddFeaturesTotals(m, cat, feats);
      } else {
        AddFeaturesOthers(m, cat, feats, l);
      }
    }
  }

  /** Learning features under a registered label keeps the vocabulary the
      set of learned features. */
  lemma AddFeaturesVocabLearned(m: Model, cat: string, feats: seq<string>)
    requires VocabLearned(m) && cat in m.tokenCounts && cat in m.totalTokens
    ensures VocabLearned(AddFeatures(m, cat, feats))
  {
    var r := AddFeatures(m, cat, feats);
    AddFeaturesCounts(m, cat, feats);
    AddFeaturesVocab(m, cat, feats);
    forall f ensures f in r.vocab <==> exists l | l in r.tokenCounts :: f in r.tokenCounts[l] {
      if f in r.vocab {
        if f in m.vocab {
          var l :| l in m.tokenCounts && f in m.tokenCounts[l];
          if l != cat {
            AddFeaturesOthers(m, cat, feats, l);
          }
          assert f in r.tokenCounts[l];
        } else {
          assert f in r.tokenCounts[cat];
        }
      }
      if exists l | l in r.tokenCounts :: f in r.tokenCounts[l] {
        var l :| l in r.tokenCounts && f in r.tokenCounts[l];
        if l != cat {
          AddFeaturesOthers(m, cat, feats, l);
          assert f in m.tokenCounts[l];
        } else if f !in multiset(feats) {
          assert f in m.tokenCounts[l];
        }
      }
    }
  }

  /** Learning features under a registered label keeps the model
      consistent. */
  lemma AddFeaturesConsistent(m: Model, cat: string, feats: seq<string>)
    requires Consistent(m) && cat in m.labels
    ensures Consistent(AddFeatures(m, cat, feats))
  {
    AddFeaturesTotalsMatch(m, cat, feats);
    AddFeaturesVocabLearned(m, cat, feats);
  }

  /** The registration step of `learn`: a label not yet known gets a
      zero prior, no features and a zero total. */
  function Register(m: Model, cat: string): (r: Model)
    requires KeysMatch(m)
    ensures KeysMatch(r) && cat in r.labels
    ensures r.labels == if cat in m.labels then m.labels else m.labels + [cat]
    ensures r.priors == if cat in m.labels then m.priors else m.priors[cat := 0]
    ensures r.tokenCounts == if cat in m.labels then m.tokenCounts else m.tokenCounts[cat := multiset{}]
    ensures r.totalTokens == if cat in m.labels then m.totalTokens else m.totalTokens[cat := 0]
    ensures r.vocab == m.vocab && r.alpha == m.alpha && r.vocabSize == m.vocabSize
  {
    if cat in m.labels then m
    else
      m.(labels := m.labels + [cat], priors := m.priors[cat := 0],
         tokenCounts := m.tokenCounts[cat := multiset{}], totalTokens := m.totalTokens[cat := 0])
  }

  /** Registration keeps the model consistent: a new label is not yet in
      the list and brings no features. */
  lemma RegisterConsistent(m: Model, cat: string)
    requires Consistent(m)
    ensures Consistent(Register(m, cat))
  {
    var r := Register(m, cat);
    if cat !in m.labels {
      assert TotalsMatch(r);
      forall f ensures f in r.vocab <==> exists l | l in r.tokenCounts :: f in r.tokenCounts[l] {
        if f in r.vocab {
          var l :| l in m.tokenCounts && f in m.tokenCounts[l];
          assert l != cat && f in r.tokenCounts[l];
        }
      }
    }
  }

  /** `learn(model, text, label)` on the document's features. */
  function LearnFeatures(m: Model, cat: string, feats: seq<string>): (r: Model)
    requires KeysMatch(m)
    ensures KeysMatch(r)
    ensures r.labels == if cat in m.labels then m.labels else m.labels + [cat]
    ensures r.alpha == m.alpha && r.vocabSize == m.vocabSize
  {
    var reg := Register(m, cat);
    AddFeatures(Counted(reg, cat), cat, feats)
  }

  /** The document count of a registered label, one up. */
  function Counted(m: Model, cat: string): (r: Model)
    requires cat in m.priors
  {
    m.(priors := m.priors[cat := m.priors[cat] + 1])
  }

  /** What `learn` records: the label's document count goes up by one,
      its counts grow by the features, the vocabulary takes them in, and
      every other label is left alone. */
  lemma LearnFeaturesEffect(m: Model, cat: string, feats: seq<string>)
    requires KeysMatch(m)
    ensures var r := LearnFeatures(m, cat, feats);
            && cat in r.priors && r.priors[cat] == (if cat in m.labels then m.priors[cat] else 0) + 1
            && (forall l | l != cat :: (l in r.priors <==> l in m.priors) && (l in m.priors ==> r.priors[l] == m.priors[l]))
            && cat in r.tokenCounts && r.tokenCounts[cat] == (if cat in m.labels then m.tokenCounts[cat] else multiset{}) + multiset(feats)
            && (forall l | l != cat && l in m.tokenCounts :: l in r.tokenCounts && r.tokenCounts[l] == m.tokenCounts[l])
            && r.vocab == m.vocab + set f | f in feats
  {
    var c := Counted(Register(m, cat), cat);
    AddFeaturesCounts(c, cat, feats);
    AddFeaturesVocab(c, cat, feats);
    forall l | l != cat && l in m.tokenCounts
      ensures l in LearnFeatures(m, cat, feats).tokenCounts
      ensures LearnFeatures(m, cat, feats).tokenCounts[l] == m.tokenCounts[l]
    {
      AddFeaturesOthers(c, cat, feats, l);
    }
  }

  /** `learn` keeps the model consistent. */
  lemma LearnConsistent(m: Model, cat: string, feats: seq<string>)
    requires Consistent(m)
    ensures Consistent(LearnFeatures(m, cat, feats))
  {
    var reg := Register(m, cat);
    RegisterConsistent(m, cat);
    CountedConsistent(reg, cat);
    AddFeaturesConsistent(Counted(reg, cat), cat, feats);
  }

  /** Counting a document changes no table but the priors' values. */
  lemma CountedConsistent(m: Model, cat: string)
    requires Consistent(m) && cat in m.labels
    ensures Consistent(Counted(m, cat))
  {
    var c := Counted(m, cat);
    assert c.tokenCounts == m.tokenCounts && c.totalTokens == m.totalTokens && c.vocab == m.vocab;
    assert KeysMatch(c);
  }

  // ------------------------------------------------------------ the rows

  /** A CSV row; an absent cell is the empty string. */
  datatype Row = Row(text: string, category: string)

  /** `String(r.label || "").trim()`. */
  function LabelOf(row: Row): string {
    Trim(row.category)
  }

  /** The loop skips rows whose text is empty or whose trimmed label is. */
  predicate Accepts(row: Row) {
    row.text != "" && LabelOf(row) != ""
  }

  /** The labels of the accepted rows, in order. */
  function AcceptedLabels(rows: seq<Row>): seq<string> {
    if |rows| == 0 then []
    else
      var last := rows[|rows| - 1];
      AcceptedLabels(rows[..|rows| - 1]) + (if Accepts(last) then [LabelOf(last)] else [])
  }

  /** How many accepted rows carry label `l`. */
  function LabelCount(rows: seq<Row>, l: string): nat {
    if |rows| == 0 then 0
    else
      var last := rows[|rows| - 1];
      LabelCount(rows[..|rows| - 1], l) + (if Accepts(last) && LabelOf(last) == l then 1 else 0)
  }

  /** Every feature of the accepted rows labelled `l`, with multiplicity. */
  function LabelFeatures(rows: seq<Row>, fx: string -> seq<string>, l: string): multiset<string> {
    if |rows| == 0 then multiset{}
    else
      var last := rows[|rows| - 1];
      LabelFeatures(rows[..|rows| - 1], fx, l)
        + (if Accepts(last) && LabelOf(last) == l then multiset(fx(last.text)) else multiset{})
  }

  /** The features of all accepted rows. */
  function Vocabulary(rows: seq<Row>, fx: string -> seq<string>): set<string> {
    if |rows| == 0 then {}
    else
      var last := rows[|rows| - 1];
      Vocabulary(rows[..|rows| - 1], fx) + (if Accepts(last) then set f | f in fx(last.text) else {})
  }

  /** One pass of the row loop: an accepted row is learned and counted,
      any other is skipped. */
  function IngestRow(acc: (Model, nat), row: Row, fx: string -> seq<string>): (r: (Model, nat))
    requires KeysMatch(acc.0)
    ensures KeysMatch(r.0) && r.0.alpha == acc.0.alpha && r.0.vocabSize == acc.0.vocabSize
    ensures r.1 == acc.1 + (if Accepts(row) then 1 else 0)
  {
    if Accepts(row) then (LearnFeatures(acc.0, LabelOf(row), fx(row.text)), acc.1 + 1) else acc
  }

  /** The row loop: the model after every accepted row, and `added`. */
  function Ingest(rows: seq<Row>, fx: string -> seq<string>): (r: (Model, nat))
    ensures KeysMatch(r.0) && r.0.alpha == Alpha && r.0.vocabSize == 0
  {
    if |rows| == 0 then (CreateEmptyModel(Alpha), 0)
    else IngestRow(Ingest(rows[..|rows| - 1], fx), rows[|rows| - 1], fx)
  }

  /** The row loop keeps the model consistent. */
  lemma {:induction false} IngestConsistent(rows: seq<Row>, fx: string -> seq<string>)
    ensures Consistent(Ingest(rows, fx).0)
  {
    if |rows| > 0 {
      var prev := rows[..|rows| - 1];
      var last := rows[|rows| - 1];
      IngestConsistent(prev, fx);
      if Accepts(last) {
        LearnConsistent(Ingest(prev, fx).0, LabelOf(last), fx(last.text));
      }
    }
  }

  /** `added` counts the accepted rows, and the labels are the accepted
      labels, each once, in first-seen order. */
  lemma {:induction false} IngestLabels(rows: seq<Row>, fx: string -> seq<string>)
    ensures Ingest(rows, fx).1 == |AcceptedLabels(rows)|
    ensures Ingest(rows, fx).0.labels == Distinct(AcceptedLabels(rows))
  {
    if |rows| > 0 {
      var prev := rows[..|rows| - 1];
      var last := rows[|rows| - 1];
      IngestLabels(prev, fx);
      var m := Ingest(prev, fx).0;
      if Accepts(last) {
        var xs := AcceptedLabels(rows);
        assert xs == AcceptedLabels(prev) + [LabelOf(last)];
        assert xs[..|xs| - 1] == AcceptedLabels(prev) && xs[|xs| - 1] == LabelOf(last);
        assert Ingest(rows, fx).0 == LearnFeatures(m, LabelOf(last), fx(last.text));
        assert Distinct(xs) == if LabelOf(last) in m.labels then m.labels else m.labels + [LabelOf(last)];
      } else {
        assert AcceptedLabels(rows) == AcceptedLabels(prev);
      }
    }
  }

  /** The model holds `docs` documents and the features `counts` for
      label `l`: both are empty when the label is unknown. */
  predicate Tallied(m: Model, l: string, docs: nat, counts: multiset<string>) {
    && (l in m.labels ==> l in m.priors && l in m.tokenCounts && m.priors[l] == docs && m.tokenCounts[l] == counts)
    && (l !in m.labels ==> docs == 0 && counts == multiset{})
  }

  /** One `learn` call moves a label's document count and counts on by
      the document when it carries the label, and by nothing otherwise. */
  lemma LearnStep(m: Model, cat: string, feats: seq<string>, l: string, docs: nat, counts: multiset<string>)
    requires KeysMatch(m) && Tallied(m, l, docs, counts)
    ensures l == cat ==> Tallied(LearnFeatures(m, cat, feats), l, docs + 1, counts + multiset(feats))
    ensures l != cat ==> Tallied(LearnFeatures(m, cat, feats), l, docs, counts)
  {
    LearnFeaturesEffect(m, cat, feats);
  }

  /** Per label, the prior is its number of accepted rows and the counts
      are the multiset of those rows' features; a label the model does not
      hold has neither. */
  lemma {:induction false} IngestCounts(rows: seq<Row>, fx: string -> seq<string>, l: string)
    ensures Tallied(Ingest(rows, fx).0, l, LabelCount(rows, l), LabelFeatures(rows, fx, l))
  {
    if |rows| > 0 {
      var prev := rows[..|rows| - 1];
      var last := rows[|rows| - 1];
      IngestCounts(prev, fx, l);
      var m := Ingest(prev, fx).0;
      var docs := LabelCount(prev, l);
      var counts := LabelFeatures(prev, fx, l);
      if Accepts(last) {
        var cat := LabelOf(last);
        assert Ingest(rows, fx).0 == LearnFeatures(m, cat, fx(last.text));
        LearnStep(m, cat, fx(last.text), l, docs, counts);
        if l == cat {
          assert LabelCount(rows, l) == docs + 1;
          assert LabelFeatures(rows, fx, l) == counts + multiset(fx(last.text));
        } else {
          assert LabelCount(rows, l) == docs;
          assert LabelFeatures(rows, fx, l) == counts;
        }
      } else {
        assert Ingest(rows, fx).0 == m;
        assert LabelCount(rows, l) == docs;
        assert LabelFeatures(rows, fx, l) == counts;
      }
    }
  }

  /** The vocabulary is the features of the accepted rows. */
  lemma {:induction false} IngestVocabulary(rows: seq<Row>, fx: string -> seq<string>)
    ensures Ingest(rows, fx).0.vocab == Vocabulary(rows, fx)
  {
    if |rows| > 0 {
      var prev := rows[..|rows| - 1];
      var last := rows[|rows| - 1];
      IngestVocabulary(prev, fx);
      if Accepts(last) {
        LearnFeaturesEffect(Ingest(prev, fx).0, LabelOf(last), fx(last.text));
      }
    }
  }

  /** A label never seen in an accepted row has no count and no features. */
  lemma UnseenLabel(rows: seq<Row>, fx: string -> seq<string>, l: string)
    requires l !in AcceptedLabels(rows)
    ensures LabelCount(rows, l) == 0 && LabelFeatures(rows, fx, l) == multiset{}
  {
    if |rows| > 0 {
      var prev := rows[..|rows| - 1];
      assert l !in AcceptedLabels(prev) by {
        assert AcceptedLabels(rows)[..|AcceptedLabels(prev)|] == AcceptedLabels(prev);
      }
      UnseenLabel(prev, fx, l);
    }
  }

  /** `finalize`'s vocabulary size; the log priors are left out. */
  function Finalize(m: Model): Model {
    m.(vocabSize := |m.vocab|)
  }

  datatype Trained = Trained(model: Model, added: nat)

  /** The training pipeline from the parsed rows to the finalized model,
      with feature extraction `fx`. */
  function TrainWith(rows: seq<Row>, fx: string -> seq<string>): (r: Result<Trained>)
    ensures |rows| == 0 ==> r == Err(EmptyDatasetMsg)
    ensures |rows| > 0 && |AcceptedLabels(rows)| == 0 ==> r == Err(NothingIngestedMsg)
    ensures r.Ok? <==> |AcceptedLabels(rows)| > 0
  {
    IngestLabels(rows, fx);
    if |rows| == 0 then Err(EmptyDatasetMsg)
    else
      var (m, added) := Ingest(rows, fx);
      if added == 0 then Err(NothingIngestedMsg) else Ok(Trained(Finalize(m), added))
  }

  /** The script: `learn` extracts the trainer's features. */
  function Train(rows: seq<Row>): Result<Trained> {
    TrainWith(rows, TrainerFeatures)
  }

  /** What a trained model records: each accepted label once in first-seen
      order, per label its document count, its features and their number,
      the number of rows learned, and as vocabulary size the number of
      distinct features ever learned. */
  lemma TrainedModel(rows: seq<Row>, fx: string -> seq<string>)
    requires TrainWith(rows, fx).Ok?
    ensures var t := TrainWith(rows, fx).value;
            && t.added == |AcceptedLabels(rows)|
            && t.model.labels == Distinct(AcceptedLabels(rows))
            && NoDuplicates(t.model.labels)
            && (forall l | l in AcceptedLabels(rows) ::
                  && l in t.model.priors && t.model.priors[l] == LabelCount(rows, l)
                  && l in t.model.tokenCounts && t.model.tokenCounts[l] == LabelFeatures(rows, fx, l)
                  && l in t.model.totalTokens && t.model.totalTokens[l] == |LabelFeatures(rows, fx, l)|)
            && t.model.vocabSize == |Vocabulary(rows, fx)|
            && Consistent(t.model)
  {
    IngestLabels(rows, fx);
    IngestVocabulary(rows, fx);
    IngestConsistent(rows, fx);
    var t := TrainWith(rows, fx).value;
    forall l | l in AcceptedLabels(rows)
      ensures && l in t.model.priors && t.model.priors[l] == LabelCount(rows, l)
              && l in t.model.tokenCounts && t.model.tokenCounts[l] == LabelFeatures(rows, fx, l)
              && l in t.model.totalTokens && t.model.totalTokens[l] == |LabelFeatures(rows, fx, l)|
    {
      IngestCounts(rows, fx, l);
    }
  }
}

=== FILE: budget.dfy ===
/** The time budget of one stamp detection (makeBudget in
    src/services/stamp.service.js). The wall clock is not a function of
    anything the model sees, so it is a parameter: `Clock.at(k)` is the
    millisecond reading returned by the k-th clock poll of a run. Every
    `over`, `ensure` and `remain` call polls once, and the functions that
    use the budget thread the poll counter through. */
module Budget {
  import opened Wrappers

  datatype Clock = Clock(at: nat -> int)

  /** A budget is its deadline, in clock milliseconds. */
  datatype Budget = Budget(deadline: real)

  /** `makeBudget()` at time `now`: a budget of 0 ms is replaced by the
      8000 ms default (`TIME_BUDGET_MS || 8000`). */
  function MakeBudget(budgetMs: real, now: int): (b: Budget)
    ensures budgetMs != 0.0 ==> b.deadline - now as real == budgetMs
    ensures budgetMs == 0.0 ==> b.deadline - now as real == 8000.0
  {
    Budget(now as real + if budgetMs != 0.0 then budgetMs else 8000.0)
  }

  predicate Over(b: Budget, now: int) {
    now as real >= b.deadline
  }

  /** `remain()`: the time left, never negative. */
  function Remain(b: Budget, now: int): (r: real)
    ensures r >= 0.0
    ensures r == 0.0 <==> Over(b, now)
    ensures !Over(b, now) ==> now as real + r == b.deadline
  {
    if b.deadline - now as real > 0.0 then b.deadline - now as real else 0.0
  }

  /** `ensure(msg)`: fails with `msg` exactly when the budget is over. */
  function Ensure(b: Budget, now: int, msg: string): (r: Result<()>)
    ensures r.Err? <==> Over(b, now)
    ensures r.Err? ==> r.error == msg
  {
    if Over(b, now) then Err(msg) else Ok(())
  }

  /** An outcome together with the number of the next clock poll. The
      poll number is kept on failure too, for callers that recover. */
  datatype Polled<+T> = Polled(res: Result<T>, t: nat)

  const DefaultBudgetMessage := "Time budget exceeded"

  /** A later reading of a clock that does not run backwards leaves less
      time, and once the budget is over it stays over. */
  lemma RemainShrinks(b: Budget, now: int, later: int)
    requires now <= later
    ensures Remain(b, later) <= Remain(b, now)
    ensures Over(b, now) ==> Over(b, later)
  {
  }

  /** Any remaining time above a threshold means the budget is not over. */
  lemma RemainAboveNotOver(b: Budget, now: int, threshold: real)
    requires threshold >= 0.0 && Remain(b, now) > threshold
    ensures !Over(b, now)
  {
  }
}

=== FILE: coarse.dfy ===
/** The two coarse stages of a detection run (`runDetectionOnImages` in
    src/services/stamp.service.js): every (page, stamp) pair is scored with
    a quick fusion of edge, colour and hash similarities, taking the best
    reference variant of the stamp; the six best pairs are re-scored with
    SSIM added, and the re-scored list is ranked. */
module Coarse {
  import opened Wrappers
  import opened Budget
  import opened StampHash
  import opened StampRaster
  import opened Ranking
  import opened EnvConfig
  import opened StampStore

  const QuickBudgetMsg := "Budget during coarse quick"
  const FullBudgetMsg := "Budget during coarse full"

  datatype Quick = Quick(fused: real, edgeSim: real, colorSim: real, hashSim: real)

  /** `fusedQuick`. */
  function FusedQuick(edgeSim: real, colorSim: real, hashSim: real): real {
    0.42 * edgeSim + 0.38 * colorSim + 0.2 * hashSim
  }

  /** `coarseWithSSIM`'s fusion. */
  function FusedFull(q: Quick, ssim: real): real {
    0.35 * q.edgeSim + 0.25 * q.colorSim + 0.2 * q.hashSim + 0.2 * ssim
  }

  /** Both fusions are weighted means: their weights sum to one, so
      similarities in [0, 1] give a score in [0, 1], equal similarities give
      that same score, and no similarity lowers the score by rising. */
  lemma FusionsAreMeans(e: real, c: real, h: real, s: real, e2: real, c2: real, h2: real, s2: real)
    ensures 0.0 <= e <= 1.0 && 0.0 <= c <= 1.0 && 0.0 <= h <= 1.0 ==>
      0.0 <= FusedQuick(e, c, h) <= 1.0
    ensures 0.0 <= e <= 1.0 && 0.0 <= c <= 1.0 && 0.0 <= h <= 1.0 && 0.0 <= s <= 1.0 ==>
      0.0 <= FusedFull(Quick(0.0, e, c, h), s) <= 1.0
    ensures FusedQuick(e, e, e) == e && FusedFull(Quick(0.0, e, e, e), e) == e
    ensures e <= e2 && c <= c2 && h <= h2 ==> FusedQuick(e, c, h) <= FusedQuick(e2, c2, h2)
    ensures e <= e2 && c <= c2 && h <= h2 && s <= s2 ==>
      FusedFull(Quick(0.0, e, c, h), s) <= FusedFull(Quick(0.0, e2, c2, h2), s2)
  {
  }

  /** `coarseQuick(page, ref)`. */
  function CoarseQuick(raster: Raster, page: PageFeatures, ref: Refs): (q: Quick)
    ensures q.fused == FusedQuick(q.edgeSim, q.colorSim, q.hashSim)
    ensures 0.0 <= q.hashSim <= 1.0 && (q.hashSim == 1.0 <==> ref.hash == page.hash)
  {
    var hashSim := HammingSim(ref.hash, page.hash);
    var colorSim := raster.bhattacharyya(ref.hist, page.hist);
    var edgeSim := raster.cosine(ref.edge, page.edge);
    Quick(FusedQuick(edgeSim, colorSim, hashSim), edgeSim, colorSim, hashSim)
  }

  function QuickKey(q: Quick): real { q.fused }

  /** The quick scores of one page against every reference variant. */
  function QuickScores(raster: Raster, page: PageFeatures, refs: seq<Refs>): (qs: seq<Quick>)
    ensures |qs| == |refs|
    ensures forall i | 0 <= i < |refs| :: qs[i] == CoarseQuick(raster, page, refs[i])
  {
    seq(|refs|, i requires 0 <= i < |refs| => CoarseQuick(raster, page, refs[i]))
  }

  /** The loop over `s.refs` that keeps a variant only when it beats the
      best so far strictly: the first variant of greatest quick score. */
  function BestQuick(raster: Raster, page: PageFeatures, refs: seq<Refs>): (q: Quick)
    requires |refs| > 0
    ensures exists i | 0 <= i < |refs| :: q == CoarseQuick(raster, page, refs[i])
    ensures forall i | 0 <= i < |refs| :: CoarseQuick(raster, page, refs[i]).fused <= q.fused
    ensures q == QuickScores(raster, page, refs)[FirstMax(QuickScores(raster, page, refs), QuickKey)]
  {
    var qs := QuickScores(raster, page, refs);
    var k := BestIndex(qs, QuickKey);
    assert qs[k] == CoarseQuick(raster, page, refs[k]);
    qs[k]
  }

  /** A (page, stamp) pair of the quick stage. */
  datatype QuickCand = QuickCand(imgIdx: nat, stamp: string, best: Quick)

  function QuickCandKey(c: QuickCand): real { c.best.fused }

  /** The pairs of page `pi` in stamp order: the inner loop's body. */
  function PageRow(raster: Raster, feats: seq<PageFeatures>, stamps: seq<Stamp>, pi: nat): (row: seq<QuickCand>)
    requires ValidStore(stamps) && pi < |feats|
    ensures |row| == |stamps|
  {
    seq(|stamps|, si requires 0 <= si < |stamps| =>
      QuickCand(pi, stamps[si].name, BestQuick(raster, feats[pi], stamps[si].refs)))
  }

  /** The pairs of pages `pi ..` in the page-major order of the double loop. */
  function Pairs(raster: Raster, feats: seq<PageFeatures>, stamps: seq<Stamp>, pi: nat): (ps: seq<QuickCand>)
    requires ValidStore(stamps) && pi <= |feats|
    decreases |feats| - pi
  {
    if pi == |feats| then [] else PageRow(raster, feats, stamps, pi) + Pairs(raster, feats, stamps, pi + 1)
  }

  /** There is one pair per page and stamp, and each names a loaded stamp
      and an existing page. */
  lemma PairsShape(raster: Raster, feats: seq<PageFeatures>, stamps: seq<Stamp>, pi: nat)
    requires ValidStore(stamps) && pi <= |feats|
    ensures |Pairs(raster, feats, stamps, pi)| == (|feats| - pi) * |stamps|
    ensures forall c | c in Pairs(raster, feats, stamps, pi) ::
      pi <= c.imgIdx < |feats| && exists si | 0 <= si < |stamps| :: stamps[si].name == c.stamp
  {
    PairsLength(raster, feats, stamps, pi);
    PairsMembers(raster, feats, stamps, pi);
  }

  lemma {:induction false} PairsLength(raster: Raster, feats: seq<PageFeatures>, stamps: seq<Stamp>, pi: nat)
    requires ValidStore(stamps) && pi <= |feats|
    ensures |Pairs(raster, feats, stamps, pi)| == (|feats| - pi) * |stamps|
    decreases |feats| - pi
  {
    if pi < |feats| {
      PairsLength(raster, feats, stamps, pi + 1);
      MulSucc(|feats| - pi - 1, |stamps|);
    }
  }

  lemma MulSucc(x: nat, y: nat)
    ensures (x + 1) * y == y + x * y
  {
  }

  lemma {:induction false} PairsMembers(raster: Raster, feats: seq<PageFeatures>, stamps: seq<Stamp>, pi: nat)
    requires ValidStore(stamps) && pi <= |feats|
    ensures forall c | c in Pairs(raster, feats, stamps, pi) ::
      pi <= c.imgIdx < |feats| && exists si | 0 <= si < |stamps| :: stamps[si].name == c.stamp
    decreases |feats| - pi
  {
    if pi < |feats| {
      PairsMembers(raster, feats, stamps, pi + 1);
      var row := PageRow(raster, feats, stamps, pi);
      forall c | c in row
        ensures pi <= c.imgIdx < |feats| && exists si | 0 <= si < |stamps| :: stamps[si].name == c.stamp
      {
        var si :| 0 <= si < |row| && row[si] == c;
        assert row[si].stamp == stamps[si].name;
      }
    }
  }

  /** The clock polls `t0 .. t0 + n - 1` all find the budget open. */
  predicate OpenPolls(b: Budget, clock: Clock, t0: nat, n: nat) {
    forall j | t0 <= j < t0 + n :: !Over(b, clock.at(j))
  }

  lemma OpenPollsStep(b: Budget, clock: Clock, t: nat, n: nat)
    ensures OpenPolls(b, clock, t, n + 1) <==> !Over(b, clock.at(t)) && OpenPolls(b, clock, t + 1, n)
  {
    if !Over(b, clock.at(t)) && OpenPolls(b, clock, t + 1, n) {
      forall j | t <= j < t + n + 1 ensures !Over(b, clock.at(j)) {
        if j > t {
          assert t + 1 <= j < t + 1 + n;
        }
      }
    }
  }

  /** The inner loop over the stamps from `si` on, for page `pi`: one
      budget poll per pair. */
  function QuickStamps(raster: Raster, feats: seq<PageFeatures>, stamps: seq<Stamp>, pi: nat, si: nat,
                       b: Budget, clock: Clock, t: nat): (r: Result<(seq<QuickCand>, nat)>)
    requires ValidStore(stamps) && pi < |feats| && si <= |stamps|
    ensures r.Ok? <==> OpenPolls(b, clock, t, |stamps| - si)
    ensures r.Err? ==> r.error == QuickBudgetMsg
    ensures r.Ok? ==> r.value.0 == PageRow(raster, feats, stamps, pi)[si..]
    ensures r.Ok? ==> r.value.1 == t + (|stamps| - si)
  {
    PollEach(PageRow(raster, feats, stamps, pi), si, b, clock, t)
  }

  /** The pairs `row[si..]`, each taken after one budget poll; the first
      poll that finds the budget spent ends the loop. */
  function PollEach(row: seq<QuickCand>, si: nat, b: Budget, clock: Clock, t: nat): (r: Result<(seq<QuickCand>, nat)>)
    requires si <= |row|
    ensures r.Ok? <==> OpenPolls(b, clock, t, |row| - si)
    ensures r.Err? ==> r.error == QuickBudgetMsg
    ensures r.Ok? ==> r.value.0 == row[si..] && r.value.1 == t + (|row| - si)
    decreases |row| - si
  {
    if si == |row| then
      assert row[si..] == [];
      Ok(([], t))
    else
      OpenPollsStep(b, clock, t, |row| - si - 1);
      var _ :- Ensure(b, clock.at(t), QuickBudgetMsg);
      var rest :- PollEach(row, si + 1, b, clock, t + 1);
      assert row[si..] == [row[si]] + row[si + 1..];
      Ok(([row[si]] + rest.0, rest.1))
  }

  lemma OpenPollsSplit(b: Budget, clock: Clock, t: nat, m: nat, n: nat)
    ensures OpenPolls(b, clock, t, m + n) <==> OpenPolls(b, clock, t, m) && OpenPolls(b, clock, t + m, n)
  {
    if OpenPolls(b, clock, t, m) && OpenPolls(b, clock, t + m, n) {
      forall j | t <= j < t + m + n ensures !Over(b, clock.at(j)) {
        if j >= t + m {
          assert t + m <= j < t + m + n;
        }
      }
    }
  }

  /** Stage 1 from page `pi` on. */
  function QuickPages(raster: Raster, feats: seq<PageFeatures>, stamps: seq<Stamp>, pi: nat,
                      b: Budget, clock: Clock, t: nat): (r: Result<(seq<QuickCand>, nat)>)
    requires ValidStore(stamps) && pi <= |feats|
    ensures r.Ok? <==> OpenPolls(b, clock, t, |Pairs(raster, feats, stamps, pi)|)
    ensures r.Err? ==> r.error == QuickBudgetMsg
    ensures r.Ok? ==> r.value.0 == Pairs(raster, feats, stamps, pi)
    ensures r.Ok? ==> r.value.1 == t + |Pairs(raster, feats, stamps, pi)|
    decreases |feats| - pi
  {
    if pi == |feats| then Ok(([], t))
    else
      var here := PageRow(raster, feats, stamps, pi);
      var later := Pairs(raster, feats, stamps, pi + 1);
      assert Pairs(raster, feats, stamps, pi) == here + later;
      assert here[0..] == here;
      OpenPollsSplit(b, clock, t, |here|, |later|);
      var row :- QuickStamps(raster, feats, stamps, pi, 0, b, clock, t);
      assert row.0 == here && row.1 == t + |here|;
      var rest :- QuickPages(raster, feats, stamps, pi + 1, b, clock, row.1);
      assert rest.0 == later && rest.1 == row.1 + |later|;
      Ok((here + later, rest.1))
  }

  /** A pair of the SSIM stage. */
  datatype FullCand = FullCand(imgIdx: nat, stamp: string, fused: real, best: Quick)

  function FullKey(c: FullCand): real { c.fused }

  /** The pair's stamp is loaded and its page exists. */
  predicate Resolvable(c: QuickCand, feats: seq<PageFeatures>, stamps: seq<Stamp>) {
    c.imgIdx < |feats| && FindStamp(stamps, c.stamp).Some?
  }

  /** `coarseWithSSIM` for one pair: SSIM of the page thumbnail against the
      stamp's base image, whose failure propagates. */
  function FullScore(raster: Raster, feats: seq<PageFeatures>, stamps: seq<Stamp>, c: QuickCand): (r: Result<FullCand>)
    requires Resolvable(c, feats, stamps)
    ensures r.Ok? ==> r.value.imgIdx == c.imgIdx && r.value.stamp == c.stamp && r.value.best == c.best
    ensures r.Ok? <==> raster.ssimRaw(feats[c.imgIdx].thumb, stamps[FindStamp(stamps, c.stamp).value].base).Ok?
    ensures r.Ok? ==> exists s :: 0.0 <= s <= 1.0 && r.value.fused == FusedFull(c.best, s)
  {
    var st := stamps[FindStamp(stamps, c.stamp).value];
    var s :- Ssim(raster, feats[c.imgIdx].thumb, st.base);
    Ok(FullCand(c.imgIdx, c.stamp, FusedFull(c.best, s), c.best))
  }

  /** Stage 2 over the chosen pairs, one budget poll each. */
  function FullLoop(raster: Raster, feats: seq<PageFeatures>, stamps: seq<Stamp>, few: seq<QuickCand>,
                    b: Budget, clock: Clock, t: nat): (r: Result<(seq<FullCand>, nat)>)
    requires forall i | 0 <= i < |few| :: Resolvable(few[i], feats, stamps)
    ensures r.Ok? ==> |r.value.0| == |few| && r.value.1 == t + |few| && OpenPolls(b, clock, t, |few|)
    ensures r.Ok? ==> forall i | 0 <= i < |few| :: FullScore(raster, feats, stamps, few[i]) == Ok(r.value.0[i])
    ensures !OpenPolls(b, clock, t, |few|) ==> r.Err?
    decreases |few|
  {
    if |few| == 0 then Ok(([], t))
    else
      var _ :- Ensure(b, clock.at(t), FullBudgetMsg);
      var c :- FullScore(raster, feats, stamps, few[0]);
      var rest :- FullLoop(raster, feats, stamps, few[1..], b, clock, t + 1);
      assert forall i | 1 <= i < |few| :: few[i] == few[1..][i - 1];
      Ok(([c] + rest.0, rest.1))
  }

  /** The outcome of the coarse stages: the best re-scored pair and the
      score of the runner-up (0 when there is none). */
  datatype Ranked = Ranked(top: Option<FullCand>, second: real)

  function RankFull(full: seq<FullCand>): (r: Ranked)
    ensures r.top.None? <==> |full| == 0
    ensures r.top.Some? ==> r.top.value == full[FirstMax(full, FullKey)]
    ensures r.top.Some? ==> forall i | 0 <= i < |full| :: full[i].fused <= r.top.value.fused
    ensures |full| >= 2 ==> r.second <= r.top.value.fused
    ensures |full| < 2 ==> r.second == 0.0
    ensures |full| >= 2 ==> RunnerUp(full, FirstMax(full, FullKey), r.second)
  {
    var ranked := SortDesc(full, FullKey);
    if |ranked| == 0 then Ranked(None, 0.0)
    else
      SortDescHead(full, FullKey);
      var second := if |ranked| > 1 then ranked[1].fused else 0.0;
      if |ranked| > 1 then
        SecondOfRanking(full, ranked, FirstMax(full, FullKey));
        Ranked(Some(ranked[0]), second)
      else Ranked(Some(ranked[0]), second)
  }

  /** `second` is the greatest score among the pairs other than the top
      one at index `m`, and is the score of one of them. */
  predicate RunnerUp(full: seq<FullCand>, m: nat, second: real) {
    && (exists j | 0 <= j < |full| && j != m :: second == full[j].fused)
    && (forall j | 0 <= j < |full| && j != m :: full[j].fused <= second)
  }

  /** Taking the head of a permutation leaves the rest of the input. */
  lemma RestAfterHead<T>(xs: seq<T>, ys: seq<T>, m: nat)
    requires multiset(xs) == multiset(ys) && 0 <= m < |xs| && |ys| > 0 && xs[m] == ys[0]
    ensures multiset(xs[..m] + xs[m + 1..]) == multiset(ys[1..])
  {
    assert xs == xs[..m] + [xs[m]] + xs[m + 1..];
    assert ys == [ys[0]] + ys[1..];
    var a := multiset(xs[..m] + xs[m + 1..]);
    var b := multiset(ys[1..]);
    assert multiset(xs) == multiset(xs[..m]) + multiset([xs[m]]) + multiset(xs[m + 1..]);
    assert a == multiset(xs[..m]) + multiset(xs[m + 1..]);
    assert multiset(ys) == multiset([ys[0]]) + b;
    forall z ensures a[z] == b[z] {
      assert multiset(xs)[z] == multiset(xs[..m])[z] + multiset([xs[m]])[z] + multiset(xs[m + 1..])[z];
      assert multiset(ys)[z] == multiset([ys[0]])[z] + b[z];
    }
  }

  /** The second element of the ranking is the runner-up of the input. */
  lemma SecondOfRanking(full: seq<FullCand>, ranked: seq<FullCand>, m: nat)
    requires |full| >= 2 && ranked == SortDesc(full, FullKey)
    requires m < |full| && ranked[0] == full[m]
    ensures RunnerUp(full, m, ranked[1].fused)
  {
    RestAfterHead(full, ranked, m);
    SecondIsOther(full, ranked[1..], m);
    forall i | 0 <= i < |full| && i != m ensures full[i].fused <= ranked[1].fused {
      OtherIsBelowSecond(full, ranked, m, i);
    }
  }

  /** The head of what remains names an input position other than `m`. */
  lemma SecondIsOther(full: seq<FullCand>, tail: seq<FullCand>, m: nat)
    requires m < |full| && |tail| > 0 && multiset(full[..m] + full[m + 1..]) == multiset(tail)
    ensures exists j | 0 <= j < |full| && j != m :: tail[0].fused == full[j].fused
  {
    var rest := full[..m] + full[m + 1..];
    assert tail[0] in multiset(tail);
    var k :| 0 <= k < |rest| && rest[k] == tail[0];
    var j := if k < m then k else k + 1;
    assert full[j] == rest[k];
  }

  /** Every input other than the head ranks at most second. */
  lemma OtherIsBelowSecond(full: seq<FullCand>, ranked: seq<FullCand>, m: nat, i: nat)
    requires |ranked| >= 2 && SortedDesc(ranked, FullKey)
    requires m < |full| && i < |full| && i != m
    requires multiset(full[..m] + full[m + 1..]) == multiset(ranked[1..])
    ensures full[i].fused <= ranked[1].fused
  {
    var rest := full[..m] + full[m + 1..];
    var ki := if i < m then i else i - 1;
    assert rest[ki] == full[i];
    assert full[i] in multiset(ranked[1..]);
    var q :| 0 <= q < |ranked[1..]| && ranked[1..][q] == full[i];
    if q > 0 {
      assert FullKey(ranked[1]) >= FullKey(ranked[q + 1]);
    }
  }

  /** The pairs kept for the SSIM stage come from the quick stage, so
      each names a loaded stamp and an existing page. */
  lemma FewResolvable(raster: Raster, feats: seq<PageFeatures>, stamps: seq<Stamp>, few: seq<QuickCand>)
    requires ValidStore(stamps)
    requires few == TopFew(Pairs(raster, feats, stamps, 0))
    ensures forall i | 0 <= i < |few| :: Resolvable(few[i], feats, stamps)
  {
    var quick := Pairs(raster, feats, stamps, 0);
    var ranked := SortDesc(quick, QuickCandKey);
    PairsShape(raster, feats, stamps, 0);
    forall i | 0 <= i < |few| ensures Resolvable(few[i], feats, stamps) {
      assert few[i] == ranked[i];
      assert ranked[i] in multiset(ranked);
      assert few[i] in quick;
      var si :| 0 <= si < |stamps| && stamps[si].name == few[i].stamp;
    }
  }

  /** Re-scoring keeps each pair's page and stamp. */
  lemma FullResolvable(raster: Raster, feats: seq<PageFeatures>, stamps: seq<Stamp>, few: seq<QuickCand>, full: seq<FullCand>)
    requires forall i | 0 <= i < |few| :: Resolvable(few[i], feats, stamps)
    requires |full| == |few| && forall i | 0 <= i < |few| :: FullScore(raster, feats, stamps, few[i]) == Ok(full[i])
    ensures forall c | c in full :: c.imgIdx < |feats| && FindStamp(stamps, c.stamp).Some?
  {
    forall c | c in full ensures c.imgIdx < |feats| && FindStamp(stamps, c.stamp).Some? {
      var i :| 0 <= i < |full| && full[i] == c;
      assert FullScore(raster, feats, stamps, few[i]) == Ok(full[i]);
    }
  }

  /** `quickCands.slice(0, COARSE_TOPK_SSIM)` after the sort by quick score:
      the pairs that stage 2 re-scores. */
  function TopFew(quick: seq<QuickCand>): seq<QuickCand> {
    Take(SortDesc(quick, QuickCandKey), CoarseTopKSsim)
  }

  /** `full` holds the SSIM re-score of each pair of `few`, in order. */
  predicate Rescored(raster: Raster, feats: seq<PageFeatures>, stamps: seq<Stamp>, few: seq<QuickCand>, full: seq<FullCand>) {
    && |full| == |few|
    && forall i | 0 <= i < |few| :: Resolvable(few[i], feats, stamps) && FullScore(raster, feats, stamps, few[i]) == Ok(full[i])
  }

  /** Stage 2 and the ranking, over the pairs of stage 1. */
  function SsimStage(raster: Raster, feats: seq<PageFeatures>, stamps: seq<Stamp>, quick: seq<QuickCand>,
                     b: Budget, clock: Clock, t: nat): (r: Result<(Ranked, nat)>)
    requires ValidStore(stamps) && quick == Pairs(raster, feats, stamps, 0)
    ensures r.Ok? ==> t <= r.value.1
    ensures r.Ok? && r.value.0.top.Some? ==>
      && r.value.0.top.value.imgIdx < |feats|
      && FindStamp(stamps, r.value.0.top.value.stamp).Some?
    ensures r.Ok? ==> (r.value.0.top.None? <==> |quick| == 0)
    ensures r.Ok? ==> exists full :: Rescored(raster, feats, stamps, TopFew(quick), full) && r.value.0 == RankFull(full)
    ensures !OpenPolls(b, clock, t, |TopFew(quick)|) ==> r.Err?
  {
    var few := TopFew(quick);
    FewResolvable(raster, feats, stamps, few);
    var full :- FullLoop(raster, feats, stamps, few, b, clock, t);
    FullResolvable(raster, feats, stamps, few, full.0);
    var top := RankFull(full.0);
    assert top.top.Some? ==> top.top.value in full.0;
    assert Rescored(raster, feats, stamps, few, full.0);
    Ok((top, full.1))
  }

  /** A product of naturals is zero exactly when a factor is. */
  lemma ProductZero(x: nat, y: nat)
    ensures x * y == 0 <==> x == 0 || y == 0
  {
    if x > 0 && y > 0 {
      MulPositive(x, y);
    }
  }

  lemma MulPositive(x: nat, y: nat)
    requires x > 0 && y > 0
    ensures x * y > 0
  {
  }

  /** Both coarse stages over the page features. */
  function CoarseStages(raster: Raster, feats: seq<PageFeatures>, stamps: seq<Stamp>,
                        b: Budget, clock: Clock, t: nat): (r: Result<(Ranked, nat)>)
    requires ValidStore(stamps)
    ensures r.Ok? ==> OpenPolls(b, clock, t, |feats| * |stamps|)
    ensures r.Ok? ==> t + |feats| * |stamps| <= r.value.1
    ensures r.Ok? && r.value.0.top.Some? ==>
      && r.value.0.top.value.imgIdx < |feats|
      && FindStamp(stamps, r.value.0.top.value.stamp).Some?
    ensures r.Ok? ==> (r.value.0.top.None? <==> |feats| == 0 || |stamps| == 0)
  {
    var quick :- QuickPages(raster, feats, stamps, 0, b, clock, t);
    PairsShape(raster, feats, stamps, 0);
    ProductZero(|feats|, |stamps|);
    SsimStage(raster, feats, stamps, quick.0, b, clock, quick.1)
  }

  /** The outcome of both stages ranks the SSIM re-scores of the
      `COARSE_TOPK_SSIM` best quick-scored pairs over all pages and stamps. */
  lemma CoarseStagesRescoreTopFew(raster: Raster, feats: seq<PageFeatures>, stamps: seq<Stamp>,
                                  b: Budget, clock: Clock, t: nat)
    requires ValidStore(stamps)
    ensures var r := CoarseStages(raster, feats, stamps, b, clock, t);
      r.Ok? ==> exists full ::
        Rescored(raster, feats, stamps, TopFew(Pairs(raster, feats, stamps, 0)), full) && r.value.0 == RankFull(full)
  {
  }
}

=== FILE: decision.dfy ===
/** The threshold and margin policy that turns coarse scores and the
    refine measurements into a verdict (`fusedDecision` in
    src/services/stamp.service.js). */
module Decision {
  import opened Wrappers
  import opened EnvConfig
  import opened Locator

  /** The refine measurements: the located box and the NCC and SSIM of the
      cropped patch against the stamp. */
  datatype Refined = Refined(box: Option<Box>, ncc: real, ssim: real)

  /** `{ bbox: null, ncc: 0, ssim: 0 }`. */
  const NoRefine := Refined(None, 0.0, 0.0)

  datatype Reason = StrongCoarse | BandedWithRefine | NoMatch

  datatype Decision = Decision(matched: bool, reason: Reason, margin: real)

  /** The refine bars fixed in the code. */
  predicate RefineStrong(r: Refined) {
    r.box.Some? && (r.ncc >= 0.68 || r.ssim >= 0.62)
  }

  /** The refine bars taken from the settings. */
  predicate RefineBand(cfg: StampConfig, r: Refined) {
    r.box.Some? && (r.ncc >= cfg.nccBand || r.ssim >= cfg.ssimBand)
  }

  /** `(top?.fused || 0) - (second?.fused || 0)`. */
  function Margin(top: Option<real>, second: real): real {
    (if top.Some? then top.value else 0.0) - second
  }

  predicate Strong(cfg: StampConfig, top: Option<real>, second: real) {
    top.Some? && top.value >= cfg.thresholdHi && Margin(top, second) >= cfg.marginMin
  }

  predicate Banded(cfg: StampConfig, top: Option<real>, second: real, refined: Refined) {
    && top.Some? && top.value >= cfg.thresholdLo && Margin(top, second) >= cfg.marginLo
    && (RefineStrong(refined) || RefineBand(cfg, refined))
  }

  /** `fusedDecision({ top, second, refined })`, with `top` the best fused
      score (if any) and `second` the runner-up's score or 0. */
  function Decide(cfg: StampConfig, top: Option<real>, second: real, refined: Refined): (d: Decision)
    ensures d.margin == Margin(top, second)
    ensures d.matched <==> d.reason != NoMatch
    ensures d.matched <==> Strong(cfg, top, second) || Banded(cfg, top, second, refined)
    ensures d.reason == StrongCoarse <==> Strong(cfg, top, second)
    ensures top.None? ==> !d.matched
    ensures d.matched ==> top.Some? && (top.value >= cfg.thresholdHi || top.value >= cfg.thresholdLo)
    ensures d.reason == BandedWithRefine ==> refined.box.Some?
  {
    var margin := Margin(top, second);
    if Strong(cfg, top, second) then Decision(true, StrongCoarse, margin)
    else if Banded(cfg, top, second, refined) then Decision(true, BandedWithRefine, margin)
    else Decision(false, NoMatch, margin)
  }

  /** A higher top score, with the runner-up and refine measurements fixed,
      never turns a match into no match; nor does a lower runner-up. */
  lemma DecideMonotone(cfg: StampConfig, top: real, top2: real, second: real, second2: real, refined: Refined)
    requires top <= top2 && second2 <= second
    ensures Decide(cfg, Some(top), second, refined).matched ==> Decide(cfg, Some(top2), second2, refined).matched
  {
  }

  /** Better refine measurements never turn a match into no match, and the
      strong-coarse verdict does not depend on them at all. */
  lemma DecideRefineMonotone(cfg: StampConfig, top: Option<real>, second: real, r: Refined, r2: Refined)
    requires r.box.Some? ==> r2.box.Some?
    requires r.ncc <= r2.ncc && r.ssim <= r2.ssim
    ensures Decide(cfg, top, second, r).matched ==> Decide(cfg, top, second, r2).matched
    ensures Decide(cfg, top, second, r).reason == StrongCoarse <==> Decide(cfg, top, second, r2).reason == StrongCoarse
  {
  }

  /** Without a refine box only the strong-coarse verdict can match. */
  lemma NoBoxNeedsStrong(cfg: StampConfig, top: Option<real>, second: real, r: Refined)
    requires r.box.None?
    ensures Decide(cfg, top, second, r).matched <==> Decide(cfg, top, second, r).reason == StrongCoarse
  {
  }

  /** Under the default settings the code's fixed refine bars lie above the
      configurable ones, so a strong refine is always a banded one. */
  lemma DefaultStrongIsBanded(r: Refined)
    requires RefineStrong(r)
    ensures RefineBand(LoadStampConfig(map[]), r)
  {
  }
}

=== FILE: detector.dfy ===
/** One detection run and the public entry point (`runDetectionOnImages`
    and `detectStampOnBuffer` in src/services/stamp.service.js): page
    features, the coarse stages, an optional refine step that locates the
    stamp and measures the located patch, the decision, and for PDFs a
    second pass over rendered pages. */
module Detector {
  import opened Wrappers
  import opened Text
  import opened Budget
  import opened StampHash
  import opened StampRaster
  import opened EnvConfig
  import opened StampStore
  import opened Coarse
  import opened Locator
  import opened Decision
  import opened Normalizer

  const FeatureBudgetMsg := "Budget after feature precompute"

  /** `/budget/i.test(msg)`. */
  predicate MentionsBudget(msg: string) {
    Contains(Lower(msg), "budget")
  }

  /** The locator's own budget messages are recognised as budget errors. */
  lemma LocatorMessagesMentionBudget()
    ensures MentionsBudget(LocatorBudgetMsg) && MentionsBudget(LocatorRefineBudgetMsg)
  {
    var l := Lower(LocatorBudgetMsg);
    var m := Lower(LocatorRefineBudgetMsg);
    assert l[8..14] == "budget";
    assert OccursAt(l, "budget", 8);
    assert m[15..21] == "budget";
    assert OccursAt(m, "budget", 15);
  }

  /** NCC and SSIM of the patch under `box` against the stamp's base image.
      Any failure (the crop or either measure) abandons the refine. */
  function Measure(raster: Raster, img: Image, st: Stamp, box: Box): (r: Refined)
    ensures r == NoRefine || (r.box == Some(box) && 0.0 <= r.ncc <= 1.0 && 0.0 <= r.ssim <= 1.0)
    ensures r.box.Some? <==>
      && raster.extract(img, box.x, box.y, box.w, box.h).Ok?
      && Ncc(raster, raster.extract(img, box.x, box.y, box.w, box.h).value, st.base).Ok?
      && Ssim(raster, raster.extract(img, box.x, box.y, box.w, box.h).value, st.base).Ok?
  {
    match raster.extract(img, box.x, box.y, box.w, box.h)
    case Err(_) => NoRefine
    case Ok(patch) =>
      match (Ncc(raster, patch, st.base), Ssim(raster, patch, st.base))
      case (Ok(n), Ok(s)) => Refined(Some(box), n, s)
      case _ => NoRefine
  }

  /** The refine step for the top pair: locate the stamp from its base
      variant's edge descriptor, then measure the located patch. Locator
      failures that mention the budget are absorbed; others propagate. */
  function RefineStep(raster: Raster, imgs: seq<Image>, stamps: seq<Stamp>, top: FullCand,
                      b: Budget, clock: Clock, t: nat): (r: Polled<Refined>)
    requires ValidStore(stamps) && top.imgIdx < |imgs| && FindStamp(stamps, top.stamp).Some?
    ensures t <= r.t
    ensures
      var st := stamps[FindStamp(stamps, top.stamp).value];
      var loc := Locate(raster, imgs[top.imgIdx], st.refs[0].edge, b, clock, t);
      && r.t == loc.t
      && (loc.res.Err? && MentionsBudget(loc.res.error) ==> r.res == Ok(NoRefine))
      && (loc.res.Err? && !MentionsBudget(loc.res.error) ==> r.res == Err(loc.res.error))
      && (loc.res.Ok? ==> r.res.Ok?)
      && (loc.res.Ok? && loc.res.value.box.None? ==> r.res == Ok(NoRefine))
      && (r.res.Ok? && r.res.value.box.Some? ==> loc.res.Ok? && r.res.value.box == loc.res.value.box)
  {
    var st := stamps[FindStamp(stamps, top.stamp).value];
    var loc := Locate(raster, imgs[top.imgIdx], st.refs[0].edge, b, clock, t);
    if loc.res.Err? then
      if MentionsBudget(loc.res.error) then Polled(Ok(NoRefine), loc.t)
      else Polled(Err(loc.res.error), loc.t)
    else if loc.res.value.box.None? then Polled(Ok(NoRefine), loc.t)
    else Polled(Ok(Measure(raster, imgs[top.imgIdx], st, loc.res.value.box.value)), loc.t)
  }

  /** The refine stage behind its gate `top && top.fused >=
      PRELOC_THRESHOLD && budget.remain() > 300`; the clock is only polled
      when the first two conditions hold. */
  function RefineIfWorth(raster: Raster, imgs: seq<Image>, stamps: seq<Stamp>, ranked: Ranked,
                         b: Budget, clock: Clock, t: nat): (r: Polled<Refined>)
    requires ValidStore(stamps)
    requires ranked.top.Some? ==> ranked.top.value.imgIdx < |imgs| && FindStamp(stamps, ranked.top.value.stamp).Some?
    ensures t <= r.t
    ensures ranked.top.None? || ranked.top.value.fused < PrelocThreshold ==> r == Polled(Ok(NoRefine), t)
    ensures r.res.Ok? && r.res.value.box.Some? ==>
      ranked.top.Some? && ranked.top.value.fused >= PrelocThreshold && Remain(b, clock.at(t)) > 300.0
    ensures ranked.top.Some? && ranked.top.value.fused >= PrelocThreshold && Remain(b, clock.at(t)) > 300.0 ==>
      r == RefineStep(raster, imgs, stamps, ranked.top.value, b, clock, t + 1)
  {
    if ranked.top.None? || ranked.top.value.fused < PrelocThreshold then Polled(Ok(NoRefine), t)
    else if Remain(b, clock.at(t)) <= 300.0 then Polled(Ok(NoRefine), t + 1)
    else RefineStep(raster, imgs, stamps, ranked.top.value, b, clock, t + 1)
  }

  function TopScore(ranked: Ranked): Option<real> {
    if ranked.top.Some? then Some(ranked.top.value.fused) else None
  }

  datatype RunResult = RunResult(decision: Decision, top: Option<FullCand>, second: real, refined: Refined)

  /** `runDetectionOnImages(imgs, budget)`. */
  function RunDetection(raster: Raster, cfg: StampConfig, stamps: seq<Stamp>, imgs: seq<Image>,
                        b: Budget, clock: Clock, t: nat): (r: Result<(RunResult, nat)>)
    requires ValidStore(stamps)
    ensures r.Ok? ==> t < r.value.1
    ensures r.Ok? ==> (r.value.0.top.None? <==> |imgs| == 0 || |stamps| == 0)
    ensures r.Ok? ==> r.value.0.top.None? || r.value.0.top.value.imgIdx < |imgs|
    ensures r.Ok? && r.value.0.refined.box.Some? ==>
      r.value.0.top.Some? && r.value.0.top.value.fused >= PrelocThreshold
    ensures r.Ok? ==>
      r.value.0.decision == Decide(cfg, if r.value.0.top.Some? then Some(r.value.0.top.value.fused) else None,
             r.value.0.second, r.value.0.refined)
    ensures MapAll(imgs, img => PageFeaturesOf(raster, img)).Ok? && Over(b, clock.at(t)) ==> r == Err(FeatureBudgetMsg)
  {
    var feats :- MapAll(imgs, img => PageFeaturesOf(raster, img));
    var _ :- Ensure(b, clock.at(t), FeatureBudgetMsg);
    RunOnFeatures(raster, cfg, stamps, imgs, feats, b, clock, t + 1)
  }

  /** The run after the page features are computed: the coarse stages,
      the refinement when worth it, and the decision. */
  function RunOnFeatures(raster: Raster, cfg: StampConfig, stamps: seq<Stamp>, imgs: seq<Image>,
                         feats: seq<PageFeatures>, b: Budget, clock: Clock, t: nat): (r: Result<(RunResult, nat)>)
    requires ValidStore(stamps) && |feats| == |imgs|
    ensures r.Ok? ==> t <= r.value.1
    ensures r.Ok? ==> (r.value.0.top.None? <==> |imgs| == 0 || |stamps| == 0)
    ensures r.Ok? ==> r.value.0.top.None? || r.value.0.top.value.imgIdx < |imgs|
    ensures r.Ok? && r.value.0.refined.box.Some? ==>
      r.value.0.top.Some? && r.value.0.top.value.fused >= PrelocThreshold
    ensures r.Ok? ==>
      r.value.0.decision == Decide(cfg, if r.value.0.top.Some? then Some(r.value.0.top.value.fused) else None,
             r.value.0.second, r.value.0.refined)
  {
    var coarse :- CoarseStages(raster, feats, stamps, b, clock, t);
    Conclude(raster, cfg, stamps, imgs, coarse.0, b, clock, coarse.1)
  }

  /** The refinement when worth it and the decision on the ranked pairs. */
  function Conclude(raster: Raster, cfg: StampConfig, stamps: seq<Stamp>, imgs: seq<Image>, ranked: Ranked,
                    b: Budget, clock: Clock, t: nat): (r: Result<(RunResult, nat)>)
    requires ValidStore(stamps)
    requires ranked.top.Some? ==> ranked.top.value.imgIdx < |imgs| && FindStamp(stamps, ranked.top.value.stamp).Some?
    ensures r.Ok? ==> t <= r.value.1 && r.value.0.top == ranked.top && r.value.0.second == ranked.second
    ensures r.Ok? && r.value.0.refined.box.Some? ==>
      ranked.top.Some? && ranked.top.value.fused >= PrelocThreshold
    ensures r.Ok? ==> r.value.0.decision == Decide(cfg, TopScore(ranked), ranked.second, r.value.0.refined)
  {
    var refinedAt := RefineIfWorth(raster, imgs, stamps, ranked, b, clock, t);
    var refined :- refinedAt.res;
    Ok((RunResult(Decide(cfg, TopScore(ranked), ranked.second, refined), ranked.top, ranked.second, refined), refinedAt.t))
  }

  // ------------------------------------------------------------ entry point

  /** The libraries a detection calls on. */
  datatype Libs = Libs(raster: Raster, pdf: PdfLib, zip: ZipLib)

  datatype Note = NoStampsLoaded | NoImagesFound | Verdict(reason: Reason, hi: real, lo: real)

  /** The response of `detectStampOnBuffer`, without the elapsed time and
      with scores not rounded to three decimals. */
  datatype Detection =
    | Detected(matched: bool, score: real, page: Option<nat>, stamp: Option<string>, margin: real,
               box: Option<Box>, ncc: real, ssim: real, note: Note)
    | DetectFailed(error: string)

  /** The soft answer with nothing found. */
  function Soft(note: Note): Detection {
    Detected(false, 0.0, None, None, 0.0, None, 0.0, 0.0, note)
  }

  /** The final report built from a run: the reported margin is the top
      score itself, not the decision margin. */
  function Report(cfg: StampConfig, run: RunResult): (d: Detection)
    ensures d.Detected? && d.margin == d.score && d.page.Some? && d.page.value >= 1
    ensures d.matched == run.decision.matched
    ensures d.note == Verdict(run.decision.reason, cfg.thresholdHi, cfg.thresholdLo)
    ensures run.top.None? ==> d.score == 0.0 && d.page == Some(1) && d.stamp.None?
    ensures d.stamp.Some? ==> run.top.Some? && d.stamp.value == run.top.value.stamp && d.stamp.value != ""
    ensures d.box == run.refined.box
  {
    var score := if run.top.Some? then run.top.value.fused else 0.0;
    var page := (if run.top.Some? then run.top.value.imgIdx else 0) + 1;
    var stamp := if run.top.Some? && run.top.value.stamp != "" then Some(run.top.value.stamp) else None;
    Detected(run.decision.matched, score, Some(page), stamp, score, run.refined.box,
             run.refined.ncc, run.refined.ssim, Verdict(run.decision.reason, cfg.thresholdHi, cfg.thresholdLo))
  }

  /** The PDF test of the second-pass gate. */
  predicate LooksPdf(buf: Bytes, mime: Option<string>) {
    IsPdf(buf) || Contains(mime.GetOr(""), "pdf")
  }

  /** The second pass over rendered pages: its result when it completes on
      at least one page, nothing when anything fails. */
  function SecondPass(libs: Libs, cfg: StampConfig, stamps: seq<Stamp>, buf: Bytes,
                      b: Budget, clock: Clock, t: nat): (r: Option<RunResult>)
    requires ValidStore(stamps)
  {
    match RenderPdfPages(libs.pdf, cfg, buf)
    case Err(_) => None
    case Ok(renders) =>
      match MapAll(renders, libs.raster.normalize)
      case Err(_) => None
      case Ok(norm) =>
        if |norm| == 0 then None
        else match RunDetection(libs.raster, cfg, stamps, norm, b, clock, t)
          case Err(_) => None
          case Ok(run) => Some(run.0)
  }

  /** What follows a completed first pass: the report of the first pass,
      unless a PDF that did not match still has more than 600 ms left, in
      which case a completed second pass replaces it. */
  function AfterFirstPass(libs: Libs, cfg: StampConfig, stamps: seq<Stamp>, buf: Bytes, mime: Option<string>,
                          b: Budget, clock: Clock, run: RunResult, t: nat): (d: Detection)
    requires ValidStore(stamps)
    ensures run.decision.matched || !LooksPdf(buf, mime) ==> d == Report(cfg, run)
    ensures d != Report(cfg, run) ==>
      && SecondPass(libs, cfg, stamps, buf, b, clock, t + 1).Some?
      && d == Report(cfg, SecondPass(libs, cfg, stamps, buf, b, clock, t + 1).value)
    ensures LooksPdf(buf, mime) && !run.decision.matched && Remain(b, clock.at(t)) > 600.0
            && SecondPass(libs, cfg, stamps, buf, b, clock, t + 1).Some? ==>
      d == Report(cfg, SecondPass(libs, cfg, stamps, buf, b, clock, t + 1).value)
    ensures d.Detected? && d.note.Verdict? && d.margin == d.score && d.page.Some? && d.page.value >= 1
    ensures d.box.Some? ==> d.note.Verdict?
    ensures (run.decision.matched ==> run.decision.reason != NoMatch) ==> (d.matched ==> d.note.reason != NoMatch)
  {
    var retry := LooksPdf(buf, mime) && !run.decision.matched;
    if !retry || Remain(b, clock.at(t)) <= 600.0 then Report(cfg, run)
    else match SecondPass(libs, cfg, stamps, buf, b, clock, t + 1)
      case None => Report(cfg, run)
      case Some(run2) => Report(cfg, run2)
  }

  /** `detectStampOnBuffer(buf, mime)` with the stamps already loaded.
      Clock poll 0 is the start time and poll 1 starts the budget. */
  function Detect(libs: Libs, cfg: StampConfig, stamps: seq<Stamp>, buf: Bytes, mime: Option<string>,
                  clock: Clock): (d: Detection)
    requires ValidStore(stamps)
    ensures |stamps| == 0 ==> d == Soft(NoStampsLoaded)
    ensures d.Detected? && d.matched ==> d.note.Verdict? && d.note.reason != NoMatch
    ensures d.Detected? && d.note.Verdict? ==> d.margin == d.score && d.page.Some? && d.page.value >= 1
    ensures d.Detected? && d.box.Some? ==> d.note.Verdict?
  {
    var b := MakeBudget(cfg.timeBudgetMs, clock.at(1));
    if |stamps| == 0 then Soft(NoStampsLoaded)
    else match NormalizeToImages(libs.pdf, libs.zip, libs.raster, cfg, buf, mime, b, clock, 2)
      case Err(e) => DetectFailed(e)
      case Ok(normalized) =>
        var (imgs, t) := normalized;
        if |imgs| == 0 then Soft(NoImagesFound)
        else match RunDetection(libs.raster, cfg, stamps, imgs, b, clock, t)
          case Err(e) => DetectFailed(e)
          case Ok(first) => AfterFirstPass(libs, cfg, stamps, buf, mime, b, clock, first.0, first.1)
  }

  /** A first pass that matched is reported as it stands: the second pass
      only runs after a miss. */
  lemma FirstMatchStands(libs: Libs, cfg: StampConfig, stamps: seq<Stamp>, buf: Bytes, mime: Option<string>,
                         clock: Clock, imgs: seq<Image>, t: nat, run: RunResult, t2: nat)
    requires ValidStore(stamps) && |stamps| > 0
    requires NormalizeToImages(libs.pdf, libs.zip, libs.raster, cfg, buf, mime,
                               MakeBudget(cfg.timeBudgetMs, clock.at(1)), clock, 2) == Ok((imgs, t))
    requires |imgs| > 0
    requires RunDetection(libs.raster, cfg, stamps, imgs, MakeBudget(cfg.timeBudgetMs, clock.at(1)), clock, t) == Ok((run, t2))
    requires run.decision.matched
    ensures Detect(libs, cfg, stamps, buf, mime, clock) == Report(cfg, run)
  {
  }

  /** A second pass that completes replaces the first result, even when the
      first pass scored higher. */
  lemma SecondPassReplaces(libs: Libs, cfg: StampConfig, stamps: seq<Stamp>, buf: Bytes, mime: Option<string>,
                           clock: Clock, imgs: seq<Image>, t: nat, run: RunResult, t2: nat, run2: RunResult)
    requires ValidStore(stamps) && |stamps| > 0
    requires NormalizeToImages(libs.pdf, libs.zip, libs.raster, cfg, buf, mime,
                               MakeBudget(cfg.timeBudgetMs, clock.at(1)), clock, 2) == Ok((imgs, t))
    requires |imgs| > 0
    requires RunDetection(libs.raster, cfg, stamps, imgs, MakeBudget(cfg.timeBudgetMs, clock.at(1)), clock, t) == Ok((run, t2))
    requires LooksPdf(buf, mime) && !run.decision.matched
    requires Remain(MakeBudget(cfg.timeBudgetMs, clock.at(1)), clock.at(t2)) > 600.0
    requires SecondPass(libs, cfg, stamps, buf, MakeBudget(cfg.timeBudgetMs, clock.at(1)), clock, t2 + 1) == Some(run2)
    ensures Detect(libs, cfg, stamps, buf, mime, clock) == Report(cfg, run2)
  {
  }

  /** Errors of the first pass, the budget's included, end the detection
      with `success: false` and the error's message. */
  lemma FirstPassErrorFails(libs: Libs, cfg: StampConfig, stamps: seq<Stamp>, buf: Bytes, mime: Option<string>,
                            clock: Clock, imgs: seq<Image>, t: nat, e: string)
    requires ValidStore(stamps) && |stamps| > 0
    requires NormalizeToImages(libs.pdf, libs.zip, libs.raster, cfg, buf, mime,
                               MakeBudget(cfg.timeBudgetMs, clock.at(1)), clock, 2) == Ok((imgs, t))
    requires |imgs| > 0
    requires RunDetection(libs.raster, cfg, stamps, imgs, MakeBudget(cfg.timeBudgetMs, clock.at(1)), clock, t) == Err(e)
    ensures Detect(libs, cfg, stamps, buf, mime, clock) == DetectFailed(e)
  {
  }

  /** A document that yields no page images gets the soft answer. */
  lemma NoImagesIsSoft(libs: Libs, cfg: StampConfig, stamps: seq<Stamp>, buf: Bytes, mime: Option<string>,
                       clock: Clock, t: nat)
    requires ValidStore(stamps) && |stamps| > 0
    requires NormalizeToImages(libs.pdf, libs.zip, libs.raster, cfg, buf, mime,
                               MakeBudget(cfg.timeBudgetMs, clock.at(1)), clock, 2) == Ok(([], t))
    ensures Detect(libs, cfg, stamps, buf, mime, clock) == Soft(NoImagesFound)
  {
  }
}

=== FILE: doc_record.dfy ===
/** The `DocRequest` record and the updates src/services/doc-request.service.js
    performs on it: the CASE-based status update, the JSONB merge of the
    file and classification columns, and the insert of a new request.
    Times are the value of `NOW()`, passed in. */
module DocRecord {
  import opened Wrappers
  import opened Text
  import opened JsNumber
  import opened DocStatus

  type Time = int

  /** A JSON value of a JSONB column. */
  datatype Json = JNull | JBool(b: bool) | JNumber(n: real) | JString(s: string) | JList(items: seq<Json>) | JObject(fields: map<string, Json>)

  predicate JsonTruthy(v: Json) {
    match v
    case JNull => false
    case JBool(b) => b
    case JNumber(n) => n != 0.0
    case JString(s) => s != ""
    case _ => true
  }

  type JsonObject = map<string, Json>

  datatype DocRow = DocRow(
    id: int,
    fromUserId: int,
    purpose: string,
    description: string,
    requestNo: string,
    status: Status,
    assignedDepartmentId: Option<int>,
    dateRequested: Time,
    dateAssigned: Option<Time>,
    dateProcessStarted: Option<Time>,
    dateProcessEnd: Option<Time>,
    dateCompleted: Option<Time>,
    dateClosed: Option<Time>,
    dateLastUpdated: Option<Time>,
    rejectReason: Option<string>,
    cancelReason: Option<string>,
    documentFile: Option<JsonObject>,
    classification: Option<JsonObject>)

  /** `docRequest?.documentFile?.publicId` is truthy. */
  predicate HasFile(row: DocRow) {
    row.documentFile.Some? && "publicId" in row.documentFile.value && JsonTruthy(row.documentFile.value["publicId"])
  }

  // ------------------------------------------------------------ insertion

  /** `createDocRequest`: the inserted row, with `NOW()` as the request
      date; the request number is assigned by the database. */
  function CreateRow(id: int, fromUserId: int, departmentId: int, purpose: string, status: Status,
                     description: string, requestNo: string, now: Time): (r: DocRow)
    ensures r.status == status && r.dateRequested == now && r.assignedDepartmentId == Some(departmentId)
    ensures r.dateAssigned.None? && r.dateClosed.None? && r.dateCompleted.None?
    ensures r.rejectReason.None? && r.cancelReason.None? && r.documentFile.None?
  {
    DocRow(id, fromUserId, purpose, description, requestNo, status, Some(departmentId), now,
           None, None, None, None, None, None, None, None, None, None)
  }

  // ---------------------------------------------------- the status update

  /** PostgreSQL's `int4` input: optional surrounding whitespace, an
      optional sign and decimal digits, within 32 bits. */
  function PgInt(text: string): (r: Option<int>)
    ensures r.Some? ==> -0x8000_0000 <= r.value < 0x8000_0000
    ensures r.Some? ==> IsIntText(Trim(text)) && r.value == IntTextValue(Trim(text))
  {
    var t := Trim(text);
    if IsIntText(t) && -0x8000_0000 <= IntTextValue(t) < 0x8000_0000 then Some(IntTextValue(t)) else None
  }

  function InvalidIntegerMsg(text: string): string {
    "invalid input syntax for type integer: \"" + text + "\""
  }

  /** The columns the status update may write. */
  datatype Column =
    | StatusCol | AssignedDepartmentCol | DateAssignedCol | DateProcessStartedCol | DateProcessEndCol
    | DateCompletedCol | DateClosedCol | RejectReasonCol | CancelReasonCol | DateLastUpdatedCol

  /** The columns the statement assigns for a new status: the status and
      the update time always; department and assignment date on approval;
      the start on processing; both end dates on completion; the closing
      date on closing, rejection and cancellation; the two reasons for every
      status but `PENDING`. */
  function Touched(s: Status): set<Column> {
    {StatusCol, DateLastUpdatedCol}
    + (if s == Approved then {AssignedDepartmentCol, DateAssignedCol} else {})
    + (if s == Processing then {DateProcessStartedCol} else {})
    + (if s == Completed then {DateProcessEndCol, DateCompletedCol} else {})
    + (if s in {Closed, Rejected, Cancelled} then {DateClosedCol} else {})
    + (if s != Pending then {RejectReasonCol, CancelReasonCol} else {})
  }

  /** Two rows agree on one column. */
  predicate SameColumn(a: DocRow, b: DocRow, c: Column) {
    match c
    case StatusCol => a.status == b.status
    case AssignedDepartmentCol => a.assignedDepartmentId == b.assignedDepartmentId
    case DateAssignedCol => a.dateAssigned == b.dateAssigned
    case DateProcessStartedCol => a.dateProcessStarted == b.dateProcessStarted
    case DateProcessEndCol => a.dateProcessEnd == b.dateProcessEnd
    case DateCompletedCol => a.dateCompleted == b.dateCompleted
    case DateClosedCol => a.dateClosed == b.dateClosed
    case RejectReasonCol => a.rejectReason == b.rejectReason
    case CancelReasonCol => a.cancelReason == b.cancelReason
    case DateLastUpdatedCol => a.dateLastUpdated == b.dateLastUpdated
  }

  /** Two rows agree on every column the status update never writes. */
  predicate SameIdentity(a: DocRow, b: DocRow) {
    && a.id == b.id && a.fromUserId == b.fromUserId && a.purpose == b.purpose
    && a.description == b.description && a.requestNo == b.requestNo
    && a.dateRequested == b.dateRequested
    && a.documentFile == b.documentFile && a.classification == b.classification
  }

  /** The CASE statement applied to a row, with the `$3` parameter already
      read as an integer (or `NULL`) and `$4` the reason parameter. */
  function ApplyStatus(row: DocRow, s: Status, dept: Option<int>, reason: Option<string>, now: Time): (r: DocRow)
    ensures SameIdentity(row, r)
    ensures forall c: Column | c !in Touched(s) :: SameColumn(row, r, c)
    ensures r.status == s && r.dateLastUpdated == Some(now)
    ensures s == Approved ==> r.assignedDepartmentId == dept && r.dateAssigned == Some(now)
    ensures s == Processing ==> r.dateProcessStarted == Some(now)
    ensures s == Completed ==> r.dateProcessEnd == Some(now) && r.dateCompleted == Some(now)
    ensures s in {Closed, Rejected, Cancelled} ==> r.dateClosed == Some(now)
    ensures s != Pending ==> r.rejectReason == (if s == Rejected then reason else None)
    ensures s != Pending ==> r.cancelReason == (if s == Cancelled then reason else None)
  {
    row.(
      status := s,
      assignedDepartmentId := if s == Approved then dept else row.assignedDepartmentId,
      dateAssigned := if s == Approved then Some(now) else row.dateAssigned,
      dateProcessStarted := if s == Processing then Some(now) else row.dateProcessStarted,
      dateProcessEnd := if s == Completed then Some(now) else row.dateProcessEnd,
      dateCompleted := if s == Completed then Some(now) else row.dateCompleted,
      dateClosed := if s in {Closed, Rejected, Cancelled} then Some(now) else row.dateClosed,
      rejectReason := if s == Rejected then reason else if s != Pending then None else row.rejectReason,
      cancelReason := if s == Cancelled then reason else if s != Pending then None else row.cancelReason,
      dateLastUpdated := Some(now))
  }

  /** `updateDocRequestStatus(id, status, assignedDepartmentId, reason)`:
      `$3` is cast with `::int` when the parameters are bound, so a text
      that is not an integer fails the statement whatever the status. */
  function UpdateDocRequestStatus(row: DocRow, s: Status, deptParam: Option<string>, reason: Option<string>, now: Time): (r: Result<DocRow>)
    ensures r.Err? <==> deptParam.Some? && PgInt(deptParam.value).None?
    ensures r.Ok? ==> r.value == ApplyStatus(row, s, if deptParam.Some? then PgInt(deptParam.value) else None, reason, now)
  {
    match deptParam
    case None => Ok(ApplyStatus(row, s, None, reason, now))
    case Some(text) =>
      match PgInt(text)
      case None => Err(InvalidIntegerMsg(text))
      case Some(n) => Ok(ApplyStatus(row, s, Some(n), reason, now))
  }

  /** The dates of a request are in life-cycle order. */
  predicate DatesOrdered(row: DocRow) {
    && (row.dateAssigned.Some? ==> row.dateRequested <= row.dateAssigned.value)
    && (row.dateProcessStarted.Some? ==> row.dateAssigned.Some? && row.dateAssigned.value <= row.dateProcessStarted.value)
    && (row.dateCompleted.Some? ==> row.dateProcessStarted.Some? && row.dateProcessStarted.value <= row.dateCompleted.value)
    && (row.dateClosed.Some? && row.status == Closed ==> row.dateCompleted.Some? && row.dateCompleted.value <= row.dateClosed.value)
    && (row.dateLastUpdated.Some? ==> row.dateRequested <= row.dateLastUpdated.value)
  }

  /** Every move of the life cycle, applied no earlier than the previous
      update, keeps the dates in order. */
  lemma ApplyKeepsDatesOrdered(row: DocRow, s: Status, dept: Option<int>, reason: Option<string>, now: Time)
    requires DatesOrdered(row)
    requires row.dateLastUpdated.Some? ==> row.dateLastUpdated.value <= now
    requires row.dateRequested <= now
    requires row.dateAssigned.Some? ==> row.dateAssigned.value <= now
    requires row.dateProcessStarted.Some? ==> row.dateProcessStarted.value <= now
    requires row.dateCompleted.Some? ==> row.dateCompleted.value <= now
    requires || (row.status == Pending && s in {Approved, Cancelled, Rejected})
             || (row.status == Approved && s == Processing)
             || (row.status == Processing && s == Completed)
             || (row.status == Completed && s == Closed)
    requires s == Approved ==> row.dateProcessStarted.None?
    requires s == Processing ==> row.dateAssigned.Some? && row.dateCompleted.None?
    requires s == Completed ==> row.dateProcessStarted.Some?
    requires s == Closed ==> row.dateCompleted.Some?
    ensures DatesOrdered(ApplyStatus(row, s, dept, reason, now))
  {
  }

  /** A request created at `t0` and taken through approval, processing,
      completion and closing at non-decreasing times ends with its dates in
      order, each date the time of its own step. */
  lemma {:induction false} LifeCycleDates(row0: DocRow, dept: int, t1: Time, t2: Time, t3: Time, t4: Time)
    requires row0.status == Pending && DatesOrdered(row0)
    requires row0.dateAssigned.None? && row0.dateProcessStarted.None? && row0.dateCompleted.None?
    requires row0.dateLastUpdated.None?
    requires row0.dateRequested <= t1 <= t2 <= t3 <= t4
    ensures var r1 := ApplyStatus(row0, Approved, Some(dept), None, t1);
            var r2 := ApplyStatus(r1, Processing, None, None, t2);
            var r3 := ApplyStatus(r2, Completed, None, None, t3);
            var r4 := ApplyStatus(r3, Closed, None, None, t4);
            && DatesOrdered(r4)
            && r4.dateAssigned == Some(t1) && r4.dateProcessStarted == Some(t2)
            && r4.dateCompleted == Some(t3) && r4.dateClosed == Some(t4)
            && r4.assignedDepartmentId == Some(dept) && r4.status == Closed
  {
    var r1 := ApplyStatus(row0, Approved, Some(dept), None, t1);
    ApplyKeepsDatesOrdered(row0, Approved, Some(dept), None, t1);
    var r2 := ApplyStatus(r1, Processing, None, None, t2);
    ApplyKeepsDatesOrdered(r1, Processing, None, None, t2);
    var r3 := ApplyStatus(r2, Completed, None, None, t3);
    ApplyKeepsDatesOrdered(r2, Completed, None, None, t3);
    var r4 := ApplyStatus(r3, Closed, None, None, t4);
    ApplyKeepsDatesOrdered(r3, Closed, None, None, t4);
  }

  // ---------------------------------------------------------- JSONB merge

  /** `COALESCE(column, '{}'::jsonb) || value` for objects: the new keys
      win and the others are kept. */
  function MergeObject(existing: Option<JsonObject>, update: JsonObject): (r: JsonObject)
    ensures r.Keys == update.Keys + (if existing.Some? then existing.value.Keys else {})
    ensures forall k | k in update :: r[k] == update[k]
    ensures existing.Some? ==> forall k | k in existing.value && k !in update :: r[k] == existing.value[k]
  {
    existing.GetOr(map[]) + update
  }

  /** `updateDocRequestFile`: both JSON columns merged, nothing else
      changed. */
  function UpdateDocRequestFile(row: DocRow, file: JsonObject, classification: JsonObject): (r: DocRow)
    ensures r == row.(documentFile := r.documentFile, classification := r.classification)
    ensures r.documentFile.Some? && r.classification.Some?
    ensures r.documentFile.value.Keys == file.Keys + (if row.documentFile.Some? then row.documentFile.value.Keys else {})
    ensures r.classification.value.Keys ==
      classification.Keys + (if row.classification.Some? then row.classification.value.Keys else {})
    ensures forall k | k in file :: r.documentFile.value[k] == file[k]
    ensures forall k | k in classification :: r.classification.value[k] == classification[k]
    ensures row.documentFile.Some? ==>
      forall k | k in row.documentFile.value && k !in file :: r.documentFile.value[k] == row.documentFile.value[k]
    ensures row.classification.Some? ==>
      forall k | k in row.classification.value && k !in classification ::
        r.classification.value[k] == row.classification.value[k]
  {
    row.(documentFile := Some(MergeObject(row.documentFile, file)),
         classification := Some(MergeObject(row.classification, classification)))
  }

  /** Merging the same object twice changes nothing more. */
  lemma MergeIdempotent(existing: Option<JsonObject>, update: JsonObject)
    ensures MergeObject(Some(MergeObject(existing, update)), update) == MergeObject(existing, update)
  {
  }

  /** An uploaded file with a truthy `publicId` is recorded as present. */
  lemma UploadRecordsFile(row: DocRow, file: JsonObject, classification: JsonObject)
    requires "publicId" in file && JsonTruthy(file["publicId"])
    ensures HasFile(UpdateDocRequestFile(row, file, classification))
  {
  }
}

=== FILE: doc_request_ctl.dfy ===
/** The request handlers of src/controllers/doc-request.controller.js that
    decide something: `create`, `updateStatus` and `upload`. The database,
    the department directory and the notification cache are an immutable
    `World`; a handler returns the new world and the notifications it
    inserts, or the message of its 400 reply. */
module DocRequestCtl {
  import opened Wrappers
  import opened Text
  import opened JsNumber
  import opened DocStatus
  import opened Body
  import opened StatusRoutes
  import opened StatusGuard
  import opened DocRecord
  import opened NotifTemplates
  import opened Notifications
  import opened NotifCache
  import opened Detector

  const NotFoundMsg := "Document request not found"
  const MissingUserMsg := "Missing fromUserId params"
  const MissingDepartmentMsg := "Missing assignedDepartmentId params"
  const NotificationKind := "DOC_REQUEST"

  /** What the handlers read and write: the request rows by id, the known
      users, the departments by id with their names, the users of each
      department, and the notification cache. The two lookup-failure texts
      come from constant files that are not part of this model. */
  datatype World = World(
    rows: map<int, DocRow>,
    users: set<int>,
    departments: map<int, string>,
    members: map<int, seq<int>>,
    cache: Cache,
    userNotFoundMsg: string,
    departmentNotFoundMsg: string)

  /** A successful handler: the new world, the affected row and the
      notifications inserted (none when the list is empty). */
  datatype Outcome = Outcome(world: World, row: DocRow, sent: seq<Notification>)

  /** `getAllUserByDepartment(departmentId)`: no one for a missing
      department. */
  function DepartmentUsers(w: World, dept: Option<int>): seq<int> {
    if dept.Some? && dept.value in w.members then w.members[dept.value] else []
  }

  /** `docRequest.assignedDepartment.name` as a replacement text: the join
      yields `null` when the department is missing. */
  function DepartmentName(w: World, dept: Option<int>): string {
    if dept.Some? && dept.value in w.departments then w.departments[dept.value] else "null"
  }

  /** One notification per recipient, all with the same texts. */
  function NotifyAll(users: seq<int>, title: string, description: string, ref: int): (r: seq<Notification>)
    ensures |r| == |users|
    ensures forall i | 0 <= i < |r| ::
      r[i] == Notification(users[i], title, description, NotificationKind, ref)
  {
    seq(|users|, i requires 0 <= i < |users| => Notification(users[i], title, description, NotificationKind, ref))
  }

  /** `clearUserNotificationsCache` for each recipient in turn. */
  function ClearAll(c: Cache, users: seq<int>): (r: Cache)
    ensures r.Keys <= c.Keys
    ensures forall u | u in users :: CountKey(IntToString(u)) !in r && IndexKey(IntToString(u)) !in r
    decreases |users|
  {
    if |users| == 0 then c else ClearAll(ClearUser(c, users[0]), users[1..])
  }

  // ------------------------------------------------------------- create

  /** `create`: a falsy id (0 here) is refused first, then an unknown user
      or department; the new row is `PENDING` and every user of the
      department is told with the pending text. The row id and request
      number are the ones the database assigns. */
  function Create(w: World, fromUserId: int, departmentId: int, purpose: string, description: string,
                  newId: int, requestNo: string, now: Time): (r: Result<Outcome>)
    ensures fromUserId == 0 ==> r == Err(MissingUserMsg)
    ensures fromUserId != 0 && departmentId == 0 ==> r == Err(MissingDepartmentMsg)
    ensures r.Ok? <==> fromUserId != 0 && departmentId != 0 && fromUserId in w.users && departmentId in w.departments
    ensures r.Ok? ==> r.value.row.status == Pending && r.value.row.assignedDepartmentId == Some(departmentId)
    ensures r.Ok? ==> r.value.world.rows == w.rows[newId := r.value.row]
    ensures r.Ok? ==> |r.value.sent| == |DepartmentUsers(w, Some(departmentId))|
    ensures r.Ok? ==> forall i | 0 <= i < |r.value.sent| ::
      && r.value.sent[i].userId == DepartmentUsers(w, Some(departmentId))[i]
      && r.value.sent[i].title == RequestNotif(StatusKey(Pending)).title
      && r.value.sent[i].description == RequestDescription(StatusKey(Pending), requestNo)
  {
    if fromUserId == 0 then Err(MissingUserMsg)
    else if departmentId == 0 then Err(MissingDepartmentMsg)
    else if fromUserId !in w.users then Err(w.userNotFoundMsg)
    else if departmentId !in w.departments then Err(w.departmentNotFoundMsg)
    else
      var row := CreateRow(newId, fromUserId, departmentId, purpose, Pending, description, requestNo, now);
      var to := DepartmentUsers(w, Some(departmentId));
      var sent := NotifyAll(to, RequestNotif(StatusKey(Pending)).title, RequestDescription(StatusKey(Pending), requestNo), newId);
      Ok(Outcome(w.(rows := w.rows[newId := row], cache := ClearAll(w.cache, to)), row, sent))
  }

  // ------------------------------------------------------- updateStatus

  /** Who hears about a status change: the whole assigned department when
      the request is cancelled or closed, otherwise the requester. */
  function Recipients(w: World, row: DocRow): (r: seq<int>)
    ensures row.status in {Cancelled, Closed} ==> r == DepartmentUsers(w, row.assignedDepartmentId)
    ensures row.status !in {Cancelled, Closed} ==> r == [row.fromUserId]
  {
    if row.status in {Cancelled, Closed} then DepartmentUsers(w, row.assignedDepartmentId) else [row.fromUserId]
  }

  /** The rest of `updateStatus` once the row is written: the texts of the
      new status, with the request number and department name filled in,
      sent to the recipients, whose cached notifications are dropped. */
  function Announce(w: World, id: int, row: DocRow): (r: Outcome)
    ensures r.row == row && r.world.rows == w.rows[id := row]
    ensures |r.sent| == |Recipients(w, row)|
    ensures forall i | 0 <= i < |r.sent| ::
      && r.sent[i].userId == Recipients(w, row)[i]
      && r.sent[i].title == RequestNotif(StatusKey(row.status)).title
      && r.sent[i].description == StatusDescription(StatusKey(row.status), row.requestNo, DepartmentName(w, row.assignedDepartmentId))
      && r.sent[i].referenceId == row.id
  {
    var to := Recipients(w, row);
    var k := StatusKey(row.status);
    var sent := NotifyAll(to, RequestNotif(k).title, StatusDescription(k, row.requestNo, DepartmentName(w, row.assignedDepartmentId)), row.id);
    Outcome(w.(rows := w.rows[id := row], cache := ClearAll(w.cache, to)), row, sent)
  }

  /** `updateStatus` as written, on a request the route accepted: the
      guards with the misspelt file check, then the service called with
      `reason || ""` in the department position and no reason. */
  function UpdateStatusAsWritten(w: World, q: StatusRequest, now: Time): (r: Result<Outcome>)
    ensures q.id !in w.rows ==> r == Err(NotFoundMsg)
    ensures r.Ok? ==> q.id in w.rows && CheckTransitionAsWritten(w.rows[q.id].status, q.target, HasFile(w.rows[q.id])).Ok?
    ensures r.Ok? ==> PgInt(TextOrEmpty(q.reason)).Some?
    ensures r.Ok? ==> r.value.row == ApplyStatus(w.rows[q.id], q.target, PgInt(TextOrEmpty(q.reason)), None, now)
  {
    if q.id !in w.rows then Err(NotFoundMsg)
    else
      var row := w.rows[q.id];
      var _ :- CheckTransitionAsWritten(row.status, q.target, HasFile(row));
      var updated :- UpdateDocRequestStatus(row, q.target, Some(TextOrEmpty(q.reason)), None, now);
      Ok(Announce(w, q.id, updated))
  }

  /** The department parameter as intended: the validated id, as text, for
      an approval. */
  function DepartmentParam(q: StatusRequest): Option<string> {
    if q.target == Approved && q.department.Some? then Some(IntToString(q.department.value)) else None
  }

  /** `updateStatus` with the intended file check and the service called
      with the validated department and the reason. */
  function UpdateStatus(w: World, q: StatusRequest, now: Time): (r: Result<Outcome>)
    ensures q.id !in w.rows ==> r == Err(NotFoundMsg)
    ensures r.Ok? ==> q.id in w.rows && CheckTransition(w.rows[q.id].status, q.target, HasFile(w.rows[q.id])).Ok?
    ensures r.Ok? ==> r.value.row.status == q.target && r.value.world.rows == w.rows[q.id := r.value.row]
  {
    if q.id !in w.rows then Err(NotFoundMsg)
    else
      var row := w.rows[q.id];
      var _ :- CheckTransition(row.status, q.target, HasFile(row));
      var updated :- UpdateDocRequestStatus(row, q.target, DepartmentParam(q), Some(TextOrEmpty(q.reason)), now);
      Ok(Announce(w, q.id, updated))
  }

  /** PostgreSQL reads back the decimal text of any 32-bit integer. */
  lemma PgIntOfIntString(n: int)
    requires -0x8000_0000 <= n < 0x8000_0000
    ensures PgInt(IntToString(n)) == Some(n)
  {
    var t := IntToString(n);
    IntToStringIsInt(n);
    assert t[0] == '-' || IsDigit(t[0]);
    assert IsDigit(t[|t| - 1]);
    TrimNoop(t);
  }

  /** A text with a letter in it is not an integer. */
  lemma WordIsNotInt(text: string)
    requires |text| > 0 && IsLowerLetter(text[0])
    ensures PgInt(text).None?
  {
    var t := Trim(text);
    assert |TrimStart(text)| == |text|;
    TrimEmptyIffBlank(text);
    assert t[0] == text[0];
    assert SignOf(t).1 == t;
  }

  /** Under the route's rules, the corrected handler accepts exactly the
      life-cycle moves (completion needing a document file) of a known
      request, stores the department of an approval and the reason of a
      cancellation or rejection, and writes nothing else into the row. */
  lemma UpdateStatusFollowsLifeCycle(w: World, q: StatusRequest, now: Time)
    requires Admissible(q) && q.id in w.rows
    requires q.department.Some? ==> q.department.value < 0x8000_0000
    ensures var row := w.rows[q.id];
            UpdateStatus(w, q, now).Ok? <==> Allowed(row.status, q.target) && (q.target == Completed ==> HasFile(row))
    ensures UpdateStatus(w, q, now).Ok? ==>
      UpdateStatus(w, q, now).value.row == ApplyStatus(w.rows[q.id], q.target, q.department, Some(TextOrEmpty(q.reason)), now)
  {
    var row := w.rows[q.id];
    GuardsAcceptLifeCycle(row.status, q.target, HasFile(row));
    if q.department.Some? {
      PgIntOfIntString(q.department.value);
    }
  }

  /** The corrected handler keeps the reason of a cancellation or a
      rejection and the department of an approval. */
  lemma UpdateStatusStoresInputs(w: World, q: StatusRequest, now: Time)
    requires Admissible(q) && q.id in w.rows
    requires q.department.Some? ==> q.department.value < 0x8000_0000
    requires UpdateStatus(w, q, now).Ok?
    ensures var row := UpdateStatus(w, q, now).value.row;
            && (q.target == Cancelled ==> row.cancelReason == Some(q.reason.s) && row.rejectReason.None?)
            && (q.target == Rejected ==> row.rejectReason == Some(q.reason.s) && row.cancelReason.None?)
            && (q.target == Approved ==> row.assignedDepartmentId == q.department)
  {
    UpdateStatusFollowsLifeCycle(w, q, now);
  }

  /** As written, no update ever stores a reason: a successful one has
      cleared both reason columns unless the target is `PENDING`, which
      the route never lets through. */
  lemma AsWrittenDropsReasons(w: World, q: StatusRequest, now: Time)
    requires Admissible(q)
    requires UpdateStatusAsWritten(w, q, now).Ok?
    ensures UpdateStatusAsWritten(w, q, now).value.row.cancelReason.None?
    ensures UpdateStatusAsWritten(w, q, now).value.row.rejectReason.None?
  {
  }

  /** As written, an allowed move fails in the database whenever the
      reason text is not an integer: it is bound as the department id. */
  lemma NonIntegerReasonFailsAsWritten(w: World, q: StatusRequest, now: Time)
    requires q.id in w.rows && CheckTransitionAsWritten(w.rows[q.id].status, q.target, HasFile(w.rows[q.id])).Ok?
    requires PgInt(TextOrEmpty(q.reason)).None?
    ensures UpdateStatusAsWritten(w, q, now) == Err(InvalidIntegerMsg(TextOrEmpty(q.reason)))
  {
  }

  /** So cancelling a pending request with the reason "duplicate" fails. */
  lemma CancelWithReasonFailsAsWritten(w: World, now: Time)
    requires 1 in w.rows && w.rows[1].status == Pending
    ensures UpdateStatusAsWritten(w, StatusRequest(1, Cancelled, None, JStr("duplicate")), now)
         == Err(InvalidIntegerMsg("duplicate"))
  {
    var q := StatusRequest(1, Cancelled, None, JStr("duplicate"));
    WordIsNotInt("duplicate");
    assert TextOrEmpty(q.reason) == "duplicate";
    GuardsAsWrittenAcceptLifeCycle(Pending, Cancelled, HasFile(w.rows[1]));
    NonIntegerReasonFailsAsWritten(w, q, now);
  }

  /** The corrected handler performs that cancellation and keeps its
      reason. */
  lemma CancelWithReasonStored(w: World, now: Time)
    requires 1 in w.rows && w.rows[1].status == Pending
    ensures UpdateStatus(w, StatusRequest(1, Cancelled, None, JStr("duplicate")), now).Ok?
    ensures UpdateStatus(w, StatusRequest(1, Cancelled, None, JStr("duplicate")), now).value.row.cancelReason == Some("duplicate")
  {
    var q := StatusRequest(1, Cancelled, None, JStr("duplicate"));
    assert Admissible(q);
    UpdateStatusFollowsLifeCycle(w, q, now);
    UpdateStatusStoresInputs(w, q, now);
  }

  /** As written, an approval with no reason in the body fails too: `""`
      is bound as the department id. */
  lemma ApproveFailsAsWritten(w: World, now: Time)
    requires 1 in w.rows && w.rows[1].status == Pending
    ensures UpdateStatusAsWritten(w, StatusRequest(1, Approved, Some(3), Missing), now) == Err(InvalidIntegerMsg(""))
  {
    var q := StatusRequest(1, Approved, Some(3), Missing);
    assert PgInt("").None? by { assert !IsIntText(""); }
    GuardsAsWrittenAcceptLifeCycle(Pending, Approved, HasFile(w.rows[1]));
    NonIntegerReasonFailsAsWritten(w, q, now);
  }

  /** The corrected handler performs that approval and records the
      department. */
  lemma ApproveStored(w: World, now: Time)
    requires 1 in w.rows && w.rows[1].status == Pending
    ensures UpdateStatus(w, StatusRequest(1, Approved, Some(3), Missing), now).Ok?
    ensures UpdateStatus(w, StatusRequest(1, Approved, Some(3), Missing), now).value.row.assignedDepartmentId == Some(3)
  {
    var q := StatusRequest(1, Approved, Some(3), Missing);
    assert Admissible(q);
    UpdateStatusFollowsLifeCycle(w, q, now);
    UpdateStatusStoresInputs(w, q, now);
  }

  /** The notifications of a status change go to the department exactly
      when the request is cancelled or closed, each with the title of the
      new status. */
  lemma StatusNotifications(w: World, q: StatusRequest, now: Time)
    requires UpdateStatus(w, q, now).Ok?
    ensures var o := UpdateStatus(w, q, now).value;
            && (q.target in {Cancelled, Closed} ==> |o.sent| == |DepartmentUsers(w, o.row.assignedDepartmentId)|)
            && (q.target !in {Cancelled, Closed} ==> |o.sent| == 1 && o.sent[0].userId == w.rows[q.id].fromUserId)
            && (forall i | 0 <= i < |o.sent| :: KeyOfTitle(o.sent[i].title) == Some(StatusKey(q.target)))
  {
    var o := UpdateStatus(w, q, now).value;
    var updated := UpdateDocRequestStatus(w.rows[q.id], q.target, DepartmentParam(q), Some(TextOrEmpty(q.reason)), now);
    assert updated.Ok? && o == Announce(w, q.id, updated.value);
    TitleNamesEntry(StatusKey(q.target));
  }

  // ------------------------------------------------------------- upload

  const NoFileMsg := "No file received"
  const NoTextMsg := "No text extracted"
  const MismatchMsg := "The uploaded document does not match the requested purpose. Please review the file."
  const NoStampMsg := "The uploaded document does not have a documentary stamp."
  const StorageMsg := "Unable to upload to cloud storage"

  /** The best candidate of the classifier, when there is one. */
  datatype Best = Best(category: string, score: real)

  /** The classification gate passes: the label is a document type with a
      non-empty name and, unless the purpose is "others", it is the purpose
      and its score is above one half. */
  predicate ClassificationAccepts(purpose: string, best: Option<Best>, docTypes: map<string, string>) {
    var others := Trim(Lower(purpose)) == "others";
    && best.Some? && best.value.category != ""
    && best.value.category in docTypes && docTypes[best.value.category] != ""
    && (others || best.value.category == purpose)
    && (others || best.value.score > 0.5)
  }

  /** The classification test of `upload`, condition by condition. */
  function ClassificationGate(purpose: string, best: Option<Best>, docTypes: map<string, string>): (r: Result<()>)
    ensures r.Ok? <==> ClassificationAccepts(purpose, best, docTypes)
    ensures r.Err? ==> r.error == MismatchMsg
  {
    var cat := if best.Some? then best.value.category else "";
    var score := if best.Some? then best.value.score else 0.0;
    var others := Trim(Lower(purpose)) == "others";
    if cat == "" then Err(MismatchMsg)
    else if cat !in docTypes || docTypes[cat] == "" then Err(MismatchMsg)
    else if !others && cat != purpose then Err(MismatchMsg)
    else if !others && score <= 0.5 then Err(MismatchMsg)
    else Ok(())
  }

  /** The stamp test as written: `!stamp.match && stamp.score < 0.9`. A
      failed detection has neither field, and `undefined < 0.9` is false,
      so it passes. */
  function StampGateAsWritten(d: Detection): (r: Result<()>)
    ensures r.Err? <==> d.Detected? && !d.matched && d.score < 0.9
  {
    if d.Detected? && !d.matched && d.score < 0.9 then Err(NoStampMsg) else Ok(())
  }

  /** The stamp test as intended: a failed detection found no stamp either. */
  function StampGate(d: Detection): (r: Result<()>)
    ensures r.Ok? <==> d.Detected? && (d.matched || d.score >= 0.9)
  {
    match d
    case DetectFailed(_) => Err(NoStampMsg)
    case Detected(_, _, _, _, _, _, _, _, _) => StampGateAsWritten(d)
  }

  /** A detection that failed, e.g. on a file type the detector does not
      know, passes the written gate; the corrected gate refuses it, and
      both agree on every detection that completed. */
  lemma FailedDetectionPassesAsWritten(error: string)
    ensures StampGateAsWritten(DetectFailed(error)).Ok?
    ensures StampGate(DetectFailed(error)) == Err(NoStampMsg)
  {
  }

  lemma StampGatesAgreeOnDetections(d: Detection)
    requires d.Detected?
    ensures StampGate(d) == StampGateAsWritten(d)
  {
  }

  /** What `upload` is given: the file as read (its size, name and type),
      the extracted text (`None` when extraction failed), the classifier's
      best candidate, the detection, and the public id the storage
      returned. */
  datatype UploadInput = UploadInput(
    id: int, size: nat, filename: string, mimeType: string, text: Option<string>,
    best: Option<Best>, stamp: Detection, publicId: string)

  /** The JSON stored in the file column (the other storage fields are
      left out). */
  function FileObject(u: UploadInput): JsonObject {
    map["filename" := JString(u.filename), "mimeType" := JString(u.mimeType), "publicId" := JString(u.publicId)]
  }

  function ClassificationObject(best: Best, docTypes: map<string, string>): JsonObject
    requires best.category in docTypes
  {
    map["label" := JString(best.category), "score" := JNumber(best.score), "name" := JString(docTypes[best.category])]
  }

  /** The checks of `upload`, in the order of the handler. */
  function UploadChecks(gate: Detection -> Result<()>, w: World, u: UploadInput, docTypes: map<string, string>): (r: Result<()>)
    ensures u.size == 0 ==> r == Err(NoFileMsg)
    ensures r.Ok? ==> u.size > 0 && u.id in w.rows && u.text.Some? && u.text.value != "" && u.publicId != ""
    ensures r.Ok? ==> ClassificationAccepts(w.rows[u.id].purpose, u.best, docTypes) && gate(u.stamp).Ok?
  {
    if u.size == 0 then Err(NoFileMsg)
    else if u.id !in w.rows then Err(NotFoundMsg)
    else if u.text.None? || u.text.value == "" then Err(NoTextMsg)
    else
      var _ :- ClassificationGate(w.rows[u.id].purpose, u.best, docTypes);
      var _ :- gate(u.stamp);
      if u.publicId == "" then Err(StorageMsg) else Ok(())
  }

  /** What an accepted upload does: the file and classification merged
      into the row and the requester told. */
  function UploadEffect(w: World, u: UploadInput, docTypes: map<string, string>): (r: Outcome)
    requires u.id in w.rows && u.best.Some? && u.best.value.category in docTypes && u.publicId != ""
    ensures HasFile(r.row) && r.row.status == w.rows[u.id].status
    ensures |r.sent| == 1 && r.sent[0].userId == w.rows[u.id].fromUserId
    ensures r.sent[0].title == RequestNotif(UploadedKey).title
  {
    var row := w.rows[u.id];
    var updated := UpdateDocRequestFile(row, FileObject(u), ClassificationObject(u.best.value, docTypes));
    UploadRecordsFile(row, FileObject(u), ClassificationObject(u.best.value, docTypes));
    var to := [row.fromUserId];
    var sent := NotifyAll(to, RequestNotif(UploadedKey).title, RequestDescription(UploadedKey, row.requestNo), row.id);
    Outcome(w.(rows := w.rows[u.id := updated], cache := ClearAll(w.cache, to)), updated, sent)
  }

  /** `upload`, with the stamp gate given. */
  function UploadWith(gate: Detection -> Result<()>, w: World, u: UploadInput, docTypes: map<string, string>): (r: Result<Outcome>)
    ensures u.size == 0 ==> r == Err(NoFileMsg)
    ensures r.Ok? ==> u.size > 0 && u.id in w.rows && u.text.Some? && u.text.value != ""
    ensures r.Ok? ==> ClassificationAccepts(w.rows[u.id].purpose, u.best, docTypes) && gate(u.stamp).Ok?
    ensures r.Ok? ==> HasFile(r.value.row) && r.value.row.status == w.rows[u.id].status
    ensures r.Ok? ==> |r.value.sent| == 1 && r.value.sent[0].userId == w.rows[u.id].fromUserId
    ensures r.Ok? ==> r.value.sent[0].title == RequestNotif(UploadedKey).title
  {
    var _ :- UploadChecks(gate, w, u, docTypes);
    Ok(UploadEffect(w, u, docTypes))
  }

  /** `upload` as written. */
  function UploadAsWritten(w: World, u: UploadInput, docTypes: map<string, string>): (r: Result<Outcome>)
    ensures r.Ok? ==> !(u.stamp.Detected? && !u.stamp.matched && u.stamp.score < 0.9)
  {
    UploadWith(StampGateAsWritten, w, u, docTypes)
  }

  /** `upload` with the corrected stamp gate: an accepted document was
      seen to carry a stamp. */
  function Upload(w: World, u: UploadInput, docTypes: map<string, string>): (r: Result<Outcome>)
    ensures r.Ok? ==> u.stamp.Detected? && (u.stamp.matched || u.stamp.score >= 0.9)
  {
    UploadWith(StampGate, w, u, docTypes)
  }

  /** Once the checks before it pass, the stamp gate decides the upload. */
  lemma UploadDecidedByGate(gate: Detection -> Result<()>, w: World, u: UploadInput, docTypes: map<string, string>)
    requires u.size > 0 && u.id in w.rows && u.text.Some? && u.text.value != ""
    requires ClassificationAccepts(w.rows[u.id].purpose, u.best, docTypes)
    requires u.publicId != ""
    ensures gate(u.stamp).Ok? ==> UploadWith(gate, w, u, docTypes).Ok?
    ensures gate(u.stamp).Err? ==> UploadWith(gate, w, u, docTypes) == Err(gate(u.stamp).error)
  {
    assert ClassificationGate(w.rows[u.id].purpose, u.best, docTypes).Ok?;
    assert gate(u.stamp).Ok? ==> UploadChecks(gate, w, u, docTypes).Ok?;
  }

  /** A file whose detection failed is stored as written once the other
      checks pass; the corrected handler refuses it for want of a stamp. */
  lemma FailedDetectionIsUploadedAsWritten(w: World, u: UploadInput, docTypes: map<string, string>)
    requires u.size > 0 && u.id in w.rows && u.text.Some? && u.text.value != ""
    requires ClassificationAccepts(w.rows[u.id].purpose, u.best, docTypes)
    requires u.publicId != "" && u.stamp.DetectFailed?
    ensures UploadAsWritten(w, u, docTypes).Ok?
    ensures Upload(w, u, docTypes) == Err(NoStampMsg)
  {
    UploadDecidedByGate(StampGateAsWritten, w, u, docTypes);
    UploadDecidedByGate(StampGate, w, u, docTypes);
  }
}

=== FILE: doc_status.dfy ===
/** The seven states of a document request (`DOCREQUEST_STATUS` in
    src/constants/doc-request.constant.js) and their database spellings. */
module DocStatus {
  import opened Wrappers

  datatype Status = Pending | Approved | Processing | Rejected | Cancelled | Completed | Closed

  const AllStatuses: seq<Status> := [Pending, Approved, Processing, Rejected, Cancelled, Completed, Closed]

  /** The upper-case name stored in `RequestStatus`. */
  function Name(s: Status): string {
    match s
    case Pending => "PENDING"
    case Approved => "APPROVED"
    case Processing => "PROCESSING"
    case Rejected => "REJECTED"
    case Cancelled => "CANCELLED"
    case Completed => "COMPLETED"
    case Closed => "CLOSED"
  }

  /** Reading a stored or submitted name back; anything else is not a
      status. */
  function ParseStatus(text: string): (r: Option<Status>)
    ensures r.Some? ==> Name(r.value) == text
  {
    if text == "PENDING" then Some(Pending)
    else if text == "APPROVED" then Some(Approved)
    else if text == "PROCESSING" then Some(Processing)
    else if text == "REJECTED" then Some(Rejected)
    else if text == "CANCELLED" then Some(Cancelled)
    else if text == "COMPLETED" then Some(Completed)
    else if text == "CLOSED" then Some(Closed)
    else None
  }

  /** Every status is read back from its name, so names are distinct. */
  lemma ParseName(s: Status)
    ensures ParseStatus(Name(s)) == Some(s)
  {
  }

  lemma NamesDistinct(s: Status, t: Status)
    ensures Name(s) == Name(t) <==> s == t
  {
    ParseName(s);
    ParseName(t);
  }

  /** A property access on the `DOCREQUEST_STATUS` object: the seven keys
      are defined and every other key (a misspelt one included) reads as
      `undefined`. */
  function StatusConstant(key: string): (r: Option<Status>)
    ensures r.Some? <==> key in ["PENDING", "APPROVED", "PROCESSING", "REJECTED", "CANCELLED", "COMPLETED", "CLOSED"]
    ensures r.Some? ==> Name(r.value) == key
  {
    ParseStatus(key)
  }

  /** The states no status change may leave. */
  predicate IsTerminal(s: Status) {
    s == Cancelled || s == Rejected || s == Closed
  }
}

=== FILE: email.dfy ===
/** The template helpers of src/services/email.service.js: cleaning an
    HTML template read from the environment, choosing it by kind, the link
    base without trailing slashes, and the placeholder substitution. Mail
    transport, password hashing and URL encoding are parameters or left
    out. */
module Email {
  import opened Wrappers
  import opened Text

  const OtpToken := "{{_OTP_}}"
  const UrlToken := "{{_URL_}}"
  const YearToken := "{{_YEAR_}}"
  const CompanyToken := "{{_COMPANY_}}"

  /** Thrown by `html.replace` when no template is configured. */
  const NoTemplateMsg := "Cannot read properties of null (reading 'replace')"

  /** Starts and ends with a backtick. */
  predicate Wrapped(v: string) {
    StartsWith(v, "`") && EndsWith(v, "`")
  }

  /** `v.slice(1, -1)`: empty when there is no character between. */
  function Inner(v: string): string {
    if |v| < 2 then "" else v[1..|v| - 1]
  }

  /** `sanitizeEnvHtml(raw)`, with `None` for an unset variable. */
  function SanitizeEnvHtml(raw: Option<string>): (r: Option<string>)
    ensures r.None? <==> raw.None? || raw.value == ""
    ensures r.Some? ==> NoEdgeSpace(r.value)
    ensures r.Some? && !Wrapped(Trim(raw.value)) ==> r.value == Trim(raw.value)
    ensures r.Some? && Wrapped(Trim(raw.value)) ==> r.value == Trim(Inner(Trim(raw.value)))
  {
    if raw.None? || raw.value == "" then None
    else
      var v := Trim(raw.value);
      if Wrapped(v) then Some(Trim(Inner(v))) else Some(v)
  }

  /** A template that is already clean is kept as it is. */
  lemma SanitizeKeepsClean(html: string)
    requires html != "" && NoEdgeSpace(html) && !Wrapped(html)
    ensures SanitizeEnvHtml(Some(html)) == Some(html)
  {
    TrimNoop(html);
  }

  /** Only one pair of backticks is stripped. */
  lemma SanitizeStripsOnePair(html: string)
    requires NoEdgeSpace(html) && html != "" && html[0] != '`'
    ensures SanitizeEnvHtml(Some("``" + html + "``")) == Some("`" + html + "`")
  {
    var inner := "`" + html + "`";
    var w := "``" + html + "``";
    assert Wrapped(w) && Inner(w) == inner && Trim(w) == w by {
      assert w == "`" + inner + "`";
      BacktickedForm(inner);
      BacktickedForm(html);
      TrimNoop(w);
    }
    assert Trim(inner) == inner by {
      BacktickedForm(html);
      TrimNoop(inner);
    }
    SanitizeWrapped(w, inner);
  }

  /** A trimmed, wrapped template yields its trimmed inner text. */
  lemma SanitizeWrapped(w: string, v: string)
    requires w != "" && Trim(w) == w && Wrapped(w) && Inner(w) == v && Trim(v) == v
    ensures SanitizeEnvHtml(Some(w)) == Some(v)
  {
  }

  /** Text between two backticks is wrapped, has no space at either end,
      and is what `Inner` gives back. */
  lemma BacktickedForm(v: string)
    ensures var w := "`" + v + "`"; Wrapped(w) && NoEdgeSpace(w) && Inner(w) == v
  {
  }

  /** `loadTemplate(kind)`, given the two environment variables. */
  function LoadTemplate(kind: string, verifyTemplate: Option<string>, resetTemplate: Option<string>): (r: Option<string>)
    ensures kind == "verify" ==> r == SanitizeEnvHtml(verifyTemplate)
    ensures kind == "reset" ==> r == SanitizeEnvHtml(resetTemplate)
    ensures kind != "verify" && kind != "reset" ==> r.None?
  {
    if kind == "verify" then SanitizeEnvHtml(verifyTemplate)
    else if kind == "reset" then SanitizeEnvHtml(resetTemplate)
    else None
  }

  /** `.replace(/\/+$/, '')`. */
  function StripTrailingSlashes(s: string): (r: string)
    ensures |r| <= |s| && r == s[..|r|]
    ensures |r| == 0 || r[|r| - 1] != '/'
    ensures forall i | |r| <= i < |s| :: s[i] == '/'
    decreases |s|
  {
    if |s| > 0 && s[|s| - 1] == '/' then StripTrailingSlashes(s[..|s| - 1]) else s
  }

  /** Stripping twice strips nothing more. */
  lemma StripIdempotent(s: string)
    ensures StripTrailingSlashes(StripTrailingSlashes(s)) == StripTrailingSlashes(s)
  {
  }

  /** The link base: `(env.evUrl || process.env.EV_URL || '')` without
      trailing slashes. */
  function LinkBase(configured: Option<string>, fromEnv: Option<string>): string {
    var base :=
      if configured.Some? && configured.value != "" then configured.value
      else if fromEnv.Some? then fromEnv.value
      else "";
    StripTrailingSlashes(base)
  }

  /** The link mailed with the code: `key` is `email` for verification and
      `user` for a password reset; `encode` stands for
      `encodeURIComponent`. */
  function Link(base: string, key: string, recipient: string, hashedCode: string, encode: string -> string): string {
    base + "?" + key + "=" + encode(recipient) + "&code=" + encode(hashedCode)
  }

  /** The substitutions: the code, the link and the year at their first
      occurrence, the company at every occurrence. A missing template
      makes the first `replace` throw. */
  function Render(html: Option<string>, otp: string, url: string, year: string, company: string): (r: Result<string>)
    ensures r.Err? <==> html.None?
    ensures r.Err? ==> r.error == NoTemplateMsg
  {
    if html.None? then Err(NoTemplateMsg)
    else
      var a := ReplaceFirst(html.value, OtpToken, otp);
      var b := ReplaceFirst(a, UrlToken, url);
      var c := ReplaceFirst(b, YearToken, year);
      Ok(ReplaceAll(c, CompanyToken, company))
  }

  /** A second code placeholder survives: only the first is replaced. */
  lemma OtpReplacedOnce(otp: string)
    ensures ReplaceFirst(OtpToken + OtpToken, OtpToken, otp) == otp + OtpToken
  {
    ReplaceFirstAtStart(OtpToken, OtpToken, otp);
  }

  /** Where the company placeholder does not occur, its substitution
      changes nothing. */
  lemma ReplaceAllWithout(s: string, pat: string, value: string)
    requires |pat| > 0 && !Contains(s, pat)
    ensures ReplaceAll(s, pat, value) == s
  {
    SplitWithout(s, pat);
  }

  /** A template without placeholders is sent as it is. */
  lemma RenderWithoutPlaceholders(html: string, otp: string, url: string, year: string, company: string)
    requires !Contains(html, OtpToken) && !Contains(html, UrlToken)
    requires !Contains(html, YearToken) && !Contains(html, CompanyToken)
    ensures Render(Some(html), otp, url, year, company) == Ok(html)
  {
    ReplaceAllWithout(html, CompanyToken, company);
  }
}

=== FILE: env_config.dfy ===
/** Configuration read from the process environment (src/config/env.js):
    the `num` and `bool` readers, the stamp-detection settings and the
    classifier settings. */
module EnvConfig {
  import opened Wrappers
  import opened Text
  import opened JsNumber

  /** The process environment; a variable that is not set is absent. */
  type Env = map<string, string>

  function Lookup(env: Env, name: string): Option<string> {
    if name in env then Some(env[name]) else None
  }

  /** `num(v, d)`: the number the text denotes when that number is finite,
      otherwise the default. */
  function NumOr(v: Option<string>, d: real): (r: real)
    ensures r == d || (v.Some? && ToNumber(v.value) == Finite(r))
    ensures v.Some? && ToNumber(v.value).Finite? ==> r == ToNumber(v.value).v
  {
    match v
    case None => d
    case Some(s) => if ToNumber(s).IsFinite() then ToNumber(s).v else d
  }

  /** A set but blank variable reads as 0, not as the default. */
  lemma NumBlankIsZero(s: string, d: real)
    requires forall i | 0 <= i < |s| :: IsSpace(s[i])
    ensures NumOr(Some(s), d) == 0.0
  {
  }

  /** An integer written in decimal reads back as itself. */
  lemma NumOfIntText(n: int, d: real)
    ensures NumOr(Some(IntToString(n)), d) == n as real
  {
    ToNumberOfIntString(n);
  }

  /** `bool(v, d)`: "1" or any casing of "true" is true, "0" or any casing
      of "false" is false, anything else (or nothing) is the default. */
  function BoolOr(v: Option<string>, d: bool): (r: bool)
    ensures v == Some("1") ==> r
    ensures v == Some("0") ==> !r
    ensures r != d ==> v.Some? && (r <==> (v.value == "1" || Lower(v.value) == "true"))
    ensures r != d ==> v.Some? && (!r <==> (v.value == "0" || Lower(v.value) == "false"))
  {
    match v
    case None => d
    case Some(s) =>
      if s == "1" || Lower(s) == "true" then true
      else if s == "0" || Lower(s) == "false" then false
      else d
  }

  lemma LowerOfDigit(s: string, c: char)
    requires IsDigit(c) && Lower(s) == [c]
    ensures s == [c]
  {
    assert LowerChar(s[0]) == c;
  }

  /** Reading a boolean does not depend on the letter case of the value. */
  lemma BoolIgnoresCase(s: string, d: bool)
    ensures BoolOr(Some(Lower(s)), d) == BoolOr(Some(s), d)
  {
    LowerNoop(Lower(s));
    if Lower(s) == "1" {
      LowerOfDigit(s, '1');
    }
    if Lower(s) == "0" {
      LowerOfDigit(s, '0');
    }
  }

  /** `String(b)` reads back as `b` whatever the default. */
  lemma BoolOfText(b: bool, d: bool)
    ensures BoolOr(Some(if b then "true" else "false"), d) == b
  {
    var t := if b then "true" else "false";
    LowerNoop(t);
  }

  // ------------------------------------------------------------ settings

  /** The stamp-detection settings that can be overridden from the
      environment. */
  datatype StampConfig = StampConfig(
    robustAugs: bool,
    blurSigma: real,
    jpegQuality: real,
    grayscale: bool,
    thresholdHi: real,
    thresholdLo: real,
    marginMin: real,
    marginLo: real,
    nccBand: real,
    ssimBand: real,
    timeBudgetMs: real,
    renderAlways: bool,
    renderDpi: real)

  function LoadStampConfig(env: Env): (c: StampConfig)
    ensures env == map[] ==> c == DefaultStampConfig()
  {
    StampConfig(
      robustAugs := BoolOr(Lookup(env, "ROBUST_STAMP_AUGS"), true),
      blurSigma := NumOr(Lookup(env, "AUG_BLUR_SIGMA"), 0.8),
      jpegQuality := NumOr(Lookup(env, "AUG_JPEG_Q"), 60.0),
      grayscale := BoolOr(Lookup(env, "AUG_GRAYSCALE"), true),
      thresholdHi := NumOr(Lookup(env, "THRESHOLD_HI"), 0.88),
      thresholdLo := NumOr(Lookup(env, "THRESHOLD_LO"), 0.80),
      marginMin := NumOr(Lookup(env, "MARGIN_MIN"), 0.07),
      marginLo := NumOr(Lookup(env, "MARGIN_LO"), 0.05),
      nccBand := NumOr(Lookup(env, "NCC_BAND"), 0.10),
      ssimBand := NumOr(Lookup(env, "SSIM_BAND"), 0.25),
      timeBudgetMs := NumOr(Lookup(env, "TIME_BUDGET_MS"), 8000.0),
      renderAlways := BoolOr(Lookup(env, "PDF_RENDER_ALWAYS"), true),
      renderDpi := NumOr(Lookup(env, "PDF_RENDER_DPI"), 144.0))
  }

  /** The values in force when no variable is set. */
  function DefaultStampConfig(): StampConfig {
    StampConfig(true, 0.8, 60.0, true, 0.88, 0.80, 0.07, 0.05, 0.10, 0.25, 8000.0, true, 144.0)
  }

  /** The default thresholds form two nested bands: the low score and
      margin bars sit below the high ones, and all lie in (0, 1). */
  lemma DefaultThresholdsOrdered()
    ensures var c := LoadStampConfig(map[]);
      && 0.0 < c.thresholdLo <= c.thresholdHi < 1.0
      && 0.0 < c.marginLo <= c.marginMin < 1.0
      && c.timeBudgetMs > 0.0
  {
  }

  // Settings fixed in the code, not read from the environment.
  const MaxPages: nat := 12
  const MaxStamps: nat := 64
  const PrelocThreshold: real := 0.80
  const CoarseTopKSsim: nat := 6
  const LocDsWidth: nat := 900
  const LocBase: real := 160.0
  const LocScales: seq<real> := [0.6, 0.8, 1.0, 1.25]
  const LocStride: nat := 28
  const LocMaxPatches: nat := 360
  const LocTopK: nat := 6
  const PdfRenderTopPages: nat := 3

  /** The classifier settings. */
  datatype CnnConfig = CnnConfig(
    temperature: real,
    otherLabel: string,
    minTokens: real,
    threshold: Num)

  function LoadCnnConfig(env: Env): (c: CnnConfig)
    ensures c.otherLabel != ""
    ensures Lookup(env, "CNN_OTHER_LABEL").Some? && Lookup(env, "CNN_OTHER_LABEL").value != ""
      ==> c.otherLabel == env["CNN_OTHER_LABEL"]
    ensures c.threshold.NaN? ==> "CNN_THRESHOLD" in env && env["CNN_THRESHOLD"] != ""
  {
    var other := Lookup(env, "CNN_OTHER_LABEL");
    var threshold := Lookup(env, "CNN_THRESHOLD");
    CnnConfig(
      temperature := NumOr(Lookup(env, "CNN_TEMPERATURE"), 1.0),
      otherLabel := if other.Some? && other.value != "" then other.value else "Other",
      minTokens := NumOr(Lookup(env, "CNN_MIN_TOKENS"), 2.0),
      threshold := if threshold.Some? && threshold.value != "" then ToNumber(threshold.value) else Finite(0.6))
  }
}

=== FILE: error_handler.dfy ===
/** The last middlewares of the application (src/middlewares/error-handler.js):
    unmatched routes and thrown errors become JSON failures. */
module ErrorHandler {

  /** A JSON reply `{ success, message }` with its HTTP status. */
  datatype Reply = Reply(status: int, success: bool, message: string)

  /** A thrown error: `status` is absent (or 0) when `None`-like, and the
      message may be empty. */
  datatype ThrownError = ThrownError(status: int, message: string)

  const NotFoundMsg := "Route not found"
  const InternalMsg := "Internal Server Error"

  /** `notFound`. */
  function NotFound(): (r: Reply)
    ensures r.status == 404 && !r.success && r.message == NotFoundMsg
  {
    Reply(404, false, NotFoundMsg)
  }

  /** `errorHandler`: `err.status || 500` and
      `err.message || 'Internal Server Error'`, with a status of 0 standing
      for an absent one. */
  function HandleError(err: ThrownError): (r: Reply)
    ensures !r.success
    ensures r.status == (if err.status != 0 then err.status else 500)
    ensures r.message == (if err.message != "" then err.message else InternalMsg)
    ensures r.message != ""
  {
    Reply(if err.status != 0 then err.status else 500, false, if err.message != "" then err.message else InternalMsg)
  }

  /** A validation failure forwarded with status 400 reaches the client
      as a 400 carrying its own message. */
  lemma ValidationErrorsAre400(message: string)
    requires message != ""
    ensures HandleError(ThrownError(400, message)) == Reply(400, false, message)
  {
  }
}

=== FILE: jsnumber.dfy ===
/** The JavaScript number conversions the application relies on: `Number(s)`
    for strings, `parseInt(s, 10)`, `String(n)` for integers, and the
    `isInt` check of the validator library. Values are exact reals; the
    binary64 rounding of JavaScript numbers is not modelled. */
module JsNumber {
  import opened Wrappers
  import opened Text

  datatype Num = NaN | PosInf | NegInf | Finite(v: real) {
    /** `Number.isFinite`. */
    predicate IsFinite() { Finite? }

    /** The value as a JavaScript condition (`0` and `NaN` are falsy). */
    predicate Truthy() { !NaN? && this != Finite(0.0) }
  }

  function DigitVal(c: char): nat
    requires IsDigit(c)
  {
    c as int - '0' as int
  }

  function DigitChar(d: nat): (c: char)
    requires d < 10
    ensures IsDigit(c) && DigitVal(c) == d
  {
    ('0' as int + d) as char
  }

  /** The value of a string of decimal digits, most significant first. */
  function DigitsValue(s: string): nat
    requires AllDigits(s)
    decreases |s|
  {
    if |s| == 0 then 0 else DigitsValue(s[..|s| - 1]) * 10 + DigitVal(s[|s| - 1])
  }

  /** The value of `0.s` for a string of digits `s`. */
  function FracValue(s: string): real
    requires AllDigits(s)
    decreases |s|
  {
    if |s| == 0 then 0.0 else (DigitVal(s[0]) as real + FracValue(s[1..])) / 10.0
  }

  /** `String(n)` for a non-negative integer. */
  function NatToString(n: nat): (r: string)
    ensures |r| > 0 && AllDigits(r)
    ensures |r| > 1 ==> r[0] != '0'
    decreases n
  {
    if n < 10 then [DigitChar(n)] else NatToString(n / 10) + [DigitChar(n % 10)]
  }

  /** `String(n)` for any integer. */
  function IntToString(n: int): string {
    if n < 0 then "-" + NatToString(-n) else NatToString(n)
  }

  lemma {:induction false} NatToStringValue(n: nat)
    ensures DigitsValue(NatToString(n)) == n
    decreases n
  {
    if n >= 10 {
      var s := NatToString(n);
      assert s[..|s| - 1] == NatToString(n / 10);
      NatToStringValue(n / 10);
    }
  }

  /** A digit string without superfluous leading zeros is the decimal
      rendering of its value: `String` and `DigitsValue` are inverse. */
  lemma {:induction false} DigitsValueToString(s: string)
    requires |s| > 0 && AllDigits(s) && (|s| > 1 ==> s[0] != '0')
    ensures NatToString(DigitsValue(s)) == s
    decreases |s|
  {
    if |s| == 1 {
    } else {
      var init := s[..|s| - 1];
      assert AllDigits(init) && init[0] == s[0];
      DigitsValueToString(init);
      LeadingDigitBound(init);
      assert s == init + [s[|s| - 1]];
    }
  }

  lemma {:induction false} LeadingDigitBound(s: string)
    requires |s| > 0 && AllDigits(s) && (|s| > 1 ==> s[0] != '0')
    ensures |s| > 1 ==> DigitsValue(s) >= 1
    decreases |s|
  {
    if |s| > 2 {
      LeadingDigitBound(s[..|s| - 1]);
    } else if |s| == 2 {
      assert s[..1] == [s[0]];
    }
  }

  /** Leading digits of `s`, the longest run `parseInt` consumes. */
  function LeadingDigits(s: string): (r: string)
    ensures |r| <= |s| && r == s[..|r|] && AllDigits(r)
    ensures |r| < |s| ==> !IsDigit(s[|r|])
    decreases |s|
  {
    if |s| > 0 && IsDigit(s[0]) then [s[0]] + LeadingDigits(s[1..]) else ""
  }

  /** A sign character, if any, and the rest of the text. */
  function SignOf(t: string): (bool, string) {
    if |t| > 0 && t[0] == '-' then (true, t[1..])
    else if |t| > 0 && t[0] == '+' then (false, t[1..])
    else (false, t)
  }

  /** The unsigned numeric literal forms accepted: `d+`, `d+.`, `d+.d+`, `.d+`. */
  function UnsignedValue(b: string): Option<real> {
    match IndexOf(b, ".")
    case None =>
      if |b| > 0 && AllDigits(b) then Some(DigitsValue(b) as real) else None
    case Some(k) =>
      var whole := b[..k];
      var frac := b[k + 1..];
      if AllDigits(whole) && AllDigits(frac) && |whole| + |frac| > 0
      then Some(DigitsValue(whole) as real + FracValue(frac))
      else None
  }

  /** `Number(s)` for a string: surrounding whitespace is ignored, blank
      text is 0, an optional sign precedes `Infinity` or a decimal literal,
      and anything else is `NaN`. */
  function ToNumber(s: string): (r: Num)
    ensures (forall i | 0 <= i < |s| :: IsSpace(s[i])) ==> r == Finite(0.0)
  {
    var t := Trim(s);
    TrimEmptyIffBlank(s);
    if t == "" then Finite(0.0) else SignedValue(t)
  }

  /** The value of trimmed, non-blank numeric text. */
  function SignedValue(t: string): Num {
    var (neg, body) := SignOf(t);
    if body == "Infinity" then (if neg then NegInf else PosInf)
    else match UnsignedValue(body)
      case None => NaN
      case Some(v) => Finite(if neg then -v else v)
  }

  lemma DigitsAreNonNegative(s: string)
    requires AllDigits(s)
    ensures DigitsValue(s) >= 0
  {
  }

  lemma DigitsAreNotInfinity(d: string)
    requires |d| > 0 && AllDigits(d)
    ensures d != "Infinity"
  {
    assert IsDigit(d[0]);
  }

  lemma UnsignedValueOfDigits(d: string)
    requires |d| > 0 && AllDigits(d)
    ensures UnsignedValue(d) == Some(DigitsValue(d) as real)
  {
    assert '.' !in d by {
      forall i | 0 <= i < |d| ensures d[i] != '.' {
        assert IsDigit(d[i]);
      }
    }
    NotContainedWithoutHead(d, ".");
  }

  lemma NegatedSign(d: string)
    requires |d| > 0 && AllDigits(d)
    ensures SignOf(d) == (false, d) && SignOf("-" + d) == (true, d)
  {
    var t := "-" + d;
    assert t[1..] == d;
  }

  lemma SignedValueOfDigits(d: string)
    requires |d| > 0 && AllDigits(d)
    ensures SignedValue(d) == Finite(DigitsValue(d) as real)
  {
    DigitsAreNotInfinity(d);
    UnsignedValueOfDigits(d);
    NegatedSign(d);
  }

  lemma SignedValueOfNegatedDigits(d: string)
    requires |d| > 0 && AllDigits(d)
    ensures SignedValue("-" + d) == Finite(-(DigitsValue(d) as real))
  {
    DigitsAreNotInfinity(d);
    UnsignedValueOfDigits(d);
    NegatedSign(d);
    var t := "-" + d;
    assert SignOf(t) == (true, d);
  }

  lemma ToNumberOfText(s: string)
    requires |s| > 0 && NoEdgeSpace(s)
    ensures ToNumber(s) == SignedValue(s)
  {
    TrimNoop(s);
  }

  /** `Number(String(n)) == n` for every integer. */
  lemma ToNumberOfIntString(n: int)
    ensures ToNumber(IntToString(n)) == Finite(n as real)
  {
    var m: nat := if n < 0 then -n else n;
    var d := NatToString(m);
    NatToStringValue(m);
    if n < 0 {
      assert IntToString(n) == "-" + d;
      ToNumberOfNegatedDigits(d);
      assert -(m as real) == n as real;
    } else {
      assert IntToString(n) == d;
      ToNumberOfDigits(d);
    }
  }

  lemma ToNumberOfDigits(d: string)
    requires |d| > 0 && AllDigits(d)
    ensures ToNumber(d) == Finite(DigitsValue(d) as real)
  {
    assert IsDigit(d[0]) && IsDigit(d[|d| - 1]);
    ToNumberOfText(d);
    SignedValueOfDigits(d);
  }

  lemma ToNumberOfNegatedDigits(d: string)
    requires |d| > 0 && AllDigits(d)
    ensures ToNumber("-" + d) == Finite(-(DigitsValue(d) as real))
  {
    var t := "-" + d;
    assert t[0] == '-' && t[|t| - 1] == d[|d| - 1] && IsDigit(d[|d| - 1]);
    ToNumberOfText(t);
    SignedValueOfNegatedDigits(d);
  }

  /** `parseInt(s, 10)`: leading whitespace and an optional sign are skipped,
      then the longest run of digits is read; no digits gives `NaN` (None). */
  function ParseInt(s: string): (r: Option<int>)
    ensures r.Some? ==> (r.value < 0 ==> SignOf(TrimStart(s)).0)
  {
    var (neg, body) := SignOf(TrimStart(s));
    var d := LeadingDigits(body);
    if |d| == 0 then None
    else
      var v: int := DigitsValue(d);
      Some(if neg then -v else v)
  }

  lemma SignOfMinus(x: string)
    ensures SignOf("-" + x) == (true, x)
  {
    assert ("-" + x)[1..] == x;
  }

  /** parseInt reads exactly the digits of a rendered integer, whatever
      whitespace precedes it and whatever non-digit text follows it. */
  lemma ParseIntReadsPrefix(ws: string, n: int, rest: string)
    requires forall i | 0 <= i < |ws| :: IsSpace(ws[i])
    requires |rest| == 0 || !IsDigit(rest[0])
    ensures ParseInt(ws + IntToString(n) + rest) == Some(n)
  {
    var m: nat := if n < 0 then -n else n;
    var d := NatToString(m);
    NatToStringValue(m);
    var t := IntToString(n) + rest;
    RenderedSign(n, rest);
    var x := ws + IntToString(n) + rest;
    assert x == ws + t;
    DropRunSkips(ws, t);
    LeadingDigitsOfPrefix(d, rest);
    ParseIntBySign(x, n < 0, d + rest, d);
  }

  /** A rendered integer starts with its sign or its first digit. */
  lemma RenderedSign(n: int, rest: string)
    ensures var t := IntToString(n) + rest;
            && SignOf(t) == (n < 0, NatToString(if n < 0 then -n else n) + rest)
            && !IsSpace(t[0])
  {
    var d := NatToString(if n < 0 then -n else n);
    var t := IntToString(n) + rest;
    if n < 0 {
      assert t == "-" + (d + rest);
      SignOfMinus(d + rest);
    } else {
      assert t == d + rest;
      assert IsDigit(t[0]);
    }
  }

  lemma ParseIntBySign(x: string, neg: bool, body: string, d: string)
    requires SignOf(TrimStart(x)) == (neg, body)
    requires LeadingDigits(body) == d && |d| > 0
    ensures ParseInt(x) == Some(if neg then 0 - DigitsValue(d) else DigitsValue(d))
  {
  }

  lemma {:induction false} DropRunSkips(ws: string, t: string)
    requires forall i | 0 <= i < |ws| :: IsSpace(ws[i])
    requires |t| == 0 || !IsSpace(t[0])
    ensures TrimStart(ws + t) == t
    decreases |ws|
  {
    if |ws| > 0 {
      assert (ws + t)[1..] == ws[1..] + t;
      DropRunSkips(ws[1..], t);
    }
  }

  lemma {:induction false} LeadingDigitsOfPrefix(d: string, rest: string)
    requires AllDigits(d)
    requires |rest| == 0 || !IsDigit(rest[0])
    ensures LeadingDigits(d + rest) == d
    decreases |d|
  {
    if |d| > 0 {
      assert (d + rest)[1..] == d[1..] + rest;
      LeadingDigitsOfPrefix(d[1..], rest);
    }
  }

  /** The `isInt` test of the validator library with its default options:
      an optional sign followed by one or more digits (leading zeros allowed). */
  predicate IsIntText(s: string) {
    var (_, body) := SignOf(s);
    |body| > 0 && AllDigits(body)
  }

  /** The exact integer an `isInt` text denotes. */
  function IntTextValue(s: string): int
    requires IsIntText(s)
  {
    var (neg, body) := SignOf(s);
    var v: int := DigitsValue(body);
    if neg then -v else v
  }

  lemma IntToStringIsInt(n: int)
    ensures IsIntText(IntToString(n)) && IntTextValue(IntToString(n)) == n
  {
    var m: nat := if n < 0 then -n else n;
    NatToStringValue(m);
    if n < 0 {
      assert ("-" + NatToString(m))[1..] == NatToString(m);
    }
  }
}

=== FILE: locator.dfy ===
/** The bounded grid search that locates a stamp on a page
    (`edgeOnlyLocator` in src/services/stamp.service.js): square windows
    of four sizes slide over a downscaled page in steps of 28 pixels, at
    most 360 of them are scored against the stamp's edge descriptor, and
    the best of the six highest-scoring windows is mapped back to page
    coordinates and clamped. */
module Locator {
  import opened Wrappers
  import opened Budget
  import opened StampRaster
  import opened Ranking
  import opened EnvConfig

  const LocatorBudgetMsg := "Locator budget exceeded"
  const LocatorRefineBudgetMsg := "Locator refine budget exceeded"

  /** `Math.round`: halves round up. */
  function Round(x: real): (r: int)
    ensures x - 0.5 < r as real <= x + 0.5
  {
    (x + 0.5).Floor
  }

  function Max(a: int, b: int): int { if a >= b then a else b }
  function Min(a: int, b: int): int { if a <= b then a else b }

  /** A square window of the downscaled page. */
  datatype Window = Window(x: nat, y: nat, side: nat)

  datatype Cand = Cand(score: real, win: Window)

  function Score(c: Cand): real { c.score }

  /** A window on the stride grid that lies inside a `dsW` x `dsH` page. */
  predicate Fits(w: Window, dsW: nat, dsH: nat) {
    && w.x + w.side <= dsW && w.y + w.side <= dsH
    && w.side >= 64
    && w.x % LocStride == 0 && w.y % LocStride == 0
  }

  predicate AllFit(cs: seq<Cand>, dsW: nat, dsH: nat) {
    forall i | 0 <= i < |cs| :: Fits(cs[i].win, dsW, dsH)
  }

  /** What the scan loops share: the downscaled page, the stamp's edge
      descriptor and the budget. */
  datatype Scan = Scan(raster: Raster, ds: Image, dsW: nat, dsH: nat, seed: Edge, budget: Budget, clock: Clock)

  /** A loop step keeps every scored window on the page, never scores more
      than the cap, only appends, and only consumes clock polls. */
  predicate Grows(sc: Scan, cands: seq<Cand>, t: nat, out: (seq<Cand>, nat)) {
    && AllFit(out.0, sc.dsW, sc.dsH)
    && |out.0| <= LocMaxPatches
    && |cands| <= |out.0| && out.0[..|cands|] == cands
    && t <= out.1
  }

  lemma GrowsTrans(sc: Scan, a: seq<Cand>, t: nat, mid: (seq<Cand>, nat), out: (seq<Cand>, nat))
    requires Grows(sc, a, t, mid) && Grows(sc, mid.0, mid.1, out)
    ensures Grows(sc, a, t, out)
  {
    assert out.0[..|a|] == out.0[..|mid.0|][..|a|];
  }

  /** Extract the window, describe its edges and compare with the stamp. */
  function WindowScore(sc: Scan, w: Window): Result<real> {
    var patch :- sc.raster.extract(sc.ds, w.x, w.y, w.side, w.side);
    var e :- sc.raster.edge(patch);
    Ok(sc.raster.cosine(sc.seed, e))
  }

  // ------------------------------------------------- the window grid

  /** The windows of one row, left to right: `x` runs over the stride
      grid from `x` on while the window fits the page width. */
  function RowGrid(side: nat, y: nat, x: nat, dsW: nat): seq<Window>
    decreases dsW - x
  {
    if x + side > dsW then [] else [Window(x, y, side)] + RowGrid(side, y, x + LocStride, dsW)
  }

  /** The windows of one size, row by row from `y` on. */
  function SideGrid(side: nat, y: nat, dsW: nat, dsH: nat): seq<Window>
    decreases dsH - y
  {
    if y + side > dsH then [] else RowGrid(side, y, 0, dsW) + SideGrid(side, y + LocStride, dsW, dsH)
  }

  /** The windows of every size from scale index `i` on, in scale order. */
  function ScaleGrid(i: nat, dsW: nat, dsH: nat): seq<Window>
    decreases |LocScales| - i
  {
    if i >= |LocScales| then [] else SideGrid(SideAt(LocScales[i]), 0, dsW, dsH) + ScaleGrid(i + 1, dsW, dsH)
  }

  /** Scores the windows in turn; the first failure is the outcome. */
  function ScoreAll(sc: Scan, ws: seq<Window>): (r: Result<seq<Cand>>)
    ensures r.Ok? ==> |r.value| == |ws|
  {
    if |ws| == 0 then Ok([])
    else
      var s :- WindowScore(sc, ws[0]);
      var rest :- ScoreAll(sc, ws[1..]);
      Ok([Cand(s, ws[0])] + rest)
  }

  /** Scoring fails exactly when some window fails, and otherwise holds
      each window with its own score, in order. */
  lemma {:induction false} ScoreAllScores(sc: Scan, ws: seq<Window>)
    ensures var r := ScoreAll(sc, ws);
      && (r.Err? <==> exists i | 0 <= i < |ws| :: WindowScore(sc, ws[i]).Err?)
      && (r.Ok? ==> forall i | 0 <= i < |ws| :: r.value[i].win == ws[i] && WindowScore(sc, ws[i]) == Ok(r.value[i].score))
    decreases |ws|
  {
    if |ws| > 0 {
      ScoreAllScores(sc, ws[1..]);
      assert forall i | 1 <= i < |ws| :: ws[1..][i - 1] == ws[i];
    }
  }

  /** The candidate list `cands` followed by the scores of `ws`. */
  function Extend(sc: Scan, cands: seq<Cand>, ws: seq<Window>): (r: Result<seq<Cand>>)
    ensures r.Ok? ==> |r.value| == |cands| + |ws|
  {
    match ScoreAll(sc, ws)
    case Err(e) => Err(e)
    case Ok(more) => Ok(cands + more)
  }

  /** No budget poll from number `t` on finds the budget over. */
  ghost predicate OpenFrom(sc: Scan, t: nat) {
    forall k: nat | t <= k :: !Over(sc.budget, sc.clock.at(k))
  }

  lemma OpenLater(sc: Scan, t: nat, u: nat)
    ensures OpenFrom(sc, t) && t <= u ==> OpenFrom(sc, u)
  {
  }

  lemma ExtendNone(sc: Scan, cands: seq<Cand>)
    ensures Extend(sc, cands, []) == Ok(cands)
  {
    assert cands + [] == cands;
  }

  lemma TakeCons<T>(x: T, xs: seq<T>, n: nat)
    requires n >= 1
    ensures Take([x] + xs, n) == [x] + Take(xs, n - 1)
  {
  }

  lemma TakeAppend<T>(a: seq<T>, b: seq<T>, n: nat)
    ensures Take(a + b, n) == if n <= |a| then Take(a, n) else a + Take(b, n - |a|)
  {
    if n <= |a| {
      assert (a + b)[..n] == a[..n];
    } else if n < |a| + |b| {
      assert (a + b)[..n] == a + b[..n - |a|];
    }
  }

  /** Scoring one more window. */
  lemma ExtendCons(sc: Scan, cands: seq<Cand>, w: Window, ws: seq<Window>)
    ensures Extend(sc, cands, [w] + ws) ==
      match WindowScore(sc, w)
      case Err(e) => Err(e)
      case Ok(s) => Extend(sc, cands + [Cand(s, w)], ws)
  {
    assert ([w] + ws)[1..] == ws;
    match WindowScore(sc, w)
    case Err(_) =>
    case Ok(s) =>
      match ScoreAll(sc, ws)
      case Err(_) =>
      case Ok(more) =>
        assert ScoreAll(sc, [w] + ws) == Ok([Cand(s, w)] + more);
        assert cands + ([Cand(s, w)] + more) == cands + [Cand(s, w)] + more;
  }

  /** Scoring `a + b` is scoring `a`, then `b`. */
  lemma {:induction false} ExtendAppend(sc: Scan, cands: seq<Cand>, a: seq<Window>, b: seq<Window>)
    ensures Extend(sc, cands, a + b) ==
      match Extend(sc, cands, a)
      case Err(e) => Err(e)
      case Ok(mid) => Extend(sc, mid, b)
    decreases |a|
  {
    if |a| == 0 {
      assert a + b == b;
      assert ScoreAll(sc, a) == Ok([]);
      assert cands + [] == cands;
    } else {
      assert a + b == [a[0]] + (a[1..] + b);
      assert a == [a[0]] + a[1..];
      ExtendCons(sc, cands, a[0], a[1..] + b);
      ExtendCons(sc, cands, a[0], a[1..]);
      match WindowScore(sc, a[0])
      case Err(_) =>
      case Ok(s) => ExtendAppend(sc, cands + [Cand(s, a[0])], a[1..], b);
    }
  }

  /** The column loop of one row. */
  function ScanCols(sc: Scan, side: nat, y: nat, x: nat, cands: seq<Cand>, t: nat): (r: Polled<seq<Cand>>)
    requires side >= 64 && y + side <= sc.dsH && y % LocStride == 0 && x % LocStride == 0
    requires AllFit(cands, sc.dsW, sc.dsH) && |cands| <= LocMaxPatches
    ensures t <= r.t
    ensures r.res.Ok? ==> Grows(sc, cands, t, (r.res.value, r.t))
    decreases sc.dsW - x
  {
    if x + side > sc.dsW || |cands| >= LocMaxPatches then Polled(Ok(cands), t)
    else match WindowScore(sc, Window(x, y, side))
      case Err(e) => Polled(Err(e), t)
      case Ok(score) =>
        var more := cands + [Cand(score, Window(x, y, side))];
        assert more[..|cands|] == cands;
        if Over(sc.budget, sc.clock.at(t)) then Polled(Ok(more), t + 1)
        else
          var r := ScanCols(sc, side, y, x + LocStride, more, t + 1);
          if r.res.Ok? then GrowsTrans(sc, cands, t, (more, t + 1), (r.res.value, r.t)); r else r
  }

  /** The row loop of one window size. */
  function ScanRows(sc: Scan, side: nat, y: nat, cands: seq<Cand>, t: nat): (r: Polled<seq<Cand>>)
    requires side >= 64 && y % LocStride == 0
    requires AllFit(cands, sc.dsW, sc.dsH) && |cands| <= LocMaxPatches
    ensures t <= r.t
    ensures r.res.Ok? ==> Grows(sc, cands, t, (r.res.value, r.t))
    decreases sc.dsH - y
  {
    if y + side > sc.dsH then Polled(Ok(cands), t)
    else
      var row := ScanCols(sc, side, y, 0, cands, t);
      if row.res.Err? || |row.res.value| >= LocMaxPatches then row
      else if Over(sc.budget, sc.clock.at(row.t)) then Polled(Ok(row.res.value), row.t + 1)
      else
        var r := ScanRows(sc, side, y + LocStride, row.res.value, row.t + 1);
        if r.res.Ok? then GrowsTrans(sc, cands, t, (row.res.value, row.t + 1), (r.res.value, r.t)); r else r
  }

  /** Scanning the prefix of `here + later` that the cap allows: `here`
      first, and `later` only when `here` left room under the cap. */
  lemma GridSplit(sc: Scan, cands: seq<Cand>, here: seq<Window>, later: seq<Window>)
    requires |cands| <= LocMaxPatches
    ensures var n := LocMaxPatches - |cands|;
      var head := Extend(sc, cands, Take(here, n));
      Extend(sc, cands, Take(here + later, n)) ==
        if head.Err? || |head.value| >= LocMaxPatches then head
        else Extend(sc, head.value, Take(later, LocMaxPatches - |head.value|))
  {
    var n := LocMaxPatches - |cands|;
    TakeAppend(here, later, n);
    if n > |here| {
      ExtendAppend(sc, cands, here, Take(later, n - |here|));
    }
  }

  /** The window side at a scale: `max(64, round(LOC_BASE * s))`. */
  function SideAt(s: real): (side: nat)
    ensures side >= 64
  {
    var r := Round(LocBase * s);
    if r < 64 then 64 else r
  }

  /** The loop over the scales, from scale index `i` on. */
  function ScanScales(sc: Scan, i: nat, cands: seq<Cand>, t: nat): (r: Polled<seq<Cand>>)
    requires AllFit(cands, sc.dsW, sc.dsH) && |cands| <= LocMaxPatches
    ensures t <= r.t
    ensures r.res.Ok? ==> Grows(sc, cands, t, (r.res.value, r.t))
    ensures r.res.Err? && r.res.error != LocatorBudgetMsg ==> exists w: Window :: WindowScore(sc, w).Err?
    ensures OpenFrom(sc, t) ==> r.res == Extend(sc, cands, Take(ScaleGrid(i, sc.dsW, sc.dsH), LocMaxPatches - |cands|))
    decreases |LocScales| - i
  {
    if i >= |LocScales| then
      ExtendNone(sc, cands);
      Polled(Ok(cands), t)
    else if Over(sc.budget, sc.clock.at(t)) then Polled(Err(LocatorBudgetMsg), t + 1)
    else
      var side := SideAt(LocScales[i]);
      var rows := ScanRows(sc, side, 0, cands, t + 1);
      OpenLater(sc, t, t + 1);
      ScanRowsGrid(sc, side, 0, cands, t + 1);
      GridSplit(sc, cands, SideGrid(side, 0, sc.dsW, sc.dsH), ScaleGrid(i + 1, sc.dsW, sc.dsH));
      if rows.res.Err? then
        ScanRowsErr(sc, side, 0, cands, t + 1);
        rows
      else
        var out := rows.res.value;
        if |out| >= LocMaxPatches then rows
        else if Over(sc.budget, sc.clock.at(rows.t)) then Polled(Ok(out), rows.t + 1)
        else
          var r := ScanScales(sc, i + 1, out, rows.t + 1);
          OpenLater(sc, t, rows.t + 1);
          if r.res.Ok? then GrowsTrans(sc, cands, t, (out, rows.t + 1), (r.res.value, r.t)); r else r
  }

  /** With every budget poll open, the column loop scores the row's
      windows left to right until the cap. */
  lemma {:induction false} ScanColsGrid(sc: Scan, side: nat, y: nat, x: nat, cands: seq<Cand>, t: nat)
    requires side >= 64 && y + side <= sc.dsH && y % LocStride == 0 && x % LocStride == 0
    requires AllFit(cands, sc.dsW, sc.dsH) && |cands| <= LocMaxPatches
    ensures OpenFrom(sc, t) ==>
      ScanCols(sc, side, y, x, cands, t).res == Extend(sc, cands, Take(RowGrid(side, y, x, sc.dsW), LocMaxPatches - |cands|))
    decreases sc.dsW - x
  {
    if x + side > sc.dsW || |cands| >= LocMaxPatches {
      ExtendNone(sc, cands);
    } else {
      var w := Window(x, y, side);
      var rest := RowGrid(side, y, x + LocStride, sc.dsW);
      TakeCons(w, rest, LocMaxPatches - |cands|);
      ExtendCons(sc, cands, w, Take(rest, LocMaxPatches - |cands| - 1));
      match WindowScore(sc, w)
      case Err(_) =>
      case Ok(score) =>
        var more := cands + [Cand(score, w)];
        assert more[..|cands|] == cands;
        OpenLater(sc, t, t + 1);
        ScanColsGrid(sc, side, y, x + LocStride, more, t + 1);
    }
  }

  /** With every budget poll open, the row loop scores the windows of one
      size row by row until the cap. */
  lemma {:induction false} ScanRowsGrid(sc: Scan, side: nat, y: nat, cands: seq<Cand>, t: nat)
    requires side >= 64 && y % LocStride == 0
    requires AllFit(cands, sc.dsW, sc.dsH) && |cands| <= LocMaxPatches
    ensures OpenFrom(sc, t) ==>
      ScanRows(sc, side, y, cands, t).res == Extend(sc, cands, Take(SideGrid(side, y, sc.dsW, sc.dsH), LocMaxPatches - |cands|))
    decreases sc.dsH - y
  {
    if y + side > sc.dsH {
      ExtendNone(sc, cands);
    } else if OpenFrom(sc, t) {
      var row := ScanCols(sc, side, y, 0, cands, t);
      var here := RowGrid(side, y, 0, sc.dsW);
      var later := SideGrid(side, y + LocStride, sc.dsW, sc.dsH);
      assert SideGrid(side, y, sc.dsW, sc.dsH) == here + later;
      ScanColsGrid(sc, side, y, 0, cands, t);
      GridSplit(sc, cands, here, later);
      if row.res.Ok? && |row.res.value| < LocMaxPatches {
        OpenLater(sc, t, row.t + 1);
        assert !Over(sc.budget, sc.clock.at(row.t));
        ScanRowsGrid(sc, side, y + LocStride, row.res.value, row.t + 1);
      }
    }
  }

  lemma {:induction false} ScanColsErr(sc: Scan, side: nat, y: nat, x: nat, cands: seq<Cand>, t: nat)
    requires side >= 64 && y + side <= sc.dsH && y % LocStride == 0 && x % LocStride == 0
    requires AllFit(cands, sc.dsW, sc.dsH) && |cands| <= LocMaxPatches
    requires ScanCols(sc, side, y, x, cands, t).res.Err?
    ensures exists w: Window :: WindowScore(sc, w).Err?
    decreases sc.dsW - x
  {
    var w := Window(x, y, side);
    if WindowScore(sc, w).Ok? {
      var more := cands + [Cand(WindowScore(sc, w).value, w)];
      ScanColsErr(sc, side, y, x + LocStride, more, t + 1);
    }
  }

  lemma {:induction false} ScanRowsErr(sc: Scan, side: nat, y: nat, cands: seq<Cand>, t: nat)
    requires side >= 64 && y % LocStride == 0
    requires AllFit(cands, sc.dsW, sc.dsH) && |cands| <= LocMaxPatches
    requires ScanRows(sc, side, y, cands, t).res.Err?
    ensures exists w: Window :: WindowScore(sc, w).Err?
    decreases sc.dsH - y
  {
    var row := ScanCols(sc, side, y, 0, cands, t);
    if row.res.Err? {
      ScanColsErr(sc, side, y, 0, cands, t);
    } else {
      ScanRowsErr(sc, side, y + LocStride, row.res.value, row.t + 1);
    }
  }

  // ------------------------------------------------------ back-mapping

  /** Source page dimensions and the downscale applied for the search. */
  datatype Frame = Frame(srcW: nat, srcH: nat, scaleDown: real, dsW: nat, dsH: nat)

  predicate ValidFrame(f: Frame) {
    f.srcW > 0 && f.srcH > 0 && 0.0 < f.scaleDown <= 1.0
  }

  /** Missing dimensions read as 1600; pages wider than `LOC_DS_WIDTH` are
      scaled down to that width, and the search width is at least 200. */
  function FrameOf(sz: Size): (f: Frame)
    ensures ValidFrame(f)
    ensures f.dsW >= 200
    ensures f.srcW == (if sz.width == 0 then 1600 else sz.width)
    ensures f.srcH == (if sz.height == 0 then 1600 else sz.height)
    ensures f.srcW > LocDsWidth ==> f.dsW == LocDsWidth
    ensures f.srcW <= LocDsWidth ==> f.scaleDown == 1.0 && f.dsW == Max(200, f.srcW) && f.dsH == f.srcH
  {
    var srcW: nat := if sz.width == 0 then 1600 else sz.width;
    var srcH: nat := if sz.height == 0 then 1600 else sz.height;
    var q := LocDsWidth as real / srcW as real;
    var sd := if q < 1.0 then q else 1.0;
    assert srcW > LocDsWidth ==> srcW as real * q == LocDsWidth as real;
    var dsW := Max(200, Round(srcW as real * sd));
    var dsH := Round(srcH as real * sd);
    Frame(srcW, srcH, sd, dsW, if dsH < 0 then 0 else dsH)
  }

  datatype Box = Box(x: int, y: int, w: int, h: int)

  /** A box inside the page, except that a side clipped by the page edge
      is raised back to 16 pixels when less than that is left. */
  predicate OnPage(b: Box, srcW: nat, srcH: nat) {
    && 0 <= b.x <= srcW - 1 && 0 <= b.y <= srcH - 1
    && b.w > 0 && b.h > 0
    && (b.x + b.w <= srcW || (b.w == 16 && srcW - b.x < 16))
    && (b.y + b.h <= srcH || (b.h == 16 && srcH - b.y < 16))
  }

  /** Clamps one coordinate and its side to a page extent of `src`. */
  function ClampSpan(p: int, len: int, src: nat): (r: (int, int))
    requires src > 0
    ensures 0 <= r.0 <= src - 1 && r.1 > 0
    ensures r.0 + r.1 <= src || (r.1 == 16 && src - r.0 < 16)
    ensures 0 <= p <= src - 1 && len > 0 && p + len <= src ==> r == (p, len)
  {
    var side := if len <= 0 then 100 else len;
    var q := Max(0, Min(p, src - 1));
    (q, if q + side > src then Max(16, src - q) else side)
  }

  /** A search window in page coordinates. */
  function MapBox(win: Window, f: Frame): (b: Box)
    requires ValidFrame(f)
    ensures OnPage(b, f.srcW, f.srcH)
  {
    var inv := 1.0 / f.scaleDown;
    var xs := ClampSpan(Round(win.x as real * inv), Round(win.side as real * inv), f.srcW);
    var ys := ClampSpan(Round(win.y as real * inv), Round(win.side as real * inv), f.srcH);
    Box(xs.0, ys.0, xs.1, ys.1)
  }

  lemma RoundOfInt(n: int)
    ensures Round(n as real) == n
  {
  }

  /** Without downscaling, a window that lies on the page maps to itself. */
  lemma MapBoxIdentity(win: Window, f: Frame)
    requires ValidFrame(f) && f.scaleDown == 1.0
    requires win.side > 0 && win.x + win.side <= f.srcW && win.y + win.side <= f.srcH
    ensures MapBox(win, f) == Box(win.x, win.y, win.side, win.side)
  {
    RoundOfInt(win.x);
    RoundOfInt(win.y);
    RoundOfInt(win.side);
  }

  // --------------------------------------------------------- selection

  datatype Best = Best(score: real, box: Option<Box>)

  /** The refine loop over the top candidates: a budget check per
      candidate, and a strictly higher score replaces the best so far. */
  function Refine(few: seq<Cand>, f: Frame, best: Best, b: Budget, clock: Clock, t: nat): (r: Polled<Best>)
    requires ValidFrame(f)
    ensures t <= r.t <= t + |few|
    ensures r.res.Err? ==> r.res.error == LocatorRefineBudgetMsg
    ensures r.res.Ok? <==> forall j | t <= j < t + |few| :: !Over(b, clock.at(j))
    ensures r.res.Ok? ==> r.t == t + |few|
    decreases |few|
  {
    if |few| == 0 then Polled(Ok(best), t)
    else if Over(b, clock.at(t)) then Polled(Err(LocatorRefineBudgetMsg), t + 1)
    else
      var c := few[0];
      var next := if c.score > best.score then Best(c.score, Some(MapBox(c.win, f))) else best;
      var r := Refine(few[1..], f, next, b, clock, t + 1);
      assert r.res.Ok? <==> forall j | t <= j < t + |few| :: !Over(b, clock.at(j)) by {
        if r.res.Ok? {
          forall j | t <= j < t + |few| ensures !Over(b, clock.at(j)) {
            if j > t {
              assert t + 1 <= j < t + 1 + |few[1..]|;
            }
          }
        }
      }
      r
  }

  /** A best score no candidate beats is kept. */
  lemma {:induction false} RefineKeeps(few: seq<Cand>, f: Frame, best: Best, b: Budget, clock: Clock, t: nat)
    requires ValidFrame(f)
    requires forall i | 0 <= i < |few| :: few[i].score <= best.score
    requires Refine(few, f, best, b, clock, t).res.Ok?
    ensures Refine(few, f, best, b, clock, t).res.value == best
    decreases |few|
  {
    if |few| > 0 {
      RefineKeeps(few[1..], f, best, b, clock, t + 1);
    }
  }

  datatype Located = Located(box: Option<Box>, score: real)

  /** Ranks the scanned windows and refines the best six of them. */
  function Choose(cands: seq<Cand>, f: Frame, b: Budget, clock: Clock, t: nat): (r: Polled<Located>)
    requires ValidFrame(f)
    ensures |cands| == 0 ==> r == Polled(Ok(Located(None, 0.0)), t)
    ensures t <= r.t
    ensures r.res.Err? ==> r.res.error == LocatorRefineBudgetMsg
    ensures r.res.Ok? && |cands| > 0 ==>
      var m := cands[FirstMax(cands, Score)];
      r.res.value == if m.score > -1.0 then Located(Some(MapBox(m.win, f)), m.score) else Located(None, -1.0)
  {
    if |cands| == 0 then Polled(Ok(Located(None, 0.0)), t)
    else
      var sorted := SortDesc(cands, Score);
      var few := Take(sorted, Max(1, LocTopK));
      var refined := Refine(few, f, Best(-1.0, None), b, clock, t);
      if refined.res.Err? then Polled(Err(refined.res.error), refined.t)
      else
        SortDescHead(cands, Score);
        ChooseHead(few, f, b, clock, t);
        var best := refined.res.value;
        Polled(Ok(Located(best.box, best.score)), refined.t)
  }

  /** On a list ranked best-first the refine loop returns the head, if it
      beats the initial score of -1. */
  lemma ChooseHead(few: seq<Cand>, f: Frame, b: Budget, clock: Clock, t: nat)
    requires ValidFrame(f) && |few| > 0 && SortedDesc(few, Score)
    requires Refine(few, f, Best(-1.0, None), b, clock, t).res.Ok?
    ensures var best := Refine(few, f, Best(-1.0, None), b, clock, t).res.value;
      best == if few[0].score > -1.0 then Best(few[0].score, Some(MapBox(few[0].win, f))) else Best(-1.0, None)
  {
    var init := Best(-1.0, None);
    var next := if few[0].score > -1.0 then Best(few[0].score, Some(MapBox(few[0].win, f))) else init;
    assert forall i | 0 <= i < |few[1..]| :: few[1..][i].score <= next.score by {
      forall i | 0 <= i < |few[1..]| ensures few[1..][i].score <= next.score {
        assert Score(few[0]) >= Score(few[i + 1]);
      }
    }
    RefineKeeps(few[1..], f, next, b, clock, t + 1);
  }

  /** `edgeOnlyLocator(img, seed, budget)`, with the clock polls numbered
      from `t`. The only failures are the image library's and the two
      budget checks'. */
  function Locate(raster: Raster, img: Image, seed: Edge, b: Budget, clock: Clock, t: nat): (r: Polled<Located>)
    ensures t <= r.t
    ensures r.res.Ok? && r.res.value.box.Some? ==>
      exists sz: Size :: raster.size(img) == Ok(sz)
        && OnPage(r.res.value.box.value, FrameOf(sz).srcW, FrameOf(sz).srcH)
  {
    match raster.size(img)
    case Err(e) => Polled(Err(e), t)
    case Ok(sz) =>
      var f := FrameOf(sz);
      match raster.resizeToWidth(img, f.dsW)
      case Err(e) => Polled(Err(e), t)
      case Ok(ds) =>
        var sc := Scan(raster, ds, f.dsW, f.dsH, seed, b, clock);
        var scanned := ScanScales(sc, 0, [], t);
        if scanned.res.Err? then Polled(Err(scanned.res.error), scanned.t)
        else
          var r := Choose(scanned.res.value, f, b, clock, scanned.t);
          if r.res.Ok? && r.res.value.box.Some? then
            ChooseOnPage(scanned.res.value, f, b, clock, scanned.t);
            r
          else r
  }

  lemma ChooseOnPage(cands: seq<Cand>, f: Frame, b: Budget, clock: Clock, t: nat)
    requires ValidFrame(f)
    requires Choose(cands, f, b, clock, t).res.Ok? && Choose(cands, f, b, clock, t).res.value.box.Some?
    ensures OnPage(Choose(cands, f, b, clock, t).res.value.box.value, f.srcW, f.srcH)
  {
  }
}

=== FILE: normalizer.dfy ===
/** Turning an uploaded document into a list of page images
    (`normalizeToImages`, `extractPdfImages`, `renderPdfPages` and
    `extractDocxImages` in src/services/stamp.service.js). The PDF and zip
    libraries are parameters: they report page counts, the images painted
    on a page, page renderings and zip entries, and may fail. */
module Normalizer {
  import opened Wrappers
  import opened Text
  import opened Budget
  import opened StampHash
  import opened StampRaster
  import opened Ranking
  import opened EnvConfig

  /** The PDF library. Pages are numbered from 1. */
  datatype PdfLib = PdfLib(
    /** Opening the document and reading its page count. */
    numPages: Bytes -> Result<nat>,
    /** The images painted on one page, already encoded as PNG (images
        whose conversion fails are dropped by the library code). */
    pageImages: (Bytes, nat) -> Result<seq<Image>>,
    /** Rendering one page at a scale. */
    renderPage: (Bytes, nat, real) -> Result<Image>)

  datatype ZipEntry = ZipEntry(name: string, data: Bytes)

  /** The zip library: the `[Content_Types].xml` probe and the entry list. */
  datatype ZipLib = ZipLib(hasContentTypes: Bytes -> Result<bool>, entries: Bytes -> Result<seq<ZipEntry>>)

  function MinNat(a: nat, b: nat): nat { if a <= b then a else b }
  function MaxNat(a: nat, b: nat): nat { if a >= b then a else b }

  /** The images of pages `from .. last`, in page order. */
  function ImagesOfPages(pdf: PdfLib, buf: Bytes, from: nat, last: nat): (r: Result<seq<Image>>)
    requires 1 <= from
    ensures r.Ok? <==> forall i | from <= i <= last :: pdf.pageImages(buf, i).Ok?
    ensures r.Ok? && from <= last ==>
      |pdf.pageImages(buf, from).value| <= |r.value|
      && r.value[..|pdf.pageImages(buf, from).value|] == pdf.pageImages(buf, from).value
    decreases last + 1 - from
  {
    if from > last then Ok([])
    else
      var here :- pdf.pageImages(buf, from);
      var rest :- ImagesOfPages(pdf, buf, from + 1, last);
      assert (here + rest)[..|here|] == here;
      Ok(here + rest)
  }

  /** `extractPdfImages`: the images of the first MAX_PAGES pages. */
  function ExtractPdfImages(pdf: PdfLib, buf: Bytes): (r: Result<seq<Image>>)
    ensures r.Ok? <==> (pdf.numPages(buf).Ok?
                        && forall i | 1 <= i <= MinNat(pdf.numPages(buf).value, MaxPages) :: pdf.pageImages(buf, i).Ok?)
  {
    var n :- pdf.numPages(buf);
    ImagesOfPages(pdf, buf, 1, MinNat(n, MaxPages))
  }

  /** Renders pages `from .. last`. */
  function RenderPages(pdf: PdfLib, buf: Bytes, scale: real, from: nat, last: nat): (r: Result<seq<Image>>)
    requires 1 <= from
    ensures r.Ok? ==> |r.value| == (if from > last then 0 else last + 1 - from)
    ensures r.Ok? ==> forall i | 0 <= i < |r.value| :: pdf.renderPage(buf, from + i, scale) == Ok(r.value[i])
    decreases last + 1 - from
  {
    if from > last then Ok([])
    else
      var here :- pdf.renderPage(buf, from, scale);
      var rest :- RenderPages(pdf, buf, scale, from + 1, last);
      Ok([here] + rest)
  }

  /** `renderPdfPages`: the first `min(numPages, MAX_PAGES,
      max(1, PDF_RENDER_TOP_PAGES))` pages at `dpi / 72`. */
  function RenderPdfPages(pdf: PdfLib, cfg: StampConfig, buf: Bytes): (r: Result<seq<Image>>)
    ensures r.Ok? ==> (pdf.numPages(buf).Ok?
                       && |r.value| == MinNat(pdf.numPages(buf).value, PdfRenderTopPages))
    ensures r.Ok? ==> |r.value| <= 3
    ensures r.Ok? ==> forall i | 0 <= i < |r.value| :: pdf.renderPage(buf, i + 1, cfg.renderDpi / 72.0) == Ok(r.value[i])
  {
    var n :- pdf.numPages(buf);
    RenderPages(pdf, buf, cfg.renderDpi / 72.0, 1, MinNat(n, MinNat(MaxPages, MaxNat(1, PdfRenderTopPages))))
  }

  // ------------------------------------------------------------ DOCX media

  const MediaPrefix := "word/media/"
  const MediaExtensions: seq<string> := [".png", ".jpg", ".jpeg", ".webp", ".gif", ".bmp"]

  /** The regular expression `/^word\/media\/.+\.(png|jpe?g|webp|gif|bmp)$/i`:
      the media folder, at least one character that is not a line
      terminator, then an image extension, ignoring ASCII case. */
  predicate IsDocxMedia(name: string) {
    var l := Lower(name);
    exists e | e in MediaExtensions ::
      && StartsWith(l, MediaPrefix) && EndsWith(l, e)
      && |MediaPrefix| + 1 + |e| <= |l|
      && forall k | |MediaPrefix| <= k < |l| - |e| :: !IsLineTerminator(l[k])
  }

  /** The entries kept by the media filter, in archive order. */
  function MediaEntries(es: seq<ZipEntry>): (r: seq<ZipEntry>)
    ensures |r| <= |es|
    ensures forall e :: e in r <==> e in es && IsDocxMedia(e.name)
    decreases |es|
  {
    if |es| == 0 then []
    else
      var rest := MediaEntries(es[1..]);
      assert forall e :: e in es <==> e == es[0] || e in es[1..];
      if IsDocxMedia(es[0].name) then [es[0]] + rest else rest
  }

  /** The filter keeps each media entry as often as the archive lists it,
      and no other entry. */
  lemma {:induction false} MediaEntriesCount(es: seq<ZipEntry>, e: ZipEntry)
    ensures multiset(MediaEntries(es))[e] == if IsDocxMedia(e.name) then multiset(es)[e] else 0
    decreases |es|
  {
    if |es| > 0 {
      assert es == [es[0]] + es[1..];
      MediaEntriesCount(es[1..], e);
    }
  }

  /** The filter keeps archive order: filtering an entry list in two parts
      is filtering each part. */
  lemma {:induction false} MediaEntriesAppend(a: seq<ZipEntry>, b: seq<ZipEntry>)
    ensures MediaEntries(a + b) == MediaEntries(a) + MediaEntries(b)
    decreases |a|
  {
    if |a| == 0 {
      assert a + b == b;
    } else {
      assert (a + b)[1..] == a[1..] + b;
      MediaEntriesAppend(a[1..], b);
    }
  }

  function EntryData(es: seq<ZipEntry>): (r: seq<Bytes>)
    ensures |r| == |es| && forall i | 0 <= i < |es| :: r[i] == es[i].data
  {
    seq(|es|, i requires 0 <= i < |es| => es[i].data)
  }

  /** `extractDocxImages`: the data of the first MAX_PAGES media entries. */
  function ExtractDocxImages(zip: ZipLib, buf: Bytes): (r: Result<seq<Image>>)
    ensures r.Ok? <==> zip.entries(buf).Ok?
    ensures r.Ok? ==> |r.value| <= MaxPages
    ensures r.Ok? ==> r.value == EntryData(Take(MediaEntries(zip.entries(buf).value), MaxPages))
  {
    var es :- zip.entries(buf);
    Ok(EntryData(Take(MediaEntries(es), MaxPages)))
  }

  // --------------------------------------------------------------- dispatch

  datatype Route = PdfRoute | DocxRoute | ImageRoute | Unsupported

  /** Which branch of `normalizeToImages` a document takes: the signature
      sniff or the MIME type, PDF first, then DOCX, then images. */
  function RouteOf(zip: ZipLib, buf: Bytes, mime: Option<string>): (r: Route)
    ensures IsPdf(buf) ==> r == PdfRoute
    ensures r == PdfRoute <==> IsPdf(buf) || Contains(mime.GetOr(""), "pdf")
    ensures r == DocxRoute <==> r != PdfRoute && (IsDocx(buf, zip.hasContentTypes) || Contains(mime.GetOr(""), "word"))
    ensures r == ImageRoute ==> StartsWith(mime.GetOr(""), "image/")
    ensures r == Unsupported ==> !IsPdf(buf) && !IsDocx(buf, zip.hasContentTypes) && !StartsWith(mime.GetOr(""), "image/")
  {
    var m := mime.GetOr("");
    if IsPdf(buf) || Contains(m, "pdf") then PdfRoute
    else if IsDocx(buf, zip.hasContentTypes) || Contains(m, "word") then DocxRoute
    else if StartsWith(m, "image/") then ImageRoute
    else Unsupported
  }

  const UnsupportedMsg := "Unsupported document type"

  /** The optional rendering pass of the PDF branch: a budget poll, then the
      rendered pages normalised. Any failure, the budget's included, leaves
      the extracted images alone. */
  function RenderFallback(pdf: PdfLib, raster: Raster, cfg: StampConfig, buf: Bytes,
                          b: Budget, clock: Clock, t: nat): (r: seq<Image>)
    ensures Over(b, clock.at(t)) ==> r == []
    ensures |r| <= PdfRenderTopPages
  {
    if Over(b, clock.at(t)) then []
    else match RenderPdfPages(pdf, cfg, buf)
      case Err(_) => []
      case Ok(renders) =>
        match MapAll(Take(renders, MaxPages), raster.normalize)
        case Err(_) => []
        case Ok(norm) => norm
  }

  /** The PDF route: the embedded images (at most `MaxPages`), normalized,
      then rendered pages appended when rendering is forced or nothing
      was embedded; the render pass consumes one clock poll. */
  function PdfImages(pdf: PdfLib, raster: Raster, cfg: StampConfig,
                     buf: Bytes, b: Budget, clock: Clock, t: nat): (r: Result<(seq<Image>, nat)>)
    ensures r.Ok? <==> ExtractPdfImages(pdf, buf).Ok?
                       && MapAll(Take(ExtractPdfImages(pdf, buf).value, MaxPages), raster.normalize).Ok?
    ensures r.Ok? ==>
      var first := MapAll(Take(ExtractPdfImages(pdf, buf).value, MaxPages), raster.normalize).value;
      && |first| <= |r.value.0| <= MaxPages + PdfRenderTopPages
      && r.value.0[..|first|] == first
      && (!cfg.renderAlways && |first| > 0 ==> r.value == (first, t))
  {
    var extracted :- ExtractPdfImages(pdf, buf);
    var imgs :- MapAll(Take(extracted, MaxPages), raster.normalize);
    if cfg.renderAlways || |imgs| == 0 then
      var more := RenderFallback(pdf, raster, cfg, buf, b, clock, t);
      assert (imgs + more)[..|imgs|] == imgs;
      Ok((imgs + more, t + 1))
    else Ok((imgs, t))
  }

  /** The DOCX route: the embedded media images, each normalised, without
      a clock poll. */
  function DocxImages(zip: ZipLib, raster: Raster, buf: Bytes, t: nat): (r: Result<(seq<Image>, nat)>)
    ensures r.Ok? <==> ExtractDocxImages(zip, buf).Ok? && MapAll(ExtractDocxImages(zip, buf).value, raster.normalize).Ok?
    ensures r.Ok? ==> r.value == (MapAll(ExtractDocxImages(zip, buf).value, raster.normalize).value, t)
    ensures r.Ok? ==> |r.value.0| <= MaxPages
  {
    var entries :- ExtractDocxImages(zip, buf);
    var imgs :- MapAll(entries, raster.normalize);
    Ok((imgs, t))
  }

  /** `normalizeToImages(buf, mime, budget)`, consuming one clock poll when
      the rendering pass is attempted. */
  function NormalizeToImages(pdf: PdfLib, zip: ZipLib, raster: Raster, cfg: StampConfig,
                             buf: Bytes, mime: Option<string>, b: Budget, clock: Clock, t: nat): (r: Result<(seq<Image>, nat)>)
    ensures RouteOf(zip, buf, mime) == Unsupported ==> r == Err(UnsupportedMsg)
    ensures RouteOf(zip, buf, mime) == ImageRoute ==>
      (r.Ok? <==> raster.normalize(buf).Ok?) && (r.Ok? ==> r.value == ([raster.normalize(buf).value], t))
    ensures RouteOf(zip, buf, mime) == DocxRoute ==> r == DocxImages(zip, raster, buf, t)
    ensures RouteOf(zip, buf, mime) == PdfRoute ==> r == PdfImages(pdf, raster, cfg, buf, b, clock, t)
  {
    match RouteOf(zip, buf, mime)
    case PdfRoute => PdfImages(pdf, raster, cfg, buf, b, clock, t)
    case DocxRoute => DocxImages(zip, raster, buf, t)
    case ImageRoute =>
      var img :- raster.normalize(buf);
      Ok(([img], t))
    case Unsupported => Err(UnsupportedMsg)
  }
}

=== FILE: notif_cache.dfy ===
/** The notification cache keys shared by the request controllers, and
    `clearUserNotificationsCache` (src/controllers/doc-request.controller.js).
    The cache is a map from keys to values; the per-user index key holds the
    list of that user's cached page keys. Expiry is not modelled. */
module NotifCache {
  import opened Wrappers
  import opened JsNumber

  datatype CacheValue = KeyList(keys: seq<string>) | Entry

  type Cache = map<string, CacheValue>

  function IndexKey(uid: string): string { "notif:index:" + uid }
  function CountKey(uid: string): string { "notif:count:" + uid }

  /** `notif:list:${userId}:p${pageIndex}:s${pageSize}`. */
  function ListKey(uid: string, pageIndex: string, pageSize: string): string {
    "notif:list:" + uid + ":p" + pageIndex + ":s" + pageSize
  }

  /** The page keys recorded under the user's index key (`|| []`). */
  function IndexedPages(c: Cache, uid: string): seq<string> {
    if IndexKey(uid) in c && c[IndexKey(uid)].KeyList? then c[IndexKey(uid)].keys else []
  }

  /** `clearUserNotificationsCache(userId)`: the indexed pages, the index
      and the unread count of the user are deleted and every other entry
      stays. */
  function ClearUser(c: Cache, userId: int): (r: Cache)
    ensures var uid := IntToString(userId);
            && IndexKey(uid) !in r && CountKey(uid) !in r
            && (forall k | k in IndexedPages(c, uid) :: k !in r)
    ensures var uid := IntToString(userId);
            forall k | k in c && k != IndexKey(uid) && k != CountKey(uid) && k !in IndexedPages(c, uid) ::
              k in r && r[k] == c[k]
    ensures r.Keys <= c.Keys
  {
    var uid := IntToString(userId);
    var gone := set k | k in IndexedPages(c, uid);
    c - gone - {IndexKey(uid), CountKey(uid)}
  }

  /** Keys of different kinds never clash, so clearing one user never
      reaches another user's count, whatever the ids. */
  lemma CountKeysDistinct(a: string, b: string)
    ensures CountKey(a) == CountKey(b) <==> a == b
    ensures IndexKey(a) != CountKey(b)
  {
    if CountKey(a) == CountKey(b) {
      assert a == CountKey(a)[|"notif:count:"|..];
    }
    assert IndexKey(a)[6] == 'i' && CountKey(b)[6] == 'c';
  }
}

=== FILE: notif_templates.dfy ===
/** The notification texts of a document request (`REQUEST_NOTIF` in
    src/constants/notifications.constant.js) and how the controllers fill
    them: a description is a list of literal pieces and `{requestId}` /
    `{departmentName}` placeholders, and a filled description is the result
    of `String.prototype.replace` with a string pattern, which replaces the
    first occurrence only. */
module NotifTemplates {
  import opened Wrappers
  import opened Text
  import opened DocStatus

  datatype Slot = RequestId | DepartmentName

  function Placeholder(s: Slot): (p: string)
    ensures |p| > 1 && p[0] == '{'
    ensures forall k | 1 <= k < |p| :: p[k] != '{'
  {
    match s
    case RequestId => "{requestId}"
    case DepartmentName => "{departmentName}"
  }

  /** A character other than the opening brace, which starts every
      placeholder. */
  type Plain = c: char | c != '{'

  /** A literal piece holds no opening brace, so a placeholder can only be
      found where a hole is. */
  datatype Piece = Lit(text: seq<Plain>) | Hole(slot: Slot)

  /** A description: a list of pieces (a list rather than a sequence, so
      that the verifier can evaluate the entries of the table). */
  datatype Pieces = Done | Then(head: Piece, tail: Pieces)

  function PieceText(p: Piece): string {
    match p
    case Lit(t) => t
    case Hole(s) => Placeholder(s)
  }

  /** The description as the `description` string literal of the
      notification constants. */
  function Flatten(ps: Pieces): string {
    match ps
    case Done => ""
    case Then(p, rest) => PieceText(p) + Flatten(rest)
  }

  /** The keys of `REQUEST_NOTIF`: one per request status, and `UPLOADED`. */
  datatype Key = StatusKey(status: Status) | UploadedKey

  function KeyName(k: Key): string {
    match k
    case StatusKey(s) => Name(s)
    case UploadedKey => "UPLOADED"
  }

  /** `REQUEST_NOTIF[name]`: defined exactly for the eight key names. */
  function KeyOf(name: string): (r: Option<Key>)
    ensures r.Some? ==> KeyName(r.value) == name
  {
    if name == "UPLOADED" then Some(UploadedKey)
    else match ParseStatus(name)
      case Some(s) => Some(StatusKey(s))
      case None => None
  }

  /** Every key, and so every upper-cased status name, finds its entry. */
  lemma KeyOfName(k: Key)
    ensures KeyOf(KeyName(k)) == Some(k)
  {
    if k.StatusKey? {
      ParseName(k.status);
    }
  }

  datatype Template = Template(title: string, description: Pieces)

  /** The descriptions, in the order of the table. */
  const PendingText: Pieces :=
    Then(Lit("A new document "), Then(Lit("request #"), Then(Hole(RequestId),
    Then(Lit(" has been assigned"), Then(Lit(" to your "), Then(Lit("department. Review"),
    Then(Lit(" and take action"), Done)))))))

  const ApprovedText: Pieces :=
    Then(Lit("Your request #"), Then(Hole(RequestId), Then(Lit(" has been approved"),
    Then(Lit(" by "), Then(Hole(DepartmentName), Then(Lit(". Processing will "),
    Then(Lit("begin soon."), Done)))))))

  const ProcessingText: Pieces :=
    Then(Lit("Your request #"), Then(Hole(RequestId), Then(Lit(" is now being "),
    Then(Lit("processed by "), Then(Hole(DepartmentName), Then(Lit("."), Done))))))

  const RejectedText: Pieces :=
    Then(Lit("Your request #"), Then(Hole(RequestId), Then(Lit(" was rejected by "),
    Then(Hole(DepartmentName), Then(Lit(". Check remarks "), Then(Lit("for details"), Done))))))

  const CancelledText: Pieces :=
    Then(Lit("Request #"), Then(Hole(RequestId), Then(Lit(" has been "),
    Then(Lit("cancelled. The "), Then(Lit("process has been "), Then(Lit("stopped and no "),
    Then(Lit("further action is "), Then(Lit("required."), Done))))))))

  const CompletedText: Pieces :=
    Then(Lit("Your request #"), Then(Hole(RequestId), Then(Lit(" is completed. You"),
    Then(Lit(" may now claim or "), Then(Lit("download your "), Then(Lit("document."), Done))))))

  const ClosedText: Pieces :=
    Then(Lit("Request #"), Then(Hole(RequestId), Then(Lit(" has been closed. "),
    Then(Lit("The process is "), Then(Lit("complete and no "), Then(Lit("further actions "),
    Then(Lit("are needed."), Done)))))))

  const UploadedText: Pieces :=
    Then(Lit("The document for "), Then(Lit("request #"), Then(Hole(RequestId),
    Then(Lit(" has been "), Then(Lit("uploaded. You can "), Then(Lit("now view or "),
    Then(Lit("download it."), Done)))))))

  /** The table. */
  function RequestNotif(k: Key): Template {
    if k == StatusKey(Pending) then Template("New Document Request Assigned", PendingText)
    else if k == StatusKey(Approved) then Template("Request Approved", ApprovedText)
    else if k == StatusKey(Processing) then Template("Request in Processing", ProcessingText)
    else if k == StatusKey(Rejected) then Template("Request Rejected", RejectedText)
    else if k == StatusKey(Cancelled) then Template("Request Cancelled", CancelledText)
    else if k == StatusKey(Completed) then Template("Request Completed", CompletedText)
    else if k == StatusKey(Closed) then Template("Request Closed", ClosedText)
    else Template("Document Uploaded", UploadedText)
  }

  function HoleCount(ps: Pieces, s: Slot): nat {
    match ps
    case Done => 0
    case Then(p, rest) => (if p == Hole(s) then 1 else 0) + HoleCount(rest, s)
  }

  predicate NoHoles(ps: Pieces) {
    match ps
    case Done => true
    case Then(p, rest) => p.Lit? && NoHoles(rest)
  }

  /** The title's entry, read back from the title. */
  function KeyOfTitle(title: string): Option<Key> {
    if title == "New Document Request Assigned" then Some(StatusKey(Pending))
    else if title == "Request Approved" then Some(StatusKey(Approved))
    else if title == "Request in Processing" then Some(StatusKey(Processing))
    else if title == "Request Rejected" then Some(StatusKey(Rejected))
    else if title == "Request Cancelled" then Some(StatusKey(Cancelled))
    else if title == "Request Completed" then Some(StatusKey(Completed))
    else if title == "Request Closed" then Some(StatusKey(Closed))
    else if title == "Document Uploaded" then Some(UploadedKey)
    else None
  }

  lemma PendingEntry()
    ensures HoleCount(PendingText, RequestId) == 1
    ensures HoleCount(PendingText, DepartmentName) == 0
  {
  }

  lemma ApprovedEntry()
    ensures HoleCount(ApprovedText, RequestId) == 1
    ensures HoleCount(ApprovedText, DepartmentName) == 1
  {
  }

  lemma ProcessingEntry()
    ensures HoleCount(ProcessingText, RequestId) == 1
    ensures HoleCount(ProcessingText, DepartmentName) == 1
  {
  }

  lemma RejectedEntry()
    ensures HoleCount(RejectedText, RequestId) == 1
    ensures HoleCount(RejectedText, DepartmentName) == 1
  {
  }

  lemma CancelledEntry()
    ensures HoleCount(CancelledText, RequestId) == 1
    ensures HoleCount(CancelledText, DepartmentName) == 0
  {
  }

  lemma CompletedEntry()
    ensures HoleCount(CompletedText, RequestId) == 1
    ensures HoleCount(CompletedText, DepartmentName) == 0
  {
  }

  lemma ClosedEntry()
    ensures HoleCount(ClosedText, RequestId) == 1
    ensures HoleCount(ClosedText, DepartmentName) == 0
  {
  }

  lemma UploadedEntry()
    ensures HoleCount(UploadedText, RequestId) == 1
    ensures HoleCount(UploadedText, DepartmentName) == 0
  {
  }

  /** Each title names its entry. */
  lemma TitleNamesEntry(k: Key)
    ensures KeyOfTitle(RequestNotif(k).title) == Some(k)
  {
    match k {
      case StatusKey(s) =>
        match s {
          case Pending =>
          case Approved =>
          case Processing =>
          case Rejected =>
          case Cancelled =>
          case Completed =>
          case Closed =>
        }
      case UploadedKey =>
    }
  }

  /** The three entries that name the department. */
  predicate NamesDepartment(k: Key) {
    k == StatusKey(Approved) || k == StatusKey(Processing) || k == StatusKey(Rejected)
  }

  /** `{requestId}` occurs exactly once in every description, and
      `{departmentName}` exactly once in the approved, processing and
      rejected texts and nowhere else. */
  lemma HolesOfEntry(k: Key)
    ensures HoleCount(RequestNotif(k).description, RequestId) == 1
    ensures HoleCount(RequestNotif(k).description, DepartmentName) == if NamesDepartment(k) then 1 else 0
  {
    match k {
      case StatusKey(s) =>
        match s {
          case Pending => PendingEntry();
          case Approved => ApprovedEntry();
          case Processing => ProcessingEntry();
          case Rejected => RejectedEntry();
          case Cancelled => CancelledEntry();
          case Completed => CompletedEntry();
          case Closed => ClosedEntry();
        }
      case UploadedKey => UploadedEntry();
    }
  }

  /** Each title names its entry; `{requestId}` occurs exactly once in
      every description, and `{departmentName}` exactly once in the
      approved, processing and rejected texts and nowhere else. */
  lemma TableShape(k: Key)
    ensures KeyOfTitle(RequestNotif(k).title) == Some(k)
    ensures HoleCount(RequestNotif(k).description, RequestId) == 1
    ensures HoleCount(RequestNotif(k).description, DepartmentName) == if NamesDepartment(k) then 1 else 0
  {
    TitleNamesEntry(k);
    HolesOfEntry(k);
  }

  /** The eight titles are pairwise distinct. */
  lemma TitlesDistinct(k: Key, k2: Key)
    ensures RequestNotif(k).title == RequestNotif(k2).title <==> k == k2
  {
    TableShape(k);
    TableShape(k2);
  }

  /** The first hole of slot `s` turned into the literal `v`. */
  function FillFirst(ps: Pieces, s: Slot, v: seq<Plain>): (r: Pieces)
    ensures HoleCount(ps, s) > 0 ==> HoleCount(r, s) == HoleCount(ps, s) - 1
    ensures HoleCount(ps, s) == 0 ==> r == ps
    ensures forall s2 | s2 != s :: HoleCount(r, s2) == HoleCount(ps, s2)
  {
    match ps
    case Done => Done
    case Then(p, rest) => if p == Hole(s) then Then(Lit(v), rest) else Then(p, FillFirst(rest, s, v))
  }

  /** No placeholder of another slot, and no literal piece, holds an
      occurrence of the placeholder of slot `s`. */
  lemma NoOccurrenceIn(p: Piece, rest: string, s: Slot)
    requires p != Hole(s)
    ensures forall j: nat | j < |PieceText(p)| :: !OccursAt(PieceText(p) + rest, Placeholder(s), j)
  {
    var pat := Placeholder(s);
    var head := PieceText(p);
    var t := head + rest;
    forall j: nat | j < |head| ensures !OccursAt(t, pat, j) {
      if j + |pat| <= |t| {
        var w := t[j..j + |pat|];
        if p.Lit? {
          assert w[0] == head[j];
          assert w[0] != pat[0];
        } else if j == 0 {
          assert w[1] == head[1];
          assert w[1] != pat[1];
        } else {
          assert w[0] == head[j];
          assert w[0] != pat[0];
        }
      }
    }
  }

  /** `description.replace(placeholder, v)` on the flattened text equals
      filling the first hole of that slot. */
  lemma {:induction false} ReplaceFills(ps: Pieces, s: Slot, v: seq<Plain>)
    ensures ReplaceFirst(Flatten(ps), Placeholder(s), v) == Flatten(FillFirst(ps, s, v))
  {
    match ps
    case Done =>
    case Then(p, rest) =>
      if p == Hole(s) {
        ReplaceFirstAtStart(Flatten(rest), Placeholder(s), v);
      } else {
        ReplaceFills(rest, s, v);
        NoOccurrenceIn(p, Flatten(rest), s);
        ReplaceFirstAfter(PieceText(p), Flatten(rest), Placeholder(s), v);
      }
  }

  lemma {:induction false} FlattenNoBrace(ps: Pieces)
    requires NoHoles(ps)
    ensures '{' !in Flatten(ps)
  {
    match ps
    case Done =>
    case Then(p, rest) =>
      FlattenNoBrace(rest);
      assert Flatten(ps) == p.text + Flatten(rest);
  }

  lemma {:induction false} NoHolesByCount(ps: Pieces)
    requires HoleCount(ps, RequestId) == 0 && HoleCount(ps, DepartmentName) == 0
    ensures NoHoles(ps)
  {
    match ps
    case Done =>
    case Then(p, rest) =>
      assert p.Lit? by {
        match p {
          case Lit(_) =>
          case Hole(sl) =>
            match sl {
              case RequestId =>
              case DepartmentName =>
            }
        }
      }
      NoHolesByCount(rest);
  }

  /** The description sent for a status change:
      `.replace("{requestId}", requestNo).replace("{departmentName}", name)`. */
  function StatusDescription(k: Key, requestNo: string, deptName: string): string {
    ReplaceFirst(ReplaceFirst(Flatten(RequestNotif(k).description), Placeholder(RequestId), requestNo),
                 Placeholder(DepartmentName), deptName)
  }

  /** The description sent on creation and upload: only `{requestId}` is
      replaced. */
  function RequestDescription(k: Key, requestNo: string): string {
    ReplaceFirst(Flatten(RequestNotif(k).description), Placeholder(RequestId), requestNo)
  }

  /** With values free of braces, the status-change description is the
      template with both holes filled, and no placeholder is left. */
  lemma StatusDescriptionFills(k: Key, requestNo: string, deptName: string)
    requires '{' !in requestNo && '{' !in deptName
    ensures StatusDescription(k, requestNo, deptName)
         == Flatten(FillFirst(FillFirst(RequestNotif(k).description, RequestId, requestNo), DepartmentName, deptName))
    ensures '{' !in StatusDescription(k, requestNo, deptName)
  {
    var ps := RequestNotif(k).description;
    TableShape(k);
    ReplaceFills(ps, RequestId, requestNo);
    var ps1 := FillFirst(ps, RequestId, requestNo);
    ReplaceFills(ps1, DepartmentName, deptName);
    var ps2 := FillFirst(ps1, DepartmentName, deptName);
    NoHolesByCount(ps2);
    FlattenNoBrace(ps2);
  }

  /** On creation (the pending text) and upload, filling `{requestId}` leaves
      no placeholder behind. */
  lemma RequestDescriptionFills(k: Key, requestNo: string)
    requires k == StatusKey(Pending) || k == UploadedKey
    requires '{' !in requestNo
    ensures RequestDescription(k, requestNo) == Flatten(FillFirst(RequestNotif(k).description, RequestId, requestNo))
    ensures '{' !in RequestDescription(k, requestNo)
  {
    var ps := RequestNotif(k).description;
    TableShape(k);
    ReplaceFills(ps, RequestId, requestNo);
    var ps1 := FillFirst(ps, RequestId, requestNo);
    NoHolesByCount(ps1);
    FlattenNoBrace(ps1);
  }
}

=== FILE: notifications.dfy ===
/** `createNotification` of src/services/notifications.service.js: the
    multi-row INSERT it builds, one group of five numbered placeholders per
    notification and the parameters in column order. */
module Notifications {
  import opened Wrappers
  import opened Text
  import opened JsNumber

  /** A notification row as the controllers build it. */
  datatype Notification = Notification(userId: int, title: string, description: string, kind: string, referenceId: int)

  /** A bound parameter. */
  datatype Param = PInt(i: int) | PText(t: string)

  const Columns: nat := 5

  const EmptyMsg := "Notifications array is empty or invalid"

  /** `notif[col]` for the columns `userId, title, description, type,
      referenceId`. */
  function ColumnValue(n: Notification, col: nat): Param
    requires col < Columns
  {
    if col == 0 then PInt(n.userId)
    else if col == 1 then PText(n.title)
    else if col == 2 then PText(n.description)
    else if col == 3 then PText(n.kind)
    else PInt(n.referenceId)
  }

  /** The parameters of the INSERT, row after row. */
  function ParamsOf(ns: seq<Notification>): (r: seq<Param>)
    ensures |r| == Columns * |ns|
  {
    if |ns| == 0 then []
    else
      var n := ns[0];
      [ColumnValue(n, 0), ColumnValue(n, 1), ColumnValue(n, 2), ColumnValue(n, 3), ColumnValue(n, 4)] + ParamsOf(ns[1..])
  }

  /** `(${row.join(',')})` for one group of placeholder numbers. */
  function GroupText(group: seq<nat>): string {
    "(" + Join(seq(|group|, k requires 0 <= k < |group| => "$" + NatToString(group[k])), ",") + ")"
  }

  /** `values.join(', ')`. */
  function ValuesText(groups: seq<seq<nat>>): string {
    Join(seq(|groups|, i requires 0 <= i < |groups| => GroupText(groups[i])), ", ")
  }

  /** The loops of `createNotification`: a running parameter number that
      starts at 1, one group per notification, one placeholder and one
      parameter per column. */
  method BuildInsert(ns: seq<Notification>) returns (groups: seq<seq<nat>>, params: seq<Param>)
    ensures |groups| == |ns| && |params| == Columns * |ns|
    ensures forall i | 0 <= i < |groups| :: |groups[i]| == Columns
    ensures forall i, j | 0 <= i < |groups| && 0 <= j < Columns :: groups[i][j] == Columns * i + j + 1
    ensures forall i, j | 0 <= i < |ns| && 0 <= j < Columns :: params[Columns * i + j] == ColumnValue(ns[i], j)
  {
    groups := [];
    params := [];
    var paramIndex := 1;
    for i := 0 to |ns|
      invariant |groups| == i && |params| == Columns * i && paramIndex == Columns * i + 1
      invariant forall a | 0 <= a < i :: |groups[a]| == Columns
      invariant forall a, j | 0 <= a < i && 0 <= j < Columns :: groups[a][j] == Columns * a + j + 1
      invariant forall a, j | 0 <= a < i && 0 <= j < Columns :: params[Columns * a + j] == ColumnValue(ns[a], j)
    {
      var row: seq<nat> := [];
      var prev := params;
      for col := 0 to Columns
        invariant |row| == col && paramIndex == Columns * i + col + 1
        invariant |params| == Columns * i + col && params[..Columns * i] == prev
        invariant forall j | 0 <= j < col :: row[j] == Columns * i + j + 1
        invariant forall j | 0 <= j < col :: params[Columns * i + j] == ColumnValue(ns[i], j)
      {
        row := row + [paramIndex];
        paramIndex := paramIndex + 1;
        params := params + [ColumnValue(ns[i], col)];
      }
      forall a, j | 0 <= a < i && 0 <= j < Columns
        ensures params[Columns * a + j] == ColumnValue(ns[a], j)
      {
        assert Columns * a + j < Columns * i;
        assert params[Columns * a + j] == prev[Columns * a + j];
      }
      groups := groups + [row];
    }
  }

  /** The parameters the loops collect are `ParamsOf`, the row-by-row
      reference order. */
  lemma {:induction false} ParamsOfInOrder(ns: seq<Notification>)
    ensures forall i, j | 0 <= i < |ns| && 0 <= j < Columns :: ParamsOf(ns)[Columns * i + j] == ColumnValue(ns[i], j)
  {
    if |ns| > 0 {
      ParamsOfInOrder(ns[1..]);
      forall i, j | 0 <= i < |ns| && 0 <= j < Columns
        ensures ParamsOf(ns)[Columns * i + j] == ColumnValue(ns[i], j)
      {
        if i > 0 {
          assert ParamsOf(ns)[Columns * i + j] == ParamsOf(ns[1..])[Columns * (i - 1) + j];
        }
      }
    }
  }

  /** What the statement is built from: the placeholder numbers of each
      VALUES group (rendered by `ValuesText`) and the parameters. */
  datatype Insert = Insert(groups: seq<seq<nat>>, params: seq<Param>)

  /** `createNotification(notifications)`, with `None` for a value that is
      not an array. */
  method CreateNotification(ns: Option<seq<Notification>>) returns (r: Result<Insert>)
    ensures r.Err? <==> ns.None? || |ns.value| == 0
    ensures r.Err? ==> r.error == EmptyMsg
    ensures r.Ok? ==> r.value.params == ParamsOf(ns.value)
    ensures r.Ok? ==> |r.value.groups| == |ns.value|
    ensures r.Ok? ==> forall i, j | 0 <= i < |r.value.groups| && 0 <= j < Columns ::
      |r.value.groups[i]| == Columns && r.value.groups[i][j] == Columns * i + j + 1
  {
    if ns.None? || |ns.value| == 0 {
      return Err(EmptyMsg);
    }
    var groups, params := BuildInsert(ns.value);
    ParamsOfInOrder(ns.value);
    forall k | 0 <= k < |params| ensures params[k] == ParamsOf(ns.value)[k] {
      var i, j := k / 5, k % 5;
      assert k == 5 * i + j && 0 <= j < 5;
      assert i < |ns.value|;
      assert params[Columns * i + j] == ColumnValue(ns.value[i], j);
      assert ParamsOf(ns.value)[Columns * i + j] == ColumnValue(ns.value[i], j);
    }
    assert params == ParamsOf(ns.value);
    return Ok(Insert(groups, params));
  }
}

=== FILE: paging.dfy ===
/** The paging arithmetic of the list queries
    (`getDocRequestAssignedToUser` and `getDocRequestFromUser` in
    src/services/doc-request.service.js, `getNotificationsByUser` in
    src/services/notifications.service.js): page size and index from the
    query string, the offset, and the reported total. */
module Paging {
  import opened Wrappers
  import opened JsNumber

  predicate Positive(n: Num) {
    n == PosInf || (n.Finite? && n.v > 0.0)
  }

  predicate NonNegative(n: Num) {
    n == PosInf || (n.Finite? && n.v >= 0.0)
  }

  /** `Number(v)` of a query parameter that defaults to `d` when absent. */
  function QueryNumber(v: Option<string>, d: real): Num {
    match v
    case None => Finite(d)
    case Some(text) => ToNumber(text)
  }

  /** `Number(pageSize) > 0 ? Number(pageSize) : 10`. */
  function PageSize(pageSize: Option<string>): (r: Num)
    ensures Positive(r)
    ensures Positive(QueryNumber(pageSize, 10.0)) ==> r == QueryNumber(pageSize, 10.0)
    ensures !Positive(QueryNumber(pageSize, 10.0)) ==> r == Finite(10.0)
  {
    var n := QueryNumber(pageSize, 10.0);
    if Positive(n) then n else Finite(10.0)
  }

  /** `Number(pageIndex) >= 0 ? Number(pageIndex) : 0`. */
  function PageIndex(pageIndex: Option<string>): (r: Num)
    ensures NonNegative(r)
    ensures NonNegative(QueryNumber(pageIndex, 0.0)) ==> r == QueryNumber(pageIndex, 0.0)
    ensures !NonNegative(QueryNumber(pageIndex, 0.0)) ==> r == Finite(0.0)
  {
    var n := QueryNumber(pageIndex, 0.0);
    if NonNegative(n) then n else Finite(0.0)
  }

  /** JavaScript multiplication of a non-negative number by a positive
      one: infinity times zero is `NaN`. */
  function Times(index: Num, size: Num): (r: Num)
    requires NonNegative(index) && Positive(size)
    ensures index.Finite? && size.Finite? ==> r == Finite(index.v * size.v)
    ensures r.NaN? <==> (index == Finite(0.0) && size == PosInf)
  {
    if index.Finite? && size.Finite? then Finite(index.v * size.v)
    else if index == Finite(0.0) then NaN
    else PosInf
  }

  /** `index * size`: the number of rows skipped. */
  function Offset(pageSize: Option<string>, pageIndex: Option<string>): Num {
    Times(PageIndex(pageIndex), PageSize(pageSize))
  }

  /** The least integer not below `x`: `Math.ceil`. */
  function Ceil(x: real): (r: int)
    ensures r as real >= x && (r - 1) as real < x
  {
    -((-x).Floor)
  }

  /** `Math.ceil(totalRows / size)`, where `totalRows` is the window count
      read from the first returned row, or 0 when the page is empty. */
  function TotalPages(pageRows: nat, matching: nat, size: Num): (r: int)
    requires Positive(size)
    ensures pageRows == 0 ==> r == 0
    ensures r >= 0
  {
    var totalRows := if pageRows > 0 then matching else 0;
    if size == PosInf then 0 else Ceil(totalRows as real / size.v)
  }

  /** For a finite page size the total is the number of pages: enough
      pages of that size to hold every matching row, and one fewer would
      not be. */
  lemma TotalPagesIsLeast(pageRows: nat, matching: nat, size: real)
    requires pageRows > 0 && size > 0.0
    ensures var k := TotalPages(pageRows, matching, Finite(size));
            k as real * size >= matching as real && (k - 1) as real * size < matching as real
  {
    var k := TotalPages(pageRows, matching, Finite(size));
    CeilOfQuotient(matching as real, size, k);
  }

  /** The ceiling of `m / s` is the least number of `s`-sized parts that
      cover `m`. */
  lemma CeilOfQuotient(m: real, s: real, k: int)
    requires s > 0.0 && k as real >= m / s && (k - 1) as real < m / s
    ensures k as real * s >= m && (k - 1) as real * s < m
  {
    var x := m / s;
    assert x * s == m;
    MulMonoReal(x, k as real, s);
    MulStrictReal((k - 1) as real, x, s);
  }

  lemma MulMonoReal(a: real, b: real, c: real)
    requires a <= b && c > 0.0
    ensures a * c <= b * c
  {
  }

  lemma MulStrictReal(a: real, b: real, c: real)
    requires a < b && c > 0.0
    ensures a * c < b * c
  {
  }

  lemma MulMonoInt(a: int, b: int, c: nat)
    requires a <= b
    ensures a * c <= b * c
  {
  }

  /** Casting a product of integers to a real multiplies the casts. */
  lemma CastProduct(a: int, b: int)
    ensures (a * b) as real == a as real * b as real
  {
  }

  /** `(m + s - 1) / s` is the least number of `s`-sized parts covering
      `m`. */
  lemma CeilDiv(m: nat, s: nat)
    requires s > 0
    ensures var q := (m + s - 1) / s; q * s >= m && (q - 1) * s < m
  {
    var n := m + s - 1;
    var q := n / s;
    assert n == q * s + n % s && 0 <= n % s < s;
    assert (q - 1) * s == q * s - s;
  }

  /** Two counts that are each the least number of `s`-sized parts
      covering `m` are equal. */
  lemma LeastCoverUnique(m: int, s: nat, k: int, q: int)
    requires k * s >= m && (k - 1) * s < m
    requires q * s >= m && (q - 1) * s < m
    ensures k == q
  {
    if k < q {
      MulMonoInt(k, q - 1, s);
    } else if q < k {
      MulMonoInt(q, k - 1, s);
    }
  }

  /** For whole numbers of rows per page the total is the ceiling of the
      integer division. */
  lemma TotalPagesOfWholeSize(matching: nat, size: nat)
    requires size > 0
    ensures TotalPages(1, matching, Finite(size as real)) == (matching + size - 1) / size
  {
    var k := TotalPages(1, matching, Finite(size as real));
    TotalPagesIsLeast(1, matching, size as real);
    CastProduct(k, size);
    CastProduct(k - 1, size);
    CeilDiv(matching, size);
    LeastCoverUnique(matching, size, k, (matching + size - 1) / size);
  }

  /** The notifications list reports the raw row count instead. */
  function RowTotal(pageRows: nat, matching: nat): (r: nat)
    ensures pageRows == 0 ==> r == 0
    ensures pageRows > 0 ==> r == matching
  {
    if pageRows > 0 then matching else 0
  }
}

=== FILE: ranking.dfy ===
/** Ranking by a real-valued key, as `arr.sort((a, b) => key(b) - key(a))`
    does it in JavaScript: a stable sort into non-increasing key order
    (the engine's sort is stable, so equal keys keep their input order). */
module Ranking {

  predicate SortedDesc<T>(xs: seq<T>, key: T -> real) {
    forall i, j | 0 <= i < j < |xs| :: key(xs[i]) >= key(xs[j])
  }

  /** The elements of key `v`, in their order in `xs`. */
  function WithKey<T>(xs: seq<T>, key: T -> real, v: real): seq<T>
    decreases |xs|
  {
    if |xs| == 0 then []
    else (if key(xs[0]) == v then [xs[0]] else []) + WithKey(xs[1..], key, v)
  }

  lemma {:induction false} WithKeyAppend<T>(a: seq<T>, b: seq<T>, key: T -> real, v: real)
    ensures WithKey(a + b, key, v) == WithKey(a, key, v) + WithKey(b, key, v)
    decreases |a|
  {
    if |a| == 0 {
      assert a + b == b;
    } else {
      var h := if key(a[0]) == v then [a[0]] else [];
      assert (a + b)[0] == a[0] && (a + b)[1..] == a[1..] + b;
      WithKeyAppend(a[1..], b, key, v);
      calc {
        WithKey(a + b, key, v);
        h + WithKey(a[1..] + b, key, v);
        h + (WithKey(a[1..], key, v) + WithKey(b, key, v));
        (h + WithKey(a[1..], key, v)) + WithKey(b, key, v);
        WithKey(a, key, v) + WithKey(b, key, v);
      }
    }
  }

  /** A list whose keys all lie below `v` has no element of key `v`. */
  lemma {:induction false} WithKeyBelow<T>(xs: seq<T>, key: T -> real, v: real)
    requires forall i | 0 <= i < |xs| :: key(xs[i]) < v
    ensures WithKey(xs, key, v) == []
    decreases |xs|
  {
    if |xs| > 0 {
      WithKeyBelow(xs[1..], key, v);
    }
  }

  /** Places `x` after every element whose key is at least `key(x)`. */
  function Insert<T(==)>(x: T, s: seq<T>, key: T -> real): (r: seq<T>)
    requires SortedDesc(s, key)
    ensures SortedDesc(r, key)
    ensures multiset(r) == multiset(s) + multiset{x}
    ensures |r| == |s| + 1
    ensures r[0] == (if |s| > 0 && key(s[0]) >= key(x) then s[0] else x)
    decreases |s|
  {
    if |s| == 0 then [x]
    else if key(s[0]) >= key(x) then
      var rest := Insert(x, s[1..], key);
      assert s == [s[0]] + s[1..];
      ConsSorted(s[0], rest, key);
      [s[0]] + rest
    else
      ConsSorted(x, s, key);
      [x] + s
  }

  /** Insertion is stable: `x` lands behind every element of its own key. */
  lemma {:induction false} InsertWithKey<T>(x: T, s: seq<T>, key: T -> real, v: real)
    requires SortedDesc(s, key)
    ensures WithKey(Insert(x, s, key), key, v) == WithKey(s, key, v) + (if key(x) == v then [x] else [])
    decreases |s|
  {
    if |s| == 0 {
      assert Insert(x, s, key) == [x];
      assert [x][1..] == [];
    } else if key(s[0]) >= key(x) {
      assert SortedDesc(s[1..], key) by {
        forall i, j | 0 <= i < j < |s| - 1 ensures key(s[1..][i]) >= key(s[1..][j]) {
          assert s[1..][i] == s[i + 1] && s[1..][j] == s[j + 1];
        }
      }
      InsertWithKey(x, s[1..], key, v);
      InsertBehind(x, s, key, v);
    } else {
      InsertInFront(x, s, key, v);
    }
  }

  /** An `x` that does not beat the head of `s` goes behind it, so the
      head keeps its place among the elements of its key. */
  lemma InsertBehind<T>(x: T, s: seq<T>, key: T -> real, v: real)
    requires SortedDesc(s, key) && |s| > 0 && key(s[0]) >= key(x) && SortedDesc(s[1..], key)
    requires WithKey(Insert(x, s[1..], key), key, v) == WithKey(s[1..], key, v) + (if key(x) == v then [x] else [])
    ensures WithKey(Insert(x, s, key), key, v) == WithKey(s, key, v) + (if key(x) == v then [x] else [])
  {
    var rest := Insert(x, s[1..], key);
    var h: seq<T> := if key(s[0]) == v then [s[0]] else [];
    var hx: seq<T> := if key(x) == v then [x] else [];
    var tail := WithKey(s[1..], key, v);
    assert Insert(x, s, key) == [s[0]] + rest;
    assert ([s[0]] + rest)[0] == s[0] && ([s[0]] + rest)[1..] == rest;
    ConcatAssoc(h, tail, hx);
    calc {
      WithKey(Insert(x, s, key), key, v);
      h + WithKey(rest, key, v);
      h + (tail + hx);
      (h + tail) + hx;
      WithKey(s, key, v) + hx;
    }
  }

  /** Concatenation regroups freely. */
  lemma ConcatAssoc<T>(a: seq<T>, b: seq<T>, c: seq<T>)
    ensures a + (b + c) == (a + b) + c
  {
  }

  /** An `x` that beats the head of `s` goes in front, passing no element of
      its own key. */
  lemma InsertInFront<T>(x: T, s: seq<T>, key: T -> real, v: real)
    requires SortedDesc(s, key) && |s| > 0 && key(s[0]) < key(x)
    ensures WithKey(Insert(x, s, key), key, v) == WithKey(s, key, v) + (if key(x) == v then [x] else [])
  {
    assert Insert(x, s, key) == [x] + s;
    assert ([x] + s)[1..] == s;
    if key(x) == v {
      assert forall i | 0 <= i < |s| :: key(s[i]) < v by {
        forall i | 0 <= i < |s| ensures key(s[i]) < v {
          assert key(s[i]) <= key(s[0]);
        }
      }
      WithKeyBelow(s, key, v);
    }
  }

  /** A head no smaller than the first element of a sorted list keeps it
      sorted. */
  lemma ConsSorted<T>(h: T, xs: seq<T>, key: T -> real)
    requires SortedDesc(xs, key) && (|xs| > 0 ==> key(h) >= key(xs[0]))
    ensures SortedDesc([h] + xs, key)
  {
    var r := [h] + xs;
    forall i, j | 0 <= i < j < |r| ensures key(r[i]) >= key(r[j]) {
      if i == 0 {
        assert r[j] == xs[j - 1];
      } else {
        assert r[i] == xs[i - 1] && r[j] == xs[j - 1];
      }
    }
  }

  /** Stable descending sort: later elements are inserted behind earlier
      ones with an equal key. */
  function SortDesc<T(==)>(xs: seq<T>, key: T -> real): (r: seq<T>)
    ensures SortedDesc(r, key)
    ensures multiset(r) == multiset(xs)
    ensures |r| == |xs|
    ensures forall v :: WithKey(r, key, v) == WithKey(xs, key, v)
    decreases |xs|
  {
    if |xs| == 0 then []
    else
      var init := xs[..|xs| - 1];
      assert xs == init + [xs[|xs| - 1]];
      InsertKeepsKeys(xs[|xs| - 1], SortDesc(init, key), init, key);
      Insert(xs[|xs| - 1], SortDesc(init, key), key)
  }

  /** One sorting step keeps, for every key, the input order of its
      elements. */
  lemma InsertKeepsKeys<T>(x: T, s: seq<T>, init: seq<T>, key: T -> real)
    requires SortedDesc(s, key)
    requires forall v :: WithKey(s, key, v) == WithKey(init, key, v)
    ensures forall v :: WithKey(Insert(x, s, key), key, v) == WithKey(init + [x], key, v)
  {
    forall v ensures WithKey(Insert(x, s, key), key, v) == WithKey(init + [x], key, v) {
      InsertWithKey(x, s, key, v);
      WithKeyAppend(init, [x], key, v);
      assert [x][1..] == [];
    }
  }

  /** The index of the first element with the greatest key. */
  function FirstMax<T>(xs: seq<T>, key: T -> real): (i: nat)
    requires |xs| > 0
    ensures i < |xs|
    ensures forall j | 0 <= j < |xs| :: key(xs[j]) <= key(xs[i])
    ensures forall j | 0 <= j < i :: key(xs[j]) < key(xs[i])
    decreases |xs|
  {
    if |xs| == 1 then 0
    else
      var init := xs[..|xs| - 1];
      var m := FirstMax(init, key);
      assert forall j | 0 <= j < |init| :: init[j] == xs[j];
      if key(xs[|xs| - 1]) > key(init[m]) then |xs| - 1 else m
  }

  /** The head of the ranking is the first element of greatest key: among
      equal best keys the earliest input wins. */
  lemma {:induction false} SortDescHead<T>(xs: seq<T>, key: T -> real)
    requires |xs| > 0
    ensures SortDesc(xs, key)[0] == xs[FirstMax(xs, key)]
    decreases |xs|
  {
    if |xs| > 1 {
      var init := xs[..|xs| - 1];
      var x := xs[|xs| - 1];
      var s := SortDesc(init, key);
      SortDescHead(init, key);
      assert init[FirstMax(init, key)] == xs[FirstMax(init, key)];
      assert key(s[0]) == key(init[FirstMax(init, key)]);
    }
  }

  /** Everything kept by `r[..k]` ranks at least as high as everything cut. */
  lemma TopKDominates<T>(r: seq<T>, key: T -> real, k: nat)
    requires SortedDesc(r, key) && k <= |r|
    ensures forall i, j | 0 <= i < k <= j < |r| :: key(r[i]) >= key(r[j])
  {
  }

  /** `xs.slice(0, k)`. */
  function Take<T>(xs: seq<T>, k: nat): (r: seq<T>)
    ensures |r| == if k < |xs| then k else |xs|
    ensures r == xs[..|r|]
  {
    if k < |xs| then xs[..k] else xs
  }

  /** The running best of a left-to-right scan that replaces the best so
      far only on a strictly greater key (`if (!best || key(x) > key(best))`). */
  function ScanBest<T>(xs: seq<T>, key: T -> real, i: nat, best: nat): (r: nat)
    requires best < i <= |xs|
    ensures r < |xs|
    decreases |xs| - i
  {
    if i == |xs| then best
    else ScanBest(xs, key, i + 1, if key(xs[i]) > key(xs[best]) then i else best)
  }

  /** The scan finds the first element of greatest key. */
  lemma {:induction false} ScanBestIsFirstMax<T>(xs: seq<T>, key: T -> real, i: nat, best: nat)
    requires best < i <= |xs|
    requires best == FirstMax(xs[..i], key)
    ensures ScanBest(xs, key, i, best) == FirstMax(xs, key)
    decreases |xs| - i
  {
    if i == |xs| {
      assert xs[..i] == xs;
    } else {
      var next := if key(xs[i]) > key(xs[best]) then i else best;
      assert xs[..i + 1][..i] == xs[..i];
      assert xs[..i][best] == xs[best];
      ScanBestIsFirstMax(xs, key, i + 1, next);
    }
  }

  function BestIndex<T>(xs: seq<T>, key: T -> real): (r: nat)
    requires |xs| > 0
    ensures r == FirstMax(xs, key)
  {
    assert xs[..1] == [xs[0]];
    ScanBestIsFirstMax(xs, key, 1, 0);
    ScanBest(xs, key, 1, 0)
  }
}

=== FILE: request_body.dfy ===
/** Values of a parsed JSON request body or query string, as the route
    validators and controllers see them. */
module Body {
  import opened Wrappers
  import opened Text

  /** A body field: absent (`undefined`), a string, an array, or any other
      JSON value, known by its string conversion and its truthiness. */
  datatype JVal = Missing | JStr(s: string) | JArr(items: seq<JVal>) | JOther(asText: string, truthy: bool)

  /** The value as a JavaScript condition. */
  predicate Truthy(v: JVal) {
    match v
    case Missing => false
    case JStr(s) => s != ""
    case JArr(_) => true
    case JOther(_, t) => t
  }

  /** The validator library's string conversion: `undefined` is empty and
      an array is its items joined with commas. */
  function AsText(v: JVal): string
    decreases v
  {
    match v
    case Missing => ""
    case JStr(s) => s
    case JArr(items) => Join(seq(|items|, i requires 0 <= i < |items| => AsText(items[i])), ",")
    case JOther(t, _) => t
  }

  /** `v || ""`, as text. */
  function TextOrEmpty(v: JVal): (r: string)
    ensures !Truthy(v) ==> r == ""
    ensures v.JStr? ==> r == v.s
  {
    if Truthy(v) then AsText(v) else ""
  }
}

=== FILE: search_filter.dfy ===
/** The query checks of `GET /api/search` (src/routes/search.routes.js):
    the optional integer `userId`, and the `filter` sanitizer that always
    yields an array, followed by its validator. */
module SearchFilter {
  import opened Wrappers
  import opened Text
  import opened JsNumber

  /** A query parameter: one value, or several when repeated. */
  datatype QueryValue = QText(s: string) | QList(items: seq<string>)

  const UserIdMsg := "userId must be a number"

  predicate KnownFilter(v: string) {
    v == "docRequest" || v == "file"
  }

  function InvalidFilterMsg(v: string): string {
    "Invalid filter: " + v + ". Must be one of: docRequest, file"
  }

  /** The `customSanitizer`: an array is kept, a non-empty string is split
      at commas, anything else becomes a one-element array. */
  function SanitizeFilter(v: QueryValue): (r: seq<string>)
    ensures v.QList? ==> r == v.items
    ensures v.QText? && v.s != "" ==> |r| >= 1 && Join(r, ",") == v.s && forall k | 0 <= k < |r| :: !Contains(r[k], ",")
    ensures v.QText? && v.s == "" ==> r == [""]
  {
    match v
    case QList(items) => items
    case QText(s) => if s != "" then Split(s, ",") else [s]
  }

  /** The `custom` validator: the message naming the first value that is
      not a known filter, if any. */
  function CheckFilter(values: seq<string>): (r: Option<string>)
    ensures r.None? <==> forall k | 0 <= k < |values| :: KnownFilter(values[k])
    ensures r.Some? ==> exists k | 0 <= k < |values| ::
      && !KnownFilter(values[k])
      && (forall j | 0 <= j < k :: KnownFilter(values[j]))
      && r.value == InvalidFilterMsg(values[k])
  {
    if |values| == 0 then None
    else if !KnownFilter(values[0]) then Some(InvalidFilterMsg(values[0]))
    else
      var r := CheckFilter(values[1..]);
      assert forall k | 1 <= k < |values| :: values[k] == values[1..][k - 1];
      r
  }

  /** The validation errors the two chains collect, in order. Absent
      parameters are skipped by `optional()`; `isInt()` allows a sign and
      leading zeros. */
  function Errors(userId: Option<string>, filter: Option<QueryValue>): (r: seq<string>)
    ensures (UserIdMsg in r) <==> userId.Some? && !IsIntText(userId.value)
    ensures filter.None? ==> |r| <= 1
  {
    (if userId.Some? && !IsIntText(userId.value) then [UserIdMsg] else [])
    + (match filter
       case None => []
       case Some(v) =>
         match CheckFilter(SanitizeFilter(v))
         case None => []
         case Some(m) => [m])
  }

  /** The filter the handler reads: `req.query.filter || []`. */
  function HandlerFilter(filter: Option<QueryValue>): seq<string> {
    match filter
    case None => []
    case Some(v) => SanitizeFilter(v)
  }

  /** The route as written: it never reads the collected errors, so the
      handler always runs, with the sanitized filter. */
  function RouteAsWritten(userId: Option<string>, filter: Option<QueryValue>): (r: Result<seq<string>>)
    ensures r == Ok(HandlerFilter(filter))
  {
    Ok(HandlerFilter(filter))
  }

  /** The route answering the first collected error with status 400, as
      the other routes of the application do. */
  function Route(userId: Option<string>, filter: Option<QueryValue>): (r: Result<seq<string>>)
    ensures r.Err? <==> |Errors(userId, filter)| > 0
    ensures r.Err? ==> r.error == Errors(userId, filter)[0]
    ensures r.Ok? ==> r.value == HandlerFilter(filter) && forall k | 0 <= k < |r.value| :: KnownFilter(r.value[k])
  {
    var errs := Errors(userId, filter);
    if |errs| > 0 then Err(errs[0]) else Ok(HandlerFilter(filter))
  }

  /** An unknown filter reaches the handler as written; with the errors
      read it is refused with the validator's message. */
  lemma UnknownFilterPassesAsWritten()
    ensures RouteAsWritten(None, Some(QText("pdf"))) == Ok(["pdf"])
    ensures Route(None, Some(QText("pdf"))) == Err(InvalidFilterMsg("pdf"))
  {
    assert !Contains("pdf", ",") by {
      NotContainedWithoutHead("pdf", ",");
    }
    SplitWithout("pdf", ",");
    assert SanitizeFilter(QText("pdf")) == ["pdf"];
  }

  /** Whatever the route collects, the handler runs as written; read,
      any collected error refuses the request. */
  lemma AsWrittenIgnoresErrors(userId: Option<string>, filter: Option<QueryValue>)
    requires |Errors(userId, filter)| > 0
    ensures RouteAsWritten(userId, filter).Ok?
    ensures Route(userId, filter).Err?
  {
  }
}

=== FILE: stamp_hash.dfy ===
/** Byte-level helpers of the stamp detector (src/services/stamp.service.js):
    magic-byte sniffing, the 64-bit difference hash and its Hamming
    similarity, and clamping to [0, 1]. */
module StampHash {
  import opened Wrappers

  type Bytes = seq<bv8>

  /** The four bytes "%PDF". */
  const PdfMagic: Bytes := [0x25, 0x50, 0x44, 0x46]

  /** `isPDF(buf)`: the "%PDF" signature followed by at least one more byte. */
  predicate IsPdf(buf: Bytes) {
    |buf| > 4 && buf[0] == 0x25 && buf[1] == 0x50 && buf[2] == 0x44 && buf[3] == 0x46
  }

  /** The signature alone is too short to count as a PDF, and the signature
      followed by anything non-empty is one. */
  lemma PdfNeedsMoreThanMagic(rest: Bytes)
    ensures !IsPdf(PdfMagic)
    ensures |rest| > 0 ==> IsPdf(PdfMagic + rest)
    ensures forall buf: Bytes | IsPdf(buf) :: buf[..4] == PdfMagic && |buf| > 4
  {
  }

  /** `isDOCX(buf)`: a zip signature "PK" and a central directory holding
      "[Content_Types].xml". The zip reader is a parameter: `Err` stands for
      the reader throwing, which counts as "not a DOCX". */
  function IsDocx(buf: Bytes, hasContentTypes: Bytes -> Result<bool>): (r: bool)
    ensures r ==> |buf| >= 2 && buf[0] == 0x50 && buf[1] == 0x4B
    ensures r <==> |buf| >= 2 && buf[0] == 0x50 && buf[1] == 0x4B
                   && hasContentTypes(buf) == Ok(true)
  {
    if !(|buf| >= 2 && buf[0] == 0x50 && buf[1] == 0x4B) then false
    else match hasContentTypes(buf)
      case Ok(found) => found
      case Err(_) => false
  }

  /** A PDF is never taken for a DOCX, whatever the zip reader says. */
  lemma PdfIsNotDocx(buf: Bytes, hasContentTypes: Bytes -> Result<bool>)
    requires IsPdf(buf)
    ensures !IsDocx(buf, hasContentTypes)
  {
  }

  /** `clamp01`. */
  function Clamp01(x: real): (r: real)
    ensures 0.0 <= r <= 1.0
    ensures 0.0 <= x <= 1.0 ==> r == x
    ensures x < 0.0 ==> r == 0.0
    ensures x > 1.0 ==> r == 1.0
  {
    if x < 0.0 then 0.0 else if x > 1.0 then 1.0 else x
  }

  lemma Clamp01Monotone(x: real, y: real)
    requires x <= y
    ensures Clamp01(x) <= Clamp01(y)
  {
  }

  // ---------------------------------------------------------------- dHash

  /** The single-bit masks, bit 0 first. */
  function Mask(i: nat): bv8
    requires i < 8
  {
    [1, 2, 4, 8, 16, 32, 64, 128][i]
  }

  predicate TestBit(x: bv8, i: nat)
    requires i < 8
  {
    x & Mask(i) != 0
  }

  /** Folds bits into a byte, first bit most significant: the loop
      `b = (b << 1) | bit`. */
  function PackBits(bits: seq<bool>): bv8
    requires |bits| <= 8
    decreases |bits|
  {
    if |bits| == 0 then 0
    else (PackBits(bits[..|bits| - 1]) << 1) | (if bits[|bits| - 1] then 1 else 0)
  }

  lemma ShiftInBit(p: bv8, bit: bool, j: nat)
    requires j < 8
    ensures TestBit((p << 1) | (if bit then 1 else 0), j) == if j == 0 then bit else TestBit(p, j - 1)
  {
  }

  /** The bit packed from position `c` of `k` bits lands at bit `k - 1 - c`. */
  lemma {:induction false} PackBitsPositions(bits: seq<bool>)
    requires |bits| <= 8
    ensures forall c | 0 <= c < |bits| :: TestBit(PackBits(bits), |bits| - 1 - c) == bits[c]
    decreases |bits|
  {
    if |bits| > 0 {
      var k := |bits|;
      var init := bits[..k - 1];
      PackBitsPositions(init);
      forall c | 0 <= c < k ensures TestBit(PackBits(bits), k - 1 - c) == bits[c] {
        ShiftInBit(PackBits(init), bits[k - 1], k - 1 - c);
        if c < k - 1 {
          assert init[c] == bits[c];
        }
      }
    }
  }

  /** A 9 x 8 grey-level thumbnail, row by row. */
  type Grid = g: seq<bv8> | |g| == 72 witness seq(72, _ => 0)

  /** A 64-bit hash, eight bytes. */
  type Hash = h: seq<bv8> | |h| == 8 witness seq(8, _ => 0)

  /** Pixel `c` of row `r` is brighter than its right neighbour. */
  predicate Brighter(g: Grid, r: nat, c: nat)
    requires r < 8 && c < 8
  {
    g[r * 9 + c] > g[r * 9 + c + 1]
  }

  /** The comparisons of row `r`, left to right. */
  function RowBits(g: Grid, r: nat): (bits: seq<bool>)
    requires r < 8
    ensures |bits| == 8
  {
    seq(8, c requires 0 <= c < 8 => Brighter(g, r, c))
  }

  /** `dhash64`. */
  function DHash64(g: Grid): (h: Hash)
    ensures forall r, c | 0 <= r < 8 && 0 <= c < 8 :: TestBit(h[r], 7 - c) <==> Brighter(g, r, c)
  {
    var h := seq(8, r requires 0 <= r < 8 => PackBits(RowBits(g, r)));
    forall r, c | 0 <= r < 8 && 0 <= c < 8 ensures TestBit(h[r], 7 - c) <==> Brighter(g, r, c) {
      PackBitsPositions(RowBits(g, r));
      assert RowBits(g, r)[c] == Brighter(g, r, c);
    }
    h
  }

  // ----------------------------------------------------- Hamming distance

  /** The reference bit count: the number of set bits. */
  function BitCount(x: bv8): nat {
    (if TestBit(x, 0) then 1 else 0) + (if TestBit(x, 1) then 1 else 0)
    + (if TestBit(x, 2) then 1 else 0) + (if TestBit(x, 3) then 1 else 0)
    + (if TestBit(x, 4) then 1 else 0) + (if TestBit(x, 5) then 1 else 0)
    + (if TestBit(x, 6) then 1 else 0) + (if TestBit(x, 7) then 1 else 0)
  }

  /** The SWAR population count of `hammingSim`, evaluated in 8 bits. */
  function Popcount(x: bv8): (n: nat)
    ensures n == BitCount(x)
  {
    var v := x - ((x >> 1) & 0x55);
    var v2 := (v & 0x33) + ((v >> 2) & 0x33);
    var total := (v2 + (v2 >> 4)) & 0x0f;
    SwarIsBitSum(x);
    total as nat
  }

  lemma SwarIsBitSum(x: bv8)
    ensures
      var v := x - ((x >> 1) & 0x55);
      var v2 := (v & 0x33) + ((v >> 2) & 0x33);
      ((v2 + (v2 >> 4)) & 0x0f) as nat == BitCount(x)
  {
  }

  /** `hammingSim` computes the SWAR steps on JavaScript numbers; none of them
      leaves the byte range, so evaluating them in 8 bits changes nothing. */
  lemma SwarStaysInByte(x: bv8)
    ensures ((x >> 1) & 0x55) <= x
    ensures
      var v := x - ((x >> 1) & 0x55);
      (v & 0x33) as nat + ((v >> 2) & 0x33) as nat < 256
    ensures
      var v := x - ((x >> 1) & 0x55);
      var v2 := (v & 0x33) + ((v >> 2) & 0x33);
      v2 as nat + (v2 >> 4) as nat < 256
  {
  }

  lemma BitCountZero(x: bv8)
    ensures BitCount(x) <= 8
    ensures BitCount(x) == 0 <==> x == 0
  {
  }

  /** Number of equal bit positions in the first `k` bytes. */
  function SameBits(a: Hash, b: Hash, k: nat): nat
    requires k <= 8
  {
    if k == 0 then 0 else SameBits(a, b, k - 1) + (8 - Popcount(a[k - 1] ^ b[k - 1]))
  }

  lemma {:induction false} SameBitsBound(a: Hash, b: Hash, k: nat)
    requires k <= 8
    ensures SameBits(a, b, k) <= 8 * k
    ensures SameBits(a, b, k) == 8 * k <==> a[..k] == b[..k]
    decreases k
  {
    if k > 0 {
      SameBitsBound(a, b, k - 1);
      BitCountZero(a[k - 1] ^ b[k - 1]);
      assert a[..k] == a[..k - 1] + [a[k - 1]] && b[..k] == b[..k - 1] + [b[k - 1]];
      if a[..k] == b[..k] {
        assert a[..k - 1] == a[..k][..k - 1] && b[..k - 1] == b[..k][..k - 1];
        assert a[k - 1] == a[..k][k - 1];
      }
    }
  }

  lemma {:induction false} SameBitsSymmetric(a: Hash, b: Hash, k: nat)
    requires k <= 8
    ensures SameBits(a, b, k) == SameBits(b, a, k)
    decreases k
  {
    if k > 0 {
      SameBitsSymmetric(a, b, k - 1);
      assert a[k - 1] ^ b[k - 1] == b[k - 1] ^ a[k - 1];
    }
  }

  /** `hammingSim`: the fraction of the 64 hash bits on which two hashes agree. */
  function HammingSim(a: Hash, b: Hash): (r: real)
    ensures 0.0 <= r <= 1.0
    ensures r == 1.0 <==> a == b
  {
    SameBitsBound(a, b, 8);
    assert a[..8] == a && b[..8] == b;
    SameBits(a, b, 8) as real / 64.0
  }

  lemma HammingSimSymmetric(a: Hash, b: Hash)
    ensures HammingSim(a, b) == HammingSim(b, a)
  {
    SameBitsSymmetric(a, b, 8);
  }
}

=== FILE: stamp_raster.dfy ===
/** The raster operations the stamp detector delegates to its image
    library. Pixel maths is not modelled: each operation is a parameter of
    the model, and any of them may fail with an error message, as the
    library does by throwing. */
module StampRaster {
  import opened Wrappers
  import opened StampHash

  /** An encoded image buffer. */
  type Image = Bytes

  /** An edge-magnitude descriptor (`edgeDesc`). */
  type Edge

  /** An HSV colour histogram (`hsvHist`). */
  type Hist

  /** Image dimensions as reported by the metadata reader; 0 stands for a
      missing value. */
  datatype Size = Size(width: nat, height: nat)

  datatype Raster = Raster(
    /** `normalizeImage`: fit inside 1600 x 1600 and re-encode as PNG. */
    normalize: Image -> Result<Image>,
    /** 256 x 256 thumbnail of a page. */
    thumb: Image -> Result<Image>,
    /** 9 x 8 grey-level grid that `dhash64` compares. */
    grid: Image -> Result<Grid>,
    hist: Image -> Result<Hist>,
    edge: Image -> Result<Edge>,
    cosine: (Edge, Edge) -> real,
    bhattacharyya: (Hist, Hist) -> real,
    /** SSIM and edge NCC before clamping to [0, 1]. */
    ssimRaw: (Image, Image) -> Result<real>,
    nccRaw: (Image, Image) -> Result<real>,
    size: Image -> Result<Size>,
    resizeToWidth: (Image, nat) -> Result<Image>,
    /** `extract({left, top, width, height})`. */
    extract: (Image, int, int, int, int) -> Result<Image>,
    blur: (Image, real) -> Result<Image>,
    /** JPEG re-encoding at a quality, then back to PNG. */
    jpegRoundTrip: (Image, real) -> Result<Image>,
    /** Greyscale with a slight contrast stretch. */
    grayscale: Image -> Result<Image>)

  /** `dhash64`. */
  function Hash64(raster: Raster, img: Image): Result<Hash> {
    var g :- raster.grid(img);
    Ok(DHash64(g))
  }

  /** `ssim`, whose result is clamped into [0, 1] before it is returned. */
  function Ssim(raster: Raster, a: Image, b: Image): (r: Result<real>)
    ensures r.Ok? ==> 0.0 <= r.value <= 1.0
    ensures r.Ok? <==> raster.ssimRaw(a, b).Ok?
  {
    var v :- raster.ssimRaw(a, b);
    Ok(Clamp01(v))
  }

  /** `nccEdges`, whose result is clamped into [0, 1] before it is returned. */
  function Ncc(raster: Raster, a: Image, b: Image): (r: Result<real>)
    ensures r.Ok? ==> 0.0 <= r.value <= 1.0
    ensures r.Ok? <==> raster.nccRaw(a, b).Ok?
  {
    var v :- raster.nccRaw(a, b);
    Ok(Clamp01(v))
  }

  /** Per-page features (`precomputeImageFeatures`). */
  datatype PageFeatures = PageFeatures(thumb: Image, hash: Hash, hist: Hist, edge: Edge)

  function PageFeaturesOf(raster: Raster, img: Image): Result<PageFeatures> {
    var t :- raster.thumb(img);
    var h :- Hash64(raster, img);
    var c :- raster.hist(img);
    var e :- raster.edge(img);
    Ok(PageFeatures(t, h, c, e))
  }

  /** Reference features of one stamp variant (`buildRefsForBuffer`). */
  datatype Refs = Refs(edge: Edge, hist: Hist, hash: Hash)

  function RefsOf(raster: Raster, img: Image): Result<Refs> {
    var e :- raster.edge(img);
    var c :- raster.hist(img);
    var h :- Hash64(raster, img);
    Ok(Refs(e, c, h))
  }

  /** Applies `f` to every element; the first failure in list order wins. */
  function MapAll<A, B>(xs: seq<A>, f: A -> Result<B>): (r: Result<seq<B>>)
    ensures r.Ok? ==> |r.value| == |xs|
    ensures r.Ok? ==> forall i | 0 <= i < |xs| :: f(xs[i]) == Ok(r.value[i])
    ensures r.Err? ==> exists i | 0 <= i < |xs| :: f(xs[i]).Err?
    decreases |xs|
  {
    if |xs| == 0 then Ok([])
    else
      var y :- f(xs[0]);
      var ys :- MapAll(xs[1..], f);
      assert forall i | 1 <= i < |xs| :: xs[i] == xs[1..][i - 1];
      Ok([y] + ys)
  }
}

=== FILE: stamp_store.dfy ===
/** The reference stamps (`initStamps` in src/services/stamp.service.js):
    image files of the stamps directory, each normalised and described by
    the features of its base image followed by those of up to three
    degraded variants. */
module StampStore {
  import opened Wrappers
  import opened Text
  import opened StampRaster
  import opened EnvConfig
  import opened Ranking

  /** A loaded stamp; `refs[0]` describes the base image itself. */
  datatype Stamp = Stamp(name: string, base: Image, refs: seq<Refs>)

  predicate ValidStamp(s: Stamp) {
    1 <= |s.refs| <= 4
  }

  predicate ValidStore(stamps: seq<Stamp>) {
    forall i | 0 <= i < |stamps| :: ValidStamp(stamps[i])
  }

  /** The file-name test `/\.(png|jpe?g|webp)$/i`. */
  predicate IsStampFile(f: string) {
    var l := Lower(f);
    EndsWith(l, ".png") || EndsWith(l, ".jpg") || EndsWith(l, ".jpeg") || EndsWith(l, ".webp")
  }

  /** The listing entries that are stamp images, in listing order. */
  function StampFiles(names: seq<string>): (r: seq<string>)
    ensures |r| <= |names|
    ensures forall f :: f in r <==> f in names && IsStampFile(f)
    decreases |names|
  {
    if |names| == 0 then []
    else
      var rest := StampFiles(names[1..]);
      assert forall f :: f in names <==> f == names[0] || f in names[1..];
      if IsStampFile(names[0]) then [names[0]] + rest else rest
  }

  /** The filter keeps each stamp image as often as the listing names it,
      and no other entry. */
  lemma {:induction false} StampFilesCount(names: seq<string>, f: string)
    ensures multiset(StampFiles(names))[f] == if IsStampFile(f) then multiset(names)[f] else 0
    decreases |names|
  {
    if |names| > 0 {
      assert names == [names[0]] + names[1..];
      StampFilesCount(names[1..], f);
    }
  }

  /** The filter keeps listing order: filtering a listing in two parts is
      filtering each part. */
  lemma {:induction false} StampFilesAppend(a: seq<string>, b: seq<string>)
    ensures StampFiles(a + b) == StampFiles(a) + StampFiles(b)
    decreases |a|
  {
    if |a| == 0 {
      assert a + b == b;
    } else {
      assert (a + b)[1..] == a[1..] + b;
      StampFilesAppend(a[1..], b);
    }
  }

  /** Directory contents: a missing directory, or the listed file names and
      a reader for their bytes. */
  datatype StampDir = Missing | Listing(names: seq<string>, read: string -> Result<Image>)

  /** The features of a variant produced inside `try { } catch { }`: any
      failure drops the variant. */
  function OptionalVariant(raster: Raster, made: Result<Image>): (r: seq<Refs>)
    ensures |r| <= 1
  {
    if made.Err? then []
    else match RefsOf(raster, made.value)
      case Ok(refs) => [refs]
      case Err(_) => []
  }

  /** One stamp: the base is mandatory (its failures propagate), the
      blurred, JPEG-degraded and greyscale variants are optional. */
  function LoadStamp(raster: Raster, cfg: StampConfig, name: string, raw: Image): (r: Result<Stamp>)
    ensures r.Ok? ==> r.value.name == name && ValidStamp(r.value)
    ensures r.Ok? ==> (raster.normalize(raw) == Ok(r.value.base)
                       && RefsOf(raster, r.value.base) == Ok(r.value.refs[0]))
    ensures r.Ok? && !cfg.robustAugs ==> |r.value.refs| == 1
    ensures r.Ok? && !cfg.grayscale ==> |r.value.refs| <= 3
    ensures r.Err? <==> raster.normalize(raw).Err? || RefsOf(raster, raster.normalize(raw).value).Err?
  {
    var base :- raster.normalize(raw);
    var first :- RefsOf(raster, base);
    var extra :=
      if !cfg.robustAugs then []
      else
        OptionalVariant(raster, raster.blur(base, cfg.blurSigma))
        + OptionalVariant(raster, raster.jpegRoundTrip(base, cfg.jpegQuality))
        + (if cfg.grayscale then OptionalVariant(raster, raster.grayscale(base)) else []);
    Ok(Stamp(name, base, [first] + extra))
  }

  function Names(stamps: seq<Stamp>): (r: seq<string>)
    ensures |r| == |stamps| && forall i | 0 <= i < |stamps| :: r[i] == stamps[i].name
  {
    seq(|stamps|, i requires 0 <= i < |stamps| => stamps[i].name)
  }

  lemma NamesCons(s: Stamp, rest: seq<Stamp>)
    ensures Names([s] + rest) == [s.name] + Names(rest)
  {
  }

  function LoadAll(raster: Raster, cfg: StampConfig, read: string -> Result<Image>, files: seq<string>): (r: Result<seq<Stamp>>)
    ensures r.Ok? ==> Names(r.value) == files && ValidStore(r.value)
    decreases |files|
  {
    if |files| == 0 then Ok([])
    else
      var raw :- read(files[0]);
      var s :- LoadStamp(raster, cfg, files[0], raw);
      var rest :- LoadAll(raster, cfg, read, files[1..]);
      NamesCons(s, rest);
      assert files == [files[0]] + files[1..];
      Ok([s] + rest)
  }

  /** `initStamps()`: at most MAX_STAMPS stamps, named after the first
      matching files of the listing, in order. */
  function InitStamps(raster: Raster, cfg: StampConfig, dir: StampDir): (r: Result<seq<Stamp>>)
    ensures dir.Missing? ==> r == Ok([])
    ensures r.Ok? ==> |r.value| <= MaxStamps && ValidStore(r.value)
    ensures r.Ok? && dir.Listing? ==> Names(r.value) == Take(StampFiles(dir.names), MaxStamps)
  {
    match dir
    case Missing => Ok([])
    case Listing(names, read) => LoadAll(raster, cfg, read, Take(StampFiles(names), MaxStamps))
  }

  /** `stamps.find(x => x.name === name)`: the first stamp of that name. */
  function FindStamp(stamps: seq<Stamp>, name: string): (r: Option<nat>)
    ensures r.Some? ==> (r.value < |stamps| && stamps[r.value].name == name
                         && forall j | 0 <= j < r.value :: stamps[j].name != name)
    ensures r.None? <==> forall j | 0 <= j < |stamps| :: stamps[j].name != name
    decreases |stamps|
  {
    if |stamps| == 0 then None
    else if stamps[0].name == name then Some(0)
    else match FindStamp(stamps[1..], name)
      case None => None
      case Some(k) => Some(k + 1)
  }
}

=== FILE: status_guard.dfy ===
/** The transition guards of `updateStatus`
    (src/controllers/doc-request.controller.js): which status changes the
    controller refuses, and with which message, before it writes anything. */
module StatusGuard {
  import opened Wrappers
  import opened Text
  import opened DocStatus

  function AlreadyMsg(s: Status): string {
    "Document Request was already " + Lower(Name(s))
  }

  const NotApprovedMsg := "Document Request was not yet Approved"
  const NotProcessedMsg := "Document Request was not yet Porcessed"
  const NotCompletedMsg := "Document Request was not yet Completed"
  const FileRequiredMsg := "Document Request document file is required"

  /** The life cycle of a request: approval (or cancellation or rejection)
      of a pending request, then processing, completion and closing. */
  predicate Allowed(from: Status, to: Status) {
    || (from == Pending && to in {Approved, Cancelled, Rejected})
    || (from == Approved && to == Processing)
    || (from == Processing && to == Completed)
    || (from == Completed && to == Closed)
  }

  /** The first guard: a request in a final state, or a move back. */
  predicate Backwards(cur: Status, target: Status) {
    || IsTerminal(cur)
    || (cur in {Approved, Processing, Completed} && target in {Cancelled, Rejected})
    || (cur in {Processing, Completed} && target == Approved)
    || (cur == Completed && target == Processing)
  }

  /** The document-file guard as written: it compares the target with
      `DOCREQUEST_STATUS.COMLPETED`, a key the constant does not have. */
  predicate NeedsFileAsWritten(target: Status, hasFile: bool) {
    !hasFile && StatusConstant("COMLPETED") == Some(target)
  }

  /** The document-file guard as intended: completing a request needs its
      document file. */
  predicate NeedsFile(target: Status, hasFile: bool) {
    !hasFile && target == Completed
  }

  /** The guards in the order of the controller, with the file guard given
      as a parameter. */
  function Guards(cur: Status, target: Status, needsFile: bool): (r: Result<()>)
    ensures IsTerminal(cur) ==> r == Err(AlreadyMsg(cur))
    ensures !IsTerminal(cur) && cur == target ==> r == Err(AlreadyMsg(target))
    ensures r.Ok? ==> !needsFile && cur != target
  {
    if Backwards(cur, target) then Err(AlreadyMsg(cur))
    else if target == cur then Err(AlreadyMsg(target))
    else if cur == Pending && target in {Processing, Closed, Completed} then Err(NotApprovedMsg)
    else if cur in {Pending, Approved} && target in {Completed, Closed} then Err(NotProcessedMsg)
    else if cur == Processing && target == Closed then Err(NotCompletedMsg)
    else if needsFile then Err(FileRequiredMsg)
    else Ok(())
  }

  /** The controller's guards as written. */
  function CheckTransitionAsWritten(cur: Status, target: Status, hasFile: bool): (r: Result<()>)
    ensures IsTerminal(cur) ==> r.Err?
  {
    Guards(cur, target, NeedsFileAsWritten(target, hasFile))
  }

  /** The guards with the intended file check. */
  function CheckTransition(cur: Status, target: Status, hasFile: bool): (r: Result<()>)
    ensures IsTerminal(cur) ==> r.Err?
    ensures target == Completed && !hasFile ==> r.Err?
  {
    Guards(cur, target, NeedsFile(target, hasFile))
  }

  /** `COMLPETED` is not a key of the constant, so the written file guard
      never fires. */
  lemma FileGuardNeverFires(target: Status, hasFile: bool)
    ensures !NeedsFileAsWritten(target, hasFile)
  {
    assert StatusConstant("COMLPETED") == None;
  }

  /** With the written file guard, a request with no document file is
      completed all the same. */
  lemma CompletedWithoutFileAsWritten()
    ensures CheckTransitionAsWritten(Processing, Completed, false) == Ok(())
    ensures CheckTransition(Processing, Completed, false) == Err(FileRequiredMsg)
  {
    FileGuardNeverFires(Completed, false);
  }

  /** Under the route validators (no `PENDING` target), the written guards
      accept exactly the moves of the life cycle. */
  lemma GuardsAsWrittenAcceptLifeCycle(cur: Status, target: Status, hasFile: bool)
    requires target != Pending
    ensures CheckTransitionAsWritten(cur, target, hasFile).Ok? <==> Allowed(cur, target)
  {
    FileGuardNeverFires(target, hasFile);
  }

  /** With the intended file check, the accepted moves are the life cycle,
      completion needing a document file. */
  lemma GuardsAcceptLifeCycle(cur: Status, target: Status, hasFile: bool)
    requires target != Pending
    ensures CheckTransition(cur, target, hasFile).Ok? <==> Allowed(cur, target) && (target == Completed ==> hasFile)
  {
  }

  /** The controller alone would also move an approved, processing or
      completed request back to `PENDING`; only the route's status list
      prevents it. */
  lemma PendingTargetOnlyStoppedByRoute(cur: Status, hasFile: bool)
    requires cur in {Approved, Processing, Completed}
    ensures CheckTransitionAsWritten(cur, Pending, hasFile).Ok?
    ensures !Allowed(cur, Pending)
  {
    FileGuardNeverFires(Pending, hasFile);
  }

  /** Every refusal of a final-state request names that state. */
  lemma TerminalRefusalMessage(cur: Status, target: Status, hasFile: bool)
    requires IsTerminal(cur)
    ensures CheckTransition(cur, target, hasFile) == Err(AlreadyMsg(cur))
    ensures CheckTransitionAsWritten(cur, target, hasFile) == Err(AlreadyMsg(cur))
  {
  }
}

=== FILE: status_routes.dfy ===
/** The validator chain of `PUT /:docRequestId/status`
    (src/routes/doc-request.routes.js): the path id, the target status,
    and the fields each target requires. The first failing rule's message
    is forwarded with HTTP status 400. */
module StatusRoutes {
  import opened Wrappers
  import opened Text
  import opened JsNumber
  import opened DocStatus
  import opened Body

  /** A request that passed every rule, with the values the sanitizers
      produced. */
  datatype StatusRequest = StatusRequest(id: int, target: Status, department: Option<int>, reason: JVal)

  const IdMsg := "docRequestId must be a positive integer"
  const StatusRequiredMsg := "requestStatus is required"
  const StatusStringMsg := "requestStatus must be a string"
  const DeptRequiredMsg := "assignedDepartmentId is required when requestStatus = APPROVED"
  const DeptMsg := "assignedDepartmentId must be a positive integer"
  const ReasonRequiredMsg := "reason is required when requestStatus is CANCELLED or REJECTED"
  const ReasonStringMsg := "reason must be a string"
  const ReasonEmptyMsg := "reason must not be empty"

  /** The statuses a request may be moved to, in the order of the rule. */
  const TargetNames: seq<string> := ["CANCELLED", "REJECTED", "APPROVED", "PROCESSING", "COMPLETED", "CLOSED"]

  function StatusListMsg(): string {
    "requestStatus must be one of: " + Join(TargetNames, ", ")
  }

  /** `.toInt().isInt({ gt: 0 })`: the integer `parseInt` reads, if it is
      positive. */
  function PositiveInt(text: string): (r: Option<int>)
    ensures r.Some? <==> ParseInt(text).Some? && ParseInt(text).value > 0
    ensures r.Some? ==> r.value > 0 && r.value == ParseInt(text).value
  {
    match ParseInt(text)
    case Some(n) => if n > 0 then Some(n) else None
    case None => None
  }

  /** The target status named by a string of the allowed list. */
  function TargetOf(text: string): (r: Option<Status>)
    ensures r.Some? <==> text in TargetNames
    ensures r.Some? ==> Name(r.value) == text && r.value != Pending
  {
    if text in TargetNames then ParseStatus(text) else None
  }

  /** The `requestStatus` chain: `exists`, `isString`, `isIn`, reporting
      its first failure. */
  function CheckTarget(v: JVal): (r: Result<Status>)
    ensures r.Ok? <==> v.JStr? && v.s in TargetNames
    ensures r.Ok? ==> Name(r.value) == v.s && r.value != Pending
    ensures v == Missing ==> r == Err(StatusRequiredMsg)
  {
    match v
    case Missing => Err(StatusRequiredMsg)
    case JStr(s) =>
      (match TargetOf(s)
       case Some(st) => Ok(st)
       case None => Err(StatusListMsg()))
    case _ => Err(StatusStringMsg)
  }

  /** The `assignedDepartmentId` chain, run only when the target is
      `APPROVED`. */
  function CheckDepartment(target: JVal, v: JVal): (r: Result<Option<int>>)
    ensures AsText(target) != "APPROVED" ==> r == Ok(None)
    ensures AsText(target) == "APPROVED" ==>
      (r.Ok? <==> v != Missing && PositiveInt(AsText(v)).Some?)
    ensures AsText(target) == "APPROVED" && v == Missing ==> r == Err(DeptRequiredMsg)
    ensures r.Ok? && r.value.Some? ==> r.value.value > 0
  {
    if AsText(target) != "APPROVED" then Ok(None)
    else if v == Missing then Err(DeptRequiredMsg)
    else match PositiveInt(AsText(v))
      case Some(n) => Ok(Some(n))
      case None => Err(DeptMsg)
  }

  /** The `reason` chain, run only when the target is `CANCELLED` or
      `REJECTED`. */
  function CheckReason(target: JVal, v: JVal): (r: Result<()>)
    ensures AsText(target) !in ["CANCELLED", "REJECTED"] ==> r.Ok?
    ensures AsText(target) in ["CANCELLED", "REJECTED"] ==> (r.Ok? <==> v.JStr? && v.s != "")
  {
    if AsText(target) !in ["CANCELLED", "REJECTED"] then Ok(())
    else if v == Missing then Err(ReasonRequiredMsg)
    else if !v.JStr? then Err(ReasonStringMsg)
    else if v.s == "" then Err(ReasonEmptyMsg)
    else Ok(())
  }

  /** The whole chain: the rules run in declaration order and the first
      error wins. */
  function ValidateStatusUpdate(idText: string, status: JVal, department: JVal, reason: JVal): (r: Result<StatusRequest>)
    ensures PositiveInt(idText).None? ==> r == Err(IdMsg)
    ensures r.Ok? ==> r.value.id > 0 && Some(r.value.id) == ParseInt(idText)
    ensures r.Ok? ==> status == JStr(Name(r.value.target)) && r.value.reason == reason
  {
    var id :- (match PositiveInt(idText) case Some(n) => Ok(n) case None => Err(IdMsg));
    var target :- CheckTarget(status);
    var dept :- CheckDepartment(status, department);
    var _ :- CheckReason(status, reason);
    Ok(StatusRequest(id, target, dept, reason))
  }

  /** What an accepted request guarantees the controller. */
  predicate Admissible(q: StatusRequest) {
    && q.id > 0
    && q.target != Pending
    && (q.target == Approved <==> q.department.Some?)
    && (q.department.Some? ==> q.department.value > 0)
    && (q.target in {Cancelled, Rejected} ==> q.reason.JStr? && q.reason.s != "")
  }

  lemma NameOfAllowed(s: Status)
    ensures Name(s) == "APPROVED" <==> s == Approved
    ensures Name(s) in ["CANCELLED", "REJECTED"] <==> s in {Cancelled, Rejected}
  {
  }

  /** Every accepted request is admissible: `PENDING` is never a target, a
      department comes exactly with `APPROVED`, and a cancellation or
      rejection carries a non-empty reason. */
  lemma AcceptedIsAdmissible(idText: string, status: JVal, department: JVal, reason: JVal)
    requires ValidateStatusUpdate(idText, status, department, reason).Ok?
    ensures Admissible(ValidateStatusUpdate(idText, status, department, reason).value)
  {
    var q := ValidateStatusUpdate(idText, status, department, reason).value;
    NameOfAllowed(q.target);
    assert AsText(status) == Name(q.target);
  }

  lemma TargetOfName(s: Status)
    requires s != Pending
    ensures CheckTarget(JStr(Name(s))) == Ok(s)
  {
    ParseName(s);
  }

  lemma IdPasses(id: int)
    requires id > 0
    ensures PositiveInt(IntToString(id)) == Some(id)
  {
    ParseIntReadsPrefix("", id, "");
    assert "" + IntToString(id) + "" == IntToString(id);
  }

  lemma DeptPasses(target: Status, department: JVal)
    requires target == Approved ==> department != Missing && PositiveInt(AsText(department)).Some?
    ensures CheckDepartment(JStr(Name(target)), department).Ok?
  {
    NameOfAllowed(target);
  }

  lemma ReasonPasses(target: Status, reason: JVal)
    requires target in {Cancelled, Rejected} ==> reason.JStr? && reason.s != ""
    ensures CheckReason(JStr(Name(target)), reason).Ok?
  {
    NameOfAllowed(target);
  }

  /** Conversely, a well-formed body for any target but `PENDING` passes. */
  lemma WellFormedPasses(id: int, target: Status, department: JVal, reason: JVal)
    requires id > 0 && target != Pending
    requires target == Approved ==> department != Missing && PositiveInt(AsText(department)).Some?
    requires target in {Cancelled, Rejected} ==> reason.JStr? && reason.s != ""
    ensures ValidateStatusUpdate(IntToString(id), JStr(Name(target)), department, reason).Ok?
  {
    IdPasses(id);
    TargetOfName(target);
    DeptPasses(target, department);
    ReasonPasses(target, reason);
  }
}

=== FILE: text.dfy ===
/** JavaScript string operations used throughout the application. A string
    is a sequence of Unicode scalar values (`char`), one per character; a
    JavaScript string counts a character outside the Basic Multilingual Plane
    as two UTF-16 code units. Only the ASCII part of case mapping is
    modelled; whitespace follows the JavaScript definition exactly. */
module Text {
  import opened Wrappers

  /** WhiteSpace and LineTerminator of ECMAScript: the set stripped by
      `String.prototype.trim` and matched by the regular-expression class `\s`. */
  predicate IsSpace(c: char) {
    var n := c as int;
    n == 0x09 || n == 0x0A || n == 0x0B || n == 0x0C || n == 0x0D || n == 0x20
    || n == 0xA0 || n == 0x1680 || (0x2000 <= n <= 0x200A) || n == 0x2028
    || n == 0x2029 || n == 0x202F || n == 0x205F || n == 0x3000 || n == 0xFEFF
  }

  /** The characters the regular-expression `.` does not match. */
  predicate IsLineTerminator(c: char) {
    c == '\n' || c == '\r' || c as int == 0x2028 || c as int == 0x2029
  }

  predicate IsUpper(c: char) { 'A' <= c <= 'Z' }
  predicate IsLowerLetter(c: char) { 'a' <= c <= 'z' }
  predicate IsDigit(c: char) { '0' <= c <= '9' }

  predicate AllDigits(s: string) {
    forall i | 0 <= i < |s| :: IsDigit(s[i])
  }

  predicate NoUpper(s: string) {
    forall i | 0 <= i < |s| :: !IsUpper(s[i])
  }

  /** ASCII case mapping of `toLowerCase`. */
  function LowerChar(c: char): char {
    if IsUpper(c) then (c as int + 32) as char else c
  }

  function Lower(s: string): (r: string)
    ensures |r| == |s|
    ensures forall i | 0 <= i < |s| :: r[i] == LowerChar(s[i])
    ensures NoUpper(r)
  {
    seq(|s|, i requires 0 <= i < |s| => LowerChar(s[i]))
  }

  lemma LowerNoop(s: string)
    requires NoUpper(s)
    ensures Lower(s) == s
  {
  }

  lemma LowerKeepsSpaces(s: string)
    ensures forall i | 0 <= i < |s| :: IsSpace(Lower(s)[i]) <==> IsSpace(s[i])
  {
  }

  // ---------------------------------------------------------------- runs

  /** Drops the longest prefix of characters of class `p`. */
  function DropRun(s: string, p: char -> bool): (r: string)
    ensures |r| <= |s| && r == s[|s| - |r|..]
    ensures forall i | 0 <= i < |s| - |r| :: p(s[i])
    ensures |r| == 0 || !p(r[0])
    decreases |s|
  {
    if |s| > 0 && p(s[0]) then DropRun(s[1..], p) else s
  }

  /** Drops the longest suffix of characters of class `p`. */
  function DropRunEnd(s: string, p: char -> bool): (r: string)
    ensures |r| <= |s| && r == s[..|r|]
    ensures forall i | |r| <= i < |s| :: p(s[i])
    ensures |r| == 0 || !p(r[|r| - 1])
    decreases |s|
  {
    if |s| > 0 && p(s[|s| - 1]) then DropRunEnd(s[..|s| - 1], p) else s
  }

  predicate NoEdgeSpace(s: string) {
    |s| == 0 || (!IsSpace(s[0]) && !IsSpace(s[|s| - 1]))
  }

  function TrimStart(s: string): string { DropRun(s, IsSpace) }

  /** `String.prototype.trim`. */
  function Trim(s: string): (r: string)
    ensures NoEdgeSpace(r)
    ensures |r| <= |TrimStart(s)| <= |s|
    ensures r == s[|s| - |TrimStart(s)|..|s| - |TrimStart(s)| + |r|]
    ensures forall i | 0 <= i < |s| - |TrimStart(s)| :: IsSpace(s[i])
    ensures forall i | |s| - |TrimStart(s)| + |r| <= i < |s| :: IsSpace(s[i])
  {
    var a := TrimStart(s);
    var r := DropRunEnd(a, IsSpace);
    assert |r| > 0 ==> r[0] == a[0];
    r
  }

  lemma TrimNoop(s: string)
    requires NoEdgeSpace(s)
    ensures Trim(s) == s
  {
    assert TrimStart(s) == s;
    assert DropRunEnd(s, IsSpace) == s;
  }

  lemma TrimEmptyIffBlank(s: string)
    ensures Trim(s) == "" <==> forall i | 0 <= i < |s| :: IsSpace(s[i])
  {
    if Trim(s) == "" {
      var k := |s| - |TrimStart(s)|;
      forall i | 0 <= i < |s| ensures IsSpace(s[i]) {
        if i < k {
        } else {
        }
      }
    } else {
      var k := |s| - |TrimStart(s)|;
      assert Trim(s)[0] == s[k];
    }
  }

  /** The characters outside class `p`, in order. */
  function Keep(s: string, p: char -> bool): string
    decreases |s|
  {
    if |s| == 0 then "" else (if p(s[0]) then "" else [s[0]]) + Keep(s[1..], p)
  }

  lemma {:induction false} KeepDropRun(s: string, p: char -> bool)
    ensures Keep(DropRun(s, p), p) == Keep(s, p)
    decreases |s|
  {
    if |s| > 0 && p(s[0]) {
      KeepDropRun(s[1..], p);
    }
  }

  lemma KeepCons(c: char, t: string, p: char -> bool)
    ensures Keep([c] + t, p) == (if p(c) then "" else [c]) + Keep(t, p)
  {
    assert ([c] + t)[1..] == t;
  }

  /** `s.replace(/[class]+/g, " ")`: every maximal run of class-`p`
      characters becomes a single space. */
  function CollapseRuns(s: string, p: char -> bool): (r: string)
    requires p(' ')
    ensures forall i | 0 <= i < |r| :: p(r[i]) ==> r[i] == ' '
    ensures forall i | 0 <= i < |r| - 1 :: p(r[i]) ==> !p(r[i + 1])
    ensures Keep(r, p) == Keep(s, p)
    ensures |r| == 0 <==> |s| == 0
    ensures |r| > 0 && !p(s[0]) ==> r[0] == s[0]
    ensures |r| > 0 && p(s[0]) ==> r[0] == ' '
    decreases |s|
  {
    if |s| == 0 then ""
    else if p(s[0]) then
      var d := DropRun(s, p);
      var t := CollapseRuns(d, p);
      KeepDropRun(s, p);
      KeepCons(' ', t, p);
      assert |t| > 0 ==> !p(t[0]);
      [' '] + t
    else
      var t := CollapseRuns(s[1..], p);
      KeepCons(s[0], t, p);
      KeepCons(s[0], s[1..], p);
      assert [s[0]] + s[1..] == s;
      [s[0]] + t
  }

  /** A string already in the normal form `CollapseRuns` produces. */
  predicate Collapsed(s: string, p: char -> bool) {
    && (forall i | 0 <= i < |s| :: p(s[i]) ==> s[i] == ' ')
    && (forall i | 0 <= i < |s| - 1 :: p(s[i]) ==> !p(s[i + 1]))
  }

  lemma {:induction false} CollapseRunsNoop(s: string, p: char -> bool)
    requires p(' ') && Collapsed(s, p)
    ensures CollapseRuns(s, p) == s
    decreases |s|
  {
    if |s| > 0 {
      CollapsedSlice(s, p, 1, |s|);
      CollapseRunsNoop(s[1..], p);
      assert s == [s[0]] + s[1..];
      if p(s[0]) {
        assert DropRun(s[1..], p) == s[1..] by {
          assert |s| > 1 ==> !p(s[1]);
        }
        assert DropRun(s, p) == s[1..];
      }
    }
  }

  /** Every character of `s` is in class `q`. */
  predicate All(s: string, q: char -> bool) {
    forall i | 0 <= i < |s| :: q(s[i])
  }

  lemma AllSlice(s: string, q: char -> bool, a: nat, b: nat)
    requires All(s, q) && a <= b <= |s|
    ensures All(s[a..b], q)
  {
    var t := s[a..b];
    assert forall i | 0 <= i < |t| :: t[i] == s[a + i];
  }

  /** A substring of a collapsed string is collapsed. */
  lemma CollapsedSlice(s: string, p: char -> bool, a: nat, b: nat)
    requires Collapsed(s, p) && a <= b <= |s|
    ensures Collapsed(s[a..b], p)
  {
    var t := s[a..b];
    assert forall i | 0 <= i < |t| :: t[i] == s[a + i];
  }

  /** Collapsing runs into spaces brings in no character but the space. */
  lemma {:induction false} CollapseRunsKeepsAll(s: string, p: char -> bool, q: char -> bool)
    requires p(' ') && q(' ') && All(s, q)
    ensures All(CollapseRuns(s, p), q)
    decreases |s|
  {
    if |s| > 0 {
      if p(s[0]) {
        var d := DropRun(s, p);
        AllSlice(s, q, |s| - |d|, |s|);
        CollapseRunsKeepsAll(d, p, q);
      } else {
        AllSlice(s, q, 1, |s|);
        CollapseRunsKeepsAll(s[1..], p, q);
      }
    }
  }

  /** Trimming keeps a class of characters and the collapsed form. */
  lemma TrimKeeps(s: string, p: char -> bool, q: char -> bool)
    requires All(s, q) && Collapsed(s, p)
    ensures All(Trim(s), q) && Collapsed(Trim(s), p)
  {
    var a := |s| - |TrimStart(s)|;
    var r := Trim(s);
    assert r == s[a..a + |r|];
    assert All(r, q) by {
      AllSlice(s, q, a, a + |r|);
    }
    assert Collapsed(r, p) by {
      CollapsedSlice(s, p, a, a + |r|);
    }
  }

  // ---------------------------------------------------------- substrings

  predicate StartsWith(s: string, prefix: string) {
    |prefix| <= |s| && s[..|prefix|] == prefix
  }

  predicate EndsWith(s: string, suffix: string) {
    |suffix| <= |s| && s[|s| - |suffix|..] == suffix
  }

  predicate OccursAt(s: string, pat: string, i: nat) {
    i + |pat| <= |s| && s[i..i + |pat|] == pat
  }

  predicate Contains(s: string, pat: string) {
    exists i: nat | i <= |s| :: OccursAt(s, pat, i)
  }

  /** `s.indexOf(pat, from)` for a non-empty pattern. */
  function IndexFrom(s: string, pat: string, from: nat): (r: Option<nat>)
    requires |pat| > 0
    ensures r.Some? ==> from <= r.value && OccursAt(s, pat, r.value)
    ensures r.Some? ==> forall j: nat | from <= j < r.value :: !OccursAt(s, pat, j)
    ensures r.None? ==> forall j: nat | from <= j :: !OccursAt(s, pat, j)
    decreases |s| - from
  {
    if from + |pat| > |s| then None
    else if s[from..from + |pat|] == pat then Some(from)
    else IndexFrom(s, pat, from + 1)
  }

  function IndexOf(s: string, pat: string): (r: Option<nat>)
    requires |pat| > 0
    ensures r.Some? <==> Contains(s, pat)
    ensures r.Some? ==> OccursAt(s, pat, r.value)
    ensures r.Some? ==> forall j: nat | j < r.value :: !OccursAt(s, pat, j)
  {
    var r := IndexFrom(s, pat, 0);
    if r.Some? then assert r.value <= |s|; r else r
  }

  /** `s.replace(pat, value)` with a string pattern: only the first
      occurrence is replaced (replacement patterns such as `$&` are not
      interpreted). */
  function ReplaceFirst(s: string, pat: string, value: string): (r: string)
    requires |pat| > 0
    ensures !Contains(s, pat) ==> r == s
    ensures Contains(s, pat) ==> |r| == |s| - |pat| + |value|
    ensures Contains(s, pat) ==>
      var i := IndexOf(s, pat).value;
      && r[..i] == s[..i]
      && r[i..i + |value|] == value
      && r[i + |value|..] == s[i + |pat|..]
  {
    match IndexOf(s, pat)
    case None => s
    case Some(i) => s[..i] + value + s[i + |pat|..]
  }

  /** Occurrences in `t + x` at or after `|t|` are the occurrences in `x`,
      shifted. */
  lemma OccursAfter(t: string, x: string, pat: string, j: nat)
    requires |t| <= j
    ensures OccursAt(t + x, pat, j) <==> OccursAt(x, pat, j - |t|)
  {
    if j + |pat| <= |t + x| {
      assert (t + x)[j..j + |pat|] == x[j - |t|..j - |t| + |pat|];
    }
  }

  lemma IndexOfAfter(t: string, x: string, pat: string)
    requires |pat| > 0
    requires forall j: nat | j < |t| :: !OccursAt(t + x, pat, j)
    ensures IndexOf(x, pat).None? ==> IndexOf(t + x, pat).None?
    ensures IndexOf(x, pat).Some? ==> IndexOf(t + x, pat) == Some(|t| + IndexOf(x, pat).value)
  {
    if IndexOf(x, pat).None? {
      IndexOfAfterNone(t, x, pat);
    } else {
      IndexOfAfterSome(t, x, pat, IndexOf(x, pat).value);
    }
  }

  lemma IndexOfAfterNone(t: string, x: string, pat: string)
    requires |pat| > 0 && IndexOf(x, pat).None?
    requires forall j: nat | j < |t| :: !OccursAt(t + x, pat, j)
    ensures IndexOf(t + x, pat).None?
  {
    if Contains(t + x, pat) {
      var k := IndexOf(t + x, pat).value;
      OccursAfter(t, x, pat, k);
    }
  }

  lemma IndexOfAfterSome(t: string, x: string, pat: string, i: nat)
    requires |pat| > 0 && IndexOf(x, pat) == Some(i)
    requires forall j: nat | j < |t| :: !OccursAt(t + x, pat, j)
    ensures IndexOf(t + x, pat) == Some(|t| + i)
  {
    OccursAfter(t, x, pat, |t| + i);
    assert OccursAt(t + x, pat, |t| + i);
    var k := IndexOf(t + x, pat).value;
    if k != |t| + i {
      OccursAfter(t, x, pat, k);
      assert false;
    }
  }

  /** Replacing in `t + x` when no occurrence starts inside `t` replaces
      in `x` alone. */
  lemma ReplaceFirstAfter(t: string, x: string, pat: string, value: string)
    requires |pat| > 0
    requires forall j: nat | j < |t| :: !OccursAt(t + x, pat, j)
    ensures ReplaceFirst(t + x, pat, value) == t + ReplaceFirst(x, pat, value)
  {
    IndexOfAfter(t, x, pat);
    if IndexOf(x, pat).Some? {
      ReplaceFirstShifted(t, x, pat, value, IndexOf(x, pat).value);
    }
  }

  /** The occurrence found `|t|` characters into `t + x` is the one found
      in `x`, and the text around it splits accordingly. */
  lemma ReplaceFirstShifted(t: string, x: string, pat: string, value: string, i: nat)
    requires |pat| > 0 && IndexOf(x, pat) == Some(i) && IndexOf(t + x, pat) == Some(|t| + i)
    ensures ReplaceFirst(t + x, pat, value) == t + ReplaceFirst(x, pat, value)
  {
    assert ReplaceFirst(t + x, pat, value) == Splice(t + x, |t| + i, |pat|, value);
    assert ReplaceFirst(x, pat, value) == Splice(x, i, |pat|, value);
    SpliceShift(t, x, i, |pat|, value);
  }

  /** `s` with the `n` characters at `i` replaced by `value`. */
  function Splice(s: string, i: nat, n: nat, value: string): string
    requires i + n <= |s|
  {
    s[..i] + value + s[i + n..]
  }

  /** Splicing `|t|` characters into `t + x` splices into `x`. */
  lemma SpliceShift(t: string, x: string, i: nat, n: nat, value: string)
    requires i + n <= |x|
    ensures Splice(t + x, |t| + i, n, value) == t + Splice(x, i, n, value)
  {
    var s := t + x;
    assert s[..|t| + i] == t + x[..i];
    assert s[|t| + i + n..] == x[i + n..];
  }

  /** A string that starts with the pattern has that occurrence replaced. */
  lemma ReplaceFirstAtStart(x: string, pat: string, value: string)
    requires |pat| > 0
    ensures ReplaceFirst(pat + x, pat, value) == value + x
  {
    assert OccursAt(pat + x, pat, 0);
    assert (pat + x)[|pat|..] == x;
  }

  /** A pattern whose first character does not occur is not contained. */
  lemma NotContainedWithoutHead(s: string, pat: string)
    requires |pat| > 0 && pat[0] !in s
    ensures !Contains(s, pat)
  {
  }

  /** `xs.join(sep)`. */
  function Join(xs: seq<string>, sep: string): string
    decreases |xs|
  {
    if |xs| == 0 then ""
    else if |xs| == 1 then xs[0]
    else xs[0] + sep + Join(xs[1..], sep)
  }

  /** The pieces of `s[from..]` between occurrences of `sep`. */
  function SplitFrom(s: string, sep: string, from: nat): (r: seq<string>)
    requires |sep| > 0 && from <= |s|
    ensures |r| >= 1
    ensures Join(r, sep) == s[from..]
    ensures forall k | 0 <= k < |r| :: !Contains(r[k], sep)
    decreases |s| - from
  {
    match IndexFrom(s, sep, from)
    case None =>
      NoOccurrenceInSuffix(s, sep, from);
      [s[from..]]
    case Some(i) =>
      NoOccurrenceInSlice(s, sep, from, i);
      var rest := SplitFrom(s, sep, i + |sep|);
      assert s[from..] == s[from..i] + sep + s[i + |sep|..];
      [s[from..i]] + rest
  }

  lemma NoOccurrenceInSuffix(s: string, sep: string, from: nat)
    requires |sep| > 0 && from <= |s|
    requires forall j: nat | from <= j :: !OccursAt(s, sep, j)
    ensures !Contains(s[from..], sep)
  {
    forall j: nat | j <= |s[from..]| ensures !OccursAt(s[from..], sep, j) {
      if OccursAt(s[from..], sep, j) {
        assert s[from..][j..j + |sep|] == s[from + j..from + j + |sep|];
        assert OccursAt(s, sep, from + j);
      }
    }
  }

  lemma NoOccurrenceInSlice(s: string, sep: string, from: nat, to: nat)
    requires |sep| > 0 && from <= to <= |s|
    requires forall j: nat | from <= j < to :: !OccursAt(s, sep, j)
    ensures !Contains(s[from..to], sep)
  {
    forall j: nat | j <= |s[from..to]| ensures !OccursAt(s[from..to], sep, j) {
      if OccursAt(s[from..to], sep, j) {
        var t := s[from..to];
        assert j + |sep| <= |t| && t[j..j + |sep|] == sep;
        forall k | 0 <= k < |sep| ensures s[from + j + k] == sep[k] {
          assert t[j..j + |sep|][k] == t[j + k];
        }
        assert s[from + j..from + j + |sep|] == sep;
        assert OccursAt(s, sep, from + j);
      }
    }
  }

  /** `s.split(sep)` with a non-empty string separator. */
  function Split(s: string, sep: string): (r: seq<string>)
    requires |sep| > 0
    ensures |r| >= 1
    ensures Join(r, sep) == s
    ensures forall k | 0 <= k < |r| :: !Contains(r[k], sep)
  {
    SplitFrom(s, sep, 0)
  }

  /** Splitting text without the separator gives the text itself. */
  lemma SplitWithout(s: string, sep: string)
    requires |sep| > 0 && !Contains(s, sep)
    ensures Split(s, sep) == [s]
  {
    var r := Split(s, sep);
    if |r| >= 2 {
      assert Join(r, sep) == r[0] + sep + Join(r[1..], sep);
      assert OccursAt(s, sep, |r[0]|);
    }
  }

  /** `s.split(sep).join(value)`: every occurrence is replaced. */
  function ReplaceAll(s: string, pat: string, value: string): string
    requires |pat| > 0
  {
    Join(Split(s, pat), value)
  }

  lemma ReplaceAllBySelf(s: string, pat: string)
    requires |pat| > 0
    ensures ReplaceAll(s, pat, pat) == s
  {
  }

  /** The character after a `c` at `i`, if any, is not `c`. */
  predicate SingleAt(s: string, c: char, i: nat) {
    i + 1 < |s| && s[i] == c ==> s[i + 1] != c
  }

  /** Splitting a string with no separator at either end and no two
      adjacent separators yields only non-empty pieces. */
  lemma {:induction false} SplitPiecesNonEmpty(s: string, c: char, from: nat)
    requires from <= |s|
    requires from < |s| ==> s[from] != c
    requires |s| > 0 ==> s[|s| - 1] != c
    requires forall i: nat | from <= i :: SingleAt(s, c, i)
    ensures forall k | 0 <= k < |SplitFrom(s, [c], from)| :: |SplitFrom(s, [c], from)[k]| > 0 || |s| == from
    decreases |s| - from
  {
    match IndexFrom(s, [c], from)
    case None =>
    case Some(i) =>
      assert s[i..i + 1] == [c];
      assert i > from && i + 1 < |s|;
      assert SingleAt(s, c, i);
      SplitPiecesNonEmpty(s, c, i + 1);
      SplitFromStep(s, [c], from, i);
      PiecesNonEmptyCons(s[from..i], SplitFrom(s, [c], i + 1));
  }

  lemma PiecesNonEmptyCons(a: string, rest: seq<string>)
    requires |a| > 0 && forall k | 0 <= k < |rest| :: |rest[k]| > 0
    ensures forall k | 0 <= k < |[a] + rest| :: |([a] + rest)[k]| > 0
  {
  }

  /** At a separator found from `from`, the split is the piece before it
      followed by the split after it. */
  lemma SplitFromStep(s: string, sep: string, from: nat, i: nat)
    requires |sep| > 0 && from <= |s| && IndexFrom(s, sep, from) == Some(i)
    ensures i + |sep| <= |s|
    ensures SplitFrom(s, sep, from) == [s[from..i]] + SplitFrom(s, sep, i + |sep|)
  {
    match IndexFrom(s, sep, from)
    case Some(j) =>
      assert j == i;
      var rest := SplitFrom(s, sep, i + |sep|);
      assert SplitFrom(s, sep, from) == [s[from..i]] + rest;
  }

  function Repeat(c: char, n: nat): (r: string)
    ensures |r| == n && forall i | 0 <= i < n :: r[i] == c
  {
    seq(n, _ => c)
  }

  /** `s.padStart(n, c)` with a one-character filler. */
  function PadStart(s: string, n: nat, c: char): (r: string)
    ensures |r| == if |s| >= n then |s| else n
    ensures EndsWith(r, s)
    ensures forall i | 0 <= i < |r| - |s| :: r[i] == c
  {
    if |s| >= n then s else Repeat(c, n - |s|) + s
  }
}

=== FILE: utils.dfy ===
/** The pure helpers of src/utils/utils.js: text clean-up, the choice of
    text extractor by file name, one-time codes, identity codes and
    storage public ids. The PDF and DOCX parsers and the random source are
    parameters. */
module Utils {
  import opened Wrappers
  import opened Text
  import opened JsNumber

  // ------------------------------------------------------------ cleanup

  predicate NoNul(s: string) {
    forall i | 0 <= i < |s| :: s[i] != '\0'
  }

  /** `.replace(/\u0000/g, " ")`. */
  function NulToSpace(s: string): (r: string)
    ensures |r| == |s| && NoNul(r)
    ensures forall i | 0 <= i < |s| :: r[i] == if s[i] == '\0' then ' ' else s[i]
  {
    seq(|s|, i requires 0 <= i < |s| => if s[i] == '\0' then ' ' else s[i])
  }

  /** `cleanup`: NUL characters become spaces, each run of white space one
      space, no white space at either end, then lower case. */
  function Cleanup(s: string): string {
    Lower(Trim(CollapseRuns(NulToSpace(s), IsSpace)))
  }

  predicate NotNul(c: char) {
    c != '\0'
  }

  /** Lower-casing leaves spaces and the absence of NUL alone. */
  lemma LowerKeepsForm(t: string)
    requires Collapsed(t, IsSpace) && NoEdgeSpace(t) && NoNul(t)
    ensures Collapsed(Lower(t), IsSpace) && NoEdgeSpace(Lower(t)) && NoNul(Lower(t))
  {
    LowerKeepsSpaces(t);
  }

  /** The cleaned text has no NUL, no upper-case letter, single spaces
      between words and none at either end. */
  lemma CleanupForm(s: string)
    ensures var r := Cleanup(s);
            NoNul(r) && NoUpper(r) && Collapsed(r, IsSpace) && NoEdgeSpace(r)
  {
    var n := NulToSpace(s);
    assert All(n, NotNul);
    var c := CollapseRuns(n, IsSpace);
    CollapseRunsKeepsAll(n, IsSpace, NotNul);
    TrimKeeps(c, IsSpace, NotNul);
    LowerKeepsForm(Trim(c));
  }

  /** Cleaning cleaned text changes nothing. */
  lemma CleanupIdempotent(s: string)
    ensures Cleanup(Cleanup(s)) == Cleanup(s)
  {
    var r := Cleanup(s);
    CleanupForm(s);
    assert NulToSpace(r) == r;
    CollapseRunsNoop(r, IsSpace);
    TrimNoop(r);
    LowerNoop(r);
  }

  // -------------------------------------------------- extractTextFromBuffer

  const UnsupportedMsg := "Unsupported file type. Use PDF, DOCX, or TXT."

  datatype Parser = Pdf | Docx | PlainText

  /** The parser `extractTextFromBuffer` picks from the lower-cased file
      name, where a missing name is the empty string. */
  function ParserFor(filename: string): (r: Result<Parser>)
    ensures r == Ok(Pdf) <==> EndsWith(Lower(filename), ".pdf")
    ensures r == Ok(Docx) <==> EndsWith(Lower(filename), ".docx")
    ensures r == Ok(PlainText) <==> EndsWith(Lower(filename), ".txt")
    ensures r.Err? ==> r.error == UnsupportedMsg
  {
    var lower := Lower(filename);
    SuffixesExclusive(lower);
    if EndsWith(lower, ".pdf") then Ok(Pdf)
    else if EndsWith(lower, ".docx") then Ok(Docx)
    else if EndsWith(lower, ".txt") then Ok(PlainText)
    else Err(UnsupportedMsg)
  }

  /** No name ends in two of the suffixes: their last letters differ. */
  lemma SuffixesExclusive(name: string)
    ensures !(EndsWith(name, ".pdf") && EndsWith(name, ".docx"))
    ensures !(EndsWith(name, ".pdf") && EndsWith(name, ".txt"))
    ensures !(EndsWith(name, ".docx") && EndsWith(name, ".txt"))
  {
    if EndsWith(name, ".pdf") {
      assert name[|name| - 1] == 'f';
    }
    if EndsWith(name, ".docx") {
      assert name[|name| - 1] == 'x';
    }
  }

  /** `extractTextFromBuffer(filename, buf)`: `raw(p)` is what parser `p`
      reads from the buffer, `None` when it yields no text. */
  function ExtractText(filename: string, raw: Parser -> Option<string>): (r: Result<string>)
    ensures r.Err? <==> ParserFor(filename).Err?
    ensures r.Err? ==> r.error == UnsupportedMsg
    ensures r.Ok? ==> r.value == Cleanup(raw(ParserFor(filename).value).GetOr(""))
  {
    var p :- ParserFor(filename);
    Ok(Cleanup(raw(p).GetOr("")))
  }

  // ------------------------------------------------------------ codes

  function Pow10(k: nat): (r: nat)
    ensures r >= 1
  {
    if k == 0 then 1 else 10 * Pow10(k - 1)
  }

  /** A number of `k` digits renders as `k` characters. */
  lemma {:induction false} NatToStringLength(n: nat, k: nat)
    requires k >= 1 && Pow10(k - 1) <= n < Pow10(k)
    ensures |NatToString(n)| == k
    decreases k
  {
    if n >= 10 {
      assert k >= 2;
      NatToStringLength(n / 10, k - 1);
    }
  }

  lemma Pow10Six()
    ensures Pow10(5) == 100000 && Pow10(6) == 1000000
  {
    assert Pow10(1) == 10 && Pow10(2) == 100 && Pow10(3) == 1000 && Pow10(4) == 10000;
  }

  const OtpLow := 100000
  const OtpHigh := 1000000

  /** `generateOTP` given the value `randomInt(100000, 1000000)` draws.
      Its set of codes already issued is created empty on every call, so
      the `do … while` body runs once and that first draw is returned. */
  function GenerateOtp(draw: int): (otp: string)
    requires OtpLow <= draw < OtpHigh
    ensures |otp| == 6 && AllDigits(otp)
    ensures OtpLow <= DigitsValue(otp) < OtpHigh && DigitsValue(otp) == draw
  {
    Pow10Six();
    NatToStringLength(draw, 6);
    NatToStringValue(draw);
    NatToString(draw)
  }

  /** `generateIndentityCode(id)` on `String(id)`: left-padded with `0` to
      six characters. */
  function IdentityCode(id: string): (r: string)
    ensures |id| >= 6 ==> r == id
    ensures |id| < 6 ==> |r| == 6 && r[6 - |id|..] == id && forall i | 0 <= i < 6 - |id| :: r[i] == '0'
  {
    PadStart(id, 6, '0')
  }

  /** The code of a non-negative id below a million is six digits whose
      value is the id. */
  lemma IdentityCodeValue(n: nat)
    requires n < 1000000
    ensures var c := IdentityCode(NatToString(n));
            |c| == 6 && AllDigits(c) && DigitsValue(c) == n
  {
    var s := NatToString(n);
    var c := IdentityCode(s);
    NatToStringValue(n);
    Pow10Six();
    NatToStringShort(n, 6);
    LeadingZeros(c, 6 - |s|);
    assert c[6 - |s|..] == s;
  }

  /** A number below `10^k` renders in at most `k` characters. */
  lemma {:induction false} NatToStringShort(n: nat, k: nat)
    requires k >= 1 && n < Pow10(k)
    ensures |NatToString(n)| <= k
    decreases k
  {
    if n >= 10 {
      assert k >= 2;
      NatToStringShort(n / 10, k - 1);
    }
  }

  /** Leading zeros add nothing to a digit string's value. */
  lemma {:induction false} LeadingZeros(c: string, z: nat)
    requires z <= |c| && AllDigits(c) && forall i | 0 <= i < z :: c[i] == '0'
    ensures DigitsValue(c) == DigitsValue(c[z..])
    decreases |c|
  {
    if z < |c| {
      var init := c[..|c| - 1];
      LeadingZeros(init, z);
      assert init[z..] == c[z..][..|c[z..]| - 1];
    } else {
      ZerosValue(c);
      assert c[z..] == [];
    }
  }

  lemma {:induction false} ZerosValue(c: string)
    requires forall i | 0 <= i < |c| :: c[i] == '0'
    ensures AllDigits(c) && DigitsValue(c) == 0
    decreases |c|
  {
    if |c| > 0 {
      ZerosValue(c[..|c| - 1]);
    }
  }

  // ---------------------------------------------------------- public ids

  const PublicIdMax := 120

  predicate IdChar(c: char) {
    'A' <= c <= 'Z' || 'a' <= c <= 'z' || '0' <= c <= '9' || c == '_' || c == '-'
  }

  /** The part after the last `/`. */
  function LastSegment(s: string): (r: string)
    ensures '/' !in r
    ensures '/' !in s ==> r == s
    ensures |r| <= |s| && r == s[|s| - |r|..]
    decreases |s|
  {
    if |s| == 0 then ""
    else if s[|s| - 1] == '/' then ""
    else LastSegment(s[..|s| - 1]) + [s[|s| - 1]]
  }

  /** `path.parse(s).base`: trailing slashes are dropped, then the part after
      the last `/` is taken. */
  function BaseName(s: string): (r: string)
    ensures '/' !in r
    ensures '/' !in s ==> r == s
    decreases |s|
  {
    if |s| == 0 then ""
    else if s[|s| - 1] == '/' then BaseName(s[..|s| - 1])
    else LastSegment(s)
  }

  /** A trailing slash does not change the base name. */
  lemma BaseNameTrailingSlash(s: string)
    ensures BaseName(s + "/") == BaseName(s)
  {
    assert (s + "/")[..|s|] == s;
  }

  /** The last `.` of `s` after its first character, if any. */
  function LastDot(s: string): (r: Option<nat>)
    ensures r.Some? ==> 0 < r.value < |s| && s[r.value] == '.'
    ensures r.Some? ==> forall i | r.value < i < |s| :: s[i] != '.'
    ensures r.None? ==> forall i | 0 < i < |s| :: s[i] != '.'
    decreases |s|
  {
    if |s| <= 1 then None
    else if s[|s| - 1] == '.' then Some(|s| - 1)
    else LastDot(s[..|s| - 1])
  }

  /** The dot that starts the extension of a base name: its last dot after
      the first character, except in `..`, which has no extension. */
  function ExtDot(base: string): Option<nat> {
    if base == ".." then None else LastDot(base)
  }

  /** `path.parse(name).name`: the base name without its extension. */
  function PathName(s: string): (r: string)
    ensures '/' !in s && '.' !in s ==> r == s
    ensures BaseName(s) == ".." ==> r == ".."
  {
    var base := BaseName(s);
    match ExtDot(base)
    case None => base
    case Some(k) => base[..k]
  }

  /** `path.parse(name).ext`: the base name from its last dot on, empty
      when it has none. */
  function Extension(s: string): (r: string)
    ensures PathName(s) + r == BaseName(s)
    ensures r == "" || (r[0] == '.' && '.' !in r[1..])
    ensures BaseName(s) == ".." ==> r == ""
  {
    var base := BaseName(s);
    match ExtDot(base)
    case None => ""
    case Some(k) =>
      base[k..]
  }

  /** `.replace(/[^a-zA-Z0-9_\-]/g, "_")`. */
  function IdChars(s: string): (r: string)
    ensures |r| == |s|
    ensures forall i | 0 <= i < |s| :: r[i] == if IdChar(s[i]) then s[i] else '_'
  {
    seq(|s|, i requires 0 <= i < |s| => if IdChar(s[i]) then s[i] else '_')
  }

  /** `sanitizePublicId(originalName)`. */
  function SanitizePublicId(name: string): (r: string)
    ensures |r| == if |PathName(name)| <= PublicIdMax then |PathName(name)| else PublicIdMax
    ensures forall i | 0 <= i < |r| :: IdChar(r[i])
    ensures r == IdChars(PathName(name))[..|r|]
  {
    var replaced := IdChars(PathName(name));
    if |replaced| <= PublicIdMax then replaced else replaced[..PublicIdMax]
  }

  /** A sanitized id has neither `/` nor `.`, so sanitizing it again
      changes nothing. */
  lemma SanitizeIdempotent(name: string)
    ensures SanitizePublicId(SanitizePublicId(name)) == SanitizePublicId(name)
  {
    var r := SanitizePublicId(name);
    assert '/' !in r && '.' !in r;
    assert PathName(r) == r;
  }
}

=== FILE: workflow.dfy ===
/** The workflow configuration sheet and the step approvals of a request
    (src/controllers/doc-request-workflow.controller.js, whose
    `transformWorkflow` is repeated verbatim in
    src/controllers/doc-workflow-config.controller.js). A sheet is a list
    of rows of text cells as the spreadsheet service returns them: a row
    may stop early, and a cell beyond its end is absent. */
module Workflow {
  import opened Wrappers
  import opened Text
  import opened JsNumber
  import opened DocStatus
  import opened StatusGuard
  import opened DocRecord

  type Row = seq<string>

  const NoDataMsg := "Sheet has no data"

  function MissingColumnMsg(name: string): string {
    "Column \"" + name + "\" not found in header"
  }

  /** The required header columns, in the order they are looked up. */
  const RequiredColumns: seq<string> :=
    ["DocPurpose", "DocPurposeFileRequirement", "Steps", "Approval", "DepartmentId", "StepsFileRequirements"]

  /** `r[i]`: absent beyond the end of the row. */
  function Cell(r: Row, i: nat): Option<string> {
    if i < |r| then Some(r[i]) else None
  }

  /** `String(v || "")`. */
  function CellText(c: Option<string>): string {
    c.GetOr("")
  }

  /** The cell holds something other than white space. */
  predicate HasText(c: Option<string>) {
    Trim(CellText(c)) != ""
  }

  /** `header.indexOf(name)`. */
  function FindColumn(header: Row, name: string): (r: Option<nat>)
    ensures r.Some? ==> r.value < |header| && header[r.value] == name
    ensures r.Some? ==> forall j | 0 <= j < r.value :: header[j] != name
    ensures r.None? <==> name !in header
  {
    if |header| == 0 then None
    else if header[0] == name then Some(0)
    else match FindColumn(header[1..], name)
      case None => None
      case Some(j) => Some(j + 1)
  }

  /** The positions of the six required columns. */
  datatype Columns = Columns(purpose: nat, purposeReq: nat, step: nat, approval: nat, dept: nat, stepReq: nat)

  /** Each position holds its column's name in the header. */
  predicate Locates(header: Row, c: Columns) {
    && c.purpose < |header| && header[c.purpose] == RequiredColumns[0]
    && c.purposeReq < |header| && header[c.purposeReq] == RequiredColumns[1]
    && c.step < |header| && header[c.step] == RequiredColumns[2]
    && c.approval < |header| && header[c.approval] == RequiredColumns[3]
    && c.dept < |header| && header[c.dept] == RequiredColumns[4]
    && c.stepReq < |header| && header[c.stepReq] == RequiredColumns[5]
  }

  /** `colIndex` for each required column in turn: the first one missing
      is named in the error. */
  function ResolveColumns(header: Row): (r: Result<Columns>)
    ensures r.Ok? <==> forall k | 0 <= k < |RequiredColumns| :: RequiredColumns[k] in header
    ensures r.Err? ==> exists k | 0 <= k < |RequiredColumns| ::
      && RequiredColumns[k] !in header
      && (forall j | 0 <= j < k :: RequiredColumns[j] in header)
      && r.error == MissingColumnMsg(RequiredColumns[k])
    ensures r.Ok? ==> Locates(header, r.value)
  {
    var ix :- Indices(header, RequiredColumns);
    Ok(Columns(ix[0], ix[1], ix[2], ix[3], ix[4], ix[5]))
  }

  /** The lookups of the named columns, in order. */
  function Indices(header: Row, names: seq<string>): (r: Result<seq<nat>>)
    ensures r.Ok? <==> forall k | 0 <= k < |names| :: names[k] in header
    ensures r.Ok? ==> |r.value| == |names|
    ensures r.Ok? ==> forall k | 0 <= k < |names| :: r.value[k] < |header| && header[r.value[k]] == names[k]
    ensures r.Ok? ==> forall k, j | 0 <= k < |names| && 0 <= j < r.value[k] :: header[j] != names[k]
    ensures r.Err? ==> exists k | 0 <= k < |names| ::
      && names[k] !in header
      && (forall j | 0 <= j < k :: names[j] in header)
      && r.error == MissingColumnMsg(names[k])
  {
    if |names| == 0 then Ok([])
    else
      var i :- Column(header, names[0]);
      var rest :- Indices(header, names[1..]);
      assert forall k | 1 <= k < |names| :: names[1..][k - 1] == names[k];
      Ok([i] + rest)
  }

  /** One `colIndex`: the first position of the column's name. */
  function Column(header: Row, name: string): (r: Result<nat>)
    ensures r.Ok? <==> name in header
    ensures r.Ok? ==> r.value < |header| && header[r.value] == name
    ensures r.Ok? ==> forall j | 0 <= j < r.value :: header[j] != name
    ensures r.Err? ==> r.error == MissingColumnMsg(name)
  {
    match FindColumn(header, name)
    case None => Err(MissingColumnMsg(name))
    case Some(i) => Ok(i)
  }

  /** A validated step of the sheet. */
  datatype Step = Step(step: Num, approval: bool, departmentId: Num, fileRequirement: Option<string>)

  /** A group: one per document purpose. */
  datatype Group = Group(docPurpose: string, fileRequirement: Option<string>, steps: seq<Step>)

  /** The document purpose of a row, when it is truthy. */
  function PurposeOf(cols: Columns, r: Row): Option<string> {
    match Cell(r, cols.purpose)
    case Some(p) => if p != "" then Some(p) else None
    case None => None
  }

  /** The trimmed purpose-level file requirement of a row. */
  function RequirementOf(cols: Columns, r: Row): string {
    Trim(CellText(Cell(r, cols.purposeReq)))
  }

  /** `hasAnyStepData`. */
  predicate HasStepData(cols: Columns, r: Row) {
    || HasText(Cell(r, cols.step)) || HasText(Cell(r, cols.approval))
    || HasText(Cell(r, cols.dept)) || HasText(Cell(r, cols.stepReq))
  }

  /** A number cell is valid when it is truthy and `Number` of it is not
      `NaN`; white space alone reads as 0. */
  predicate ValidNumber(c: Option<string>) {
    c.Some? && c.value != "" && !ToNumber(c.value).NaN?
  }

  /** `validYesNo`. */
  predicate ValidYesNo(c: Option<string>) {
    Lower(Trim(CellText(c))) in ["yes", "no"]
  }

  /** The step a row contributes, if its data validate. */
  function StepOf(cols: Columns, r: Row): (s: Option<Step>)
    ensures !HasStepData(cols, r) ==> s.None?
    ensures s.Some? <==> HasStepData(cols, r) && ValidNumber(Cell(r, cols.step))
                         && ValidYesNo(Cell(r, cols.approval)) && ValidNumber(Cell(r, cols.dept))
    ensures s.Some? ==> !s.value.step.NaN? && !s.value.departmentId.NaN?
    ensures s.Some? ==> (s.value.approval <==> Lower(Trim(CellText(Cell(r, cols.approval)))) == "yes")
    ensures s.Some? ==> s.value.fileRequirement == Cell(r, cols.stepReq)
  {
    var stepRaw := Cell(r, cols.step);
    var approvalRaw := Cell(r, cols.approval);
    var deptRaw := Cell(r, cols.dept);
    if !HasStepData(cols, r) then None
    else if !ValidNumber(stepRaw) then None
    else if !ValidYesNo(approvalRaw) then None
    else if !ValidNumber(deptRaw) then None
    else Some(Step(ToNumber(stepRaw.value), Lower(Trim(CellText(approvalRaw))) == "yes",
                   ToNumber(deptRaw.value), Cell(r, cols.stepReq)))
  }

  function StepList(cols: Columns, r: Row): seq<Step> {
    match StepOf(cols, r)
    case Some(s) => [s]
    case None => []
  }

  // ------------------------------------------------ the grouping, as coded

  /** The first group with that purpose. */
  function FindGroup(gs: seq<Group>, p: string): (r: Option<nat>)
    ensures r.Some? ==> r.value < |gs| && gs[r.value].docPurpose == p
    ensures r.Some? ==> forall j | 0 <= j < r.value :: gs[j].docPurpose != p
    ensures r.None? ==> forall j | 0 <= j < |gs| :: gs[j].docPurpose != p
  {
    if |gs| == 0 then None
    else if gs[0].docPurpose == p then Some(0)
    else match FindGroup(gs[1..], p)
      case None => None
      case Some(j) => Some(j + 1)
  }

  /** The `forEach` body for one row: skip a row with no purpose; create
      its group when new; take its file requirement if the group has none
      yet; append its step if it validates. */
  function AddRow(cols: Columns, gs: seq<Group>, r: Row): seq<Group> {
    match PurposeOf(cols, r)
    case None => gs
    case Some(p) =>
      match FindGroup(gs, p)
      case Some(i) => Absorb(cols, gs, i, r)
      case None => Absorb(cols, gs + [Group(p, None, [])], |gs|, r)
  }

  /** The row's requirement and step added to group `i`. */
  function Absorb(cols: Columns, gs: seq<Group>, i: nat, r: Row): seq<Group>
    requires i < |gs|
  {
    gs[i := Extend(cols, gs[i], r)]
  }

  /** A group after one more of its rows. */
  function Extend(cols: Columns, g: Group, r: Row): Group {
    var req := RequirementOf(cols, r);
    var fileReq := if req != "" && g.fileRequirement.None? then Some(req) else g.fileRequirement;
    Group(g.docPurpose, fileReq, g.steps + StepList(cols, r))
  }

  /** The groups after the given data rows, in order of creation. */
  function Build(cols: Columns, data: seq<Row>): seq<Group> {
    if |data| == 0 then [] else AddRow(cols, Build(cols, data[..|data| - 1]), data[|data| - 1])
  }

  /** `transformWorkflow(rows)`. The groups come out in the order their
      purposes first appear. */
  function TransformWorkflow(rows: seq<Row>): (r: Result<seq<Group>>)
    ensures |rows| < 2 ==> r == Err(NoDataMsg)
    ensures |rows| >= 2 ==> (r.Ok? <==> ResolveColumns(rows[0]).Ok?)
    ensures |rows| >= 2 && ResolveColumns(rows[0]).Err? ==> r == Err(ResolveColumns(rows[0]).error)
  {
    if |rows| < 2 then Err(NoDataMsg)
    else
      var cols :- ResolveColumns(rows[0]);
      Ok(Build(cols, rows[1..]))
  }

  // ------------------------------------------- the grouping, by purpose

  /** The purposes of the data rows, each once, in order of first
      appearance. */
  function Purposes(cols: Columns, data: seq<Row>): (ps: seq<string>)
    ensures forall p :: p in ps <==> exists i | 0 <= i < |data| :: PurposeOf(cols, data[i]) == Some(p)
    ensures forall i, j | 0 <= i < j < |ps| :: ps[i] != ps[j]
  {
    if |data| == 0 then []
    else
      var init := data[..|data| - 1];
      var ps := Purposes(cols, init);
      assert forall i | 0 <= i < |init| :: init[i] == data[i];
      match PurposeOf(cols, data[|data| - 1])
      case Some(p) => if p in ps then ps else ps + [p]
      case None => ps
  }

  /** A row of purpose `p` with a non-blank requirement. */
  predicate States(cols: Columns, row: Row, p: string) {
    PurposeOf(cols, row) == Some(p) && RequirementOf(cols, row) != ""
  }

  /** The first non-blank trimmed requirement among the rows of a purpose. */
  function FirstRequirement(cols: Columns, data: seq<Row>, p: string): Option<string> {
    if |data| == 0 then None
    else
      var f := FirstRequirement(cols, data[..|data| - 1], p);
      var last := data[|data| - 1];
      if f.Some? then f
      else if States(cols, last, p) then Some(RequirementOf(cols, last))
      else None
  }

  /** Row `i` is the first row of purpose `p` with a non-blank requirement. */
  predicate FirstStatesAt(cols: Columns, data: seq<Row>, p: string, i: nat) {
    i < |data| && States(cols, data[i], p) && forall j | 0 <= j < i :: !States(cols, data[j], p)
  }

  /** There is no requirement exactly when no row of the purpose has a
      non-blank one. */
  lemma {:induction false} FirstRequirementNone(cols: Columns, data: seq<Row>, p: string)
    ensures FirstRequirement(cols, data, p).None? <==> forall i | 0 <= i < |data| :: !States(cols, data[i], p)
  {
    if |data| > 0 {
      var init := data[..|data| - 1];
      assert forall i | 0 <= i < |init| :: init[i] == data[i];
      FirstRequirementNone(cols, init, p);
    }
  }

  /** The requirement found is that of the first row of the purpose with
      a non-blank one. */
  lemma {:induction false} FirstRequirementFound(cols: Columns, data: seq<Row>, p: string)
    ensures var r := FirstRequirement(cols, data, p);
      r.Some? ==> exists i: nat :: FirstStatesAt(cols, data, p, i) && RequirementOf(cols, data[i]) == r.value
  {
    if |data| > 0 {
      var init := data[..|data| - 1];
      var last := data[|data| - 1];
      var f := FirstRequirement(cols, init, p);
      if f.Some? {
        FirstRequirementFound(cols, init, p);
        var i: nat :| FirstStatesAt(cols, init, p, i) && RequirementOf(cols, init[i]) == f.value;
        FirstStatesKept(cols, data, p, i);
      } else if States(cols, last, p) {
        FirstRequirementNone(cols, init, p);
        FirstStatesLast(cols, data, init, p);
      }
    }
  }

  lemma FirstStatesKept(cols: Columns, data: seq<Row>, p: string, i: nat)
    requires |data| > 0 && FirstStatesAt(cols, data[..|data| - 1], p, i)
    ensures FirstStatesAt(cols, data, p, i) && data[i] == data[..|data| - 1][i]
  {
    assert forall j | 0 <= j <= i :: data[j] == data[..|data| - 1][j];
  }

  lemma FirstStatesLast(cols: Columns, data: seq<Row>, init: seq<Row>, p: string)
    requires |data| > 0 && init == data[..|data| - 1] && States(cols, data[|data| - 1], p)
    requires forall j | 0 <= j < |init| :: !States(cols, init[j], p)
    ensures FirstStatesAt(cols, data, p, |data| - 1)
  {
    assert forall j | 0 <= j < |init| :: data[j] == init[j];
  }

  /** The valid steps of the rows of a purpose, in row order. */
  function StepsOf(cols: Columns, data: seq<Row>, p: string): seq<Step> {
    if |data| == 0 then []
    else
      var last := data[|data| - 1];
      StepsOf(cols, data[..|data| - 1], p) + (if PurposeOf(cols, last) == Some(p) then StepList(cols, last) else [])
  }

  /** The group of a purpose as the rows define it. */
  function GroupOf(cols: Columns, data: seq<Row>, p: string): Group {
    Group(p, FirstRequirement(cols, data, p), StepsOf(cols, data, p))
  }

  predicate Grouped(cols: Columns, data: seq<Row>, gs: seq<Group>) {
    var ps := Purposes(cols, data);
    |gs| == |ps| && forall i | 0 <= i < |gs| :: gs[i] == GroupOf(cols, data, ps[i])
  }

  /** A purpose no row has contributes nothing. */
  lemma {:induction false} AbsentPurpose(cols: Columns, data: seq<Row>, p: string)
    requires p !in Purposes(cols, data)
    ensures StepsOf(cols, data, p) == [] && FirstRequirement(cols, data, p) == None
  {
    if |data| > 0 {
      var init := data[..|data| - 1];
      assert forall i | 0 <= i < |init| :: init[i] == data[i];
      AbsentPurpose(cols, init, p);
    }
  }

  /** The group list names the purposes in order. */
  lemma GroupedNames(cols: Columns, data: seq<Row>, gs: seq<Group>)
    requires Grouped(cols, data, gs)
    ensures forall i | 0 <= i < |gs| :: gs[i].docPurpose == Purposes(cols, data)[i]
  {
    var ps := Purposes(cols, data);
    forall i | 0 <= i < |gs| ensures gs[i].docPurpose == ps[i] {
      assert gs[i] == GroupOf(cols, data, ps[i]);
    }
  }

  /** The group of a purpose after one more row. */
  lemma GroupOfStep(cols: Columns, data: seq<Row>, q: string)
    requires |data| > 0
    ensures PurposeOf(cols, data[|data| - 1]) == Some(q) ==>
      GroupOf(cols, data, q) == Extend(cols, GroupOf(cols, data[..|data| - 1], q), data[|data| - 1])
    ensures PurposeOf(cols, data[|data| - 1]) != Some(q) ==>
      GroupOf(cols, data, q) == GroupOf(cols, data[..|data| - 1], q)
  {
  }

  /** In a list of groups named by distinct purposes, a purpose is found
      at its own position. */
  lemma FindNamedGroup(gs: seq<Group>, ps: seq<string>, k: nat)
    requires |gs| == |ps| && k < |ps|
    requires forall i | 0 <= i < |gs| :: gs[i].docPurpose == ps[i]
    requires forall i, j | 0 <= i < j < |ps| :: ps[i] != ps[j]
    ensures FindGroup(gs, ps[k]) == Some(k)
  {
    assert gs[k].docPurpose == ps[k];
  }

  /** A row without a purpose changes no group. */
  lemma AddRowWithoutPurpose(cols: Columns, data: seq<Row>, gs: seq<Group>)
    requires |data| > 0 && PurposeOf(cols, data[|data| - 1]).None?
    requires Grouped(cols, data[..|data| - 1], gs)
    ensures Grouped(cols, data, AddRow(cols, gs, data[|data| - 1]))
  {
    var init := data[..|data| - 1];
    var ps := Purposes(cols, data);
    assert ps == Purposes(cols, init);
    forall i | 0 <= i < |gs| ensures gs[i] == GroupOf(cols, data, ps[i]) {
      GroupOfStep(cols, data, ps[i]);
    }
  }

  /** A row of a known purpose extends that purpose's group only. */
  lemma AddRowKnownPurpose(cols: Columns, data: seq<Row>, gs: seq<Group>, p: string)
    requires |data| > 0 && PurposeOf(cols, data[|data| - 1]) == Some(p)
    requires p in Purposes(cols, data[..|data| - 1])
    requires Grouped(cols, data[..|data| - 1], gs)
    ensures Grouped(cols, data, AddRow(cols, gs, data[|data| - 1]))
  {
    var init := data[..|data| - 1];
    var last := data[|data| - 1];
    var ps := Purposes(cols, init);
    assert Purposes(cols, data) == ps;
    var k :| 0 <= k < |ps| && ps[k] == p;
    var out := Absorb(cols, gs, k, last);
    assert AddRow(cols, gs, last) == out by {
      GroupedNames(cols, init, gs);
      FindNamedGroup(gs, ps, k);
    }
    forall i | 0 <= i < |out| ensures out[i] == GroupOf(cols, data, ps[i]) {
      KnownPurposeGroupAt(cols, data, gs, k, i);
    }
  }

  /** Each group after a row of a known purpose: that purpose's group
      extended by the row, the others as they were. */
  lemma KnownPurposeGroupAt(cols: Columns, data: seq<Row>, gs: seq<Group>, k: nat, i: nat)
    requires |data| > 0 && Grouped(cols, data[..|data| - 1], gs)
    requires k < |gs| && i < |gs|
    requires PurposeOf(cols, data[|data| - 1]) == Some(Purposes(cols, data[..|data| - 1])[k])
    ensures Absorb(cols, gs, k, data[|data| - 1])[i] == GroupOf(cols, data, Purposes(cols, data[..|data| - 1])[i])
  {
    var ps := Purposes(cols, data[..|data| - 1]);
    GroupOfStep(cols, data, ps[i]);
    assert gs[i] == GroupOf(cols, data[..|data| - 1], ps[i]);
    if i != k {
      assert ps[i] != ps[k];
    }
  }

  /** A row of a new purpose opens a group for it at the end. */
  lemma AddRowNewPurpose(cols: Columns, data: seq<Row>, gs: seq<Group>, p: string)
    requires |data| > 0 && PurposeOf(cols, data[|data| - 1]) == Some(p)
    requires p !in Purposes(cols, data[..|data| - 1])
    requires Grouped(cols, data[..|data| - 1], gs)
    ensures Grouped(cols, data, AddRow(cols, gs, data[|data| - 1]))
  {
    var init := data[..|data| - 1];
    var last := data[|data| - 1];
    var ps0 := Purposes(cols, init);
    var ps := Purposes(cols, data);
    assert ps == ps0 + [p];
    var out := Absorb(cols, gs + [Group(p, None, [])], |gs|, last);
    assert AddRow(cols, gs, last) == out by {
      GroupedNames(cols, init, gs);
      assert FindGroup(gs, p).None?;
    }
    forall i | 0 <= i < |out| ensures out[i] == GroupOf(cols, data, ps[i]) {
      NewPurposeGroupAt(cols, data, gs, p, i);
    }
  }

  /** Each group after a row of a new purpose: the earlier groups as they
      were, and the new one holding that row alone. */
  lemma NewPurposeGroupAt(cols: Columns, data: seq<Row>, gs: seq<Group>, p: string, i: nat)
    requires |data| > 0 && PurposeOf(cols, data[|data| - 1]) == Some(p)
    requires p !in Purposes(cols, data[..|data| - 1])
    requires Grouped(cols, data[..|data| - 1], gs)
    requires i <= |gs|
    ensures Absorb(cols, gs + [Group(p, None, [])], |gs|, data[|data| - 1])[i]
            == GroupOf(cols, data, (Purposes(cols, data[..|data| - 1]) + [p])[i])
  {
    var init := data[..|data| - 1];
    var ps0 := Purposes(cols, init);
    GroupOfStep(cols, data, (ps0 + [p])[i]);
    if i == |gs| {
      AbsentPurpose(cols, init, p);
      assert GroupOf(cols, init, p) == Group(p, None, []);
    } else {
      assert (ps0 + [p])[i] == ps0[i] && ps0[i] != p;
    }
  }

  /** One more row keeps the groups in step with the purposes. */
  lemma AddRowGrouped(cols: Columns, data: seq<Row>, gs: seq<Group>)
    requires |data| > 0
    requires Grouped(cols, data[..|data| - 1], gs)
    ensures Grouped(cols, data, AddRow(cols, gs, data[|data| - 1]))
  {
    match PurposeOf(cols, data[|data| - 1]) {
      case None => AddRowWithoutPurpose(cols, data, gs);
      case Some(p) =>
        if p in Purposes(cols, data[..|data| - 1]) {
          AddRowKnownPurpose(cols, data, gs, p);
        } else {
          AddRowNewPurpose(cols, data, gs, p);
        }
    }
  }

  /** The groups built row by row are exactly one group per purpose, in
      order of first appearance, holding the purpose's first file
      requirement and all its valid steps in row order. */
  lemma {:induction false} BuildGroups(cols: Columns, data: seq<Row>)
    ensures Grouped(cols, data, Build(cols, data))
  {
    if |data| > 0 {
      BuildGroups(cols, data[..|data| - 1]);
      AddRowGrouped(cols, data, Build(cols, data[..|data| - 1]));
    }
  }

  /** So a sheet with a header yields exactly one group for each purpose
      named in a data row, even one without a valid step. */
  lemma TransformGroups(rows: seq<Row>)
    requires |rows| >= 2 && ResolveColumns(rows[0]).Ok?
    ensures var cols := ResolveColumns(rows[0]).value;
            Grouped(cols, rows[1..], TransformWorkflow(rows).value)
  {
    BuildGroups(ResolveColumns(rows[0]).value, rows[1..]);
  }

  // ------------------------------------------------ approving a step

  /** A step as stored on a request: the sheet's fields, whether it was
      approved, and the file attached to it. */
  datatype StoredStep = StoredStep(step: Num, approval: bool, departmentId: Num, fileRequirement: Option<string>,
                                   isApproved: bool, attachment: Option<JsonObject>)

  const StepNaNMsg := "Step should be a number"
  const RequestNotFoundMsg := "Document request not found"

  /** `a === b` on numbers: `NaN` equals nothing. */
  predicate JsEq(a: Num, b: Num) {
    !a.NaN? && a == b
  }

  /** `a <= b` on numbers other than `NaN`. */
  predicate NumLe(a: Num, b: Num) {
    a == NegInf || b == PosInf || (a.Finite? && b.Finite? && a.v <= b.v)
  }

  /** `Math.max(a, b)`. */
  function JsMax(a: Num, b: Num): Num {
    if a.NaN? || b.NaN? then NaN else if NumLe(a, b) then b else a
  }

  /** `Math.max(...steps.map(s => Number(s.step)))`: minus infinity for no
      steps, `NaN` when any step number is `NaN`. */
  function MaxStep(steps: seq<StoredStep>): Num {
    if |steps| == 0 then NegInf else JsMax(steps[0].step, MaxStep(steps[1..]))
  }

  /** Without `NaN` steps the maximum is one of the step numbers (or minus
      infinity for none) and no step number exceeds it; with one it is
      `NaN`. */
  lemma {:induction false} MaxStepIsMaximum(steps: seq<StoredStep>)
    ensures (exists i | 0 <= i < |steps| :: steps[i].step.NaN?) <==> MaxStep(steps).NaN?
    ensures !MaxStep(steps).NaN? ==> forall i | 0 <= i < |steps| :: NumLe(steps[i].step, MaxStep(steps))
    ensures !MaxStep(steps).NaN? && |steps| > 0 ==> exists i | 0 <= i < |steps| :: steps[i].step == MaxStep(steps)
    ensures |steps| == 0 ==> MaxStep(steps) == NegInf
  {
    if |steps| > 0 {
      var rest := steps[1..];
      MaxStepIsMaximum(rest);
      assert forall i | 1 <= i < |steps| :: steps[i] == rest[i - 1];
      var m := MaxStep(steps);
      if !m.NaN? {
        if |rest| > 0 {
          var j :| 0 <= j < |rest| && rest[j].step == MaxStep(rest);
          assert steps[j + 1].step == MaxStep(rest);
        }
      }
    }
  }

  /** So the requested step is the last one exactly when it is one of the
      request's step numbers and none is greater. */
  lemma IsLastStep(steps: seq<StoredStep>, step: Num)
    requires forall i | 0 <= i < |steps| :: !steps[i].step.NaN?
    ensures JsEq(step, MaxStep(steps)) <==>
      && !step.NaN?
      && ((exists i | 0 <= i < |steps| :: steps[i].step == step) || (|steps| == 0 && step == NegInf))
      && (forall i | 0 <= i < |steps| :: NumLe(steps[i].step, step))
  {
    MaxStepIsMaximum(steps);
    if !step.NaN? && (exists i | 0 <= i < |steps| :: steps[i].step == step)
       && (forall i | 0 <= i < |steps| :: NumLe(steps[i].step, step)) {
      var i :| 0 <= i < |steps| && steps[i].step == step;
      var j :| 0 <= j < |steps| && steps[j].step == MaxStep(steps);
      NumLeAntisymmetric(steps[j].step, step);
    }
  }

  lemma NumLeAntisymmetric(a: Num, b: Num)
    requires !a.NaN? && !b.NaN? && NumLe(a, b) && NumLe(b, a)
    ensures a == b
  {
  }

  /** `isApproved = true` on every step numbered like the requested one. */
  function MarkApproved(steps: seq<StoredStep>, step: Num): (r: seq<StoredStep>)
    ensures |r| == |steps|
    ensures forall i | 0 <= i < |r| :: r[i].isApproved == (steps[i].isApproved || JsEq(steps[i].step, step))
    ensures forall i | 0 <= i < |r| :: r[i] == steps[i].(isApproved := r[i].isApproved)
  {
    seq(|steps|, i requires 0 <= i < |steps| =>
      if JsEq(steps[i].step, step) then steps[i].(isApproved := true) else steps[i])
  }

  /** `approveStep`: the request (`None` when it does not exist) moves to
      `APPROVED` when the approved step is the last one, and the matching
      steps are marked approved. The step number is `Number(step)` of the
      body. */
  function ApproveStep(request: Option<(Status, seq<StoredStep>)>, step: Num): (r: Result<(Status, seq<StoredStep>)>)
    ensures step.NaN? ==> r == Err(StepNaNMsg)
    ensures !step.NaN? && request.None? ==> r == Err(RequestNotFoundMsg)
    ensures r.Ok? ==> request.Some? && request.value.0 in {Pending, Approved}
    ensures !step.NaN? && request.Some? && request.value.0 !in {Pending, Approved} ==>
      r == Err(AlreadyMsg(request.value.0))
    ensures r.Ok? ==> (r.value.0 == if JsEq(step, MaxStep(request.value.1)) then Approved else request.value.0)
    ensures r.Ok? ==> r.value.1 == MarkApproved(request.value.1, step)
  {
    if step.NaN? then Err(StepNaNMsg)
    else match request
      case None => Err(RequestNotFoundMsg)
      case Some((status, steps)) =>
        var isLast := JsEq(step, MaxStep(steps));
        if status in {Cancelled, Rejected, Closed, Processing, Completed} then Err(AlreadyMsg(status))
        else
          assert status == Pending || status == Approved;
          Ok((if isLast then Approved else status, MarkApproved(steps, step)))
  }

  /** After a step approval the request is pending or approved, so the
      department-wide notification of the handler is never sent: only the
      requester is told. */
  lemma ApprovalNeverNotifiesDepartment(request: Option<(Status, seq<StoredStep>)>, step: Num)
    requires ApproveStep(request, step).Ok?
    ensures ApproveStep(request, step).value.0 in {Pending, Approved}
    ensures ApproveStep(request, step).value.0 !in {Cancelled, Closed}
  {
  }

  /** `upload` of a step file: the file is attached to every step numbered
      like the requested one; the others keep theirs. */
  function AttachStepFile(steps: seq<StoredStep>, step: Num, file: JsonObject): (r: Result<seq<StoredStep>>)
    ensures step.NaN? <==> r.Err?
    ensures r.Ok? ==> |r.value| == |steps|
    ensures r.Ok? ==> forall i | 0 <= i < |steps| ::
      r.value[i] == if steps[i].step == step then steps[i].(attachment := Some(file)) else steps[i]
  {
    if step.NaN? then Err(StepNaNMsg)
    else Ok(seq(|steps|, i requires 0 <= i < |steps| =>
      if JsEq(steps[i].step, step) then steps[i].(attachment := Some(file)) else steps[i]))
  }
}

=== FILE: wrappers.dfy ===
/** Failure-carrying values shared by every module of the model.
    A JavaScript `throw new Error(msg)` is modelled as `Err(msg)`;
    `null`/`undefined` results are modelled as `None`. */
module Wrappers {

  datatype Option<+T> = None | Some(value: T) {
    function GetOr(default: T): T {
      match this
      case Some(v) => v
      case None => default
    }
  }

  datatype Result<+T> = Ok(value: T) | Err(error: string) {
    predicate IsFailure() {
      Err?
    }

    function PropagateFailure<U>(): Result<U>
      requires Err?
    {
      Err(error)
    }

    function Extract(): T
      requires Ok?
    {
      value
    }
  }
}
